=== FILE: README.md ===
# scrapius — a verified model of the harvest engine and the bot around it

scrapius collects new posts from Facebook groups with a headless browser,
stores each group's posts in its own table, and tells a Telegram chat about
the relevant ones. The project below models the decision logic of that
system in Dafny and proves what it promises:

- **Fingerprint** — a post's text is normalised by splitting on
  whitespace and joining with single spaces, then hashed. The model proves
  the normal form canonical, idempotent and insensitive to whitespace
  layout.
- **Permalink** — a link's `href` is parsed as Python 3.12's `urlparse`
  splits it, including the bracketed-host checks (the Unicode netloc check
  is left out). The permalink URL and post ID are read from a
  `/posts/` link, from the query (`story_fbid`, `fbid`, `id`) or from a
  long digit run. Otherwise the structural-substance test decides whether
  the element is a post, and a `generated_` ID is made up for it.
- **Extract** — the fallback chain that assembles a post's text (ending in
  `N/A`), the author picture and image URL, and the verdict on whether a
  parsed record is kept at all.
- **Retry** — the counted retry loop `safe_element_operation`.
- **Harvest** — `scrape_authenticated_group` over an abstract feed:
  - the chronological-sort URL and the session check;
  - the scroll loop (at most 50 scrolls, stopping after 3 scrolls without
    growth);
  - submission, with URL and ID de-duplication;
  - the draining of worker results against the stored cursor hash and the
    `num_posts` cap;
  - the reversed yield.
- **Storage** — the per-group database as a class: the `Groups` rows and
  one row sequence per posts table, with autoincrement ids. It covers
  get-or-create, insert-if-absent, the most recent hash and post ID,
  rename, drop and list. A cross-run lemma shows that persisting a
  harvest advances the cursor.
- **Notifier** — text truncation, command extraction, HTML escaping and the
  notification message.
- **Cookies** — `_sanitize_cookie`.
- **Config** — comma lists, keywords, integer settings with fallbacks, the
  working-hours settings and rule, and the "next working time" text.
- **Validators** — the argument checks of `/sethours`, `/settiming`,
  `/setlimit`, `/setposts` and `/addgroup`, each modelled by the settings
  it writes.
- **Login** — the command handlers' login state:
  - the `login_states` and `login_drivers` maps and the pause flag;
  - command routing;
  - the login callbacks;
  - cookie import from JSON or Netscape text;
  - `/done` and `/cancel`.
- **Manager** — the per-post save-and-notify decision, the batch save loop,
  the notification text (cleaned content, group name, group chats) and the
  browser lifecycle flags.
- **Bot** — start-up, the queue of scheduled scrape times, the decision to
  run a scrape cycle, and the poll offset over incoming updates.

External services are inputs or parameters:
- MD5 is a function parameter.
- `uuid`, `urllib.parse.unquote` and `json.loads` enter as supplied values.
- Browser outcomes come in as data: page snapshots, captured markup and
  the selector hits.
- The clock, the weekday and hour, and the random jitter draws are
  parameters.

Time in the bot is a real number of minutes.

## Model

| member | source | states |
|---|---|---|
| Fingerprint.NormalizeCanonical | scraper/facebook_scraper_headless.py:577-580 | the normalised text is canonical: non-space words separated by single spaces |
| Fingerprint.NormalizeFixedPoint | scraper/facebook_scraper_headless.py:577-580 | a text is its own normal form exactly when it is canonical |
| Fingerprint.NormalizeIdempotent | scraper/facebook_scraper_headless.py:577-580 | normalising twice equals normalising once |
| Fingerprint.NormalizeWords | scraper/facebook_scraper_headless.py:577-580 | normalising keeps the sequence of words |
| Fingerprint.NormalizeShape | scraper/facebook_scraper_headless.py:577-580 | the normal form has no leading, trailing or doubled whitespace, and every whitespace in it is a single ' ' |
| Fingerprint.NormalizeWhitespaceRun | scraper/facebook_scraper_headless.py:577-580 | any run of whitespace normalises like one space |
| Fingerprint.NormalizeOuterSpace | scraper/facebook_scraper_headless.py:577-580 | leading and trailing whitespace do not change the normal form |
| Fingerprint.NormalizeEqualIff | scraper/facebook_scraper_headless.py:577-581 | two texts have equal normal forms iff they have the same words; with an injective hash the same holds for their fingerprints |
| Permalink.UrlSplit | scraper/facebook_scraper_headless.py:432 | splitting raises iff the brackets in the netloc are unpaired or a bracketed host is not an IPv6 or IPvFuture literal; the scheme and netloc are the cleaned URL's, and the path holds no `?` or `#` |
| Permalink.UrlParse | scraper/facebook_scraper_headless.py:432 | parsing fails exactly when splitting fails; scheme, netloc and query are those of the split, and the netloc passed the bracket checks |
| Permalink.UrlParseRoundTrip | scraper/facebook_scraper_headless.py:432 | a URL built from a scheme, host, path and query parses back into those four parts |
| Permalink.QueryId | scraper/facebook_scraper_headless.py:448-453 | the ID is the first non-blank of `story_fbid`, `fbid`, `id` in that priority, and there is none iff none of the three is non-blank |
| Permalink.FirstValue | scraper/facebook_scraper_headless.py:448-453 | the value found belongs to a pair with that name; none is found iff no pair has the name |
| Permalink.PostsSegmentId | scraper/facebook_scraper_headless.py:439-446 | the ID is the segment right after the first `posts` segment, when it is a digit string or an ID token; none when there is no such segment or it is neither |
| Permalink.LongDigitRun | scraper/facebook_scraper_headless.py:455-458 | the ID is all the digits after the leftmost `/` followed by at least 10 digits; none iff there is no such `/` |
| Permalink.FromHref | scraper/facebook_scraper_headless.py:427-458 | fails iff `urlparse` raises; a URL is found iff the host has `facebook.com` and the path `/posts/`, and is scheme://netloc+path; the ID is the posts segment, else the `story_fbid`/`fbid`/`id` query value, else (for any facebook.com host) the long digit run; no ID off facebook.com |
| Permalink.GeneratedId | scraper/facebook_scraper_headless.py:483-489 | a generated ID starts with `generated_` and is at most 22 characters |
| Permalink.Identify | scraper/facebook_scraper_headless.py:416-500 | a candidate always has a non-empty ID; a found URL makes a candidate; a stale element or an unparsable link is no candidate; without a URL the verdict is exactly the substance test |
| Permalink.GroupPermalink | scraper/facebook_scraper_headless.py:427-446 | a `facebook.com/groups/<g>/posts/<p>` link with a query yields the query-free URL and ID `<p>` |
| Permalink.PostsSegmentLink | scraper/facebook_scraper_headless.py:433-446 | a parsed facebook.com `/posts/` link with a posts-segment ID yields scheme://netloc+path and that ID |
| Permalink.CandidateLink | scraper/facebook_scraper_headless.py:427-458 | a link that yields a URL and an ID makes the element a candidate with both |
| Extract.AuthorPicUrl | scraper/facebook_scraper_headless.py:530-537 | the picture URL is the `xlink:href` of an `image` or the `src` of an `img`, and one is found whenever such an attribute exists |
| Extract.KeptPartsMembers | scraper/facebook_scraper_headless.py:552-560 | a child's text is kept iff it is non-empty and the child holds no `role=button` control |
| Extract.KeptPartsAll | scraper/facebook_scraper_headless.py:552-560 | when no child holds a button, every child's text is kept in order |
| Extract.ContentText | scraper/facebook_scraper_headless.py:518-573 | the content text is never empty: it is `N/A` or non-blank text from the container or the generic div, and `N/A` when extraction raises |
| Extract.ContainerTextWins | scraper/facebook_scraper_headless.py:552-565 | non-blank container text is the content text |
| Extract.GenericTextFallback | scraper/facebook_scraper_headless.py:565-573 | without container text the generic div's non-blank text is used, else `N/A` |
| Extract.BackgroundImageUrl | scraper/facebook_scraper_headless.py:582-592 | a URL read from a `background-image` style holds no quote or closing parenthesis |
| Extract.ImageUrl | scraper/facebook_scraper_headless.py:582-592 | the image URL is an `img`'s `src` or a `div`'s background image, and only those |
| Extract.BackgroundImageQuoted | scraper/facebook_scraper_headless.py:582-592 | `background-image: url("u")` yields exactly `u` |
| Extract.ExtractPost | scraper/facebook_scraper_headless.py:502-726 | a record is returned iff (URL or ID) and (text other than `N/A`, or an author); it carries the inputs' URL and ID, `posted_at` None and the hash of its text; picture and image appear only when requested |
| Extract.FingerprintIgnoresLayout | scraper/facebook_scraper_headless.py:577-580 | two records whose texts have the same words have the same hash |
| Retry.SafeElementOperation | scraper/facebook_scraper_headless.py:155-179 | the first successful attempt's value is returned; if every attempt raises, the last error is re-raised, after waits of 1, 2, … half-seconds between attempts; no attempt is made when `max_retries` ≤ 0 |
| Harvest.Drain | scraper/facebook_scraper_headless.py:999-1048 | draining collects at most `num_posts` records, and stops early only when full or at the cursor |
| Harvest.DrainStable | scraper/facebook_scraper_headless.py:1006-1013 | once draining has stopped, later results change nothing |
| Harvest.DrainStopsAtCursor | scraper/facebook_scraper_headless.py:1008-1013 | the result carrying the cursor hash and everything after it are not collected |
| Harvest.DrainAvoidsCursor | scraper/facebook_scraper_headless.py:1008-1017 | no collected record has the cursor hash |
| Harvest.DrainFrom | scraper/facebook_scraper_headless.py:1000-1017 | every collected record is one of the drained results |
| Harvest.DrainWithoutCursor | scraper/facebook_scraper_headless.py:1000-1048 | without a cursor the collected list is the first `num_posts` present results |
| Harvest.DrainStoppedFull | scraper/facebook_scraper_headless.py:1030-1036 | without a cursor, draining stops iff the cap is reached |
| Harvest.DrainApart | scraper/facebook_scraper_headless.py:960-962 | results with pairwise distinct keys give collected records with distinct keys |
| Harvest.Remove | scraper/facebook_scraper_headless.py:1001 | removing a future keeps exactly the others, in order |
| Harvest.DoneList | scraper/facebook_scraper_headless.py:999 | the completed futures are exactly the active ones that are done, in order |
| Harvest.Worker | scraper/facebook_scraper_headless.py:992-997 | an element's result is the extraction of its captured markup with the identifiers the element gave; an element without markup yields nothing |
| Harvest.PicksFacts | scraper/facebook_scraper_headless.py:945-997 | the submit loop submits at most `num_posts` elements, in page order, each a candidate whose markup was read; it raises only when some fresh candidate's markup could not be read |
| Harvest.SubmitScroll | scraper/facebook_scraper_headless.py:945-997 | one scroll submits exactly the positions `Picks` selects, as fresh futures at the end of `active_futures`, adding their URLs and IDs to the processed sets; it fails iff reading a fresh candidate's markup raised; nothing is collected |
| Harvest.Submit | scraper/facebook_scraper_headless.py:957-997 | submitting a fresh candidate adds one future and keeps the URL and ID bookkeeping |
| Harvest.Take | scraper/facebook_scraper_headless.py:1000-1017 | taking a finished future records its result and keeps the run invariant |
| Harvest.DrainDone | scraper/facebook_scraper_headless.py:999-1032 | the collection pass makes of the taken results what the rule makes of the earlier ones followed by the done futures in `active_futures` order (ending at a cursor hit); until collection stops, exactly the done futures are taken and leave `active_futures` |
| Harvest.FinalDrain | scraper/facebook_scraper_headless.py:1035-1051 | the final wait takes the waited-for futures in finishing order and ends at a cursor hit or once collection has stopped; it times out exactly when a waited-for future never finishes and the wait did not end early; a wait that stops on the cursor does not time out |
| Harvest.FinalTakes | scraper/facebook_scraper_headless.py:1036 | `as_completed` yields each waited-for future that finishes, once, and no other |
| Harvest.FinalTakesPrefix | scraper/facebook_scraper_headless.py:1036 | what is yielded for a prefix of the finishing order is a prefix of what is yielded for all of it |
| Harvest.PendingFacts | scraper/facebook_scraper_headless.py:995-1001 | the futures still active are the submissions not yet taken, in submission order |
| Harvest.PendingExtend | scraper/facebook_scraper_headless.py:995-996 | new submissions join `active_futures` at the end |
| Harvest.DrainCongruent | scraper/facebook_scraper_headless.py:999-1048 | two result sequences the rule treats alike stay alike after the same further results |
| Harvest.StoppedQuits | scraper/facebook_scraper_headless.py:1036 | a wait that reaches a point where collection has stopped ends early |
| Harvest.NoQuitNoCursor | scraper/facebook_scraper_headless.py:1041-1045 | a wait that starts before collection stopped and does not end early has not stopped on the cursor |
| Harvest.QuitsEarlyCongruent | scraper/facebook_scraper_headless.py:1036-1045 | whether the wait ends early depends only on what the rule made of the results before it |
| Harvest.WalkFacts | scraper/facebook_scraper_headless.py:945-997 | the scroll passes submit as many futures as their batch sizes add up to, each batch at most `num_posts` |
| Harvest.ScrollOrderNext | scraper/facebook_scraper_headless.py:999-1017 | a scroll pass takes, after the earlier passes' order, the pending futures that are done, in submission order |
| Harvest.Scroll | scraper/facebook_scraper_headless.py:945-1029 | one pass submits what `Picks` selects, fails iff reading markup raised, and otherwise leaves the run settled on the old order followed by the done pending futures |
| Harvest.ScrollPass | scraper/facebook_scraper_headless.py:945-1029 | a pass that does not fail extends the batch sizes by one and keeps the run equal to the walk and settled on the scroll order |
| Harvest.Outcome | scraper/facebook_scraper_headless.py:1053-1056 | a valid run holds at most `num_posts` records, none with the cursor hash, with distinct keys, each produced by a candidate element of the feed |
| Harvest.ScrollLoop | scraper/facebook_scraper_headless.py:856-1032 | the run submitted exactly what the walk over the feed selects and took its results in scroll order; at most 50 scrolls; no scroll before the last stalled 3 times in a row; without an exception the loop ended on the scroll limit, a stall or collection stopping; a failure means the next pass raised |
| Harvest.StallCheck | scraper/facebook_scraper_headless.py:931-941 | the no-growth counter and the last element count follow the feed, and the loop stops iff 3 scrolls in a row did not grow |
| Harvest.ScrapeLoop | scraper/facebook_scraper_headless.py:839-1069 | the harvest yields the collected list reversed, or nothing when reading markup raised or the final wait timed out; the collected list is what the rule makes of the results in completion order (scroll passes, then the final wait); the timeout, scroll and stall conditions hold; the records obey the cap and cursor gate, have distinct keys and come from candidates |
| Harvest.CursorEndsWait | scraper/facebook_scraper_headless.py:1041-1045 | a final wait in which the cursor stops collection does not time out, so the collected records are yielded |
| Harvest.AllFinishNoTimeout | scraper/facebook_scraper_headless.py:1035 | when every submission finishes within the wait, there is no timeout |
| Harvest.WithoutCursorFirstPresent | scraper/facebook_scraper_headless.py:999-1056 | without a cursor, a harvest that ends normally yields the first `num_posts` present results in completion order, newest last |
| Harvest.FinalCollection | scraper/facebook_scraper_headless.py:1035-1048 | the final wait continues the completion order: after the scroll passes, the pending futures in finishing order |
| Harvest.ChronologicalUrl | scraper/facebook_scraper_headless.py:756-759 | the URL gains `?sorting_setting=CHRONOLOGICAL`, or `&…` when it already has a query |
| Harvest.ChronologicalQuery | scraper/facebook_scraper_headless.py:756-759 | the sorted URL has a query, and the parameter adds no second `?` |
| Harvest.ScrapeAuthenticatedGroup | scraper/facebook_scraper_headless.py:729-1073 | visits the sorted URL; when the feed does not appear nothing is registered or yielded; the harvest runs iff the feed appears, the group opens and the session holds, and then obeys `ScrapeLoop`'s promise with the group's latest stored hash as cursor; otherwise nothing is yielded; no posts table loses rows |
| Harvest.OpenGroup | scraper/facebook_scraper_headless.py:777-799 | gets or creates the group and reads the cursor from its table before the harvest |
| Harvest.Register | scraper/facebook_scraper_headless.py:777-791 | creates the group if needed and renames a fallback-named group; existing tables are untouched and new ones are empty |
| Storage.FindHash | database/simple_per_group.py:482-504 | finds the row holding a hash, and finds none iff no row holds it |
| Storage.AddPostExisting | database/simple_per_group.py:242-265 | a post whose hash is stored returns (existing id, False) and leaves the table unchanged |
| Storage.AddPostFresh | database/simple_per_group.py:267-291 | a post with a new hash appends exactly one row with a fresh, larger id and returns (id, True) |
| Storage.AddPostValid | database/simple_per_group.py:220-291 | inserting keeps ids increasing and below the counter, and hashes unique |
| Storage.AddPostIdempotent | database/simple_per_group.py:220-291 | adding the same hashed post twice changes the table once |
| Storage.LastIndexHighestId | database/simple_per_group.py:308-346 | the last matching row has the highest id among matching rows |
| Storage.LatestHashSpec | database/simple_per_group.py:323-350 | the most recent hash is the non-empty hash of the highest-id row that has one, or None iff no row has one |
| Storage.LatestHashSnoc | database/simple_per_group.py:323-350 | a new row with a hash becomes the cursor; otherwise the cursor is unchanged |
| Storage.LikePrefixPattern | database/simple_per_group.py:311 | `LIKE 'lit_%'` matches iff the string is longer than `lit` and starts with it, ignoring ASCII case |
| Storage.GeneratedIdIsLike | database/simple_per_group.py:311 | every generated ID matches `generated_%` |
| Storage.LatestRealIdNotGenerated | database/simple_per_group.py:293-321 | the most recent post ID is never a generated one |
| Storage.PersistAllValid | database/simple_per_group.py:220-291 | persisting a batch keeps the table valid |
| Storage.PersistAllHashes | database/simple_per_group.py:220-291 | every stored hash after a batch was stored before or came from the batch |
| Storage.PersistAdvancesCursor | database/simple_per_group.py:267-291 | after persisting a batch whose last post has a new non-empty hash, the most recent hash is that hash |
| Storage.PersistAllStored | database/simple_per_group.py:242-265 | a batch of already-stored posts changes nothing |
| Storage.SanitizeTableName | database/simple_per_group.py:76-90 | every table suffix starts with `Group_` |
| Storage.SanitizeNumericUrl | database/simple_per_group.py:82-86 | a URL with `/groups/<digits>` gives `Group_<digits>` |
| Storage.SanitizeHashedUrl | database/simple_per_group.py:87-90 | any other URL gives `Group_` and the first 10 hex digits of its MD5 (16 characters) |
| Storage.FirstAcceptable | database/simple_per_group.py:47-58 | the chosen name is the first hit passing the name filter, and none is chosen iff no hit passes |
| Storage.GroupName | database/simple_per_group.py:164-179 | the name is the given one, else the scraped one, else `Group from <url>`, and is never empty |
| Storage.RenameGroupValid | scraper/facebook_scraper_headless.py:788 | renaming to an unused name keeps group names, URLs and tables unique |
| Storage.Store.constructor | database/simple_per_group.py:92-134 | an empty database |
| Storage.Store.GetOrCreateGroup | database/simple_per_group.py:136-218 | a known URL returns its pair and writes nothing; a new URL inserts one group with the sanitized suffix and an empty table; a clash returns the clashing table's group or fails; a repeated call returns the same pair |
| Storage.Store.AddPostToGroup | database/simple_per_group.py:220-291 | the table changes exactly as the insert-if-absent function says; a missing table returns None and changes nothing |
| Storage.Store.ContentHashExists | database/simple_per_group.py:482-508 | true iff the table holds a row with that hash |
| Storage.Store.MostRecentContentHash | database/simple_per_group.py:323-350 | returns the cursor hash of the table, or None for a missing table |
| Storage.Store.MostRecentFacebookPostId | database/simple_per_group.py:293-321 | returns the most recent non-generated post ID, or None for a missing table |
| Storage.Store.RenameGroup | scraper/facebook_scraper_headless.py:779-790 | renames the group unless another group has the name; group ids and tables are untouched |
| Storage.Store.DropGroup | database/simple_per_group.py:442-480 | an unknown id returns False and changes nothing; otherwise the group row and its table are removed and True is returned |
| Storage.Store.ListAllGroups | database/simple_per_group.py:408-440 | one entry per group in id order, with the group's post count |
| Notifier.TruncateText | notifier/telegram_notifier.py:8-13 | None gives ""; short text is unchanged; longer text is its prefix plus `...`, exactly `max` long |
| Notifier.TruncateFits | notifier/telegram_notifier.py:8-13 | a truncated text fits and truncating it again changes nothing |
| Notifier.OutgoingText | notifier/telegram_notifier.py:16-22 | a sent message is at most 3500 characters, and shorter text is sent unchanged |
| Notifier.ExtractCommands | notifier/telegram_notifier.py:59-70 | a command is found iff there is a message with a truthy chat id whose text starts with `/`; the chat id is stringified, the command has no space and the argument is stripped |
| Notifier.CommandLine | notifier/telegram_notifier.py:67-70 | `/cmd arg` yields the lowercased command and the stripped argument |
| Notifier.EscapeHtml | notifier/telegram_notifier.py:73-74 | the escaped text holds no `<`, `>`, `"` or `'` |
| Notifier.EscapeNoBareAmp | notifier/telegram_notifier.py:73-74 | every `&` in the escaped text starts `&amp;`, `&lt;`, `&gt;`, `&quot;` or `&#x27;` |
| Notifier.UnescapeEscape | notifier/telegram_notifier.py:73-74 | escaping loses nothing: unescaping gives the original text back |
| Notifier.CleanPlaceholderName | notifier/telegram_notifier.py:80-83 | `Group from https://www.facebook.com/groups/<digits>` is shown as `<digits>` |
| Notifier.CleanGroupNameKeeps | notifier/telegram_notifier.py:80-83 | a missing or empty group name shows as `Unknown Group`; a name without the placeholder prefix or a group URL is shown unchanged |
| Notifier.FormatPostMessage | notifier/telegram_notifier.py:77-105 | the message is the heading, the escaped cleaned group name and the escaped short text, followed by the link line with the escaped URL exactly when the URL is truthy and not `#`; the name, text and URL read back unchanged from their places |
| Notifier.LinkIffShown | notifier/telegram_notifier.py:86-103 | the message holds a link iff the URL is truthy and not `#` |
| Cookies.SanitizeCookie | scraper/session_persistence.py:10-20 | only allowed keys are kept with their values; `path` is always present and defaults to `/`; `expiry` becomes its integer or is dropped |
| Cookies.SanitizeClean | scraper/session_persistence.py:10-20 | the result is a clean cookie |
| Cookies.SanitizeFixedPoint | scraper/session_persistence.py:10-20 | a cookie is unchanged by sanitising iff it is clean |
| Cookies.SanitizeIdempotent | scraper/session_persistence.py:10-20 | sanitising twice equals sanitising once |
| Config.CommaItems | config.py:63-64 | the items are non-empty, stripped and hold no comma |
| Config.CommaItemsJoin | config.py:63-64 | joining such items with commas and parsing gives them back |
| Config.AllowedChatIds | config.py:60-65 | no variable gives no chat ids; each id is non-empty, stripped and comma-free |
| Config.Keywords | config.py:68-71 | the keywords are the lowercased comma items, one for one |
| Config.KeywordsLower | config.py:68-71 | every keyword is already lowercase |
| Config.IntOr | config.py:43-57 | a missing or unparsable value gives the fallback, otherwise its integer |
| Config.IntOrRoundTrip | config.py:43-57 | a written integer reads back as itself |
| Config.GetLoginTimeouts | config.py:43-57 | each timeout is its variable's integer, with fallbacks 30, 60 and 0 |
| Config.WorkingDaysRoundTrip | config.py:177 | any list of day numbers written as a comma list parses back to itself |
| Config.DefaultWorkingDaysValue | config.py:177 | the default working days are Monday to Friday, 0..4 |
| Config.ResolvedHours | config.py:149-163 | the table's values win when they parse, otherwise the environment's |
| Config.WorkingHoursSettings | config.py:143-178 | settings exist iff hours, offset and days all parse, and then hold those values |
| Config.WorkingHoursRule | config.py:196-205 | disabled means always within; on a day outside the list never; otherwise iff start ≤ hour < end |
| Config.IsWithinWorkingHours | config.py:180-205 | raises iff working hours are enabled and the time-zone offset is 24 hours or more either way; otherwise answers by the working-hours rule, and always yes when disabled |
| Config.DayName | config.py:228-229 | a day index is named like Python list indexing, negative indexes included, and fails outside -7..6 |
| Config.Pad2RoundTrip | config.py:225 | a zero-padded hour reads back as itself |
| Config.NextWorkingTime | config.py:207-232 | disabled gives the fixed text; an offset of 24 hours or more fails; within hours gives `Active until HH:00 GMT+<offset>`, failing for an end hour outside 0..23; outside gives `Next active: <first day>-<last day> SS:00-EE:00 GMT+<offset>`, failing on an empty list or a bad day index |
| Validators.HoursRange | bot/command_handlers.py:299-305 | an accepted range has 0 ≤ start < end ≤ 23 |
| Validators.SetHours | bot/command_handlers.py:284-315 | empty writes nothing; `on`/`off` write only the enabled flag; otherwise either nothing or start, end and enabled=`true` that read back as a valid range |
| Validators.SetHoursAccepts | bot/command_handlers.py:298-309 | every range `s-e` with 0 ≤ s < e ≤ 23 writes start, end and enabled |
| Validators.SetTiming | bot/command_handlers.py:317-345 | the presets write (60, 2.0), (30, 1.0), (15, 0.5); a single write is a group delay in 5..300 |
| Validators.SetLimit | bot/command_handlers.py:347-360 | writes the limit iff the argument is an integer ≥ 1 |
| Validators.SetPosts | bot/command_handlers.py:362-375 | writes the count iff the argument is an integer in 1..50 |
| Validators.LimitReadsBack | bot/command_handlers.py:347-375 | a written limit or post count is accepted back as itself |
| Validators.NormalizeGroupUrl | bot/command_handlers.py:385-392 | accepted iff the stripped URL starts with the groups prefix; the result is the stripped URL cut before its first `?` with the trailing slashes dropped: a prefix of it with no `?` and no trailing `/`, followed in it only by slashes up to the `?` or the end |
| Validators.NormalizeGroupUrlIdempotent | bot/command_handlers.py:385-392 | normalising a normalised URL changes nothing |
| Validators.AddGroup | bot/command_handlers.py:377-404 | empty, invalid and over-limit arguments change nothing; a stored URL answers with its group and adds nothing; a new URL adds exactly the group `Group from <url>` with the normalised URL and its table, unless the name or table clashes; an added group exists and is the one stored under the URL; at most one group is added |
| Login.NetscapeFields | bot/command_handlers.py:840-847 | name=f5, value=f6, domain=f0, path=f2, secure=(f3 is `true`, any case), httpOnly false |
| Login.NetscapeCookie | bot/command_handlers.py:836-847 | a line gives a cookie iff it has at least 7 tab fields |
| Login.NetscapeLineRoundTrip | bot/command_handlers.py:830-847 | a cookie line written with tabs parses back into its cookie |
| Login.ImportedCookies | bot/command_handlers.py:813-847 | a JSON list is taken as is, an object is wrapped, another JSON value fails; only undecodable text is read as Netscape lines |
| Login.FacebookDomain | bot/command_handlers.py:871-874 | a cookie is kept iff its domain contains `facebook.com` |
| Login.FacebookCookies | bot/command_handlers.py:871-874 | the kept cookies are exactly the facebook.com ones |
| Login.ProcessCookieImport | bot/command_handlers.py:802-923 | saved cookies are non-empty and all facebook.com; "no cookies" iff nothing was parsed; an error iff parsing or filtering fails |
| Login.LoginFlow | bot/command_handlers.py:794-800 | only a chat waiting for cookies is affected; its state is cleared iff the import outcome clears it |
| Login.Done | bot/command_handlers.py:1143-1218 | completes iff the chat is in manual login with a driver; it then removes the state, the drivers and the pause; otherwise nothing changes |
| Login.Cancel | bot/command_handlers.py:1220-1264 | without a manual login nothing changes; otherwise the state is removed, and the pause is cleared unless no browser is stored for the chat (deleting the missing driver entry raises); a failing browser close is ignored |
| Login.CallbackEffect | bot/command_handlers.py:86-113 | only allowed chats and the two login choices change anything; drivers never change; the pause is set iff manual login was chosen |
| Login.RouteOf | bot/command_handlers.py:33-84 | a chat with a login state goes to the login flow, otherwise a known command to its handler |
| Login.LoginFlowCapturesCommands | bot/command_handlers.py:40-42 | every command from a chat with a login state goes to the login flow, which ignores it unless the chat waits for cookies |
| Login.ManualLoginStuck | bot/command_handlers.py:40-42 | as written, `/done` and `/cancel` in manual login leave the pause on and the state in place |
| Login.ManualLoginEnds | bot/command_handlers.py:1143-1256 | with `/done` and `/cancel` routed first, manual login ends and the pause clears; other commands behave as before |
| Login.CommandsOutsideLogin | bot/command_handlers.py:33-84 | for a chat with no login state the corrected routing does what the written one does; `/login` starts the login choice, `/done` and `/cancel` leave the session unchanged |
| Login.CommandHandlers.constructor | bot/command_handlers.py:27-31 | no login states, no drivers, no pause |
| Login.CommandHandlers.HandleTextCommand | bot/command_handlers.py:33-84 | routes as `RouteOf` and changes the state as the command's function says |
| Login.CommandHandlers.HandleTextCommandFixed | bot/command_handlers.py:33-84 | the corrected routing with `/done` and `/cancel` first; the bot uses it |
| Login.CommandHandlers.StartLogin | bot/command_handlers.py:421-443 | the chat is choosing a login method; nothing else changes |
| Login.CommandHandlers.StartCookieImport | bot/command_handlers.py:759-761 | the chat is waiting for cookies; nothing else changes |
| Login.CommandHandlers.StartManualLogin | bot/command_handlers.py:640-648 | the chat is in manual login and the main scraper is paused |
| Login.CommandHandlers.BrowserReady | bot/command_handlers.py:660-665 | the chat's driver is recorded, and the `_xvfb` entry too when the login process set its display attribute |
| Login.CommandHandlers.HandleLoginFlow | bot/command_handlers.py:794-800 | the state changes as `LoginFlow` says |
| Login.CommandHandlers.HandleDone | bot/command_handlers.py:1143-1218 | the state and outcome are those of `Done` |
| Login.CommandHandlers.HandleCancel | bot/command_handlers.py:1220-1256 | the state and outcome are those of `Cancel` |
| Login.CommandHandlers.HandleCallback | bot/command_handlers.py:446-461 | import sets waiting-for-cookies, manual sets manual login and the pause, anything else changes nothing |
| Manager.RemoveLabels | bot/scraper_manager.py:376 | removing labels never lengthens the text and leaves label-free text unchanged |
| Manager.CleanContent | bot/scraper_manager.py:376 | the cleaned text is no longer than the content and has no outer whitespace |
| Manager.ShortText | bot/scraper_manager.py:376-377 | cleaned text of at most 300 characters is kept; longer text becomes its first 300 characters followed by `...` |
| Manager.ShortTextPlain | bot/scraper_manager.py:376-377 | short, stripped text without labels is shown unchanged |
| Manager.GroupChats | bot/scraper_manager.py:382 | the recipients are exactly the chat ids starting with `-` |
| Manager.GroupIdentifier | bot/scraper_manager.py:344-346 | the identifier is non-empty and holds no `/` |
| Manager.GroupIdentifierOf | bot/scraper_manager.py:344-346 | the identifier of a group post URL is the group's segment |
| Manager.LookupGroupName | bot/scraper_manager.py:349-353 | a name found belongs to a group; none is found only when no group has the canonical URL |
| Manager.GroupNameFor | bot/scraper_manager.py:337-366 | no URL gives `Unknown Group`; a URL without a group segment gives the current group's name |
| Manager.PostOfFirstGroup | bot/scraper_manager.py:344-366 | a post of a stored group is named by the stored name, by its identifier when the name is the fallback, and by the current group when unknown |
| Manager.PostNotification | bot/scraper_manager.py:373-386 | nothing is sent iff there is no group chat; the recipients are the group chats; the message is the heading with the resolved group name, then the escaped short text, which reads back as the short text, then the link line with the escaped post URL exactly when the URL is usable |
| Manager.Kept | bot/scraper_manager.py:183-189 | only posts with content and a hash are saved |
| Manager.KeptSnoc | bot/scraper_manager.py:180-189 | one more post extends the kept list by it iff it is complete |
| Manager.PersistKeptSnoc | bot/scraper_manager.py:180-223 | saving one more post extends the batch save by one step |
| Manager.ScraperManager.constructor | bot/scraper_manager.py:25-28 | no driver, not initialised |
| Manager.ScraperManager.Initialize | bot/scraper_manager.py:30-87 | succeeds iff a live browser is reused or a new one starts with a valid session; a failure leaves the manager uninitialised |
| Manager.ScraperManager.Cleanup | bot/scraper_manager.py:89-98 | the driver is released and the flag cleared, unless quitting raises |
| Manager.ScraperManager.ProcessSinglePost | bot/scraper_manager.py:241-320 | incomplete posts and stored hashes are skipped before saving; a saved post gets the next id; it is announced iff saved and relevant; the outcome is `OutcomeOf` the table it met |
| Manager.OutcomeOfMeaning | bot/scraper_manager.py:241-320 | a post is skipped iff a field is missing, a duplicate iff its hash is stored, a save failure iff the table is missing, and otherwise saved as the next id and announced iff the AI judged it relevant |
| Manager.ScraperManager.ScrapeGroupAsWritten | bot/scraper_manager.py:110-159 | remembers the group name, reads the table's cursors, and always raises: the harvest call passes undeclared keyword arguments; no table changes |
| Manager.ScraperManager.ScrapeGroup | bot/scraper_manager.py:110-159 | with the harvest call corrected: remembers the group name and the group's table ends as the batch of complete posts added in order, and the outcomes are those of each post against the table the posts before it left; the manager's invariant is kept |
| Manager.ScraperManager.ProcessPosts | bot/scraper_manager.py:151-155 | every post goes through `_process_single_post` in order; the k-th outcome is that post's outcome against the table as the first k posts left it; the group's table ends as the batch of complete posts added, other tables and the groups unchanged |
| Manager.ScrapeGroupSavesFresh | bot/scraper_manager.py:151-155 | with the call corrected, a complete post whose hash is not stored is added as the table's next row; as written nothing is added |
| Manager.ScraperManager.SavePost | bot/scraper_manager.py:180-223 | one post is saved as the save step says, and reported, with the new id, exactly when that step added a row |
| Manager.ScraperManager.SaveAndProcessPosts | bot/scraper_manager.py:161-239 | the table changes as saving the complete posts in order; the reported posts are exactly those whose save added a row, in order, with their new ids, texts, URLs and positions |
| Manager.ReportedIds | bot/scraper_manager.py:205-213 | the reported posts take consecutive ids from the table's next id, which moves past them |
| Bot.Slots | bot/telegram_bot.py:84 | there are max(1, limit) slots |
| Bot.ScheduleShape | bot/telegram_bot.py:80-93 | the schedule has max(1, limit) times, strictly increasing, all after now and within 65 minutes |
| Bot.SlotTimesIncrease | bot/telegram_bot.py:85-92 | a later slot's time is later, whatever the jitter draws |
| Bot.SlotTimeWithinHour | bot/telegram_bot.py:85-92 | every slot time is after now and at most an hour plus the jitter cap later |
| Bot.RefreshedLimit | bot/telegram_bot.py:165-170 | a stored integer becomes the limit; an unparsable value keeps the current one |
| Bot.RefreshedLimitDefault | bot/telegram_bot.py:165-170 | no stored value keeps the current limit |
| Bot.LoadedUpdateId | bot/telegram_bot.py:46-78 | the saved update id, or 0 when missing or unparsable |
| Bot.SavedUpdateIdRoundTrip | bot/telegram_bot.py:132 | a persisted update id loads back as itself |
| Bot.Offset | bot/telegram_bot.py:99 | there is an offset iff the last id is nonzero, and it is past the last id |
| Bot.PlainTextImportsCookies | bot/telegram_bot.py:114-128 | plain text from a chat waiting for cookies goes to cookie import |
| Bot.StrayTextIgnored | bot/telegram_bot.py:107-128 | an update with no callback and no text, or plain text from a chat with no login state, leaves the session unchanged |
| Bot.AfterUpdatesSnoc | bot/telegram_bot.py:105-130 | handling a batch up to an update is handling the batch before it and then that update |
| Bot.TelegramBot.constructor | bot/telegram_bot.py:30-43 | no token, no chats, limit 6, empty schedule, last update 0 |
| Bot.TelegramBot.Initialize | bot/telegram_bot.py:46-78 | succeeds iff token, chats, limit and database are all present; then the last update id is loaded |
| Bot.TelegramBot.NextScheduledTimes | bot/telegram_bot.py:80-93 | the loop builds exactly the schedule |
| Bot.TelegramBot.ShouldRunScrapeCycle | bot/telegram_bot.py:145-184 | paused: no run and nothing changes; outside hours: no run and the queue untouched; within: a changed limit regenerates the queue, an empty queue is refilled and runs, a due head is popped and runs, otherwise nothing changes |
| Bot.LogDueThrottles | bot/telegram_bot.py:153-158 | the working-hours notice is not due right after it is logged, is due again only after more than 10 minutes, and stays due once due |
| Bot.TelegramBot.HandleTelegramUpdates | bot/telegram_bot.py:95-143 | the offset comes from the last id; an empty or failed poll changes nothing; otherwise the last id is the batch's last and is persisted, and the handlers' state is folded over the batch |
| Bot.TelegramBot.Dispatch | bot/telegram_bot.py:105-130 | the updates are handled in order and the last id is returned |
| Bot.TelegramBot.HandleUpdate | bot/telegram_bot.py:107-128 | a callback, a command (through the corrected routing) or plain text changes the handlers' state as the matching function says |

## Left out

- I/O of every kind: Selenium navigation and waits, Telegram HTTP, SQLite
  itself, files and environment variables. Their results enter as
  parameters.
- Threads: the worker pool is a completion schedule given as input. A
  future still pending after the final 30-second wait counts as a timeout
  that ends the harvest.
- Floating-point times and delays: bot times are exact real minutes, and
  delays are not modelled.
- Unicode case mapping and Unicode digits: `lower()`, `isdigit()` and `int()`
  are ASCII only. Whitespace follows Python's full `isspace` set.
- Comment extraction (scraper/facebook_scraper_headless.py:655-719) is not
  modelled: it is selector-driven and feeds no decision.
- The `posted_at` search is not modelled because timestamp parsing is
  disabled; records always carry None there.
- Overlay dismissal, the "See more" click, the virtual display and the
  share-link clipboard are browser actions with no effect on the decisions.
- `production_retry` is not modelled: its backoff lives in the tenacity
  library.
- `_ai_process_unprocessed_posts`, `_send_notifications_for_new_relevant_posts`,
  `validate_session` and `refresh_session` are not modelled. They drive
  OpenAI and the browser. The AI verdict is an input.
- `run_scrape_cycle` and `run` are orchestration over the modelled
  operations and are not modelled themselves.
- The manual-login browser thread is modelled by its state changes only
  (`StartManualLogin`, `BrowserReady`). Existing-cookie login, automatic
  login and clearing cookies are left out.
- Handler exceptions inside the update loop are not modelled. `Dispatch`
  assumes no handler raises.
- The "updated content" branch of `add_post_to_group` is not modelled: it is
  unreachable, since its row is selected by an equal hash.
- `group_delay` and `post_delay` at runtime, and the WebDriver factory, are
  not modelled.
- Bot.Schedule: the random jitter is a draw in [0, 1] scaled by the jitter
  cap.
- Bot.TelegramBot.ShouldRunScrapeCycle: the working-hours answer is a
  boolean parameter, computed by `Config.IsWithinWorkingHours`. The error
  that function reports for an offset of 24 hours or more ends the bot's
  main loop (bot/telegram_bot.py:152, 270-271); that exit is not modelled.
- Config.Pad2 states only the length for 0..99. Its round trip is
  `Pad2RoundTrip`.
- Manager.ShortText states the cut, not an iff on where labels were
  removed.
- Manager.LookupGroupName states the exact-URL direction only. The `LIKE`
  partial match is modelled but not characterised.
- Validators.NormalizeGroupUrlIdempotent needs the normalised URL not to end
  in whitespace, because `strip` runs before `rstrip('/')`.
- UrlParse: the NFKC check `urlsplit` applies to a non-ASCII netloc
  (`_checknetloc`) is not modelled, because Unicode normalisation is out of
  scope; a netloc that normalises into `/`, `?`, `#`, `@` or `:` parses in
  the model where Python raises.
- Browser errors in the scroll loop other than reading an element's markup
  (the scroll script, `find_elements`) are not modelled: each scroll's
  elements are given as a snapshot.

## Findings

| source | as written | input that shows it | evidently intended | confidence | as-written member | corrected member |
|---|---|---|---|---|---|---|
| bot/command_handlers.py:40-42 with 1143-1147 and 1220-1224 | every command from a chat with any login state goes to the login flow, which acts only on `waiting_for_cookies`; `/done` and `/cancel` therefore never reach their handlers during a manual login | a chat in `manual_login_active` sends `/done` (or `/cancel`) | `/done` and `/cancel` end the manual login, remove the state and clear the scraper pause | not executed | Login.ManualLoginStuck | Login.ManualLoginEnds |
| bot/scraper_manager.py:133-142 with scraper/facebook_scraper_headless.py:729-735 and bot/scraper_manager.py:157-159 | `scrape_group` passes `skip_virtual_display`, `db_conn` and `most_recent_hash`, which `scrape_authenticated_group` does not declare; the call raises `TypeError`, the handler re-raises it, and the save loop never runs | any group, including one whose page holds a new complete post | the group is harvested and each new post is saved and processed | not executed | Manager.ScraperManager.ScrapeGroupAsWritten | Manager.ScraperManager.ScrapeGroup |

=== FILE: bot.dfy ===
/** The Telegram bot's own bookkeeping (`ScrapiusTelegramBot`): the start-up
    settings, the queue of scheduled scrape times consumed by the main loop,
    and the poll offset over incoming updates. Time is a real number of
    minutes; the clock, the working-hours answer, the stored settings and the
    random draws behind the jitter are parameters. */
module Bot {
  import opened Wrappers
  import opened PyStr
  import Notifier
  import Login

  // ---------------------------------------------------------------------------
  // The schedule

  /** `max(1, limit)`: the number of slots in an hour. */
  function Slots(limit: int): (n: int)
    ensures n >= 1 && n >= limit
    ensures limit >= 1 ==> n == limit
  {
    if limit < 1 then 1 else limit
  }

  /** `slot_len = 60.0 / limit` in minutes. */
  function SlotLen(limit: int): real
  {
    60.0 / Slots(limit) as real
  }

  /** `min(5, slot_len * 0.1)`: the widest jitter. */
  function JitterCap(limit: int): real
  {
    var tenth := SlotLen(limit) * 0.1;
    if tenth < 5.0 then tenth else 5.0
  }

  /** A draw of the random generator in [0, 1]. */
  predicate Draw(d: real)
  {
    0.0 <= d <= 1.0
  }

  predicate Draws(ds: seq<real>)
  {
    forall i :: 0 <= i < |ds| ==> Draw(ds[i])
  }

  /** `random.uniform(0, cap)` for the draw `d`. */
  function Jitter(limit: int, d: real): real
  {
    JitterCap(limit) * d
  }

  /** The `i`-th scheduled time: the start of slot `i + 1` plus its jitter. */
  function SlotTime(now: real, limit: int, i: int, d: real): real
  {
    now + (i + 1) as real * SlotLen(limit) + Jitter(limit, d)
  }

  /** The specification of `next_scheduled_times`. */
  function Schedule(now: real, limit: int, draws: seq<real>): seq<real>
    requires |draws| >= Slots(limit)
  {
    seq(Slots(limit), i requires 0 <= i < Slots(limit) => SlotTime(now, limit, i, draws[i]))
  }

  /** Strictly increasing: the head is the earliest entry. */
  predicate Increasing(s: seq<real>)
  {
    forall i, j :: 0 <= i < j < |s| ==> s[i] < s[j]
  }

  lemma SlotFacts(limit: int)
    ensures SlotLen(limit) > 0.0
    ensures Slots(limit) as real * SlotLen(limit) == 60.0
    ensures 0.0 < JitterCap(limit) <= SlotLen(limit) * 0.1
    ensures JitterCap(limit) <= 5.0
  {
  }

  /** A jitter lies in [0, cap]. */
  lemma JitterBounds(limit: int, d: real)
    requires Draw(d)
    ensures 0.0 <= Jitter(limit, d) <= JitterCap(limit)
  {
    SlotFacts(limit);
    var c := JitterCap(limit);
    assert c * d <= c * 1.0 by {
      assert c * (1.0 - d) >= 0.0;
    }
  }

  /** A later slot starts at least one slot length later. */
  lemma SlotStartsGrow(i: int, j: int, len: real)
    requires i < j && len > 0.0
    ensures (i + 1) as real * len + len <= (j + 1) as real * len
  {
    var k := (j - i) as real;
    assert k >= 1.0;
    assert (j + 1) as real * len - (i + 1) as real * len == k * len;
    assert (k - 1.0) * len >= 0.0;
  }

  /** Two slot times in order: the jitter never reaches a tenth of a slot. */
  lemma SlotTimesIncrease(now: real, limit: int, i: int, j: int, di: real, dj: real)
    requires 0 <= i < j && Draw(di) && Draw(dj)
    ensures SlotTime(now, limit, i, di) < SlotTime(now, limit, j, dj)
  {
    var len := SlotLen(limit);
    SlotFacts(limit);
    JitterBounds(limit, di);
    JitterBounds(limit, dj);
    SlotStartsGrow(i, j, len);
    OneSlotApart(now + (i + 1) as real * len, now + (j + 1) as real * len, len,
                 Jitter(limit, di), Jitter(limit, dj));
  }

  /** Starts a slot apart stay ordered under jitters below a tenth of a slot. */
  lemma OneSlotApart(x: real, y: real, len: real, ji: real, jj: real)
    requires len > 0.0 && x + len <= y
    requires 0.0 <= ji <= len * 0.1 && 0.0 <= jj
    ensures x + ji < y + jj
  {
  }

  /** Every slot time lies after `now`, within the hour plus the jitter. */
  lemma SlotTimeWithinHour(now: real, limit: int, i: int, d: real)
    requires 0 <= i < Slots(limit) && Draw(d)
    ensures now < SlotTime(now, limit, i, d) <= now + 60.0 + JitterCap(limit)
  {
    SlotFacts(limit);
    JitterBounds(limit, d);
    var len := SlotLen(limit);
    var k := (i + 1) as real;
    var n := Slots(limit) as real;
    assert k >= 1.0 && n - k >= 0.0;
    assert (k - 1.0) * len >= 0.0;
    assert (n - k) * len >= 0.0;
    assert len <= k * len <= n * len;
  }

  /** `next_scheduled_times` returns exactly `max(1, limit)` times, strictly
      increasing, all after `now` and none later than an hour and five
      minutes from it. */
  lemma ScheduleShape(now: real, limit: int, draws: seq<real>)
    requires |draws| >= Slots(limit) && Draws(draws)
    ensures |Schedule(now, limit, draws)| == Slots(limit)
    ensures Increasing(Schedule(now, limit, draws))
    ensures forall i :: 0 <= i < |Schedule(now, limit, draws)| ==>
              now < Schedule(now, limit, draws)[i] <= now + 65.0
  {
    var s := Schedule(now, limit, draws);
    SlotFacts(limit);
    forall i, j | 0 <= i < j < |s|
      ensures s[i] < s[j]
    {
      SlotTimesIncrease(now, limit, i, j, draws[i], draws[j]);
    }
    forall i | 0 <= i < |s|
      ensures now < s[i] <= now + 65.0
    {
      SlotTimeWithinHour(now, limit, i, draws[i]);
    }
  }

  /** Dropping the head keeps a schedule increasing. */
  lemma PopIncreasing(s: seq<real>)
    requires s != [] && Increasing(s)
    ensures Increasing(s[1..])
  {
  }

  // ---------------------------------------------------------------------------
  // Settings read back

  /** `int(botsettings_get(conn, 'bot_hourly_limit', str(hourly_limit)))`,
      keeping the old limit when the stored text is not an integer. */
  function RefreshedLimit(current: int, stored: Option<string>): (n: int)
    ensures stored.Some? && ParseInt(stored.value).Some? ==> n == ParseInt(stored.value).value
    ensures stored.Some? && ParseInt(stored.value).None? ==> n == current
  {
    match ParseInt(stored.GetOr(IntToString(current)))
    case Some(k) => k
    case None => current
  }

  /** With no stored setting the limit read back is the current one, so the
      schedule is not regenerated. */
  lemma RefreshedLimitDefault(current: int)
    ensures RefreshedLimit(current, None) == current
  {
    IntToStringRoundTrip(current);
  }

  /** `int(botsettings_get(conn, 'last_update_id', '0'))`, 0 on failure. */
  function LoadedUpdateId(stored: Option<string>): (n: int)
    ensures stored.None? ==> n == 0
    ensures stored.Some? && ParseInt(stored.value).Some? ==> n == ParseInt(stored.value).value
    ensures stored.Some? && ParseInt(stored.value).None? ==> n == 0
  {
    match ParseInt(stored.GetOr("0"))
    case Some(k) => k
    case None => 0
  }

  /** The id persisted after a batch is the one read back at the next start. */
  lemma SavedUpdateIdRoundTrip(n: int)
    ensures LoadedUpdateId(Some(IntToString(n))) == n
  {
    IntToStringRoundTrip(n);
  }

  // ---------------------------------------------------------------------------
  // Updates

  /** `offset = last_update_id + 1 if last_update_id else None`. */
  function Offset(lastUpdateId: int): (r: Option<int>)
    ensures r.Some? <==> lastUpdateId != 0
    ensures r.Some? ==> r.value > lastUpdateId
  {
    if lastUpdateId != 0 then Some(lastUpdateId + 1) else None
  }

  /** A button press: the chat it came from and its callback data. */
  datatype Callback = Callback(chatId: string, data: string)

  /** One update of a `getUpdates` batch. `decoded` is what `json.loads`
      makes of the text that reaches the cookie import. */
  datatype Incoming = Incoming(id: int, callback: Option<Callback>, update: Notifier.Update, decoded: Login.Decoded)

  /** The text message of an update, when it has one: its chat as a string
      and its text. */
  function TextMessage(u: Incoming): Option<(string, string)>
  {
    match u.update.message
    case Some(m) =>
      (match m.text
       case Some(t) => Some((Notifier.ChatIdString(m.chat), t))
       case None => None)
    case None => None
  }

  /** The effect of one update on the login session. Commands go through the
      corrected routing, where `/done` and `/cancel` reach their handlers
      during a manual login (see `Login.ManualLoginEnds`). */
  function UpdateEffect(s: Login.Session, u: Incoming, allowed: seq<string>): Login.Session
  {
    match u.callback
    case Some(cb) => Login.CallbackEffect(s, cb.chatId, cb.data, allowed)
    case None =>
      match TextMessage(u)
      case None => s
      case Some(msg) =>
        match Notifier.ExtractCommands(u.update)
        case Some(cmd) => Login.AfterCommandFixed(s, cmd.chatId, cmd.cmd, cmd.arg, u.decoded)
        case None => if msg.0 in s.states then Login.LoginFlow(s, msg.0, msg.1, u.decoded) else s
  }

  /** The effect of a batch of updates handled in order. */
  function AfterUpdates(s: Login.Session, us: seq<Incoming>, allowed: seq<string>): Login.Session
  {
    if us == [] then s else UpdateEffect(AfterUpdates(s, us[..|us| - 1], allowed), us[|us| - 1], allowed)
  }

  lemma AfterUpdatesSnoc(s: Login.Session, us: seq<Incoming>, i: int, allowed: seq<string>)
    requires 0 <= i < |us|
    ensures AfterUpdates(s, us[..i + 1], allowed) == UpdateEffect(AfterUpdates(s, us[..i], allowed), us[i], allowed)
  {
    assert us[..i + 1][..i] == us[..i];
  }

  /** A plain text from a chat waiting for cookies is imported as cookies. */
  lemma PlainTextImportsCookies(s: Login.Session, u: Incoming, allowed: seq<string>, chat: string, text: string)
    requires u.callback.None?
    requires u.update.message == Some(Notifier.Message(Notifier.TextId(chat), Some(text)))
    requires !StartsWith(text, "/")
    requires chat in s.states && s.states[chat] == Login.WaitingForCookies
    ensures UpdateEffect(s, u, allowed) == Login.LoginFlow(s, chat, text, u.decoded)
    ensures chat !in UpdateEffect(s, u, allowed).states <==>
              Login.ClearsState(Login.ProcessCookieImport(text, u.decoded))
  {
    assert Notifier.ExtractCommands(u.update).None?;
  }

  /** Plain text from a chat without a login state, and an update carrying
      neither a callback nor a text, change nothing. */
  lemma StrayTextIgnored(s: Login.Session, u: Incoming, allowed: seq<string>)
    requires u.callback.None?
    requires TextMessage(u).None? ||
             (Notifier.ExtractCommands(u.update).None? && TextMessage(u).value.0 !in s.states)
    ensures UpdateEffect(s, u, allowed) == s
  {
  }

  // ---------------------------------------------------------------------------
  // The bot

  class TelegramBot {
    var botToken: string
    var chatIds: seq<string>
    var lastUpdateId: int
    var hourlyLimit: int
    var schedule: seq<real>
    /** `last_working_hours_log`; None stands for `datetime.min`. */
    var lastHoursLog: Option<real>
    /** The `last_update_id` row of the settings table. */
    var savedUpdateId: Option<string>
    const handlers: Login.CommandHandlers

    /** The schedule is kept in increasing order. */
    predicate Valid()
      reads this
    {
      Increasing(schedule)
    }

    constructor (saved: Option<string>)
      ensures Valid()
      ensures lastUpdateId == 0 && hourlyLimit == 6 && schedule == [] && lastHoursLog.None?
      ensures botToken == "" && chatIds == [] && savedUpdateId == saved
      ensures fresh(handlers)
    {
      botToken := "";
      chatIds := [];
      lastUpdateId := 0;
      hourlyLimit := 6;
      schedule := [];
      lastHoursLog := None;
      savedUpdateId := saved;
      handlers := new Login.CommandHandlers();
    }

    /** `initialize`: fails without a token or chat ids, when the limit in
        the environment is not an integer, or without a database; otherwise
        resumes from the persisted update id. */
    method Initialize(token: string, ids: seq<string>, envLimit: Option<string>, database: bool) returns (ok: bool)
      modifies this
      ensures ok <==> token != "" && ids != [] && ParseInt(envLimit.GetOr("6")).Some? && database
      ensures botToken == token && chatIds == ids
      ensures token != "" && ids != [] && ParseInt(envLimit.GetOr("6")).Some? ==>
                hourlyLimit == ParseInt(envLimit.GetOr("6")).value
      ensures !(token != "" && ids != [] && ParseInt(envLimit.GetOr("6")).Some?) ==> hourlyLimit == old(hourlyLimit)
      ensures lastUpdateId == if ok then LoadedUpdateId(old(savedUpdateId)) else old(lastUpdateId)
      ensures schedule == old(schedule) && lastHoursLog == old(lastHoursLog) && savedUpdateId == old(savedUpdateId)
    {
      botToken := token;
      chatIds := ids;
      if token == "" || ids == [] {
        return false;
      }
      var limit := ParseInt(envLimit.GetOr("6"));
      if limit.None? {
        return false;
      }
      hourlyLimit := limit.value;
      if !database {
        return false;
      }
      lastUpdateId := LoadedUpdateId(savedUpdateId);
      ok := true;
    }

    /** `next_scheduled_times`. */
    method NextScheduledTimes(now: real, limit: int, draws: seq<real>) returns (times: seq<real>)
      requires |draws| >= Slots(limit)
      ensures times == Schedule(now, limit, draws)
    {
      var n := Slots(limit);
      times := [];
      var i := 0;
      while i < n
        invariant 0 <= i <= n
        invariant times == Schedule(now, limit, draws)[..i]
      {
        times := times + [SlotTime(now, limit, i, draws[i])];
        i := i + 1;
      }
    }

    /** `should_run_scrape_cycle`: `within` is the working-hours answer,
        `stored` the stored hourly limit and `draws` the random draws of any
        regenerated schedule. */
    method ShouldRunScrapeCycle(now: real, within: bool, stored: Option<string>, draws: seq<real>) returns (run: bool)
      requires Valid() && Draws(draws)
      requires |draws| >= Slots(RefreshedLimit(hourlyLimit, stored))
      modifies this
      ensures Valid()
      ensures botToken == old(botToken) && chatIds == old(chatIds)
      ensures lastUpdateId == old(lastUpdateId) && savedUpdateId == old(savedUpdateId)
      ensures handlers.pauseMainScraper ==> !run && unchanged(this)
      ensures !handlers.pauseMainScraper && !within ==>
                !run && hourlyLimit == old(hourlyLimit) && schedule == old(schedule)
      ensures !handlers.pauseMainScraper && !within ==>
                lastHoursLog == if LogDue(old(lastHoursLog), now) then Some(now) else old(lastHoursLog)
      ensures !handlers.pauseMainScraper && within ==>
                hourlyLimit == RefreshedLimit(old(hourlyLimit), stored) && lastHoursLog == old(lastHoursLog)
      ensures !handlers.pauseMainScraper && within ==>
                var queue := if hourlyLimit != old(hourlyLimit) then Schedule(now, hourlyLimit, draws) else old(schedule);
                (run <==> queue == [] || now >= queue[0]) &&
                (queue == [] ==> schedule == Schedule(now, hourlyLimit, draws)) &&
                (run && queue != [] ==> schedule == queue[1..]) &&
                (!run ==> schedule == queue)
    {
      if handlers.pauseMainScraper {
        return false;
      }
      if !within {
        if LogDue(lastHoursLog, now) {
          lastHoursLog := Some(now);
        }
        return false;
      }
      var oldLimit := hourlyLimit;
      hourlyLimit := RefreshedLimit(hourlyLimit, stored);
      if hourlyLimit != oldLimit {
        schedule := NextScheduledTimes(now, hourlyLimit, draws);
        ScheduleShape(now, hourlyLimit, draws);
      }
      if schedule == [] || now >= schedule[0] {
        if schedule != [] {
          PopIncreasing(schedule);
          schedule := schedule[1..];
        } else {
          schedule := NextScheduledTimes(now, hourlyLimit, draws);
          ScheduleShape(now, hourlyLimit, draws);
        }
        return true;
      }
      return false;
    }

    /** `handle_telegram_updates`: `batch` is the `getUpdates` answer (None
        when it is not ok). Returns the offset it polled with. */
    method HandleTelegramUpdates(batch: Option<seq<Incoming>>) returns (offset: Option<int>)
      modifies this, handlers
      ensures offset == Offset(old(lastUpdateId))
      ensures botToken == old(botToken) && chatIds == old(chatIds) && hourlyLimit == old(hourlyLimit)
      ensures schedule == old(schedule) && lastHoursLog == old(lastHoursLog)
      ensures batch.None? || batch.value == [] ==>
                lastUpdateId == old(lastUpdateId) && savedUpdateId == old(savedUpdateId) &&
                handlers.Snapshot() == old(handlers.Snapshot())
      ensures batch.Some? && batch.value != [] ==>
                lastUpdateId == batch.value[|batch.value| - 1].id &&
                savedUpdateId == Some(IntToString(lastUpdateId)) &&
                handlers.Snapshot() == AfterUpdates(old(handlers.Snapshot()), batch.value, chatIds)
    {
      offset := Offset(lastUpdateId);
      if batch.None? || batch.value == [] {
        return;
      }
      lastUpdateId := Dispatch(batch.value);
      savedUpdateId := Some(IntToString(lastUpdateId));
    }

    /** The update loop: every update in order; returns the last id. */
    method Dispatch(us: seq<Incoming>) returns (last: int)
      requires us != []
      modifies handlers
      ensures last == us[|us| - 1].id
      ensures handlers.Snapshot() == AfterUpdates(old(handlers.Snapshot()), us, chatIds)
    {
      last := us[0].id;
      var i := 0;
      while i < |us|
        invariant 0 <= i <= |us|
        invariant i > 0 ==> last == us[i - 1].id
        invariant handlers.Snapshot() == AfterUpdates(old(handlers.Snapshot()), us[..i], chatIds)
      {
        last := us[i].id;
        HandleUpdate(us[i]);
        AfterUpdatesSnoc(old(handlers.Snapshot()), us, i, chatIds);
        i := i + 1;
      }
      assert us[..|us|] == us;
    }

    /** The body of the update loop for one update. */
    method HandleUpdate(u: Incoming)
      modifies handlers
      ensures handlers.Snapshot() == UpdateEffect(old(handlers.Snapshot()), u, chatIds)
    {
      if u.callback.Some? {
        handlers.HandleCallback(u.callback.value.chatId, u.callback.value.data, chatIds);
        return;
      }
      var msg := TextMessage(u);
      if msg.Some? {
        var cmd := Notifier.ExtractCommands(u.update);
        if cmd.Some? {
          var _ := handlers.HandleTextCommandFixed(cmd.value.chatId, cmd.value.cmd, cmd.value.arg, u.decoded);
        } else if msg.value.0 in handlers.loginStates {
          handlers.HandleLoginFlow(msg.value.0, msg.value.1, u.decoded);
        }
      }
    }
  }

  /** `now - last_working_hours_log > 10 minutes`; `datetime.min` is always
      long enough ago. */
  predicate LogDue(last: Option<real>, now: real)
  {
    last.None? || now - last.value > 10.0
  }

  /** The working-hours notice is throttled: right after it is logged it is
      not due, and once due it stays due as time goes on. */
  lemma LogDueThrottles(last: Option<real>, now: real, later: real)
    requires now <= later
    ensures !LogDue(Some(now), now)
    ensures LogDue(last, now) ==> LogDue(last, later)
    ensures LogDue(Some(now), later) <==> later > now + 10.0
  {
  }
}

=== FILE: config.dfy ===
/** Settings read from the environment (or the bot's settings table): the
    comma-separated lists, the login timeouts and the working-hours rules.
    Environment values and the current local time are parameters. */
module Config {
  import opened Wrappers
  import opened PyStr

  // ---------------------------------------------------------------------------
  // Comma-separated lists

  /** The stripped pieces that are not blank, in order. */
  function StrippedNonBlank(pieces: seq<string>): (r: seq<string>)
    ensures |r| <= |pieces|
    ensures forall i :: 0 <= i < |r| ==> r[i] != [] && Strip(r[i]) == r[i]
  {
    if pieces == [] then []
    else
      var p := Strip(pieces[0]);
      var rest := StrippedNonBlank(pieces[1..]);
      if p != [] then [p] + rest else rest
  }

  /** `[x.strip() for x in raw.split(',') if x.strip()]`. */
  function CommaItems(raw: string): (r: seq<string>)
    ensures forall i :: 0 <= i < |r| ==> r[i] != [] && Strip(r[i]) == r[i] && ',' !in r[i]
  {
    SplitPieces(raw, ',');
    NoCharStripped(Split(raw, ','), ',');
    StrippedNonBlank(Split(raw, ','))
  }

  /** A character absent from every piece is absent from every kept piece. */
  lemma {:induction false} NoCharStripped(pieces: seq<string>, c: char)
    requires forall k :: 0 <= k < |pieces| ==> c !in pieces[k]
    ensures forall k :: 0 <= k < |StrippedNonBlank(pieces)| ==> c !in StrippedNonBlank(pieces)[k]
  {
    if pieces != [] {
      StripSlice(pieces[0], c);
      NoCharStripped(pieces[1..], c);
    }
  }

  /** Stripping keeps a slice of the string, so it adds no character. */
  lemma StripSlice(s: string, c: char)
    requires c !in s
    ensures c !in Strip(s)
  {
    var t := s[SpanSpace(s)..];
    var u := t[..|t| - TrailSpace(t)];
    assert forall k :: 0 <= k < |u| ==> u[k] == s[SpanSpace(s) + k];
  }

  /** Pieces that are already stripped and non-blank are all kept. */
  lemma {:induction false} StrippedNonBlankKeeps(items: seq<string>)
    requires forall i :: 0 <= i < |items| ==> items[i] != [] && Strip(items[i]) == items[i]
    ensures StrippedNonBlank(items) == items
  {
    if items != [] {
      StrippedNonBlankKeeps(items[1..]);
      assert items == [items[0]] + items[1..];
    }
  }

  /** Joining stripped, non-blank, comma-free items with commas and parsing
      the result gives the items back. */
  lemma CommaItemsJoin(items: seq<string>)
    requires forall i :: 0 <= i < |items| ==> items[i] != [] && Strip(items[i]) == items[i] && ',' !in items[i]
    ensures CommaItems(Join(",", items)) == items
  {
    if items == [] {
      assert Split("", ',') == [""];
      assert Strip("") == "";
    } else {
      SplitJoin(items, ',');
      StrippedNonBlankKeeps(items);
    }
  }

  /** `get_telegram_settings`: the allowed chat ids from `ALLOWED_CHAT_IDS`
      (default empty). */
  function AllowedChatIds(raw: Option<string>): (r: seq<string>)
    ensures raw.None? ==> r == []
    ensures forall i :: 0 <= i < |r| ==> r[i] != [] && Strip(r[i]) == r[i] && ',' !in r[i]
  {
    var items := CommaItems(raw.GetOr(""));
    assert raw.None? ==> Split("", ',') == [""] && Strip("") == "";
    items
  }

  /** `get_telegram_keywords`: the comma items of `TELEGRAM_KEYWORDS`, lowercased. */
  function Keywords(raw: Option<string>): (r: seq<string>)
    ensures |r| == |CommaItems(raw.GetOr(""))|
    ensures forall i :: 0 <= i < |r| ==> r[i] == Lower(CommaItems(raw.GetOr(""))[i])
  {
    var items := CommaItems(raw.GetOr(""));
    seq(|items|, i requires 0 <= i < |items| => Lower(items[i]))
  }

  /** Keywords are already lower case. */
  lemma KeywordsLower(raw: Option<string>)
    ensures forall i :: 0 <= i < |Keywords(raw)| ==> Lower(Keywords(raw)[i]) == Keywords(raw)[i]
  {
    var ks := Keywords(raw);
    forall i | 0 <= i < |ks|
      ensures Lower(ks[i]) == ks[i]
    {
      LowerIdempotent(CommaItems(raw.GetOr(""))[i]);
    }
  }

  lemma LowerIdempotent(s: string)
    ensures Lower(Lower(s)) == Lower(s)
  {
    forall i | 0 <= i < |s|
      ensures LowerChar(LowerChar(s[i])) == LowerChar(s[i])
    {
      var c := s[i];
      if 'A' <= c <= 'Z' {
        assert 'a' <= LowerChar(c) <= 'z';
      }
    }
  }

  // ---------------------------------------------------------------------------
  // Integers from settings

  /** `int(value)` falling back to `fallback` when the variable is unset or
      does not parse (`get_login_timeouts`). */
  function IntOr(raw: Option<string>, fallback: int): (n: int)
    ensures raw.None? ==> n == fallback
    ensures raw.Some? && ParseInt(raw.value).Some? ==> n == ParseInt(raw.value).value
    ensures raw.Some? && ParseInt(raw.value).None? ==> n == fallback
  {
    match raw
    case None => fallback
    case Some(s) => ParseInt(s).GetOr(fallback)
  }

  /** A value written with `str(n)` is read back as `n`. */
  lemma IntOrRoundTrip(n: int, fallback: int)
    ensures IntOr(Some(IntToString(n)), fallback) == n
  {
    IntToStringRoundTrip(n);
  }

  datatype LoginTimeouts = LoginTimeouts(elementWait: int, postLoginWait: int, manualGrace: int)

  /** `get_login_timeouts`: 30, 60 and 0 seconds unless the variables hold integers. */
  function GetLoginTimeouts(element: Option<string>, postLogin: Option<string>, grace: Option<string>): (t: LoginTimeouts)
    ensures t.elementWait == IntOr(element, 30)
    ensures t.postLoginWait == IntOr(postLogin, 60)
    ensures t.manualGrace == IntOr(grace, 0)
  {
    LoginTimeouts(IntOr(element, 30), IntOr(postLogin, 60), IntOr(grace, 0))
  }

  /** `[int(d.strip()) for d in raw.split(',') if d.strip()]`: None when some
      item is not an integer (the comprehension raises). */
  function ParseIntList(items: seq<string>): (r: Option<seq<int>>)
    ensures r.Some? <==> forall i :: 0 <= i < |items| ==> ParseInt(items[i]).Some?
    ensures r.Some? ==> |r.value| == |items| && forall i :: 0 <= i < |items| ==> ParseInt(items[i]) == Some(r.value[i])
  {
    if items == [] then Some([])
    else
      match ParseInt(items[0])
      case None => None
      case Some(n) =>
        match ParseIntList(items[1..])
        case None => None
        case Some(ns) => Some([n] + ns)
  }

  const DefaultWorkingDays := "0,1,2,3,4"

  /** The working days (0 is Monday) from `BOT_WORKING_DAYS`. */
  function WorkingDays(raw: Option<string>): (r: Option<seq<int>>)
  {
    ParseIntList(CommaItems(raw.GetOr(DefaultWorkingDays)))
  }

  /** A list of days written with commas is read back unchanged. */
  lemma WorkingDaysRoundTrip(days: seq<int>)
    ensures WorkingDays(Some(Join(",", IntStrings(days)))) == Some(days)
  {
    var items := IntStrings(days);
    forall i | 0 <= i < |items|
      ensures items[i] != [] && Strip(items[i]) == items[i] && ',' !in items[i]
      ensures ParseInt(items[i]) == Some(days[i])
    {
      IntToStringShape(days[i]);
      IntToStringRoundTrip(days[i]);
    }
    CommaItemsJoin(items);
    var parsed := ParseIntList(items);
    assert parsed.Some?;
    assert forall i :: 0 <= i < |days| ==> parsed.value[i] == days[i];
    assert parsed.value == days;
    var j := Join(",", items);
    assert Some(j).GetOr(DefaultWorkingDays) == j;
    assert WorkingDays(Some(j)) == ParseIntList(CommaItems(j));
  }

  /** The default is Monday to Friday. */
  lemma DefaultWorkingDaysValue()
    ensures WorkingDays(None) == Some([0, 1, 2, 3, 4])
  {
    assert IntStrings([0, 1, 2, 3, 4]) == ["0", "1", "2", "3", "4"];
    JoinDigits();
    WorkingDaysRoundTrip([0, 1, 2, 3, 4]);
  }

  lemma JoinDigits()
    ensures Join(",", ["0", "1", "2", "3", "4"]) == DefaultWorkingDays
  {
    assert Join(",", ["4"]) == "4";
    assert Join(",", ["3", "4"]) == "3,4";
    assert Join(",", ["2", "3", "4"]) == "2,3,4";
    assert Join(",", ["1", "2", "3", "4"]) == "1,2,3,4";
  }

  function IntStrings(ns: seq<int>): (r: seq<string>)
    ensures |r| == |ns| && forall i :: 0 <= i < |ns| ==> r[i] == IntToString(ns[i])
  {
    seq(|ns|, i requires 0 <= i < |ns| => IntToString(ns[i]))
  }

  /** `str(n)` is non-empty, has no surrounding whitespace and no comma. */
  lemma IntToStringShape(n: int)
    ensures IntToString(n) != [] && Strip(IntToString(n)) == IntToString(n) && ',' !in IntToString(n)
  {
    var m: nat := if n < 0 then -n else n;
    NatToStringRoundTrip(m);
    NoCommaDigits(NatToString(m));
    var s := IntToString(n);
    if n < 0 {
      assert s == "-" + NatToString(m);
      assert s[|s| - 1] == NatToString(m)[|NatToString(m)| - 1];
    }
  }

  lemma {:induction false} NoCommaDigits(ds: string)
    requires AllDigits(ds)
    ensures ',' !in ds
    decreases |ds|
  {
    if ds != [] {
      NoCommaDigits(ds[1..]);
      assert ds == [ds[0]] + ds[1..];
    }
  }

  // ---------------------------------------------------------------------------
  // Working hours

  datatype WorkingHours = WorkingHours(enabled: bool, startHour: int, endHour: int, tzOffset: int, days: seq<int>)

  /** The three values kept in the settings table or the environment:
      enabled flag, start hour and end hour, as text. */
  datatype HourFields = HourFields(enabled: string, start: string, end: string)

  /** Enabled flag and hours from one source; None when an hour is not an integer. */
  function ReadHours(f: HourFields): (r: Option<(bool, int, int)>)
    ensures r.Some? <==> ParseInt(f.start).Some? && ParseInt(f.end).Some?
    ensures r.Some? ==> (r.value.0 <==> Lower(f.enabled) == "true")
  {
    match (ParseInt(f.start), ParseInt(f.end))
    case (Some(a), Some(b)) => Some((Lower(f.enabled) == "true", a, b))
    case _ => None
  }

  /** Enabled flag and hours as `get_working_hours_settings` settles them:
      the settings table is read first when there is one (`table` is None
      when there is no connection or the read fails); a table value that is
      not an integer falls back to the environment, whose bad values raise
      (None). */
  function ResolvedHours(table: Option<HourFields>, env: HourFields): (r: Option<(bool, int, int)>)
    ensures table.Some? && ReadHours(table.value).Some? ==> r == ReadHours(table.value)
    ensures (table.None? || ReadHours(table.value).None?) ==> r == ReadHours(env)
  {
    if table.Some? && ReadHours(table.value).Some? then ReadHours(table.value) else ReadHours(env)
  }

  /** `get_working_hours_settings`; the time-zone offset defaults to 3 hours. */
  function WorkingHoursSettings(table: Option<HourFields>, env: HourFields, tzRaw: Option<string>, daysRaw: Option<string>)
    : (r: Option<WorkingHours>)
    ensures r.Some? <==>
              ResolvedHours(table, env).Some? && ParseInt(tzRaw.GetOr("3")).Some? && WorkingDays(daysRaw).Some?
    ensures r.Some? ==>
              (r.value.enabled, r.value.startHour, r.value.endHour) == ResolvedHours(table, env).value &&
              r.value.tzOffset == ParseInt(tzRaw.GetOr("3")).value &&
              r.value.days == WorkingDays(daysRaw).value
  {
    match (ResolvedHours(table, env), ParseInt(tzRaw.GetOr("3")), WorkingDays(daysRaw))
    case (Some(h), Some(tz), Some(days)) => Some(WorkingHours(h.0, h.1, h.2, tz, days))
    case _ => None
  }

  /** The working-hours rule at a local weekday (0 is Monday) and hour. */
  predicate WithinHours(s: WorkingHours, weekday: int, hour: int)
  {
    !s.enabled || (weekday in s.days && s.startHour <= hour < s.endHour)
  }

  /** When enabled, a time is inside the working hours exactly on a working
      day within the hour range; when disabled, every time is. */
  lemma WorkingHoursRule(s: WorkingHours, weekday: int, hour: int)
    ensures !s.enabled ==> WithinHours(s, weekday, hour)
    ensures s.enabled && weekday !in s.days ==> !WithinHours(s, weekday, hour)
    ensures s.enabled && weekday in s.days ==> (WithinHours(s, weekday, hour) <==> s.startHour <= hour < s.endHour)
  {
  }

  /** `timezone(timedelta(hours=offset))` accepts only offsets strictly
      between -24 and 24 hours. */
  predicate OffsetOk(s: WorkingHours)
  {
    -24 < s.tzOffset < 24
  }

  /** `is_within_working_hours` at a local weekday and hour. None when it
      raises: working hours are enabled and the offset is 24 hours or more
      either way. */
  function IsWithinWorkingHours(s: WorkingHours, weekday: int, hour: int): (r: Option<bool>)
    ensures r.None? <==> s.enabled && !OffsetOk(s)
    ensures r.Some? ==> (r.value <==> WithinHours(s, weekday, hour))
    ensures !s.enabled ==> r == Some(true)
  {
    if !s.enabled then Some(true)
    else if !OffsetOk(s) then None
    else Some(weekday in s.days && s.startHour <= hour < s.endHour)
  }

  const DayNames: seq<string> := ["Monday", "Tuesday", "Wednesday", "Thursday", "Friday", "Saturday", "Sunday"]

  /** Python list indexing of the day names: negative indices count from the end. */
  function DayName(d: int): (r: Option<string>)
    ensures r.Some? <==> -7 <= d < 7
    ensures 0 <= d < 7 ==> r == Some(DayNames[d])
    ensures -7 <= d < 0 ==> r == Some(DayNames[7 + d])
  {
    if 0 <= d < 7 then Some(DayNames[d])
    else if -7 <= d < 0 then Some(DayNames[7 + d])
    else None
  }

  /** `f"{n:02d}"`. */
  function Pad2(n: int): (r: string)
    ensures 0 <= n < 100 ==> |r| == 2
  {
    assert 10 <= n < 100 ==> |NatToString(n / 10)| == 1;
    if 0 <= n < 10 then "0" + IntToString(n) else IntToString(n)
  }

  /** A zero-padded hour reads back as the hour. */
  lemma Pad2RoundTrip(n: int)
    ensures ParseInt(Pad2(n)) == Some(n)
  {
    IntToStringRoundTrip(n);
    if 0 <= n < 10 {
      var d := IntToString(n);
      assert d == [DigitChar(n)];
      var s := Pad2(n);
      assert s == ['0', DigitChar(n)];
      assert Strip(s) == s;
      assert s[1..] == d;
      ParseDigitsAll(0, d);
    }
  }

  const DisabledText := "Working hours disabled - bot runs 24/7"

  /** The names of all working days; None when some day is out of range. */
  function DayNamesOf(days: seq<int>): (r: Option<seq<string>>)
    ensures r.Some? <==> forall i :: 0 <= i < |days| ==> -7 <= days[i] < 7
    ensures r.Some? ==> |r.value| == |days| && forall i :: 0 <= i < |days| ==> DayName(days[i]) == Some(r.value[i])
  {
    if days == [] then Some([])
    else
      match (DayName(days[0]), DayNamesOf(days[1..]))
      case (Some(n), Some(ns)) => Some([n] + ns)
      case _ => None
  }

  /** `get_next_working_time` at a local weekday and hour. None when it raises:
      an offset of 24 hours or more, an end hour outside 0..23 while inside
      the hours, or an empty or out-of-range list of working days otherwise. */
  function NextWorkingTime(s: WorkingHours, weekday: int, hour: int): (r: Option<string>)
    ensures !s.enabled ==> r == Some(DisabledText)
    ensures s.enabled && !OffsetOk(s) ==> r.None?
    ensures s.enabled && OffsetOk(s) && WithinHours(s, weekday, hour) ==>
              (r.Some? <==> 0 <= s.endHour <= 23) &&
              (r.Some? ==> r.value == "Active until " + Pad2(s.endHour) + ":00 GMT+" + IntToString(s.tzOffset))
    ensures s.enabled && OffsetOk(s) && !WithinHours(s, weekday, hour) ==>
              (r.Some? <==> s.days != [] && forall i :: 0 <= i < |s.days| ==> -7 <= s.days[i] < 7)
    ensures s.enabled && OffsetOk(s) && !WithinHours(s, weekday, hour) && r.Some? ==>
              r.value == "Next active: " + DayName(s.days[0]).value + "-" + DayName(s.days[|s.days| - 1]).value +
                         " " + Pad2(s.startHour) + ":00-" + Pad2(s.endHour) + ":00 GMT+" + IntToString(s.tzOffset)
  {
    if !s.enabled then Some(DisabledText)
    else if !OffsetOk(s) then None
    else if WithinHours(s, weekday, hour) then
      if 0 <= s.endHour <= 23 then Some("Active until " + Pad2(s.endHour) + ":00 GMT+" + IntToString(s.tzOffset))
      else None
    else
      match DayNamesOf(s.days)
      case Some(names) =>
        if names == [] then None
        else
          Some("Next active: " + names[0] + "-" + names[|names| - 1] +
               " " + Pad2(s.startHour) + ":00-" + Pad2(s.endHour) + ":00 GMT+" + IntToString(s.tzOffset))
      case None => None
  }

}

=== FILE: cookies.dfy ===
/** `_sanitize_cookie`: the cleaning applied to every cookie before it is
    handed to the browser. A cookie is a JSON object, modelled as a map from
    keys to JSON values. */
module Cookies {
  import opened Wrappers
  import PyStr

  /** A decoded JSON value. */
  datatype Json =
    | Null
    | Bool(b: bool)
    | Int(i: int)
    | Real(r: real)
    | Str(s: string)
    | Array(items: seq<Json>)
    | Object(fields: map<string, Json>)

  type Cookie = map<string, Json>

  /** The keys the browser accepts on a cookie. */
  const AllowedKeys: set<string> := {"name", "value", "domain", "path", "expiry", "secure", "httpOnly"}

  const DefaultPath := Str("/")

  /** Python's `int(x)` truncates a float toward zero. */
  function Truncate(x: real): (n: int)
    ensures x >= 0.0 ==> n as real <= x < n as real + 1.0
    ensures x < 0.0 ==> n as real - 1.0 < x <= n as real
  {
    if x >= 0.0 then x.Floor else -((-x).Floor)
  }

  /** Python's `int(v)` on a JSON value: booleans are 0 or 1, floats are
      truncated, strings are parsed; `None`, lists and dicts raise (None). */
  function IntOf(v: Json): Option<int>
  {
    match v
    case Int(i) => Some(i)
    case Bool(b) => Some(if b then 1 else 0)
    case Real(x) => Some(Truncate(x))
    case Str(s) => PyStr.ParseInt(s)
    case _ => None
  }

  /** Whether the cookie keeps its expiry after sanitising. */
  predicate ExpiryKept(c: Cookie)
  {
    "expiry" in c && IntOf(c["expiry"]).Some?
  }

  /** Keep the allowed keys; make `expiry` an int or drop it; default `path` to `/`. */
  function SanitizeCookie(c: Cookie): (r: Cookie)
    ensures r.Keys <= AllowedKeys
    ensures forall k :: k in r <==> (k in c && k in AllowedKeys && k != "expiry") || k == "path" || (k == "expiry" && ExpiryKept(c))
    ensures forall k :: k in r && k != "expiry" && k != "path" ==> k in c && r[k] == c[k]
    ensures r["path"] == if "path" in c then c["path"] else DefaultPath
    ensures ExpiryKept(c) ==> r["expiry"] == Int(IntOf(c["expiry"]).value)
  {
    var clean := map k | k in c.Keys && k in AllowedKeys :: c[k];
    var typed :=
      if "expiry" !in clean then clean
      else match IntOf(clean["expiry"])
        case Some(n) => clean["expiry" := Int(n)]
        case None => clean - {"expiry"};
    if "path" in typed then typed else typed["path" := DefaultPath]
  }

  /** The shape of a sanitised cookie: only allowed keys, a path, and an
      integer expiry if any. */
  predicate Clean(c: Cookie)
  {
    c.Keys <= AllowedKeys && "path" in c && ("expiry" in c ==> c["expiry"].Int?)
  }

  /** Every sanitised cookie is clean. */
  lemma SanitizeClean(c: Cookie)
    ensures Clean(SanitizeCookie(c))
  {
  }

  /** A cookie is left unchanged by sanitising exactly when it is clean. */
  lemma SanitizeFixedPoint(c: Cookie)
    ensures SanitizeCookie(c) == c <==> Clean(c)
  {
    var r := SanitizeCookie(c);
    if Clean(c) {
      assert forall k :: k in r <==> k in c;
      assert forall k :: k in r ==> r[k] == c[k];
    }
  }

  /** Sanitising is idempotent. */
  lemma SanitizeIdempotent(c: Cookie)
    ensures SanitizeCookie(SanitizeCookie(c)) == SanitizeCookie(c)
  {
    SanitizeClean(c);
    SanitizeFixedPoint(SanitizeCookie(c));
  }
}

=== FILE: extract.dfy ===
/** Turning a captured post's markup into a post record: author picture and
    name, the post text through its ordered fallbacks, the content
    fingerprint, the post image, and the test that decides whether the record
    is returned at all. What BeautifulSoup's selectors find is an input. */
module Extract {
  import opened Wrappers
  import opened PyStr
  import opened Fingerprint

  /** A selected tag: its name and attributes. */
  datatype Tag = Tag(name: string, attrs: map<string, string>)

  /** A direct child of the story-message container: whether it holds a
      `button` or `a` with `role=button`, and its `get_text(' ', strip=True)`. */
  datatype Child = Child(hasRoleButton: bool, text: string)

  /** The story-message container: its direct element children and its own
      `get_text(' ', strip=True)`. */
  datatype TextBlock = TextBlock(children: seq<Child>, text: string)

  /** What the selectors return on the post's markup. A selector that finds
      nothing, or whose read raises, is None; `textRaises` says that reading
      the text container or the generic text `div` raised. */
  datatype Markup = Markup(
    authorPic: Option<Tag>,
    authorName: Option<string>,
    textContainer: Option<TextBlock>,
    genericText: Option<string>,
    textRaises: bool,
    image: Option<Tag>)

  /** The record a worker returns. `postedAt` stays None: timestamp parsing
      is disabled in the source. */
  datatype PostRecord = PostRecord(
    facebookPostId: Option<string>,
    postUrl: Option<string>,
    contentText: string,
    postedAt: Option<string>,
    scrapedAt: string,
    authorName: Option<string>,
    authorPicUrl: Option<string>,
    imageUrl: Option<string>,
    contentHash: string)

  /** The placeholder for missing text. */
  const NA := "N/A"

  /** Python truthiness of an optional string. */
  predicate Truthy(s: Option<string>) { s.Some? && s.value != [] }

  /** `scrape_all_fields or name in fields_to_scrape`: None and the empty
      list both mean every field. */
  predicate Wanted(fields: Option<seq<string>>, name: string)
  {
    fields.None? || fields.value == [] || name in fields.value
  }

  /** The author picture: `xlink:href` of an `image`, or `src` of an `img`. */
  function AuthorPicUrl(t: Option<Tag>): (r: Option<string>)
    ensures r.Some? ==>
              t.Some? &&
              ((t.value.name == "image" && "xlink:href" in t.value.attrs && r.value == t.value.attrs["xlink:href"]) ||
               (t.value.name == "img" && "src" in t.value.attrs && r.value == t.value.attrs["src"]))
    ensures t.Some? && t.value.name == "image" && "xlink:href" in t.value.attrs ==> r.Some?
    ensures t.Some? && t.value.name == "img" && "src" in t.value.attrs ==> r.Some?
  {
    match t
    case None => None
    case Some(Tag(name, attrs)) =>
      if name == "image" && "xlink:href" in attrs then Some(attrs["xlink:href"])
      else if name == "img" && "src" in attrs then Some(attrs["src"])
      else None
  }

  /** The texts of the children without a role=button control, empty ones dropped, in order. */
  function KeptParts(children: seq<Child>): (r: seq<string>)
    ensures |r| <= |children|
    ensures forall i :: 0 <= i < |r| ==> r[i] != []
  {
    if children == [] then []
    else
      var rest := KeptParts(children[1..]);
      if !children[0].hasRoleButton && children[0].text != [] then [children[0].text] + rest else rest
  }

  /** A child kept by the filter contributes its text; a part always comes
      from a kept child. */
  lemma {:induction false} KeptPartsMembers(children: seq<Child>, t: string)
    ensures t in KeptParts(children) <==>
            Child(false, t) in children && t != []
  {
    if children != [] {
      KeptPartsMembers(children[1..], t);
      assert children == [children[0]] + children[1..];
    }
  }

  /** When no child carries a role=button control and none is empty, every
      child's text is kept, in order. */
  lemma {:induction false} KeptPartsAll(children: seq<Child>)
    requires forall i :: 0 <= i < |children| ==> !children[i].hasRoleButton && children[i].text != []
    ensures KeptParts(children) == seq(|children|, i requires 0 <= i < |children| => children[i].text)
  {
    if children != [] {
      KeptPartsAll(children[1..]);
    }
  }

  /** First level of the text fallbacks: the kept parts joined by line feeds,
      else the container's own text, else the placeholder. */
  function PrimaryText(container: Option<TextBlock>): string
  {
    match container
    case None => NA
    case Some(c) =>
      var parts := KeptParts(c.children);
      if parts != [] then Join("\n", parts) else c.text
  }

  /** The text before the final blank check: the generic text `div` replaces
      an empty or placeholder primary text when it exists. */
  function AssembledText(m: Markup): string
  {
    var t := PrimaryText(m.textContainer);
    if (t == [] || t == NA) && m.genericText.Some? then m.genericText.value else t
  }

  /** `content_text`: the assembled text when it is not blank, else the
      placeholder; the placeholder also when reading raised. */
  function ContentText(m: Markup): (r: string)
    ensures r != []
    ensures r == NA || Strip(r) != []
    ensures r == NA || r == PrimaryText(m.textContainer) || (m.genericText.Some? && r == m.genericText.value)
    ensures m.textRaises ==> r == NA
  {
    if m.textRaises then NA
    else
      var t := AssembledText(m);
      if t != [] && Strip(t) != [] then t else NA
  }

  /** The container's text wins over the generic `div` whenever it is
      neither empty, the placeholder nor blank. */
  lemma ContainerTextWins(m: Markup)
    requires !m.textRaises
    requires var p := PrimaryText(m.textContainer); p != [] && p != NA && Strip(p) != []
    ensures ContentText(m) == PrimaryText(m.textContainer)
  {
  }

  /** The generic `div` is used exactly when the primary text is empty or the placeholder. */
  lemma GenericTextFallback(m: Markup)
    requires !m.textRaises && m.genericText.Some?
    ensures var p := PrimaryText(m.textContainer);
      (p == [] || p == NA) ==> ContentText(m) == (if Strip(m.genericText.value) != [] then m.genericText.value else NA)
    ensures var p := PrimaryText(m.textContainer);
      (p != [] && p != NA) ==> ContentText(m) == (if Strip(p) != [] then p else NA)
  {
    var g := m.genericText.value;
    if g == [] {
      assert Strip(g) == [];
    }
  }

  // ---------------------------------------------------------------------------
  // Post image

  /** Number of leading characters that are neither `"` nor `)`. */
  function SpanUrlChars(s: string): (n: nat)
    ensures n <= |s|
    ensures n < |s| ==> s[n] == '"' || s[n] == ')'
    ensures forall i :: 0 <= i < n ==> s[i] != '"' && s[i] != ')'
  {
    if s == [] || s[0] == '"' || s[0] == ')' then 0 else SpanUrlChars(s[1..]) + 1
  }

  /** `([^")]*)"?\)` matched at the start of `t`: the group is the longest
      run without `"` or `)`, followed by `)` or by `")`. */
  function GroupClose(t: string): (r: Option<string>)
    ensures r.Some? ==> StartsWith(t, r.value) && '"' !in r.value && ')' !in r.value
  {
    var n := SpanUrlChars(t);
    if n < |t| && t[n] == ')' then Some(t[..n])
    else if n + 1 < |t| && t[n] == '"' && t[n + 1] == ')' then Some(t[..n])
    else None
  }

  /** What follows `url(`: the optional opening quote is tried taken first,
      then left out. */
  function UrlBody(r: string): Option<string>
  {
    if r != [] && r[0] == '"' then
      match GroupClose(r[1..])
      case Some(g) => Some(g)
      case None => GroupClose(r)
    else GroupClose(r)
  }

  const BackgroundImage := "background-image:"

  /** `background-image:\s*url\("?([^")]*)"?\)` matched at the start of `s`. */
  function ImageUrlAt(s: string): Option<string>
  {
    if !StartsWith(s, BackgroundImage) then None
    else
      var r0 := s[|BackgroundImage|..];
      var r1 := r0[SpanSpace(r0)..];
      if !StartsWith(r1, "url(") then None
      else UrlBody(r1[4..])
  }

  /** `re.search(...)`: the match at the leftmost position where one exists. */
  function BackgroundImageUrl(style: string): (r: Option<string>)
    ensures r.Some? ==> '"' !in r.value && ')' !in r.value
    decreases |style|
  {
    if style == [] then None
    else
      match ImageUrlAt(style)
      case Some(g) =>
        assert g == UrlBody(style[|BackgroundImage|..][SpanSpace(style[|BackgroundImage|..])..][4..]).value;
        Some(g)
      case None => BackgroundImageUrl(style[1..])
  }

  /** The post image: `src` of an `img`, or the URL in a `div`'s background-image style. */
  function ImageUrl(t: Option<Tag>): (r: Option<string>)
    ensures t.Some? && t.value.name == "img" && "src" in t.value.attrs ==> r == Some(t.value.attrs["src"])
    ensures t.Some? && t.value.name == "div" && "style" in t.value.attrs ==> r == BackgroundImageUrl(t.value.attrs["style"])
    ensures r.Some? ==> t.Some? && (t.value.name == "img" || t.value.name == "div")
  {
    match t
    case None => None
    case Some(Tag(name, attrs)) =>
      if name == "img" && "src" in attrs then Some(attrs["src"])
      else if name == "div" && "style" in attrs then BackgroundImageUrl(attrs["style"])
      else None
  }

  /** A quoted URL in a background-image declaration is found again. */
  lemma BackgroundImageQuoted(url: string)
    requires '"' !in url && ')' !in url
    ensures BackgroundImageUrl(BackgroundImage + " url(\"" + url + "\")") == Some(url)
  {
    var s := BackgroundImage + " url(\"" + url + "\")";
    var body := url + "\")";
    DeclarationParts(url);
    assert s[|BackgroundImage|..] == " url(\"" + body;
    UrlBodyQuoted(url);
  }

  lemma DeclarationParts(url: string)
    ensures var s := BackgroundImage + " url(\"" + url + "\")";
      StartsWith(s, BackgroundImage) && s != [] &&
      s[|BackgroundImage|..] == " url(\"" + (url + "\")")
  {
    var s := BackgroundImage + " url(\"" + url + "\")";
    assert s[..|BackgroundImage|] == BackgroundImage;
  }

  lemma UrlBodyQuoted(url: string)
    requires '"' !in url && ')' !in url
    ensures var r0 := " url(\"" + (url + "\")");
      r0[SpanSpace(r0)..] == "url(\"" + (url + "\")") &&
      StartsWith(r0[SpanSpace(r0)..], "url(") &&
      r0[SpanSpace(r0)..][4..] == "\"" + (url + "\")") &&
      UrlBody("\"" + (url + "\")")) == Some(url)
  {
    var t := url + "\")";
    SpacedUrlOpen(t);
    UrlBodyOfQuoted(url);
  }

  /** ` url("` followed by `t`: one space is skipped, `url(` follows and
      then `"` and `t`. */
  lemma SpacedUrlOpen(t: string)
    ensures var r0 := " url(\"" + t;
      r0[SpanSpace(r0)..] == "url(\"" + t &&
      StartsWith(r0[SpanSpace(r0)..], "url(") &&
      r0[SpanSpace(r0)..][4..] == "\"" + t
  {
    var r0 := " url(\"" + t;
    assert r0[0] == ' ' && r0[1] == 'u';
    assert SpanSpace(r0[1..]) == 0;
    assert SpanSpace(r0) == 1;
    assert r0[1..] == "url(\"" + t;
    var r1 := "url(\"" + t;
    assert r1[..4] == "url(";
    assert r1[4..] == "\"" + t;
  }

  lemma UrlBodyOfQuoted(url: string)
    requires '"' !in url && ')' !in url
    ensures UrlBody("\"" + (url + "\")")) == Some(url)
  {
    var t := url + "\")";
    SpanUrlCharsAt(url, "\")");
    assert t[|url|] == '"' && t[|url| + 1] == ')';
    assert t[..|url|] == url;
    assert GroupClose(t) == Some(url);
    assert ("\"" + t)[1..] == t;
  }

  lemma SpanUrlCharsAt(u: string, rest: string)
    requires '"' !in u && ')' !in u
    requires rest != [] && (rest[0] == '"' || rest[0] == ')')
    ensures SpanUrlChars(u + rest) == |u|
  {
    assert (u + rest)[|u|] == rest[0];
    assert forall i :: 0 <= i < |u| ==> (u + rest)[i] == u[i];
  }

  // ---------------------------------------------------------------------------
  // The record

  /** The accepting test: a URL or an ID, and text, a timestamp or an author. */
  predicate Acceptable(url: Option<string>, id: Option<string>, content: string,
                       postedAt: Option<string>, author: Option<string>)
  {
    (Truthy(url) || Truthy(id)) && (content != NA || postedAt.Some? || author.Some?)
  }

  /** `_extract_data_from_post_html`, with the clock reading `now` and MD5 supplied. */
  function ExtractPost(m: Markup, url: Option<string>, id: Option<string>, fields: Option<seq<string>>,
                       now: string, md5: string -> string): (r: Option<PostRecord>)
    ensures var content := if Wanted(fields, "content_text") then ContentText(m) else NA;
            var author := if Wanted(fields, "post_author_name") then m.authorName else None;
      (r.Some? <==> (Truthy(url) || Truthy(id)) && (content != NA || author.Some?)) &&
      (r.Some? ==> r.value.contentText == content && r.value.authorName == author)
    ensures r.Some? ==>
      r.value.postUrl == url && r.value.facebookPostId == id && r.value.scrapedAt == now &&
      r.value.postedAt.None? &&
      r.value.contentHash == ContentHash(md5, r.value.contentText) &&
      (r.value.contentText == NA || Strip(r.value.contentText) != [])
    ensures r.Some? ==>
      (r.value.authorPicUrl.Some? ==> Wanted(fields, "post_author_profile_pic_url")) &&
      (r.value.imageUrl.Some? ==> Wanted(fields, "post_image_url"))
  {
    var pic := if Wanted(fields, "post_author_profile_pic_url") then AuthorPicUrl(m.authorPic) else None;
    var author := if Wanted(fields, "post_author_name") then m.authorName else None;
    var content := if Wanted(fields, "content_text") then ContentText(m) else NA;
    var hash := md5(Normalize(content));
    var image := if Wanted(fields, "post_image_url") then ImageUrl(m.image) else None;
    var postedAt: Option<string> := None;
    if Acceptable(url, id, content, postedAt, author) then
      Some(PostRecord(id, url, content, postedAt, now, author, pic, image, hash))
    else None
  }

  /** Two captures of one post whose texts differ only in whitespace get the
      same fingerprint. */
  lemma FingerprintIgnoresLayout(m1: Markup, m2: Markup, url: Option<string>, id: Option<string>,
                                 fields: Option<seq<string>>, now1: string, now2: string,
                                 md5: string -> string)
    requires ExtractPost(m1, url, id, fields, now1, md5).Some?
    requires ExtractPost(m2, url, id, fields, now2, md5).Some?
    requires Words(ExtractPost(m1, url, id, fields, now1, md5).value.contentText)
             == Words(ExtractPost(m2, url, id, fields, now2, md5).value.contentText)
    ensures ExtractPost(m1, url, id, fields, now1, md5).value.contentHash
            == ExtractPost(m2, url, id, fields, now2, md5).value.contentHash
  {
    NormalizeEqualIff(md5, ExtractPost(m1, url, id, fields, now1, md5).value.contentText,
                      ExtractPost(m2, url, id, fields, now2, md5).value.contentText);
  }
}

=== FILE: fingerprint.dfy ===
/** The content fingerprint of a scraped post: the text is normalised by
    `' '.join(text.split())` and the normalised text is hashed with MD5.
    MD5 itself is a library routine and is a parameter of the model. */
module Fingerprint {
  import opened PyStr

  /** `' '.join(text.split())`. */
  function Normalize(text: string): string
  {
    Join(" ", Words(text))
  }

  /** `hashlib.md5(normalized.encode()).hexdigest()` of the normalised text. */
  function ContentHash(md5: string -> string, text: string): string
  {
    md5(Normalize(text))
  }

  /** A canonical text: whitespace-free words separated by exactly one `' '`,
      with nothing before the first word or after the last. */
  predicate Canonical(s: string)
    decreases |s|
  {
    s == [] ||
    (var j := SpanWord(s);
     0 < j && (j == |s| || (s[j] == ' ' && j + 1 < |s| && Canonical(s[j + 1..]))))
  }

  /** A whitespace-free string has no whitespace at any index. */
  lemma {:induction false} NoSpaceAt(w: string, i: nat)
    requires NoSpace(w) && i < |w|
    ensures !IsSpace(w[i])
    decreases i
  {
    if i > 0 {
      NoSpaceAt(w[1..], i - 1);
    }
  }

  lemma JoinNonEmpty(ws: seq<string>)
    requires ws != [] && ws[0] != []
    ensures Join(" ", ws) != [] && Join(" ", ws)[0] == ws[0][0]
  {
  }

  /** Joining whitespace-free words with single spaces gives a canonical text. */
  lemma {:induction false} JoinCanonical(ws: seq<string>)
    requires forall k :: 0 <= k < |ws| ==> ws[k] != [] && NoSpace(ws[k])
    ensures Canonical(Join(" ", ws))
  {
    if |ws| == 1 {
    } else if |ws| > 1 {
      var rest := Join(" ", ws[1..]);
      var s := Join(" ", ws);
      assert s == ws[0] + (" " + rest);
      SpanWordAppend(ws[0], " " + rest);
      assert SpanWord(s) == |ws[0]|;
      JoinNonEmpty(ws[1..]);
      assert s[|ws[0]| + 1..] == rest;
      JoinCanonical(ws[1..]);
    }
  }

  /** Joining behind a first word adds one separating space. */
  lemma JoinCons(w: string, ws: seq<string>)
    requires ws != []
    ensures Join(" ", [w] + ws) == w + " " + Join(" ", ws)
  {
    assert ([w] + ws)[1..] == ws;
  }

  /** The words of a first word followed by a space and a tail. */
  lemma WordsWordSpace(w: string, t: string)
    requires w != [] && NoSpace(w)
    ensures Words(w + " " + t) == [w] + Words(t)
  {
    assert w + " " + t == w + (" " + t);
    WordsWordPrefix(w, " " + t);
    assert AllSpace(" ");
    WordsSpacePrefix(" ", t);
  }

  /** A canonical text is its own normal form. */
  lemma {:induction false} CanonicalFixed(s: string)
    requires Canonical(s)
    ensures Normalize(s) == s
    decreases |s|
  {
    if s != [] {
      var j := SpanWord(s);
      var w := s[..j];
      SpanWordPrefix(s);
      if j == |s| {
        assert w == s && s + [] == s;
        WordsWordPrefix(s, []);
      } else {
        var t := s[j + 1..];
        assert s == w + " " + t;
        WordsWordSpace(w, t);
        CanonicalFixed(t);
        JoinCons(w, Words(t));
      }
    } else {
      assert Words(s) == WordsFrom(s) == [];
    }
  }

  /** The normal form is canonical. */
  lemma NormalizeCanonical(text: string)
    ensures Canonical(Normalize(text))
  {
    WordsShape(text);
    JoinCanonical(Words(text));
  }

  /** A text is left unchanged by normalisation exactly when it is canonical. */
  lemma NormalizeFixedPoint(s: string)
    ensures Normalize(s) == s <==> Canonical(s)
  {
    NormalizeCanonical(s);
    if Canonical(s) {
      CanonicalFixed(s);
    }
  }

  /** Normalising twice is normalising once. */
  lemma NormalizeIdempotent(text: string)
    ensures Normalize(Normalize(text)) == Normalize(text)
  {
    NormalizeCanonical(text);
    CanonicalFixed(Normalize(text));
  }

  /** Normalisation keeps the words of the text. */
  lemma NormalizeWords(text: string)
    ensures Words(Normalize(text)) == Words(text)
  {
    WordsShape(text);
    WordsJoin(Words(text));
  }

  /** The shape of a canonical text, index by index: it neither starts nor ends
      with whitespace, and its only whitespace characters are single `' '`
      characters between two non-whitespace characters. */
  lemma {:induction false} CanonicalShape(s: string)
    requires Canonical(s)
    ensures s != [] ==> !IsSpace(s[0]) && !IsSpace(s[|s| - 1])
    ensures forall i :: 0 <= i < |s| && IsSpace(s[i]) ==>
              s[i] == ' ' && 0 < i < |s| - 1 && !IsSpace(s[i - 1]) && !IsSpace(s[i + 1])
    decreases |s|
  {
    if s != [] {
      var j := SpanWord(s);
      SpanWordPrefix(s);
      var w := s[..j];
      forall i | 0 <= i < j
        ensures !IsSpace(s[i])
      {
        NoSpaceAt(w, i);
      }
      if j < |s| {
        var t := s[j + 1..];
        CanonicalShape(t);
        forall i | j < i < |s|
          ensures s[i] == t[i - j - 1]
        {
        }
      }
    }
  }

  /** The normal form has no leading, trailing or doubled whitespace. */
  lemma NormalizeShape(text: string)
    ensures var r := Normalize(text);
      (r != [] ==> !IsSpace(r[0]) && !IsSpace(r[|r| - 1])) &&
      forall i :: 0 <= i < |r| && IsSpace(r[i]) ==>
        r[i] == ' ' && 0 < i < |r| - 1 && !IsSpace(r[i - 1]) && !IsSpace(r[i + 1])
  {
    NormalizeCanonical(text);
    CanonicalShape(Normalize(text));
  }

  /** A run of whitespace inside the text counts as a single space. */
  lemma NormalizeWhitespaceRun(a: string, w: string, b: string)
    requires w != [] && AllSpace(w)
    ensures Normalize(a + w + b) == Normalize(a + " " + b)
  {
    WordsCollapse(a, w, b);
  }

  /** Leading and trailing whitespace are ignored. */
  lemma NormalizeOuterSpace(lead: string, text: string, trail: string)
    requires AllSpace(lead) && AllSpace(trail)
    ensures Normalize(lead + text + trail) == Normalize(text)
  {
    assert lead + text + trail == lead + (text + trail);
    WordsSpacePrefix(lead, text + trail);
    WordsSpaceSuffix(text, trail);
  }

  /** Two texts have equal normal forms exactly when they have the same words;
      with a collision-free digest, equal fingerprints mean the same too. */
  lemma NormalizeEqualIff(md5: string -> string, s: string, t: string)
    ensures Normalize(s) == Normalize(t) <==> Words(s) == Words(t)
    ensures (forall x, y :: md5(x) == md5(y) ==> x == y) ==>
              (ContentHash(md5, s) == ContentHash(md5, t) <==> Words(s) == Words(t))
  {
    NormalizeWords(s);
    NormalizeWords(t);
  }
}

=== FILE: harvest.dfy ===
/** `scrape_authenticated_group`: scroll the group feed, submit each new post
    candidate's captured markup to a worker, collect the workers' records
    until `num_posts` are collected or the stored cursor's fingerprint shows
    up, and hand the records out newest-last.

    The browser and the thread pool are inputs: the feed is a sequence of
    scroll snapshots (what `find_elements` returns after each scroll), each
    item already probed; the schedule says which submitted workers have
    finished when a scroll's results are collected, and in which order the
    remaining ones finish during the final 30-second wait. */
module Harvest {
  import opened Wrappers
  import opened PyStr
  import Permalink
  import opened Extract
  import Storage

  // ---------------------------------------------------------------------------
  // Inputs

  /** What `post_element.get_attribute('outerHTML')` gives: markup, an empty
      value, or an exception (the element went stale). */
  datatype Capture = Captured(markup: Markup) | NoMarkup | CaptureFails

  /** One element of a snapshot: the probe `_get_post_identifiers_from_element`
      sees, the fresh hex it would draw for a generated id, what reading its
      markup gives, and the worker's clock. */
  datatype FeedItem = FeedItem(probe: Permalink.Probe, hex: string, html: Capture, now: string)

  /** Everything the harvest reads besides the schedule. */
  datatype Env = Env(
    feed: seq<seq<FeedItem>>,
    cursor: Option<string>,
    num: int,
    fields: Option<seq<string>>,
    lib: Permalink.Lib,
    md5: string -> string)

  /** `doneAt[s]`: the submissions finished when scroll `s + 1` collects
      results; `finalOrder`: the order in which `as_completed` yields the
      submissions during the final 30-second wait (a submission missing from
      it did not finish in time). Submissions are numbered from 0 in the
      order they were made. */
  datatype Schedule = Schedule(doneAt: seq<set<nat>>, finalOrder: seq<nat>)

  const MaxScrollAttempts := 50
  const MaxConsecutiveNoPosts := 3

  /** The elements found after scroll `s + 1`; past the end of the input the
      feed is empty. */
  function Snapshot(feed: seq<seq<FeedItem>>, s: nat): seq<FeedItem>
  {
    if s < |feed| then feed[s] else []
  }

  function DoneAt(sch: Schedule, s: nat): set<nat>
  {
    if s < |sch.doneAt| then sch.doneAt[s] else {}
  }

  /** The number of elements found after scroll `s` (none before the first). */
  function Count(feed: seq<seq<FeedItem>>, s: nat): nat
  {
    if s == 0 then 0 else |Snapshot(feed, s - 1)|
  }

  /** How many scrolls in a row, ending with scroll `s`, found no more
      elements than the scroll before. */
  function Stalls(feed: seq<seq<FeedItem>>, s: nat): nat
  {
    if s == 0 then 0
    else if Count(feed, s) > Count(feed, s - 1) then 0
    else Stalls(feed, s - 1) + 1
  }

  /** Scroll `s` is the third in a row that found no new elements, which
      ends the scroll loop. */
  predicate Stalled(feed: seq<seq<FeedItem>>, s: nat)
  {
    Stalls(feed, s) >= MaxConsecutiveNoPosts
  }

  /** The worker's result for an element: `_extract_data_from_post_html` on
      its markup with the identifiers the probe found; nothing is submitted
      for an element without markup. */
  function Worker(e: FeedItem, env: Env): (r: Option<PostRecord>)
    ensures !e.html.Captured? ==> r.None?
    ensures e.html.Captured? ==>
              var ident := Permalink.Identify(e.probe, env.lib, e.hex);
              r == ExtractPost(e.html.markup, ident.url, ident.id, env.fields, e.now, env.md5)
  {
    var ident := Permalink.Identify(e.probe, env.lib, e.hex);
    match e.html
    case Captured(m) => ExtractPost(m, ident.url, ident.id, env.fields, e.now, env.md5)
    case _ => None
  }

  // ---------------------------------------------------------------------------
  // The collection rule

  function Cap(num: int): nat
  {
    if num < 0 then 0 else num
  }

  /** The dedup gate: a truthy cursor equal to the record's fingerprint. */
  predicate HitsCursor(r: PostRecord, cursor: Option<string>)
  {
    cursor.Some? && cursor.value != "" && r.contentHash == cursor.value
  }

  datatype Drained = Drained(collected: seq<PostRecord>, stopped: bool)

  /** What the drain loops make of the worker results they take, in order:
      a falsy result is dropped, the first result carrying the cursor's
      fingerprint stops collection, and collection also stops once `cap`
      records are in. */
  function Drain(rs: seq<Option<PostRecord>>, cursor: Option<string>, cap: nat): (d: Drained)
    ensures |d.collected| <= cap
    ensures !d.stopped ==> |d.collected| < cap
    decreases |rs|
  {
    if rs == [] then Drained([], cap == 0)
    else
      var d := Drain(rs[..|rs| - 1], cursor, cap);
      var r := rs[|rs| - 1];
      if d.stopped || r.None? then d
      else if HitsCursor(r.value, cursor) then Drained(d.collected, true)
      else Drained(d.collected + [r.value], |d.collected| + 1 >= cap)
  }

  /** Collection stopped on the cursor rather than on the cap. */
  predicate StoppedOnCursor(d: Drained, cap: nat)
  {
    d.stopped && |d.collected| < cap
  }

  /** One more result after a drain that has not stopped: it stops on the
      cursor exactly when the result carries the cursor's fingerprint. */
  lemma DrainOneMore(rs: seq<Option<PostRecord>>, r: Option<PostRecord>, cursor: Option<string>, cap: nat)
    requires !Drain(rs, cursor, cap).stopped
    ensures StoppedOnCursor(Drain(rs + [r], cursor, cap), cap) <==> r.Some? && HitsCursor(r.value, cursor)
  {
    assert (rs + [r])[..|rs|] == rs;
  }

  /** Once collection has stopped, later results change nothing. */
  lemma {:induction false} DrainStable(pre: seq<Option<PostRecord>>, post: seq<Option<PostRecord>>,
                                       cursor: Option<string>, cap: nat)
    requires Drain(pre, cursor, cap).stopped
    ensures Drain(pre + post, cursor, cap) == Drain(pre, cursor, cap)
    decreases |post|
  {
    if post != [] {
      var q := post[..|post| - 1];
      assert (pre + post)[..|pre + post| - 1] == pre + q;
      DrainStable(pre, q, cursor, cap);
    } else {
      assert pre + post == pre;
    }
  }

  /** The first result carrying the cursor's fingerprint ends collection:
      neither it nor anything after it is collected. */
  lemma DrainStopsAtCursor(pre: seq<Option<PostRecord>>, r: PostRecord, post: seq<Option<PostRecord>>,
                           cursor: Option<string>, cap: nat)
    requires HitsCursor(r, cursor)
    ensures Drain(pre + [Some(r)] + post, cursor, cap).collected == Drain(pre, cursor, cap).collected
  {
    var rs := pre + [Some(r)];
    assert rs[..|rs| - 1] == pre;
    DrainStable(rs, post, cursor, cap);
  }

  /** No collected record carries the cursor's fingerprint. */
  lemma {:induction false} DrainAvoidsCursor(rs: seq<Option<PostRecord>>, cursor: Option<string>, cap: nat)
    ensures forall i :: 0 <= i < |Drain(rs, cursor, cap).collected| ==>
              !HitsCursor(Drain(rs, cursor, cap).collected[i], cursor)
    decreases |rs|
  {
    if rs != [] {
      DrainAvoidsCursor(rs[..|rs| - 1], cursor, cap);
    }
  }

  /** Every collected record is one of the results taken. */
  lemma {:induction false} DrainFrom(rs: seq<Option<PostRecord>>, cursor: Option<string>, cap: nat)
    ensures forall x :: x in Drain(rs, cursor, cap).collected ==> Some(x) in rs
    decreases |rs|
  {
    if rs != [] {
      var pre := rs[..|rs| - 1];
      DrainFrom(pre, cursor, cap);
      assert forall y :: y in pre ==> y in rs;
    }
  }

  /** The records that are present, in order. */
  function Present(rs: seq<Option<PostRecord>>): (r: seq<PostRecord>)
    ensures |r| <= |rs|
    decreases |rs|
  {
    if rs == [] then []
    else
      var p := Present(rs[..|rs| - 1]);
      if rs[|rs| - 1].Some? then p + [rs[|rs| - 1].value] else p
  }

  /** Without a cursor the harvest never stops on content: it collects the
      first `cap` present results. */
  lemma {:induction false} DrainWithoutCursor(rs: seq<Option<PostRecord>>, cap: nat)
    ensures Drain(rs, None, cap).collected == if |Present(rs)| <= cap then Present(rs) else Present(rs)[..cap]
    decreases |rs|
  {
    if rs != [] {
      var pre := rs[..|rs| - 1];
      DrainWithoutCursor(pre, cap);
      DrainStoppedFull(pre, cap);
      if rs[|rs| - 1].Some? && |Present(pre)| >= cap {
        assert Present(rs)[..cap] == Present(pre)[..cap];
      }
    }
  }

  /** Without a cursor, collection stops exactly when `cap` records are in. */
  lemma {:induction false} DrainStoppedFull(rs: seq<Option<PostRecord>>, cap: nat)
    ensures Drain(rs, None, cap).stopped <==> |Drain(rs, None, cap).collected| >= cap
    decreases |rs|
  {
    if rs != [] {
      DrainStoppedFull(rs[..|rs| - 1], cap);
    }
  }

  // ---------------------------------------------------------------------------
  // Distinct keys

  /** A record's truthy URL and truthy ID are not the other record's. */
  predicate Apart(a: PostRecord, b: PostRecord)
  {
    (Truthy(a.postUrl) ==> a.postUrl != b.postUrl) &&
    (Truthy(a.facebookPostId) ==> a.facebookPostId != b.facebookPostId)
  }

  predicate ResultsApart(rs: seq<Option<PostRecord>>)
  {
    forall i, j :: 0 <= i < j < |rs| && rs[i].Some? && rs[j].Some? ==> Apart(rs[i].value, rs[j].value)
  }

  predicate RecordsApart(xs: seq<PostRecord>)
  {
    forall i, j :: 0 <= i < j < |xs| ==> Apart(xs[i], xs[j])
  }

  /** Collected records keep the results' distinct URLs and IDs. */
  lemma {:induction false} DrainApart(rs: seq<Option<PostRecord>>, cursor: Option<string>, cap: nat)
    requires ResultsApart(rs)
    ensures RecordsApart(Drain(rs, cursor, cap).collected)
    decreases |rs|
  {
    if rs != [] {
      var pre := rs[..|rs| - 1];
      assert ResultsApart(pre);
      DrainApart(pre, cursor, cap);
      DrainIndexed(pre, cursor, cap);
      var d := Drain(pre, cursor, cap);
      var c := Drain(rs, cursor, cap).collected;
      if c != d.collected {
        forall i, j | 0 <= i < j < |c|
          ensures Apart(c[i], c[j])
        {
          if j == |d.collected| {
            var k :| 0 <= k < |pre| && pre[k] == Some(c[i]);
            assert rs[k] == Some(c[i]);
          }
        }
      }
    }
  }

  /** Membership by index, for the step above. */
  lemma DrainIndexed(rs: seq<Option<PostRecord>>, cursor: Option<string>, cap: nat)
    ensures forall i :: 0 <= i < |Drain(rs, cursor, cap).collected| ==>
              exists k :: 0 <= k < |rs| && rs[k] == Some(Drain(rs, cursor, cap).collected[i])
  {
    DrainFrom(rs, cursor, cap);
    var c := Drain(rs, cursor, cap).collected;
    forall i | 0 <= i < |c|
      ensures exists k :: 0 <= k < |rs| && rs[k] == Some(c[i])
    {
      assert c[i] in c;
      assert Some(c[i]) in rs;
    }
  }


  /** The rule reads the results left to right: two result sequences it
      treats alike stay alike when the same results follow. */
  lemma {:induction false} DrainCongruent(a: seq<Option<PostRecord>>, b: seq<Option<PostRecord>>,
                                          c: seq<Option<PostRecord>>, cursor: Option<string>, cap: nat)
    requires Drain(a, cursor, cap) == Drain(b, cursor, cap)
    ensures Drain(a + c, cursor, cap) == Drain(b + c, cursor, cap)
    decreases |c|
  {
    if c == [] {
      assert a + c == a && b + c == b;
    } else {
      var q := c[..|c| - 1];
      DrainCongruent(a, b, q, cursor, cap);
      assert (a + c)[..|a + c| - 1] == a + q;
      assert (b + c)[..|b + c| - 1] == b + q;
    }
  }

  /** The final wait ends without asking `as_completed` for another
      submission: one was yielded after collection had stopped, or the last
      one yielded carried the cursor's fingerprint. `pre` are the results
      taken before the wait, `ys` the results yielded during it. */
  predicate QuitsEarly(pre: seq<Option<PostRecord>>, ys: seq<Option<PostRecord>>, cursor: Option<string>, cap: nat)
  {
    ys != [] &&
    (Drain(pre + ys[..|ys| - 1], cursor, cap).stopped ||
     (ys[|ys| - 1].Some? && HitsCursor(ys[|ys| - 1].value, cursor)))
  }

  /** A yield after collection stopped, with more to come, ends the wait. */
  lemma StoppedQuits(pre: seq<Option<PostRecord>>, ys: seq<Option<PostRecord>>, p: nat,
                     cursor: Option<string>, cap: nat)
    requires p < |ys| && Drain(pre + ys[..p], cursor, cap).stopped
    ensures QuitsEarly(pre, ys, cursor, cap)
  {
    var t := ys[p..|ys| - 1];
    DrainStable(pre + ys[..p], t, cursor, cap);
    assert pre + ys[..p] + t == pre + ys[..|ys| - 1];
  }

  /** A wait that starts before collection stopped and does not end early
      has not stopped on the cursor. */
  lemma NoQuitNoCursor(pre: seq<Option<PostRecord>>, ys: seq<Option<PostRecord>>, cursor: Option<string>, cap: nat)
    requires !Drain(pre, cursor, cap).stopped && !QuitsEarly(pre, ys, cursor, cap)
    ensures !StoppedOnCursor(Drain(pre + ys, cursor, cap), cap)
  {
    if ys == [] {
      assert pre + ys == pre;
    } else {
      var q := pre + ys[..|ys| - 1];
      DrainOneMore(q, ys[|ys| - 1], cursor, cap);
      assert q + [ys[|ys| - 1]] == pre + ys;
    }
  }

  /** Whether the wait ends early depends only on what the rule made of the
      results before it. */
  lemma QuitsEarlyCongruent(a: seq<Option<PostRecord>>, b: seq<Option<PostRecord>>, ys: seq<Option<PostRecord>>,
                            cursor: Option<string>, cap: nat)
    requires Drain(a, cursor, cap) == Drain(b, cursor, cap)
    ensures QuitsEarly(a, ys, cursor, cap) <==> QuitsEarly(b, ys, cursor, cap)
  {
    if ys != [] {
      DrainCongruent(a, b, ys[..|ys| - 1], cursor, cap);
    }
  }
  // ---------------------------------------------------------------------------
  // Active submissions

  predicate Increasing(a: seq<nat>)
  {
    forall i, j :: 0 <= i < j < |a| ==> a[i] < a[j]
  }

  lemma ConsIncreasing(x: nat, t: seq<nat>)
    requires Increasing(t) && forall y :: y in t ==> x < y
    ensures Increasing([x] + t)
  {
    forall i, j | 0 <= i < j < |[x] + t|
      ensures ([x] + t)[i] < ([x] + t)[j]
    {
      assert ([x] + t)[j] == t[j - 1];
      if i > 0 {
        assert ([x] + t)[i] == t[i - 1];
      } else {
        assert t[j - 1] in t;
      }
    }
  }

  lemma TailAbove(a: seq<nat>)
    requires Increasing(a) && a != []
    ensures Increasing(a[1..]) && forall y :: y in a[1..] ==> a[0] < y
  {
    forall y | y in a[1..]
      ensures a[0] < y
    {
      var i :| 0 <= i < |a[1..]| && a[1..][i] == y;
      assert a[i + 1] == y;
    }
  }

  lemma SnocIncreasing(a: seq<nat>, k: nat)
    requires Increasing(a) && forall x :: x in a ==> x < k
    ensures Increasing(a + [k])
  {
    forall i, j | 0 <= i < j < |a + [k]|
      ensures (a + [k])[i] < (a + [k])[j]
    {
      assert (a + [k])[i] == a[i];
      if j < |a| {
        assert (a + [k])[j] == a[j];
      } else {
        assert a[i] in a;
      }
    }
  }

  /** `active_futures.remove(future)`. */
  function Remove(a: seq<nat>, k: nat): (r: seq<nat>)
    ensures forall x :: x in r <==> x in a && x != k
    ensures Increasing(a) ==> Increasing(r)
  {
    if a == [] then []
    else
      var t := Remove(a[1..], k);
      assert forall x :: x in a[1..] ==> x in a;
      if a[0] == k then t
      else
        if Increasing(a) then
          TailAbove(a);
          ConsIncreasing(a[0], t);
          [a[0]] + t
        else [a[0]] + t
  }

  /** `[f for f in active_futures if f.done()]`. */
  function DoneList(a: seq<nat>, done: set<nat>): (r: seq<nat>)
    ensures forall x :: x in r <==> x in a && x in done
    ensures Increasing(a) ==> Increasing(r)
  {
    if a == [] then []
    else
      var t := DoneList(a[1..], done);
      assert forall x :: x in a[1..] ==> x in a;
      if a[0] !in done then t
      else
        if Increasing(a) then
          TailAbove(a);
          ConsIncreasing(a[0], t);
          [a[0]] + t
        else [a[0]] + t
  }


  /** Past its head, an increasing sequence holds exactly its other members. */
  lemma TailMembers(a: seq<nat>)
    requires Increasing(a) && a != []
    ensures forall x :: x in a[1..] <==> x in a && x != a[0]
  {
    TailAbove(a);
    forall x | x in a && x != a[0]
      ensures x in a[1..]
    {
      var i :| 0 <= i < |a| && a[i] == x;
      assert a[1..][i - 1] == x;
    }
  }

  lemma HeadIn(a: seq<nat>)
    ensures a != [] ==> a[0] in a
  {
  }

  /** Two increasing sequences with the same members are the same sequence. */
  lemma {:induction false} IncreasingUnique(a: seq<nat>, b: seq<nat>)
    requires Increasing(a) && Increasing(b)
    requires forall x :: x in a <==> x in b
    ensures a == b
    decreases |a|
  {
    HeadIn(a);
    HeadIn(b);
    if a != [] && b != [] {
      TailMembers(a);
      TailMembers(b);
      TailAbove(a);
      TailAbove(b);
      assert a[0] == b[0];
      IncreasingUnique(a[1..], b[1..]);
      assert a == [a[0]] + a[1..] && b == [b[0]] + b[1..];
    }
  }

  /** The submissions below `n` that are not in `co`, in submission order:
      `active_futures` while nothing has stopped collection. */
  function Pending(n: nat, co: seq<nat>): seq<nat>
  {
    if n == 0 then []
    else if n - 1 in co then Pending(n - 1, co)
    else Pending(n - 1, co) + [n - 1]
  }

  /** The pending submissions are increasing and are exactly those below `n`
      not in `co`. */
  lemma {:induction false} PendingFacts(n: nat, co: seq<nat>)
    ensures Increasing(Pending(n, co))
    ensures forall x: nat :: x in Pending(n, co) <==> x < n && x !in co
  {
    if n > 0 {
      PendingFacts(n - 1, co);
      if n - 1 !in co {
        SnocIncreasing(Pending(n - 1, co), n - 1);
      }
    }
  }

  /** The submission numbers from `lo` up to, not including, `hi`. */
  function Range(lo: nat, hi: nat): seq<nat>
    requires lo <= hi
    decreases hi - lo
  {
    if lo == hi then [] else Range(lo, hi - 1) + [hi - 1]
  }

  /** New submissions join the pending ones at the end. */
  lemma {:induction false} PendingExtend(n: nat, m: nat, co: seq<nat>)
    requires forall x :: x in co ==> x < n
    ensures Pending(n + m, co) == Pending(n, co) + Range(n, n + m)
    decreases m
  {
    if m > 0 {
      PendingExtend(n, m - 1, co);
      assert n + m - 1 !in co;
    }
  }

  /** The order in which `as_completed` yields the submissions of `a`:
      `order` lists submissions as they finish within the wait, and each is
      yielded once. */
  function FinalTakes(order: seq<nat>, a: seq<nat>): (r: seq<nat>)
    ensures forall x :: x in r <==> x in a && x in order
    ensures forall i, j :: 0 <= i < j < |r| ==> r[i] != r[j]
    decreases |order|
  {
    if order == [] then []
    else
      var p := FinalTakes(order[..|order| - 1], a);
      var x := order[|order| - 1];
      assert order == order[..|order| - 1] + [x];
      if x in a && x !in p then p + [x] else p
  }

  /** What is yielded for a prefix of the finishing order is a prefix of what
      is yielded for all of it. */
  lemma {:induction false} FinalTakesPrefix(order: seq<nat>, a: seq<nat>, p: nat)
    requires p <= |order|
    ensures FinalTakes(order[..p], a) <= FinalTakes(order, a)
    decreases |order| - p
  {
    if p == |order| {
      assert order[..p] == order;
    } else {
      FinalTakesPrefix(order, a, p + 1);
      assert order[..p + 1][..p] == order[..p];
    }
  }

  // ---------------------------------------------------------------------------
  // Probing the feed

  /** What reading an element's markup gives the main thread. */
  datatype Grab = Got | Blank | Raises

  /** What the main thread learns about an element (its identifiers and
      verdict, and what `outerHTML` gives) and what the worker would return
      for it. */
  datatype Probed = Probed(ident: Permalink.Identity, grab: Grab, result: Option<PostRecord>)

  /** A worker's record carries the identifiers the probe found. */
  predicate KeysMatch(p: Probed)
  {
    p.result.Some? ==> p.result.value.postUrl == p.ident.url && p.result.value.facebookPostId == p.ident.id
  }

  function ProbeItem(e: FeedItem, env: Env): (p: Probed)
    ensures KeysMatch(p)
    ensures p.grab == Got <==> e.html.Captured?
    ensures p.grab == Raises <==> e.html.CaptureFails?
  {
    var grab := match e.html
      case Captured(_) => Got
      case NoMarkup => Blank
      case CaptureFails => Raises;
    Probed(Permalink.Identify(e.probe, env.lib, e.hex), grab, Worker(e, env))
  }

  predicate WellProbed(pf: seq<seq<Probed>>)
  {
    forall s, i :: 0 <= s < |pf| && 0 <= i < |pf[s]| ==> KeysMatch(pf[s][i])
  }

  /** The whole feed probed. */
  function ProbeFeed(env: Env): (pf: seq<seq<Probed>>)
    ensures |pf| == |env.feed| && WellProbed(pf)
    ensures forall s :: 0 <= s < |pf| ==> |pf[s]| == |env.feed[s]|
    ensures forall s, i :: 0 <= s < |pf| && 0 <= i < |pf[s]| ==> pf[s][i] == ProbeItem(env.feed[s][i], env)
  {
    seq(|env.feed|, s requires 0 <= s < |env.feed| =>
      seq(|env.feed[s]|, i requires 0 <= i < |env.feed[s]| => ProbeItem(env.feed[s][i], env)))
  }

  function Probes(pf: seq<seq<Probed>>, s: nat): seq<Probed>
  {
    if s < |pf| then pf[s] else []
  }

  /** The probed feed with the cursor and `num_posts`. */
  datatype Ctx = Ctx(pf: seq<seq<Probed>>, cursor: Option<string>, num: int)

  // ---------------------------------------------------------------------------
  // Which candidates a scroll submits

  /** A truthy URL or ID of the element was processed before. */
  predicate Seen(id: Permalink.Identity, urls: set<string>, ids: set<string>)
  {
    (Truthy(id.url) && id.url.value in urls) || (Truthy(id.id) && id.id.value in ids)
  }

  function AddUrl(urls: set<string>, id: Permalink.Identity): set<string>
  {
    if Truthy(id.url) then urls + {id.url.value} else urls
  }

  function AddId(ids: set<string>, id: Permalink.Identity): set<string>
  {
    if Truthy(id.id) then ids + {id.id.value} else ids
  }

  /** The positions a submit loop picks, with the processed sets after it. */
  datatype Picked = Picked(ps: seq<nat>, urls: set<string>, ids: set<string>)

  /** The submit loop of one scroll from element `i` on, with room for `room`
      more submissions: it skips non-candidates, elements whose truthy URL or
      ID was processed, and elements without markup; it stops when the room
      is used up. None when reading a fresh candidate's markup raises, which
      ends the harvest. */
  function Picks(els: seq<Probed>, i: nat, urls: set<string>, ids: set<string>, room: nat): Option<Picked>
    decreases |els| - i
  {
    if i >= |els| || room == 0 then Some(Picked([], urls, ids))
    else
      var p := els[i];
      if !p.ident.candidate || Seen(p.ident, urls, ids) then Picks(els, i + 1, urls, ids, room)
      else
        match p.grab
        case Raises => None
        case Blank => Picks(els, i + 1, urls, ids, room)
        case Got =>
          var q := Picks(els, i + 1, AddUrl(urls, p.ident), AddId(ids, p.ident), room - 1);
          if q.None? then None
          else Some(Picked([i] + q.value.ps, q.value.urls, q.value.ids))
  }

  /** The submit loop submits at most `room` elements, in page order, each a
      candidate whose markup was read; it fails only on a candidate whose
      markup could not be read. */
  lemma {:induction false} PicksFacts(els: seq<Probed>, i: nat, urls: set<string>, ids: set<string>, room: nat)
    ensures var r := Picks(els, i, urls, ids, room);
            r.Some? ==> |r.value.ps| <= room && Increasing(r.value.ps)
    ensures var r := Picks(els, i, urls, ids, room);
            r.Some? ==> forall j :: 0 <= j < |r.value.ps| ==>
              i <= r.value.ps[j] < |els| && els[r.value.ps[j]].ident.candidate && els[r.value.ps[j]].grab == Got
    ensures Picks(els, i, urls, ids, room).None? ==>
              exists j :: i <= j < |els| && els[j].ident.candidate && els[j].grab == Raises
    decreases |els| - i
  {
    if i < |els| && room > 0 {
      var p := els[i];
      if !p.ident.candidate || Seen(p.ident, urls, ids) || p.grab == Blank {
        PicksFacts(els, i + 1, urls, ids, room);
      } else if p.grab == Got {
        var q := Picks(els, i + 1, AddUrl(urls, p.ident), AddId(ids, p.ident), room - 1);
        PicksFacts(els, i + 1, AddUrl(urls, p.ident), AddId(ids, p.ident), room - 1);
        if q.Some? {
          var ps := [i] + q.value.ps;
          assert forall j :: 1 <= j < |ps| ==> ps[j] == q.value.ps[j - 1];
          ConsIncreasing(i, q.value.ps);
        }
      }
    }
  }

  /** Positions picked so far, in front of what the rest of the loop picks. */
  function Glue(ps: seq<nat>, o: Option<Picked>): Option<Picked>
  {
    if o.None? then None else Some(Picked(ps + o.value.ps, o.value.urls, o.value.ids))
  }

  lemma GlueNothing(o: Option<Picked>)
    ensures Glue([], o) == o
  {
    if o.Some? {
      assert [] + o.value.ps == o.value.ps;
    }
  }

  /** Elements of scroll `s` as feed coordinates. */
  function Places(s: nat, ps: seq<nat>): (r: seq<(nat, nat)>)
    ensures |r| == |ps| && forall j :: 0 <= j < |ps| ==> r[j] == (s, ps[j])
  {
    seq(|ps|, j requires 0 <= j < |ps| => (s, ps[j]))
  }
  // ---------------------------------------------------------------------------
  // The run's state

  /** The harvest's variables: `extracted_count`, the processed URL and ID
      sets, every submission's result and the element it came from (scroll,
      position), `active_futures` as submission numbers, the submissions
      taken by the drain loops with their results, and `collected_posts`. */
  datatype Run = Run(
    extracted: int,
    urls: set<string>,
    ids: set<string>,
    results: seq<Option<PostRecord>>,
    origin: seq<(nat, nat)>,
    active: seq<nat>,
    taken: seq<nat>,
    takenResults: seq<Option<PostRecord>>,
    collected: seq<PostRecord>)

  /** A submission came from a candidate element of the feed. */
  predicate FromFeed(pf: seq<seq<Probed>>, o: (nat, nat), r: Option<PostRecord>)
  {
    o.0 < |pf| && o.1 < |pf[o.0]| && pf[o.0][o.1].ident.candidate && r == pf[o.0][o.1].result
  }

  /** Every submitted record's truthy URL and ID are in the processed sets. */
  predicate Recorded(rs: seq<Option<PostRecord>>, urls: set<string>, ids: set<string>)
  {
    forall k :: 0 <= k < |rs| && rs[k].Some? ==>
      (Truthy(rs[k].value.postUrl) ==> rs[k].value.postUrl.value in urls) &&
      (Truthy(rs[k].value.facebookPostId) ==> rs[k].value.facebookPostId.value in ids)
  }

  predicate Submissions(r: Run, ctx: Ctx)
  {
    |r.origin| == |r.results| &&
    (forall k :: 0 <= k < |r.results| ==> FromFeed(ctx.pf, r.origin[k], r.results[k])) &&
    Recorded(r.results, r.urls, r.ids) &&
    ResultsApart(r.results)
  }

  predicate Bookkeeping(r: Run)
  {
    Increasing(r.active) &&
    (forall x :: x in r.active ==> x < |r.results|) &&
    |r.taken| == |r.takenResults| &&
    (forall i :: 0 <= i < |r.taken| ==>
       r.taken[i] < |r.results| && r.takenResults[i] == r.results[r.taken[i]] && r.taken[i] !in r.active) &&
    (forall i, j :: 0 <= i < j < |r.taken| ==> r.taken[i] != r.taken[j])
  }

  predicate Collecting(r: Run, ctx: Ctx)
  {
    var d := Drain(r.takenResults, ctx.cursor, Cap(ctx.num));
    r.collected == d.collected &&
    (d.stopped <==> r.extracted >= ctx.num) &&
    (!d.stopped ==> r.extracted == |r.collected|)
  }

  predicate RunValid(r: Run, ctx: Ctx)
  {
    WellProbed(ctx.pf) && Submissions(r, ctx) && Bookkeeping(r) && Collecting(r, ctx)
  }

  /** Taken results inherit the submissions' distinct URLs and IDs. */
  lemma TakenApart(r: Run)
    requires Bookkeeping(r) && ResultsApart(r.results)
    ensures ResultsApart(r.takenResults)
  {
    forall i, j | 0 <= i < j < |r.takenResults| && r.takenResults[i].Some? && r.takenResults[j].Some?
      ensures Apart(r.takenResults[i].value, r.takenResults[j].value)
    {
      var a, b := r.taken[i], r.taken[j];
      if a < b {
        assert Apart(r.results[a].value, r.results[b].value);
      } else {
        assert Apart(r.results[b].value, r.results[a].value);
      }
    }
  }

  /** Collection has stopped (`extracted_count >= num_posts`). */
  predicate Stopped(r: Run, ctx: Ctx)
  {
    Drain(r.takenResults, ctx.cursor, Cap(ctx.num)).stopped
  }

  function At(rs: seq<Option<PostRecord>>, k: nat): Option<PostRecord>
  {
    if k < |rs| then rs[k] else None
  }

  /** The results of the submissions `ks`, in that order. */
  function ResultsAt(rs: seq<Option<PostRecord>>, ks: seq<nat>): seq<Option<PostRecord>>
  {
    seq(|ks|, i requires 0 <= i < |ks| => At(rs, ks[i]))
  }

  lemma ResultsAtAppend(rs: seq<Option<PostRecord>>, a: seq<nat>, b: seq<nat>)
    ensures ResultsAt(rs, a + b) == ResultsAt(rs, a) + ResultsAt(rs, b)
  {
    assert forall i :: 0 <= i < |b| ==> (a + b)[|a| + i] == b[i];
  }

  /** Later submissions do not change the results of earlier ones. */
  lemma ResultsAtExtend(rs: seq<Option<PostRecord>>, more: seq<Option<PostRecord>>, ks: seq<nat>)
    requires forall x :: x in ks ==> x < |rs|
    ensures ResultsAt(rs + more, ks) == ResultsAt(rs, ks)
  {
    forall i | 0 <= i < |ks|
      ensures At(rs + more, ks[i]) == At(rs, ks[i])
    {
      assert ks[i] in ks;
    }
  }

  /** The run agrees with the submissions taken in the order `co`: the rule
      makes the same of their results as of the results the drain loops
      took, and until collection stops the drain loops took exactly `co`
      and every other submission is still active. */
  predicate Settled(run: Run, ctx: Ctx, co: seq<nat>)
  {
    Drain(ResultsAt(run.results, co), ctx.cursor, Cap(ctx.num)) == Drain(run.takenResults, ctx.cursor, Cap(ctx.num)) &&
    (!Stopped(run, ctx) ==> run.taken == co && run.active == Pending(|run.results|, co))
  }

  // ---------------------------------------------------------------------------
  // One scroll: submitting candidates

  /** Room left for submissions: none once `num_posts` are extracted, else
      `num_posts` for the scroll. */
  function Room(run: Run, ctx: Ctx): nat
  {
    if run.extracted >= ctx.num then 0 else Cap(ctx.num)
  }

  /** The submit loop of one scroll over `current_post_elements`. It submits
      exactly the positions `Picks` gives, in page order, as fresh submission
      numbers at the end of `active_futures`; `failed` when reading a fresh
      candidate's markup raised. */
  method SubmitScroll(run: Run, ctx: Ctx, s: nat) returns (run': Run, batch: nat, failed: bool)
    requires RunValid(run, ctx)
    ensures failed <==> Picks(Probes(ctx.pf, s), 0, run.urls, run.ids, Room(run, ctx)).None?
    ensures !failed ==>
              var q := Picks(Probes(ctx.pf, s), 0, run.urls, run.ids, Room(run, ctx)).value;
              RunValid(run', ctx) && batch == |q.ps| &&
              run'.urls == q.urls && run'.ids == q.ids &&
              run'.origin == run.origin + Places(s, q.ps) &&
              |run'.results| == |run.results| + batch && run.results <= run'.results &&
              run'.active == run.active + Range(|run.results|, |run'.results|) &&
              run'.taken == run.taken && run'.takenResults == run.takenResults &&
              run'.collected == run.collected && run'.extracted == run.extracted
  {
    var els := Probes(ctx.pf, s);
    run' := run;
    batch := 0;
    failed := false;
    ghost var picked: seq<nat> := [];
    var i := 0;
    SubmitStarts(run, ctx, s);
    while i < |els|
      invariant RunValid(run', ctx) && SubmitSoFar(run, run', ctx, s, i, picked) && batch == |picked|
      decreases |els| - i
    {
      if run'.extracted >= ctx.num || batch >= ctx.num {
        break;
      }
      run', picked, batch, failed := SubmitStep(run, run', ctx, s, i, picked, batch);
      if failed {
        return;
      }
      i := i + 1;
    }
    SubmitEnds(run, run', ctx, s, i, picked);
  }

  /** The submit loop of scroll `s` has handled the elements before `i`,
      submitting `picked`; what `Picks` gives for the whole scroll is
      `picked` followed by what it gives for the rest. */
  ghost predicate SubmitSoFar(start: Run, run: Run, ctx: Ctx, s: nat, i: nat, picked: seq<nat>)
  {
    var els, room := Probes(ctx.pf, s), Room(start, ctx);
    i <= |els| && |picked| <= room &&
    Picks(els, 0, start.urls, start.ids, room) == Glue(picked, Picks(els, i, run.urls, run.ids, room - |picked|)) &&
    run.origin == start.origin + Places(s, picked) &&
    |run.results| == |start.results| + |picked| && start.results <= run.results &&
    run.active == start.active + Range(|start.results|, |run.results|) &&
    run.taken == start.taken && run.takenResults == start.takenResults &&
    run.collected == start.collected && run.extracted == start.extracted
  }

  lemma SubmitStarts(start: Run, ctx: Ctx, s: nat)
    ensures SubmitSoFar(start, start, ctx, s, 0, [])
  {
    GlueNothing(Picks(Probes(ctx.pf, s), 0, start.urls, start.ids, Room(start, ctx)));
    assert start.origin + Places(s, []) == start.origin;
    assert start.active + Range(|start.results|, |start.results|) == start.active;
  }

  /** The submit loop ends at the end of the scroll or when its room is used
      up: it picked what `Picks` gives. */
  lemma SubmitEnds(start: Run, run: Run, ctx: Ctx, s: nat, i: nat, picked: seq<nat>)
    requires SubmitSoFar(start, run, ctx, s, i, picked)
    requires run.extracted >= ctx.num || |picked| >= ctx.num || i == |Probes(ctx.pf, s)|
    ensures Picks(Probes(ctx.pf, s), 0, start.urls, start.ids, Room(start, ctx)) == Some(Picked(picked, run.urls, run.ids))
  {
    assert picked + [] == picked;
  }

  /** One element of the submit loop: skip it, submit it, or fail on it. */
  method SubmitStep(start: Run, run: Run, ctx: Ctx, s: nat, i: nat, ghost picked: seq<nat>, b: nat)
      returns (run': Run, ghost picked': seq<nat>, batch: nat, failed: bool)
    requires RunValid(run, ctx) && SubmitSoFar(start, run, ctx, s, i, picked) && i < |Probes(ctx.pf, s)|
    requires run.extracted < ctx.num && b == |picked| < ctx.num
    ensures failed ==> Picks(Probes(ctx.pf, s), 0, start.urls, start.ids, Room(start, ctx)).None?
    ensures !failed ==> RunValid(run', ctx) && SubmitSoFar(start, run', ctx, s, i + 1, picked') && batch == |picked'|
  {
    var p := Probes(ctx.pf, s)[i];
    run', picked', batch, failed := run, picked, b, false;
    if p.ident.candidate && !Seen(p.ident, run.urls, run.ids) {
      if p.grab == Raises {
        failed := true;
        SubmitFails(start, run, ctx, s, i, picked);
        return;
      } else if p.grab == Got {
        run' := Submit(run, ctx, s, i);
        SubmitTook(start, run, run', ctx, s, i, picked);
        picked' := picked + [i];
        batch := batch + 1;
        return;
      }
    }
    SubmitSkips(start, run, ctx, s, i, picked);
  }

  lemma SubmitFails(start: Run, run: Run, ctx: Ctx, s: nat, i: nat, picked: seq<nat>)
    requires SubmitSoFar(start, run, ctx, s, i, picked) && i < |Probes(ctx.pf, s)|
    requires run.extracted < ctx.num && |picked| < ctx.num
    requires var p := Probes(ctx.pf, s)[i]; p.ident.candidate && !Seen(p.ident, run.urls, run.ids) && p.grab == Raises
    ensures Picks(Probes(ctx.pf, s), 0, start.urls, start.ids, Room(start, ctx)).None?
  {
    assert Picks(Probes(ctx.pf, s), i, run.urls, run.ids, Room(start, ctx) - |picked|).None?;
  }

  lemma SubmitSkips(start: Run, run: Run, ctx: Ctx, s: nat, i: nat, picked: seq<nat>)
    requires SubmitSoFar(start, run, ctx, s, i, picked) && i < |Probes(ctx.pf, s)|
    requires run.extracted < ctx.num && |picked| < ctx.num
    requires var p := Probes(ctx.pf, s)[i]; !p.ident.candidate || Seen(p.ident, run.urls, run.ids) || p.grab == Blank
    ensures SubmitSoFar(start, run, ctx, s, i + 1, picked)
  {
    var els, room := Probes(ctx.pf, s), Room(start, ctx) - |picked|;
    assert Picks(els, i, run.urls, run.ids, room) == Picks(els, i + 1, run.urls, run.ids, room);
  }

  lemma SubmitTook(start: Run, run: Run, run': Run, ctx: Ctx, s: nat, i: nat, picked: seq<nat>)
    requires SubmitSoFar(start, run, ctx, s, i, picked) && i < |Probes(ctx.pf, s)|
    requires run.extracted < ctx.num && |picked| < ctx.num
    requires var p := Probes(ctx.pf, s)[i]; p.ident.candidate && !Seen(p.ident, run.urls, run.ids) && p.grab == Got
    requires run'.urls == AddUrl(run.urls, Probes(ctx.pf, s)[i].ident) && run'.ids == AddId(run.ids, Probes(ctx.pf, s)[i].ident)
    requires run'.results == run.results + [Probes(ctx.pf, s)[i].result] && run'.origin == run.origin + [(s, i)]
    requires run'.active == run.active + [|run.results|]
    requires run'.taken == run.taken && run'.takenResults == run.takenResults
    requires run'.collected == run.collected && run'.extracted == run.extracted
    ensures SubmitSoFar(start, run', ctx, s, i + 1, picked + [i])
  {
    PicksGot(Probes(ctx.pf, s), i, run.urls, run.ids, Room(start, ctx) - |picked|, picked);
    assert Places(s, picked + [i]) == Places(s, picked) + [(s, i)];
    assert Range(|start.results|, |run'.results|) == Range(|start.results|, |run.results|) + [|run.results|];
  }

  /** Submitting element `i` puts it after what was picked before. */
  lemma PicksGot(els: seq<Probed>, i: nat, urls: set<string>, ids: set<string>, room: nat, picked: seq<nat>)
    requires i < |els| && room > 0 && els[i].ident.candidate && !Seen(els[i].ident, urls, ids) && els[i].grab == Got
    ensures Glue(picked, Picks(els, i, urls, ids, room)) ==
            Glue(picked + [i], Picks(els, i + 1, AddUrl(urls, els[i].ident), AddId(ids, els[i].ident), room - 1))
  {
    var q := Picks(els, i + 1, AddUrl(urls, els[i].ident), AddId(ids, els[i].ident), room - 1);
    if q.Some? {
      assert picked + ([i] + q.value.ps) == picked + [i] + q.value.ps;
    }
  }

  /** Adding the element's URL and ID to the processed sets and submitting
      its markup (`executor.submit`, `active_futures.append`). */
  method Submit(run: Run, ctx: Ctx, s: nat, i: nat) returns (run': Run)
    requires RunValid(run, ctx)
    requires s < |ctx.pf| && i < |ctx.pf[s]|
    requires ctx.pf[s][i].ident.candidate && !Seen(ctx.pf[s][i].ident, run.urls, run.ids)
    ensures RunValid(run', ctx)
    ensures run'.urls == AddUrl(run.urls, ctx.pf[s][i].ident) && run'.ids == AddId(run.ids, ctx.pf[s][i].ident)
    ensures run'.results == run.results + [ctx.pf[s][i].result] && run'.origin == run.origin + [(s, i)]
    ensures run'.active == run.active + [|run.results|]
    ensures run'.taken == run.taken && run'.takenResults == run.takenResults
    ensures run'.collected == run.collected && run'.extracted == run.extracted
  {
    var p := ctx.pf[s][i];
    var k := |run.results|;
    assert KeysMatch(p);
    NewResultApart(run.results, run.urls, run.ids, p);
    SnocIncreasing(run.active, k);
    run' := run.(urls := AddUrl(run.urls, p.ident), ids := AddId(run.ids, p.ident), results := run.results + [p.result],
                 origin := run.origin + [(s, i)], active := run.active + [k]);
    assert forall j :: 0 <= j < |run.results| ==> run'.results[j] == run.results[j];
    assert forall j :: 0 <= j < |run.results| ==> run'.origin[j] == run.origin[j];
  }

  /** A worker result whose identifiers were not processed yet is apart from
      every earlier submission. */
  lemma NewResultApart(rs: seq<Option<PostRecord>>, urls: set<string>, ids: set<string>, p: Probed)
    requires Recorded(rs, urls, ids) && ResultsApart(rs) && KeysMatch(p)
    requires !Seen(p.ident, urls, ids)
    ensures ResultsApart(rs + [p.result])
    ensures Recorded(rs + [p.result], AddUrl(urls, p.ident), AddId(ids, p.ident))
  {
    var rs' := rs + [p.result];
    forall i, j | 0 <= i < j < |rs'| && rs'[i].Some? && rs'[j].Some?
      ensures Apart(rs'[i].value, rs'[j].value)
    {
      assert rs'[i] == rs[i];
      if j < |rs| {
        assert rs'[j] == rs[j];
      }
    }
  }

  // ---------------------------------------------------------------------------
  // Taking results

  /** The dedup gate on one result: a record equal to the cursor sets
      `extracted_count` to `num_posts`, any other record is collected. */
  function Collect(r: Option<PostRecord>, cursor: Option<string>, num: int,
                   extracted: int, collected: seq<PostRecord>): (c: (int, seq<PostRecord>))
    ensures r.None? ==> c == (extracted, collected)
    ensures r.Some? && HitsCursor(r.value, cursor) ==> c == (num, collected)
    ensures r.Some? && !HitsCursor(r.value, cursor) ==> c == (extracted + 1, collected + [r.value])
  {
    if r.None? then (extracted, collected)
    else if HitsCursor(r.value, cursor) then (num, collected)
    else (extracted + 1, collected + [r.value])
  }

  /** The gate keeps `collected_posts` equal to the drain of the taken
      results and `extracted_count` in step with it. */
  lemma CollectStep(rs: seq<Option<PostRecord>>, r: Option<PostRecord>, cursor: Option<string>,
                    num: int, extracted: int, collected: seq<PostRecord>)
    requires Drain(rs, cursor, Cap(num)).collected == collected
    requires Drain(rs, cursor, Cap(num)).stopped <==> extracted >= num
    requires !Drain(rs, cursor, Cap(num)).stopped ==> extracted == |collected|
    requires extracted < num
    ensures var c := Collect(r, cursor, num, extracted, collected);
            var d := Drain(rs + [r], cursor, Cap(num));
            d.collected == c.1 && (d.stopped <==> c.0 >= num) && (!d.stopped ==> c.0 == |c.1|)
  {
    assert (rs + [r])[..|rs|] == rs;
  }

  lemma TakeKeeps(run: Run, run': Run, k: nat)
    requires Bookkeeping(run) && k < |run.results| && k !in run.active && k !in run.taken
    requires run'.taken == run.taken + [k] && run'.takenResults == run.takenResults + [run.results[k]]
    requires run'.results == run.results && run'.active == run.active
    ensures Bookkeeping(run')
  {
    assert forall j :: 0 <= j < |run.taken| ==> run'.taken[j] == run.taken[j];
  }

  /** `future.result()` and the dedup gate for one finished submission. */
  method Take(run: Run, ctx: Ctx, k: nat) returns (run': Run)
    requires RunValid(run, ctx)
    requires k < |run.results| && k !in run.active && k !in run.taken
    requires run.extracted < ctx.num
    ensures RunValid(run', ctx)
    ensures run'.taken == run.taken + [k] && run'.takenResults == run.takenResults + [run.results[k]]
    ensures run'.results == run.results && run'.origin == run.origin && run'.active == run.active
    ensures run'.urls == run.urls && run'.ids == run.ids
  {
    var r := run.results[k];
    var c := Collect(r, ctx.cursor, ctx.num, run.extracted, run.collected);
    run' := run.(taken := run.taken + [k], takenResults := run.takenResults + [r],
                 extracted := c.0, collected := c.1);
    CollectStep(run.takenResults, r, ctx.cursor, ctx.num, run.extracted, run.collected);
    TakeKeeps(run, run', k);
  }

  /** `active_futures.remove(future)` for a submission about to be taken. */
  method Retire(run: Run, ctx: Ctx, k: nat) returns (run': Run)
    requires RunValid(run, ctx) && k in run.active
    ensures RunValid(run', ctx) && k !in run'.active && k !in run'.taken && k < |run'.results|
    ensures run' == run.(active := Remove(run.active, k))
  {
    run' := run.(active := Remove(run.active, k));
  }

  /** The result just taken stopped collection on the cursor. */
  predicate HitsCursorAt(run: Run, ctx: Ctx, k: nat)
  {
    k < |run.results| && run.results[k].Some? && HitsCursor(run.results[k].value, ctx.cursor)
  }


  /** Taking the next of the submissions `ks` keeps the drain of what was
      taken equal to the drain of `base` followed by their results. */
  lemma TakeNext(t: seq<Option<PostRecord>>, base: seq<Option<PostRecord>>, rs: seq<Option<PostRecord>>,
                 ks: seq<nat>, j: nat, cursor: Option<string>, cap: nat)
    requires j < |ks| && Drain(t, cursor, cap) == Drain(base + ResultsAt(rs, ks[..j]), cursor, cap)
    ensures Drain(t + [At(rs, ks[j])], cursor, cap) == Drain(base + ResultsAt(rs, ks[..j + 1]), cursor, cap)
  {
    DrainCongruent(t, base + ResultsAt(rs, ks[..j]), [At(rs, ks[j])], cursor, cap);
    assert ResultsAt(rs, ks[..j + 1]) == ResultsAt(rs, ks[..j]) + [At(rs, ks[j])];
    assert base + ResultsAt(rs, ks[..j]) + [At(rs, ks[j])] == base + ResultsAt(rs, ks[..j + 1]);
  }

  /** Once collection has stopped, the rest of `ks` changes nothing. */
  lemma SkipRest(t: seq<Option<PostRecord>>, base: seq<Option<PostRecord>>, rs: seq<Option<PostRecord>>,
                 ks: seq<nat>, j: nat, cursor: Option<string>, cap: nat)
    requires j <= |ks| && Drain(t, cursor, cap) == Drain(base + ResultsAt(rs, ks[..j]), cursor, cap)
    requires Drain(t, cursor, cap).stopped
    ensures Drain(t, cursor, cap) == Drain(base + ResultsAt(rs, ks), cursor, cap)
  {
    ResultsAtSplit(base, rs, ks, j);
    DrainStable(base + ResultsAt(rs, ks[..j]), ResultsAt(rs, ks[j..]), cursor, cap);
  }

  lemma ResultsAtSplit(base: seq<Option<PostRecord>>, rs: seq<Option<PostRecord>>, ks: seq<nat>, j: nat)
    requires j <= |ks|
    ensures base + ResultsAt(rs, ks[..j]) + ResultsAt(rs, ks[j..]) == base + ResultsAt(rs, ks)
  {
    assert ks[..j] + ks[j..] == ks;
    ResultsAtAppend(rs, ks[..j], ks[j..]);
  }

  /** The collection pass of one scroll over the finished submissions, in
      `active_futures` order: each is removed from `active_futures` and,
      while collection has not stopped, taken; the pass ends right after a
      result that carries the cursor's fingerprint. The rule makes of the
      results taken what it makes of the earlier ones followed by the
      finished ones; until collection stops, exactly the finished ones are
      taken and leave `active_futures`. */
  method DrainDone(run: Run, ctx: Ctx, done: set<nat>) returns (run': Run)
    requires RunValid(run, ctx)
    ensures RunValid(run', ctx)
    ensures run'.results == run.results && run'.origin == run.origin && run'.urls == run.urls && run'.ids == run.ids
    ensures Drain(run'.takenResults, ctx.cursor, Cap(ctx.num)) ==
            Drain(run.takenResults + ResultsAt(run.results, DoneList(run.active, done)), ctx.cursor, Cap(ctx.num))
    ensures !Stopped(run', ctx) ==>
              run'.taken == run.taken + DoneList(run.active, done) &&
              forall x :: x in run'.active <==> x in run.active && x !in done
  {
    var ks := DoneList(run.active, done);
    run' := run;
    var j := 0;
    assert run.takenResults + ResultsAt(run.results, ks[..0]) == run.takenResults;
    while j < |ks|
      invariant 0 <= j <= |ks|
      invariant RunValid(run', ctx) && DoneSoFar(run, run', ctx, ks, j)
      invariant forall x :: j <= x < |ks| ==> ks[x] in run'.active
    {
      var hit;
      run', hit := DoneStep(run, run', ctx, ks, j);
      if hit {
        SkipRest(run'.takenResults, run.takenResults, run.results, ks, j + 1, ctx.cursor, Cap(ctx.num));
        return;
      }
      j := j + 1;
    }
    assert ks[..j] == ks;
  }

  /** The collection pass has handled the first `j` of the finished
      submissions `ks`. */
  ghost predicate DoneSoFar(start: Run, run: Run, ctx: Ctx, ks: seq<nat>, j: nat)
    requires j <= |ks|
  {
    run.results == start.results && run.origin == start.origin && run.urls == start.urls && run.ids == start.ids &&
    Drain(run.takenResults, ctx.cursor, Cap(ctx.num)) ==
      Drain(start.takenResults + ResultsAt(start.results, ks[..j]), ctx.cursor, Cap(ctx.num)) &&
    (!Stopped(run, ctx) ==>
       run.taken == start.taken + ks[..j] &&
       forall x :: x in run.active <==> x in start.active && x !in ks[..j])
  }

  /** One finished submission in the collection pass: remove it from
      `active_futures` and, while collection has not stopped, take it;
      `hit` when its result carries the cursor's fingerprint. */
  method DoneStep(start: Run, run: Run, ctx: Ctx, ks: seq<nat>, j: nat) returns (run': Run, hit: bool)
    requires j < |ks| && RunValid(run, ctx) && DoneSoFar(start, run, ctx, ks, j)
    requires Increasing(ks) && forall x :: j <= x < |ks| ==> ks[x] in run.active
    ensures RunValid(run', ctx) && DoneSoFar(start, run', ctx, ks, j + 1)
    ensures forall x :: j + 1 <= x < |ks| ==> ks[x] in run'.active
    ensures hit ==> Stopped(run', ctx)
  {
    var k := ks[j];
    hit := false;
    run' := Retire(run, ctx, k);
    if run'.extracted < ctx.num {
      run' := Take(run', ctx, k);
      hit := HitsCursorAt(run', ctx, k);
    }
    DoneTook(start, run, run', ctx, ks, j);
  }

  lemma DoneTook(start: Run, run: Run, run': Run, ctx: Ctx, ks: seq<nat>, j: nat)
    requires j < |ks| && DoneSoFar(start, run, ctx, ks, j)
    requires Increasing(ks) && forall x :: j <= x < |ks| ==> ks[x] in run.active
    requires run'.results == run.results && run'.origin == run.origin && run'.urls == run.urls && run'.ids == run.ids
    requires forall x :: x in run'.active <==> x in run.active && x != ks[j]
    requires Stopped(run, ctx) ==> run'.takenResults == run.takenResults
    requires !Stopped(run, ctx) ==>
               run'.taken == run.taken + [ks[j]] && run'.takenResults == run.takenResults + [At(run.results, ks[j])]
    ensures DoneSoFar(start, run', ctx, ks, j + 1)
    ensures forall x :: j + 1 <= x < |ks| ==> ks[x] in run'.active
  {
    var cursor, cap := ctx.cursor, Cap(ctx.num);
    assert forall x :: j < x < |ks| ==> ks[x] != ks[j];
    assert ks[..j + 1] == ks[..j] + [ks[j]];
    if Stopped(run, ctx) {
      SkipNext(run.takenResults, start.takenResults, start.results, ks, j, cursor, cap);
    } else {
      TakeNext(run.takenResults, start.takenResults, start.results, ks, j, cursor, cap);
    }
  }

  /** Passing over the next of `ks` once collection has stopped changes
      nothing. */
  lemma SkipNext(t: seq<Option<PostRecord>>, base: seq<Option<PostRecord>>, rs: seq<Option<PostRecord>>,
                 ks: seq<nat>, j: nat, cursor: Option<string>, cap: nat)
    requires j < |ks| && Drain(t, cursor, cap) == Drain(base + ResultsAt(rs, ks[..j]), cursor, cap)
    requires Drain(t, cursor, cap).stopped
    ensures Drain(t, cursor, cap) == Drain(base + ResultsAt(rs, ks[..j + 1]), cursor, cap)
  {
    DrainStable(base + ResultsAt(rs, ks[..j]), [At(rs, ks[j])], cursor, cap);
    assert ResultsAt(rs, ks[..j + 1]) == ResultsAt(rs, ks[..j]) + [At(rs, ks[j])];
    assert base + ResultsAt(rs, ks[..j]) + [At(rs, ks[j])] == base + ResultsAt(rs, ks[..j + 1]);
  }

  /** The next position in the finishing order whose submission is still in
      `a`, or the end of the order. */
  function NextIn(order: seq<nat>, pos: nat, a: seq<nat>): (r: nat)
    requires pos <= |order|
    ensures pos <= r <= |order|
    ensures forall q :: pos <= q < r ==> order[q] !in a
    ensures r < |order| ==> order[r] in a
    decreases |order| - pos
  {
    if pos == |order| || order[pos] in a then pos else NextIn(order, pos + 1, a)
  }

  /** Skipping positions whose submissions were yielded already, or are not
      waited for, yields nothing. */
  lemma {:induction false} SkipYielded(order: seq<nat>, a: seq<nat>, pos: nat, pos': nat)
    requires pos <= pos' <= |order|
    requires forall q :: pos <= q < pos' ==> order[q] !in a || order[q] in FinalTakes(order[..pos], a)
    ensures FinalTakes(order[..pos'], a) == FinalTakes(order[..pos], a)
    decreases pos' - pos
  {
    if pos < pos' {
      assert order[..pos + 1][..pos] == order[..pos];
      SkipYielded(order, a, pos + 1, pos');
    }
  }

  /** The final wait (`as_completed(active_futures, timeout=30)`): take the
      waited-for submissions in finishing order; a yield after collection
      stopped, or a result that carries the cursor's fingerprint, ends the
      wait. If the order runs out while a waited-for submission has not
      finished, the wait times out. */
  method FinalDrain(run: Run, ctx: Ctx, order: seq<nat>) returns (run': Run, timedOut: bool)
    requires RunValid(run, ctx)
    ensures RunValid(run', ctx) && WaitEnds(run, run', ctx, order, timedOut)
  {
    run' := run;
    var pos := 0;
    WaitStarts(run, ctx, order);
    while true
      invariant RunValid(run', ctx) && WaitSoFar(run, run', ctx, order, pos)
      decreases |order| - pos
    {
      var over;
      run', pos, over, timedOut := WaitStep(run, run', ctx, order, pos);
      if over {
        return;
      }
    }
  }

  /** One yield of `as_completed`, or its timeout: `over` when the wait
      ends. */
  method WaitStep(start: Run, run: Run, ctx: Ctx, order: seq<nat>, pos: nat)
      returns (run': Run, pos': nat, over: bool, timedOut: bool)
    requires RunValid(run, ctx) && WaitSoFar(start, run, ctx, order, pos)
    ensures RunValid(run', ctx)
    ensures over ==> WaitEnds(start, run', ctx, order, timedOut)
    ensures !over ==> pos < pos' <= |order| && WaitSoFar(start, run', ctx, order, pos')
  {
    run', over, timedOut := run, true, false;
    pos' := NextIn(order, pos, run.active);
    WaitSkips(start, run, ctx, order, pos, pos');
    if pos' == |order| {
      timedOut := |run.active| > 0;
      WaitRunsOut(start, run, ctx, order, timedOut);
    } else if run.extracted >= ctx.num {
      WaitQuits(start, run, ctx, order, pos');
    } else {
      run', pos', over := WaitTake(start, run, ctx, order, pos');
    }
  }

  /** The final wait has yielded the submissions of `start.active` that
      finish within the first `pos` positions of `order`, took each of them
      and did not end early. */
  ghost predicate WaitSoFar(start: Run, run: Run, ctx: Ctx, order: seq<nat>, pos: nat)
  {
    pos <= |order| &&
    var t := FinalTakes(order[..pos], start.active);
    run.results == start.results && run.origin == start.origin &&
    run.taken == start.taken + t &&
    run.takenResults == start.takenResults + ResultsAt(start.results, t) &&
    (forall x :: x in run.active <==> x in start.active && x !in t) &&
    !QuitsEarly(start.takenResults, ResultsAt(start.results, t), ctx.cursor, Cap(ctx.num))
  }

  /** The final wait has ended with `run`: the rule makes of the results
      taken what it makes of the earlier ones followed by those the wait
      yielded; the wait timed out exactly when a waited-for submission never
      finished and the wait did not end early; and a wait that started before
      collection stopped and stopped it on the cursor did not time out. */
  ghost predicate WaitEnds(start: Run, run: Run, ctx: Ctx, order: seq<nat>, timedOut: bool)
  {
    var ys := ResultsAt(start.results, FinalTakes(order, start.active));
    run.results == start.results && run.origin == start.origin &&
    Drain(run.takenResults, ctx.cursor, Cap(ctx.num)) == Drain(start.takenResults + ys, ctx.cursor, Cap(ctx.num)) &&
    (timedOut <==> (exists k :: k in start.active && k !in order) && !QuitsEarly(start.takenResults, ys, ctx.cursor, Cap(ctx.num))) &&
    ((!Stopped(start, ctx) && StoppedOnCursor(Drain(run.takenResults, ctx.cursor, Cap(ctx.num)), Cap(ctx.num)))
       ==> !timedOut)
  }

  lemma WaitStarts(start: Run, ctx: Ctx, order: seq<nat>)
    ensures WaitSoFar(start, start, ctx, order, 0)
  {
    assert order[..0] == [];
    assert start.takenResults + ResultsAt(start.results, []) == start.takenResults;
    assert start.taken + [] == start.taken;
  }

  lemma WaitSkips(start: Run, run: Run, ctx: Ctx, order: seq<nat>, pos: nat, next: nat)
    requires WaitSoFar(start, run, ctx, order, pos)
    requires pos <= next <= |order| && next == NextIn(order, pos, run.active)
    ensures WaitSoFar(start, run, ctx, order, next)
  {
    SkipYielded(order, start.active, pos, next);
  }

  /** The finishing order ran out: the wait times out exactly when a
      waited-for submission is still active. */
  lemma WaitRunsOut(start: Run, run: Run, ctx: Ctx, order: seq<nat>, timedOut: bool)
    requires WaitSoFar(start, run, ctx, order, |order|) && timedOut == (|run.active| > 0)
    ensures WaitEnds(start, run, ctx, order, timedOut)
  {
    assert order[..|order|] == order;
    FinalTimeout(start.active, run.active, order, start.takenResults, start.results, ctx.cursor, Cap(ctx.num));
  }

  /** A submission was yielded after collection stopped: the wait ends. */
  lemma WaitQuits(start: Run, run: Run, ctx: Ctx, order: seq<nat>, pos: nat)
    requires WaitSoFar(start, run, ctx, order, pos) && pos < |order| && order[pos] in run.active
    requires Stopped(run, ctx)
    ensures WaitEnds(start, run, ctx, order, false)
  {
    var a := start.active;
    var p := FinalTakes(order[..pos], a);
    var ys := FinalTakes(order, a);
    FinalTakesNext(order, a, pos);
    FinalTakesPrefix(order, a, pos + 1);
    assert ys[..|p|] == p;
    FinalQuit(start.takenResults, start.results, ys, |p|, ctx.cursor, Cap(ctx.num));
  }

  /** The next yield in finishing order: the submission is waited for and was
      not yielded yet, so it is appended to what was yielded. */
  lemma FinalTakesNext(order: seq<nat>, a: seq<nat>, pos: nat)
    requires pos < |order| && order[pos] in a && order[pos] !in FinalTakes(order[..pos], a)
    ensures FinalTakes(order[..pos + 1], a) == FinalTakes(order[..pos], a) + [order[pos]]
  {
    assert order[..pos + 1][..pos] == order[..pos];
  }

  /** Removing from `active_futures` and taking the next submission yielded
      by the final wait; `hit` when its result carries the cursor's
      fingerprint, which ends the wait. */
  method WaitTake(start: Run, run: Run, ctx: Ctx, order: seq<nat>, pos: nat) returns (run': Run, pos': nat, hit: bool)
    requires RunValid(run, ctx) && WaitSoFar(start, run, ctx, order, pos)
    requires pos < |order| && order[pos] in run.active && run.extracted < ctx.num
    ensures RunValid(run', ctx) && pos' == pos + 1
    ensures !hit ==> WaitSoFar(start, run', ctx, order, pos')
    ensures hit ==> WaitEnds(start, run', ctx, order, false)
  {
    var k := order[pos];
    pos' := pos + 1;
    run' := Retire(run, ctx, k);
    run' := Take(run', ctx, k);
    hit := HitsCursorAt(run', ctx, k);
    if hit {
      WaitHits(start, run, run', ctx, order, pos);
    } else {
      WaitGoesOn(start, run, run', ctx, order, pos);
    }
  }

  /** Taking the next yield appends it to what the wait took. */
  lemma WaitTook(start: Run, run: Run, run': Run, order: seq<nat>, pos: nat)
    requires pos < |order| && order[pos] in start.active && order[pos] !in FinalTakes(order[..pos], start.active)
    requires run.taken == start.taken + FinalTakes(order[..pos], start.active)
    requires run.takenResults == start.takenResults + ResultsAt(start.results, FinalTakes(order[..pos], start.active))
    requires run'.taken == run.taken + [order[pos]]
    requires run'.takenResults == run.takenResults + [At(start.results, order[pos])]
    ensures FinalTakes(order[..pos + 1], start.active) == FinalTakes(order[..pos], start.active) + [order[pos]]
    ensures FinalTakes(order[..pos + 1], start.active) <= FinalTakes(order, start.active)
    ensures run'.taken == start.taken + FinalTakes(order[..pos + 1], start.active)
    ensures run'.takenResults == start.takenResults + ResultsAt(start.results, FinalTakes(order[..pos + 1], start.active))
  {
    var p := FinalTakes(order[..pos], start.active);
    FinalTakesNext(order, start.active, pos);
    FinalTakesPrefix(order, start.active, pos + 1);
    AppendTaken(start.takenResults, start.results, p, order[pos]);
  }

  lemma AppendTaken(tr: seq<Option<PostRecord>>, rs: seq<Option<PostRecord>>, p: seq<nat>, k: nat)
    ensures tr + ResultsAt(rs, p) + [At(rs, k)] == tr + ResultsAt(rs, p + [k])
  {
    ResultsAtAppend(rs, p, [k]);
    assert ResultsAt(rs, [k]) == [At(rs, k)];
  }

  /** A yield whose result does not carry the cursor's fingerprint leaves
      the wait going. */
  lemma WaitGoesOn(start: Run, run: Run, run': Run, ctx: Ctx, order: seq<nat>, pos: nat)
    requires WaitSoFar(start, run, ctx, order, pos) && pos < |order| && order[pos] in run.active
    requires !Stopped(run, ctx) && !HitsCursorAt(run', ctx, order[pos])
    requires run'.results == run.results && run'.origin == run.origin
    requires run'.taken == run.taken + [order[pos]]
    requires run'.takenResults == run.takenResults + [At(run.results, order[pos])]
    requires forall x :: x in run'.active <==> x in run.active && x != order[pos]
    ensures WaitSoFar(start, run', ctx, order, pos + 1)
  {
    WaitTook(start, run, run', order, pos);
    var p := FinalTakes(order[..pos], start.active);
    assert ResultsAt(start.results, p + [order[pos]])[..|p|] == ResultsAt(start.results, p);
  }

  /** A yield whose result carries the cursor's fingerprint ends the wait. */
  lemma WaitHits(start: Run, run: Run, run': Run, ctx: Ctx, order: seq<nat>, pos: nat)
    requires WaitSoFar(start, run, ctx, order, pos) && pos < |order| && order[pos] in run.active
    requires HitsCursorAt(run', ctx, order[pos]) && Stopped(run', ctx)
    requires run'.results == run.results && run'.origin == run.origin
    requires run'.taken == run.taken + [order[pos]]
    requires run'.takenResults == run.takenResults + [At(run.results, order[pos])]
    ensures WaitEnds(start, run', ctx, order, false)
  {
    WaitTook(start, run, run', order, pos);
    var p := FinalTakes(order[..pos], start.active);
    var ys := FinalTakes(order, start.active);
    assert ys[..|p| + 1] == p + [order[pos]];
    FinalQuit(start.takenResults, start.results, ys, |p| + 1, ctx.cursor, Cap(ctx.num));
  }

  /** The wait ran through the finishing order: it times out exactly when a
      waited-for submission did not finish, and a wait that started before
      collection stopped has not stopped on the cursor. */
  lemma FinalTimeout(a: seq<nat>, left: seq<nat>, order: seq<nat>, tr: seq<Option<PostRecord>>,
                     rs: seq<Option<PostRecord>>, cursor: Option<string>, cap: nat)
    requires forall x :: x in left <==> x in a && x !in FinalTakes(order, a)
    requires !QuitsEarly(tr, ResultsAt(rs, FinalTakes(order, a)), cursor, cap)
    ensures |left| > 0 <==> exists k :: k in a && k !in order
    ensures !Drain(tr, cursor, cap).stopped ==>
              !StoppedOnCursor(Drain(tr + ResultsAt(rs, FinalTakes(order, a)), cursor, cap), cap)
  {
    if |left| > 0 {
      assert left[0] in left;
    }
    if !Drain(tr, cursor, cap).stopped {
      NoQuitNoCursor(tr, ResultsAt(rs, FinalTakes(order, a)), cursor, cap);
    }
  }

  /** The wait ended early after taking the first `m` yielded submissions:
      either collection had stopped with more yielded, or the last one
      yielded carried the cursor's fingerprint. */
  lemma FinalQuit(tr: seq<Option<PostRecord>>, rs: seq<Option<PostRecord>>, ys: seq<nat>, m: nat,
                  cursor: Option<string>, cap: nat)
    requires m <= |ys| && Drain(tr + ResultsAt(rs, ys[..m]), cursor, cap).stopped
    requires m < |ys| || (m > 0 && At(rs, ys[m - 1]).Some? && HitsCursor(At(rs, ys[m - 1]).value, cursor))
    ensures QuitsEarly(tr, ResultsAt(rs, ys), cursor, cap)
    ensures Drain(tr + ResultsAt(rs, ys[..m]), cursor, cap) == Drain(tr + ResultsAt(rs, ys), cursor, cap)
  {
    var t := tr + ResultsAt(rs, ys[..m]);
    SkipRest(t, tr, rs, ys, m, cursor, cap);
    if m < |ys| {
      assert ResultsAt(rs, ys)[..m] == ResultsAt(rs, ys[..m]);
      StoppedQuits(tr, ResultsAt(rs, ys), m, cursor, cap);
    }
  }

  // ---------------------------------------------------------------------------
  // The order in which submissions are taken

  function Sum(bs: seq<nat>): nat
  {
    if bs == [] then 0 else Sum(bs[..|bs| - 1]) + bs[|bs| - 1]
  }

  /** The submissions taken by the scroll passes that submitted `bs[0]`,
      `bs[1]`, ... candidates, while collection has not stopped: after each
      pass, the pending submissions the schedule has finished, in submission
      order. */
  function ScrollOrder(sch: Schedule, bs: seq<nat>): seq<nat>
  {
    if bs == [] then []
    else
      ScrollStep(sch, ScrollOrder(sch, bs[..|bs| - 1]), Sum(bs), |bs| - 1)
  }

  /** The order `co` followed by what scroll pass `s` takes when `n`
      submissions were made. */
  function ScrollStep(sch: Schedule, co: seq<nat>, n: nat, s: nat): seq<nat>
  {
    co + DoneList(Pending(n, co), DoneAt(sch, s))
  }

  /** The scroll passes' order followed by what the final wait yields of the
      submissions still pending. */
  function CompletionOrder(sch: Schedule, bs: seq<nat>): seq<nat>
  {
    var co := ScrollOrder(sch, bs);
    co + FinalTakes(sch.finalOrder, Pending(Sum(bs), co))
  }

  /** What the scroll passes submit, as feed coordinates, with the processed
      sets and the number submitted by each pass. */
  datatype Walked = Walked(subs: seq<(nat, nat)>, urls: set<string>, ids: set<string>, sizes: seq<nat>)

  /** The submissions of the first `n` scroll passes, each with room for
      `cap`; None when a pass raised while reading markup. */
  function Walk(pf: seq<seq<Probed>>, cap: nat, n: nat): Option<Walked>
  {
    if n == 0 then Some(Walked([], {}, {}, []))
    else
      var w := Walk(pf, cap, n - 1);
      if w.None? then None
      else
        var q := Picks(Probes(pf, n - 1), 0, w.value.urls, w.value.ids, cap);
        if q.None? then None
        else Some(Walked(w.value.subs + Places(n - 1, q.value.ps), q.value.urls, q.value.ids, w.value.sizes + [|q.value.ps|]))
  }

  /** Each of the first `n` passes submitted at most `cap` elements, and
      the submissions are as many as the batch sizes add up to. */
  lemma {:induction false} WalkFacts(pf: seq<seq<Probed>>, cap: nat, n: nat)
    ensures var r := Walk(pf, cap, n);
            r.Some? ==> |r.value.sizes| == n && |r.value.subs| == Sum(r.value.sizes)
    ensures var r := Walk(pf, cap, n);
            r.Some? ==> forall b :: b in r.value.sizes ==> b <= cap
  {
    if n > 0 {
      WalkFacts(pf, cap, n - 1);
      var w := Walk(pf, cap, n - 1);
      if w.Some? {
        var q := Picks(Probes(pf, n - 1), 0, w.value.urls, w.value.ids, cap);
        PicksFacts(Probes(pf, n - 1), 0, w.value.urls, w.value.ids, cap);
        if q.Some? {
          var sizes := w.value.sizes + [|q.value.ps|];
          assert sizes[..|sizes| - 1] == w.value.sizes;
        }
      }
    }
  }

  // ---------------------------------------------------------------------------
  // The harvest

  /** One pass of the scroll loop after the stall check: submit, then collect
      what has finished. A run settled on the order `co` is settled, after
      the pass, on `co` followed by the pending submissions in `done`. */
  method Scroll(run: Run, ctx: Ctx, s: nat, done: set<nat>, ghost co: seq<nat>)
    returns (run': Run, batch: nat, failed: bool)
    requires RunValid(run, ctx) && run.extracted < ctx.num && Settled(run, ctx, co)
    ensures failed <==> Picks(Probes(ctx.pf, s), 0, run.urls, run.ids, Cap(ctx.num)).None?
    ensures !failed ==>
              var q := Picks(Probes(ctx.pf, s), 0, run.urls, run.ids, Cap(ctx.num)).value;
              RunValid(run', ctx) && batch == |q.ps| && |run'.results| == |run.results| + batch &&
              run'.urls == q.urls && run'.ids == q.ids && run'.origin == run.origin + Places(s, q.ps) &&
              Settled(run', ctx, co + DoneList(Pending(|run'.results|, co), done))
  {
    run', batch, failed := SubmitScroll(run, ctx, s);
    if failed {
      return;
    }
    ghost var mid := run';
    assert forall x :: x in co ==> x < |run.results| by {
      assert run.taken == co;
    }
    run' := DrainDone(run', ctx, done);
    ScrollSettles(run, mid, run', ctx, co, done);
  }

  /** The bookkeeping of `Scroll`: submitting appends fresh pending
      submissions, and the collection pass takes the finished ones in
      `active_futures` order. */
  lemma ScrollSettles(run: Run, mid: Run, run': Run, ctx: Ctx, co: seq<nat>, done: set<nat>)
    requires Settled(run, ctx, co) && !Stopped(run, ctx) && forall x :: x in co ==> x < |run.results|
    requires |run.results| <= |mid.results| && run.results <= mid.results
    requires mid.taken == run.taken && mid.takenResults == run.takenResults
    requires mid.active == run.active + Range(|run.results|, |mid.results|)
    requires run'.results == mid.results && Increasing(run'.active)
    requires Drain(run'.takenResults, ctx.cursor, Cap(ctx.num)) ==
             Drain(mid.takenResults + ResultsAt(mid.results, DoneList(mid.active, done)), ctx.cursor, Cap(ctx.num))
    requires !Stopped(run', ctx) ==>
               run'.taken == mid.taken + DoneList(mid.active, done) &&
               forall x :: x in run'.active <==> x in mid.active && x !in done
    ensures Settled(run', ctx, co + DoneList(Pending(|run'.results|, co), done))
  {
    var n, n' := |run.results|, |mid.results|;
    PendingExtend(n, n' - n, co);
    var dl := DoneList(Pending(n', co), done);
    ScrollDrains(run.results, mid.results, co, dl, run.takenResults, run'.takenResults, ctx.cursor, Cap(ctx.num));
    if !Stopped(run', ctx) {
      ScrollPending(n', co, done, run'.active);
    }
  }

  /** The rule makes of the earlier order followed by the finished pending
      submissions what it makes of the results taken. */
  lemma ScrollDrains(rs: seq<Option<PostRecord>>, rs': seq<Option<PostRecord>>, co: seq<nat>, dl: seq<nat>,
                     tr: seq<Option<PostRecord>>, tr': seq<Option<PostRecord>>, cursor: Option<string>, cap: nat)
    requires forall x :: x in co ==> x < |rs|
    requires rs <= rs'
    requires Drain(ResultsAt(rs, co), cursor, cap) == Drain(tr, cursor, cap)
    requires Drain(tr', cursor, cap) == Drain(tr + ResultsAt(rs', dl), cursor, cap)
    ensures Drain(ResultsAt(rs', co + dl), cursor, cap) == Drain(tr', cursor, cap)
  {
    assert rs' == rs + rs'[|rs|..];
    ResultsAtExtend(rs, rs'[|rs|..], co);
    ResultsAtAppend(rs', co, dl);
    DrainCongruent(ResultsAt(rs, co), tr, ResultsAt(rs', dl), cursor, cap);
  }

  /** After the collection pass, the active submissions are the pending ones
      of the extended order. */
  lemma ScrollPending(n: nat, co: seq<nat>, done: set<nat>, active: seq<nat>)
    requires Increasing(active)
    requires forall x :: x in active <==> x in Pending(n, co) && x !in done
    ensures active == Pending(n, co + DoneList(Pending(n, co), done))
  {
    var dl := DoneList(Pending(n, co), done);
    PendingFacts(n, co);
    PendingFacts(n, co + dl);
    IncreasingUnique(active, Pending(n, co + dl));
  }

  /** What the probed feed says about a submission is what the element and
      the worker say. */
  function WorkerAt(env: Env, o: (nat, nat)): Option<PostRecord>
  {
    if o.0 < |env.feed| && o.1 < |env.feed[o.0]| then Worker(env.feed[o.0][o.1], env) else None
  }

  /** The worker results of the submissions `subs`, in submission order. */
  function SubResults(env: Env, subs: seq<(nat, nat)>): (r: seq<Option<PostRecord>>)
    ensures |r| == |subs| && forall k :: 0 <= k < |subs| ==> r[k] == WorkerAt(env, subs[k])
  {
    seq(|subs|, k requires 0 <= k < |subs| => WorkerAt(env, subs[k]))
  }

  /** A run over the probed feed holds the workers' results of its
      submissions. */
  lemma RunResults(env: Env, run: Run, ctx: Ctx)
    requires ctx.pf == ProbeFeed(env) && RunValid(run, ctx)
    ensures run.results == SubResults(env, run.origin)
  {
    forall k | 0 <= k < |run.results|
      ensures run.results[k] == WorkerAt(env, run.origin[k])
    {
      assert FromFeed(ctx.pf, run.origin[k], run.results[k]);
    }
  }

  /** The scroll/submit/collect loop: scroll, stop after three scrolls in a
      row without new elements, submit the new candidates, then collect the
      finished submissions; stop when `extracted_count` reaches `num_posts`
      or after fifty scrolls, or when reading markup raised. */
  method ScrollLoop(ctx: Ctx, feed: seq<seq<FeedItem>>, sch: Schedule)
    returns (run: Run, scrolls: nat, batches: seq<nat>, failed: bool)
    requires WellProbed(ctx.pf)
    ensures RunValid(run, ctx) && |run.results| == Sum(batches)
    ensures Settled(run, ctx, ScrollOrder(sch, batches))
    ensures Walk(ctx.pf, Cap(ctx.num), |batches|) == Some(Walked(run.origin, run.urls, run.ids, batches))
    ensures failed ==> Walk(ctx.pf, Cap(ctx.num), |batches| + 1).None?
    ensures scrolls <= MaxScrollAttempts
    ensures |batches| == scrolls ||
            (|batches| + 1 == scrolls && (failed || Stalled(feed, scrolls)))
    ensures forall s :: 1 <= s < scrolls ==> !Stalled(feed, s)
    ensures !failed ==>
              scrolls == MaxScrollAttempts || Stalled(feed, scrolls) || Stopped(run, ctx)
  {
    run := Start(ctx);
    scrolls := 0;
    batches := [];
    failed := false;
    var consecutive, last, stop := 0, 0, false;
    while !stop && !failed && run.extracted < ctx.num && scrolls < MaxScrollAttempts
      invariant RunValid(run, ctx) && |run.results| == Sum(batches)
      invariant Settled(run, ctx, ScrollOrder(sch, batches))
      invariant Walk(ctx.pf, Cap(ctx.num), |batches|) == Some(Walked(run.origin, run.urls, run.ids, batches))
      invariant failed ==> Walk(ctx.pf, Cap(ctx.num), |batches| + 1).None?
      invariant scrolls <= MaxScrollAttempts && !(stop && failed)
      invariant if stop || failed then |batches| + 1 == scrolls else |batches| == scrolls
      invariant !stop && !failed ==> consecutive == Stalls(feed, scrolls) && last == Count(feed, scrolls)
      invariant forall s :: 1 <= s < scrolls ==> !Stalled(feed, s)
      invariant 1 <= scrolls ==> (Stalled(feed, scrolls) <==> stop)
      decreases MaxScrollAttempts - scrolls
    {
      SteadyNext(feed, scrolls);
      scrolls, consecutive, last, stop := StallCheck(feed, scrolls, consecutive, last);
      if !stop {
        var next, more;
        next, more, failed := ScrollPass(ctx, sch, run, batches);
        if !failed {
          run, batches := next, more;
        }
      }
    }
  }

  /** One pass of the scroll loop, with its batch size recorded. */
  method ScrollPass(ctx: Ctx, sch: Schedule, run: Run, batches: seq<nat>)
    returns (run': Run, batches': seq<nat>, failed: bool)
    requires RunValid(run, ctx) && run.extracted < ctx.num && |run.results| == Sum(batches)
    requires Settled(run, ctx, ScrollOrder(sch, batches))
    requires Walk(ctx.pf, Cap(ctx.num), |batches|) == Some(Walked(run.origin, run.urls, run.ids, batches))
    ensures failed ==> Walk(ctx.pf, Cap(ctx.num), |batches| + 1).None?
    ensures !failed ==>
              RunValid(run', ctx) && |batches'| == |batches| + 1 && |run'.results| == Sum(batches') &&
              Settled(run', ctx, ScrollOrder(sch, batches')) &&
              Walk(ctx.pf, Cap(ctx.num), |batches'|) == Some(Walked(run'.origin, run'.urls, run'.ids, batches'))
  {
    ghost var co := ScrollOrder(sch, batches);
    var batch;
    run', batch, failed := Scroll(run, ctx, |batches|, DoneAt(sch, |batches|), co);
    batches' := batches + [batch];
    WalkNext(ctx.pf, Cap(ctx.num), |batches|);
    ScrollOrderNext(sch, batches, batch);
  }

  lemma ScrollOrderNext(sch: Schedule, bs: seq<nat>, b: nat)
    ensures Sum(bs + [b]) == Sum(bs) + b
    ensures ScrollOrder(sch, bs + [b]) == ScrollStep(sch, ScrollOrder(sch, bs), Sum(bs) + b, |bs|)
  {
    var bs' := bs + [b];
    assert bs'[..|bs'| - 1] == bs;
  }

  lemma WalkNext(pf: seq<seq<Probed>>, cap: nat, n: nat)
    ensures Walk(pf, cap, n).None? ==> Walk(pf, cap, n + 1).None?
    ensures Walk(pf, cap, n).Some? ==>
              var w := Walk(pf, cap, n).value;
              var q := Picks(Probes(pf, n), 0, w.urls, w.ids, cap);
              Walk(pf, cap, n + 1) ==
                if q.None? then None
                else Some(Walked(w.subs + Places(n, q.value.ps), q.value.urls, q.value.ids, w.sizes + [|q.value.ps|]))
  {
  }

  lemma SteadyNext(feed: seq<seq<FeedItem>>, n: nat)
    requires (forall s :: 1 <= s < n ==> !Stalled(feed, s)) && (1 <= n ==> !Stalled(feed, n))
    ensures forall s :: 1 <= s < n + 1 ==> !Stalled(feed, s)
  {
  }

  /** The stall check after a scroll: count the elements, and stop on the
      third scroll in a row that found no more than the one before. */
  method StallCheck(feed: seq<seq<FeedItem>>, scrolls: nat, consecutive: nat, last: nat)
    returns (scrolls': nat, consecutive': nat, last': nat, stop: bool)
    requires consecutive == Stalls(feed, scrolls) && last == Count(feed, scrolls)
    ensures scrolls' == scrolls + 1
    ensures consecutive' == Stalls(feed, scrolls') && last' == Count(feed, scrolls')
    ensures stop <==> Stalled(feed, scrolls')
  {
    scrolls' := scrolls + 1;
    var found := |Snapshot(feed, scrolls)|;
    if found > last {
      consecutive' := 0;
    } else {
      consecutive' := consecutive + 1;
    }
    last' := found;
    stop := consecutive' >= MaxConsecutiveNoPosts;
  }

  function Reverse<T>(s: seq<T>): (r: seq<T>)
    ensures |r| == |s| && forall i :: 0 <= i < |s| ==> r[i] == s[|s| - 1 - i]
  {
    if s == [] then [] else Reverse(s[1..]) + [s[0]]
  }

  lemma ReverseMembers<T>(s: seq<T>)
    ensures forall x :: x in Reverse(s) <==> x in s
  {
    var r := Reverse(s);
    forall x | x in r
      ensures x in s
    {
      var i :| 0 <= i < |r| && r[i] == x;
      assert s[|s| - 1 - i] == x;
    }
    forall x | x in s
      ensures x in r
    {
      var i :| 0 <= i < |s| && s[i] == x;
      assert r[|s| - 1 - i] == x;
    }
  }

  /** The collected records of a valid run, with the facts the harvest
      promises about them. */
  lemma Outcome(run: Run, ctx: Ctx)
    requires RunValid(run, ctx)
    ensures |run.collected| <= Cap(ctx.num)
    ensures forall i :: 0 <= i < |run.collected| ==> !HitsCursor(run.collected[i], ctx.cursor)
    ensures RecordsApart(run.collected)
    ensures forall x :: x in run.collected ==>
              exists s, i :: 0 <= s < |ctx.pf| && 0 <= i < |ctx.pf[s]| &&
                ctx.pf[s][i].ident.candidate && ctx.pf[s][i].result == Some(x)
  {
    DrainAvoidsCursor(run.takenResults, ctx.cursor, Cap(ctx.num));
    TakenApart(run);
    DrainApart(run.takenResults, ctx.cursor, Cap(ctx.num));
    DrainFrom(run.takenResults, ctx.cursor, Cap(ctx.num));
    forall x | x in run.collected
      ensures exists s, i :: 0 <= s < |ctx.pf| && 0 <= i < |ctx.pf[s]| &&
                ctx.pf[s][i].ident.candidate && ctx.pf[s][i].result == Some(x)
    {
      var t :| 0 <= t < |run.takenResults| && run.takenResults[t] == Some(x);
      var o := run.origin[run.taken[t]];
      assert FromFeed(ctx.pf, o, run.results[run.taken[t]]);
    }
  }

  /** Nothing submitted, nothing collected. */
  function Start(ctx: Ctx): (run: Run)
    requires WellProbed(ctx.pf)
    ensures RunValid(run, ctx) && run.extracted == 0 && run.collected == []
    ensures Settled(run, ctx, []) && Walk(ctx.pf, Cap(ctx.num), 0) == Some(Walked(run.origin, run.urls, run.ids, []))
  {
    Run(0, {}, {}, [], [], [], [], [], [])
  }

  /** What the probed feed says about a record is what the elements and the
      worker say. */
  lemma ProbedProvenance(env: Env, pf: seq<seq<Probed>>, x: PostRecord)
    requires pf == ProbeFeed(env)
    requires exists s, i :: 0 <= s < |pf| && 0 <= i < |pf[s]| &&
               pf[s][i].ident.candidate && pf[s][i].result == Some(x)
    ensures FromCandidate(env, x)
  {
    var s, i :| 0 <= s < |pf| && 0 <= i < |pf[s]| &&
                pf[s][i].ident.candidate && pf[s][i].result == Some(x);
    assert pf[s][i] == ProbeItem(env.feed[s][i], env);
  }

  /** `x` is the worker's record for a candidate element of the feed. */
  predicate FromCandidate(env: Env, x: PostRecord)
  {
    exists s, i :: 0 <= s < |env.feed| && 0 <= i < |env.feed[s]| &&
      Permalink.Identify(env.feed[s][i].probe, env.lib, env.feed[s][i].hex).candidate &&
      Worker(env.feed[s][i], env) == Some(x)
  }

  /** The outcome of a harvest: the submissions as feed coordinates, the
      number submitted by each scroll pass, the number of scrolls, the
      submissions still active at the final wait, whether reading markup
      raised, whether the final wait timed out, and `collected_posts`. */
  datatype Harvested = Harvested(subs: seq<(nat, nat)>, batches: seq<nat>, scrolls: nat, waiting: seq<nat>,
                                 failed: bool, timedOut: bool, collected: seq<PostRecord>)

  /** The generator yields `collected_posts` newest-last, or nothing when the
      harvest was ended by an exception. */
  predicate Yields(out: seq<PostRecord>, h: Harvested)
  {
    if h.failed || h.timedOut then out == [] else out == Reverse(h.collected)
  }

  /** The scroll passes submit what `Walk` says, and a failed harvest failed
      in the pass after the last one that completed. */
  predicate SubmitsAsWalked(env: Env, h: Harvested)
  {
    var w := Walk(ProbeFeed(env), Cap(env.num), |h.batches|);
    w.Some? && w.value.subs == h.subs && w.value.sizes == h.batches &&
    (h.failed ==> Walk(ProbeFeed(env), Cap(env.num), |h.batches| + 1).None?)
  }

  /** The records collected are what the rule makes of the submissions'
      results in the order they were taken. */
  predicate CollectsInOrder(env: Env, sch: Schedule, h: Harvested)
  {
    var rs := SubResults(env, h.subs);
    var order := if h.failed then ScrollOrder(sch, h.batches) else CompletionOrder(sch, h.batches);
    h.collected == Drain(ResultsAt(rs, order), env.cursor, Cap(env.num)).collected
  }

  /** The final wait: while collection has not stopped, it waits for every
      submission not yet taken, and it times out exactly when one of those
      did not finish and the wait did not end early. */
  predicate WaitsAsScheduled(env: Env, sch: Schedule, h: Harvested)
  {
    var rs := SubResults(env, h.subs);
    var so := ScrollOrder(sch, h.batches);
    (forall k :: k in h.waiting ==> k < |h.subs|) &&
    (!Drain(ResultsAt(rs, so), env.cursor, Cap(env.num)).stopped ==> h.waiting == Pending(|h.subs|, so)) &&
    (h.failed ==> !h.timedOut) &&
    (!h.failed ==>
       (h.timedOut <==>
          (exists k :: k in h.waiting && k !in sch.finalOrder) &&
          !QuitsEarly(ResultsAt(rs, so), ResultsAt(rs, FinalTakes(sch.finalOrder, h.waiting)), env.cursor, Cap(env.num))))
  }

  /** At most fifty scrolls; every scroll but the last found new elements
      within three; the loop ended on the scroll limit, the stall limit,
      collection stopping, or an exception. */
  predicate ScrollsBounded(env: Env, sch: Schedule, h: Harvested)
  {
    var rs := SubResults(env, h.subs);
    h.scrolls <= MaxScrollAttempts &&
    (|h.batches| == h.scrolls ||
     (|h.batches| + 1 == h.scrolls && (h.failed || Stalled(env.feed, h.scrolls)))) &&
    (forall s :: 1 <= s < h.scrolls ==> !Stalled(env.feed, s)) &&
    (!h.failed ==>
       h.scrolls == MaxScrollAttempts || Stalled(env.feed, h.scrolls) ||
       Drain(ResultsAt(rs, ScrollOrder(sch, h.batches)), env.cursor, Cap(env.num)).stopped)
  }

  /** At most `num_posts` records, none carrying the cursor's fingerprint,
      no two sharing a truthy URL or ID, each a worker's record for a
      candidate element. */
  predicate CollectedSafe(env: Env, h: Harvested)
  {
    |h.collected| <= Cap(env.num) &&
    (forall i :: 0 <= i < |h.collected| ==> !HitsCursor(h.collected[i], env.cursor)) &&
    RecordsApart(h.collected) &&
    (forall x :: x in h.collected ==> FromCandidate(env, x))
  }

  predicate Harvests(env: Env, sch: Schedule, out: seq<PostRecord>, h: Harvested)
  {
    Yields(out, h) && SubmitsAsWalked(env, h) && CollectsInOrder(env, sch, h) &&
    WaitsAsScheduled(env, sch, h) && ScrollsBounded(env, sch, h) && CollectedSafe(env, h)
  }

  /** A final wait that started before collection stopped and stopped it on
      the cursor did not time out: the result carrying the cursor's
      fingerprint ends the wait. */
  lemma CursorEndsWait(env: Env, sch: Schedule, out: seq<PostRecord>, h: Harvested)
    requires Harvests(env, sch, out, h) && !h.failed
    requires var rs := SubResults(env, h.subs);
             !Drain(ResultsAt(rs, ScrollOrder(sch, h.batches)), env.cursor, Cap(env.num)).stopped &&
             StoppedOnCursor(Drain(ResultsAt(rs, CompletionOrder(sch, h.batches)), env.cursor, Cap(env.num)), Cap(env.num))
    ensures !h.timedOut && out == Reverse(h.collected)
  {
    var rs := SubResults(env, h.subs);
    var so := ScrollOrder(sch, h.batches);
    var ft := FinalTakes(sch.finalOrder, h.waiting);
    WalkFacts(ProbeFeed(env), Cap(env.num), |h.batches|);
    assert h.waiting == Pending(Sum(h.batches), so);
    ResultsAtAppend(rs, so, ft);
    if h.timedOut {
      NoQuitNoCursor(ResultsAt(rs, so), ResultsAt(rs, ft), env.cursor, Cap(env.num));
    }
  }

  /** When every submission finishes within the final wait, the wait does
      not time out. */
  lemma AllFinishNoTimeout(env: Env, sch: Schedule, out: seq<PostRecord>, h: Harvested)
    requires Harvests(env, sch, out, h)
    requires forall k: nat :: k < |h.subs| ==> k in sch.finalOrder
    ensures !h.timedOut
  {
  }

  /** Without a cursor, a harvest that was not aborted yields the first
      `num_posts` present results in the order they were taken, newest
      last. */
  lemma WithoutCursorFirstPresent(env: Env, sch: Schedule, out: seq<PostRecord>, h: Harvested)
    requires Harvests(env, sch, out, h) && env.cursor.None? && !h.failed && !h.timedOut
    ensures var p := Present(ResultsAt(SubResults(env, h.subs), CompletionOrder(sch, h.batches)));
            out == Reverse(if |p| <= Cap(env.num) then p else p[..Cap(env.num)])
  {
    DrainWithoutCursor(ResultsAt(SubResults(env, h.subs), CompletionOrder(sch, h.batches)), Cap(env.num));
  }

  /** The final collection: the wait yields the waited-for submissions in
      finishing order, which, while collection has not stopped, are the
      pending ones; once it has stopped, nothing more counts. */
  lemma FinalCollection(rs: seq<Option<PostRecord>>, so: seq<nat>, tr: seq<Option<PostRecord>>, waiting: seq<nat>,
                        order: seq<nat>, cursor: Option<string>, cap: nat)
    requires Drain(ResultsAt(rs, so), cursor, cap) == Drain(tr, cursor, cap)
    requires !Drain(tr, cursor, cap).stopped ==> waiting == Pending(|rs|, so)
    ensures Drain(tr + ResultsAt(rs, FinalTakes(order, waiting)), cursor, cap) ==
            Drain(ResultsAt(rs, so + FinalTakes(order, Pending(|rs|, so))), cursor, cap)
  {
    var ft := FinalTakes(order, Pending(|rs|, so));
    ResultsAtAppend(rs, so, ft);
    if Drain(tr, cursor, cap).stopped {
      DrainStable(tr, ResultsAt(rs, FinalTakes(order, waiting)), cursor, cap);
      DrainStable(ResultsAt(rs, so), ResultsAt(rs, ft), cursor, cap);
    } else {
      DrainCongruent(ResultsAt(rs, so), tr, ResultsAt(rs, ft), cursor, cap);
    }
  }

  /** The harvest after the page is open: the scroll loop and the final
      wait. `out` is what the generator yields. */
  method ScrapeLoop(env: Env, sch: Schedule) returns (out: seq<PostRecord>, h: Harvested)
    ensures Harvests(env, sch, out, h)
  {
    var pf := ProbeFeed(env);
    var ctx := Ctx(pf, env.cursor, env.num);
    var run, scrolls, batches, failed := ScrollLoop(ctx, env.feed, sch);
    RunResults(env, run, ctx);
    var waiting := run.active;
    var timedOut := false;
    if !failed {
      ghost var before := run;
      run, timedOut := FinalDrain(run, ctx, sch.finalOrder);
      FinalCollection(before.results, ScrollOrder(sch, batches), before.takenResults, waiting, sch.finalOrder,
                      env.cursor, Cap(env.num));
      QuitsEarlyCongruent(before.takenResults, ResultsAt(before.results, ScrollOrder(sch, batches)),
                          ResultsAt(before.results, FinalTakes(sch.finalOrder, waiting)), env.cursor, Cap(env.num));
    }
    h := Harvested(run.origin, batches, scrolls, waiting, failed, timedOut, run.collected);
    out := if failed || timedOut then [] else Reverse(run.collected);
    Outcome(run, ctx);
    forall x | x in run.collected
      ensures FromCandidate(env, x)
    {
      ProbedProvenance(env, pf, x);
    }
  }
  // ---------------------------------------------------------------------------
  // Opening the group

  const SortParam := "sorting_setting=CHRONOLOGICAL"

  /** The address the browser opens: the group URL with the chronological
      sort parameter added to its query, or as its query when it has none. */
  function ChronologicalUrl(url: string): (r: string)
    ensures StartsWith(r, url) && |r| == |url| + 1 + |SortParam|
    ensures r[|url| + 1..] == SortParam
    ensures r[|url|] == (if '?' in url then '&' else '?')
  {
    url + [if '?' in url then '&' else '?'] + SortParam
  }

  /** The added text opens a query only when the URL had none, so the result
      has exactly as many '?' as the URL, or one when it had none. */
  lemma ChronologicalQuery(url: string)
    ensures '?' in ChronologicalUrl(url)
    ensures forall i :: |url| < i < |ChronologicalUrl(url)| ==> ChronologicalUrl(url)[i] != '?'
    ensures '?' in url ==> ChronologicalUrl(url)[|url|] != '?'
  {
    var r := ChronologicalUrl(url);
    assert r[|url|] == (if '?' in url then '&' else '?');
    if '?' in url {
      var j :| 0 <= j < |url| && url[j] == '?';
      assert r[j] == '?';
    }
    forall i | |url| < i < |r|
      ensures r[i] != '?'
    {
      assert r[i] == SortParam[i - |url| - 1];
    }
  }

  /** Where the browser landed shows a lost session: not a group page, or a
      not-found, login or checkpoint page. */
  predicate SessionLost(current: string)
  {
    !Contains(current, "groups/") || Contains(current, "not_found") ||
    Contains(current, "login") || Contains(current, "checkpoint")
  }

  /** The group row's name still is the placeholder `get_or_create_group`
      gives when no name is known. */
  predicate Placeholder(name: string)
  {
    StartsWith(name, "Group from ")
  }

  /** `scrape_authenticated_group` after navigation: wait for the feed,
      register the group, replace a placeholder name by the scraped one, read
      the cursor, check the session, then harvest. Every failure the
      generator catches (the feed not appearing, a failed registration, a
      rename the UNIQUE name constraint rejects, a lost session, reading
      markup raising, the final wait timing out) ends it without yielding;
      when the feed does not appear nothing is registered. `feedLoads` says
      whether the feed appeared within the wait, `landed` is the browser's
      URL after opening `visited`, and `scrapedName` is what the name
      selectors found. */
  method ScrapeAuthenticatedGroup(store: Storage.Store, groupUrl: string, feedLoads: bool, landed: string,
                                  scrapedName: Option<string>, feed: seq<seq<FeedItem>>, num: int,
                                  fields: Option<seq<string>>, lib: Permalink.Lib, md5: string -> string,
                                  sch: Schedule)
    returns (visited: string, group: Option<(int, string)>, cursor: Option<string>, out: seq<PostRecord>,
             h: Option<Harvested>)
    requires store.Valid()
    modifies store
    ensures store.Valid()
    ensures visited == ChronologicalUrl(groupUrl)
    ensures !feedLoads ==> group.None? && unchanged(store)
    ensures forall t :: t in old(store.tables) ==> t in store.tables && store.tables[t] == old(store.tables[t])
    ensures group.Some? ==> Storage.FindId(store.groups, group.value.0).Some?
    ensures group.Some? ==>
              cursor == if group.value.1 in old(store.tables) then Storage.LatestHash(old(store.tables)[group.value.1]) else None
    ensures h.Some? <==> feedLoads && group.Some? && !SessionLost(landed)
    ensures h.None? ==> out == []
    ensures h.Some? ==> Harvests(Env(feed, cursor, num, fields, lib, md5), sch, out, h.value)
    ensures |out| <= Cap(num)
    ensures forall i :: 0 <= i < |out| ==> !HitsCursor(out[i], cursor)
    ensures forall x :: x in out ==> FromCandidate(Env(feed, cursor, num, fields, lib, md5), x)
  {
    visited := ChronologicalUrl(groupUrl);
    out := [];
    group, cursor, h := None, None, None;
    if !feedLoads {
      return;
    }
    group, cursor := OpenGroup(store, groupUrl, scrapedName, md5);
    if group.None? || SessionLost(landed) {
      return;
    }
    var harvest;
    out, harvest := ScrapeLoop(Env(feed, cursor, num, fields, lib, md5), sch);
    h := Some(harvest);
    if out != [] {
      ReverseMembers(harvest.collected);
      forall i | 0 <= i < |out|
        ensures !HitsCursor(out[i], cursor)
      {
        assert out[i] == harvest.collected[|harvest.collected| - 1 - i];
      }
    }
  }

  /** Registering the group, naming it, and reading its cursor. None when the
      registration or the rename fails. */
  method OpenGroup(store: Storage.Store, groupUrl: string, scrapedName: Option<string>, md5: string -> string)
    returns (group: Option<(int, string)>, cursor: Option<string>)
    requires store.Valid()
    modifies store
    ensures store.Valid()
    ensures forall t :: t in old(store.tables) ==> t in store.tables && store.tables[t] == old(store.tables[t])
    ensures group.Some? ==> Storage.FindId(store.groups, group.value.0).Some?
    ensures group.Some? ==>
              cursor == if group.value.1 in old(store.tables) then Storage.LatestHash(old(store.tables)[group.value.1]) else None
  {
    cursor := None;
    group := Register(store, groupUrl, scrapedName, md5);
    if group.Some? {
      cursor := store.MostRecentContentHash(group.value.1);
    }
  }

  /** `get_or_create_group` without a name, then the placeholder rename. A new
      table is empty. */
  method Register(store: Storage.Store, groupUrl: string, scrapedName: Option<string>, md5: string -> string)
    returns (group: Option<(int, string)>)
    requires store.Valid()
    modifies store
    ensures store.Valid()
    ensures forall t :: t in old(store.tables) ==> t in store.tables && store.tables[t] == old(store.tables[t])
    ensures forall t :: t in store.tables && t !in old(store.tables) ==> store.tables[t] == []
    ensures group.Some? ==> Storage.FindId(store.groups, group.value.0).Some?
  {
    group := store.GetOrCreateGroup(groupUrl, None, None, md5);
    if group.None? {
      return;
    }
    var k := Storage.FindId(store.groups, group.value.0);
    if k.None? {
      group := None;
      return;
    }
    if Placeholder(store.groups[k.value].name) && scrapedName.Some? && scrapedName.value != "" {
      var renamed := store.RenameGroup(group.value.0, scrapedName.value);
      if !renamed {
        group := None;
        return;
      }
    }
  }
}

=== FILE: login.dfy ===
/** The login side of the command handlers: cookie import (JSON or Netscape
    `cookies.txt`), the per-chat login states, the manual-login pause flag and
    the routing of text commands while a chat is in a login flow. */
module Login {
  import opened Wrappers
  import opened PyStr
  import opened Cookies

  // ---------------------------------------------------------------------------
  // Cookie import

  /** `json.loads` on the stripped text is a library call: its result is an
      input, None when it raises a decoding error. */
  type Decoded = Option<Json>

  /** The cookie a Netscape line's fields describe: domain, path, secure
      flag, name and value are fields 0, 2, 3, 5 and 6. */
  function NetscapeFields(f: seq<string>): (c: Cookie)
    requires |f| >= 7
    ensures "name" in c && c["name"] == Str(f[5])
    ensures "value" in c && c["value"] == Str(f[6])
    ensures "domain" in c && c["domain"] == Str(f[0])
    ensures "path" in c && c["path"] == Str(f[2])
    ensures "secure" in c && c["secure"] == Bool(Lower(f[3]) == "true")
    ensures "httpOnly" in c && c["httpOnly"] == Bool(false)
  {
    map["name" := Str(f[5]), "value" := Str(f[6]), "domain" := Str(f[0]), "path" := Str(f[2]),
        "secure" := Bool(Lower(f[3]) == "true"), "httpOnly" := Bool(false), "sameSite" := Str("None")]
  }

  /** One Netscape `cookies.txt` line (already stripped): seven or more tab
      separated fields give a cookie, anything shorter gives none. */
  function NetscapeCookie(line: string): (r: Option<Cookie>)
    ensures r.Some? <==> |Split(line, '\t')| >= 7
    ensures r.Some? ==> r.value == NetscapeFields(Split(line, '\t'))
  {
    var f := Split(line, '\t');
    if |f| < 7 then None else Some(NetscapeFields(f))
  }

  /** Whether a stripped line is skipped: blank or a `#` comment. */
  predicate Skipped(line: string)
  {
    line == [] || line[0] == '#'
  }

  /** The cookies of the Netscape lines, in order. */
  function NetscapeCookies(lines: seq<string>): (r: seq<Cookie>)
    ensures |r| <= |lines|
    decreases |lines|
  {
    if lines == [] then []
    else
      var line := Strip(lines[0]);
      var rest := NetscapeCookies(lines[1..]);
      if Skipped(line) then rest
      else match NetscapeCookie(line)
        case Some(c) => [c] + rest
        case None => rest
  }

  /** A line written from seven tab-free fields, the first starting with a
      visible character other than `#` and the last ending with a visible
      character, is read back as the cookie of those fields. */
  lemma NetscapeLineRoundTrip(f: seq<string>)
    requires |f| == 7
    requires forall i :: 0 <= i < 7 ==> '\t' !in f[i]
    requires f[0] != [] && !IsSpace(f[0][0]) && f[0][0] != '#'
    requires f[6] != [] && !IsSpace(f[6][|f[6]| - 1])
    ensures NetscapeCookies([Join(['\t'], f)]) == [NetscapeFields(f)]
  {
    var line := Join(['\t'], f);
    JoinStripped(f, ['\t']);
    NetscapeCookieOfLine(f);
    assert [line][1..] == [];
  }

  /** The fields of a tab-joined line are the ones it was joined from. */
  lemma NetscapeCookieOfLine(f: seq<string>)
    requires |f| == 7
    requires forall i :: 0 <= i < 7 ==> '\t' !in f[i]
    ensures NetscapeCookie(Join(['\t'], f)) == Some(NetscapeFields(f))
  {
    SplitJoin(f, '\t');
  }

  /** Pieces that start and end with visible characters join into a
      string that stripping leaves alone. */
  lemma JoinStripped(parts: seq<string>, sep: string)
    requires |parts| >= 1 && parts[0] != [] && !IsSpace(parts[0][0])
    requires parts[|parts| - 1] != [] && !IsSpace(parts[|parts| - 1][|parts[|parts| - 1]| - 1])
    ensures Join(sep, parts) != [] && Join(sep, parts)[0] == parts[0][0]
    ensures Strip(Join(sep, parts)) == Join(sep, parts)
  {
    JoinFirst(parts, sep);
    JoinLast(parts, sep);
  }

  /** The first character of a join is the first piece's. */
  lemma JoinFirst(parts: seq<string>, sep: string)
    requires |parts| >= 1 && parts[0] != []
    ensures Join(sep, parts) != [] && Join(sep, parts)[0] == parts[0][0]
  {
  }

  /** The last character of a join is the last piece's. */
  lemma {:induction false} JoinLast(parts: seq<string>, sep: string)
    requires |parts| >= 1 && parts[|parts| - 1] != []
    ensures Join(sep, parts) != []
    ensures Join(sep, parts)[|Join(sep, parts)| - 1] == parts[|parts| - 1][|parts[|parts| - 1]| - 1]
    decreases |parts|
  {
    if |parts| > 1 {
      JoinLast(parts[1..], sep);
    }
  }

  /** The cookie list the import works on: a JSON list as is, a JSON object
      wrapped in a list, any other JSON value raises (None); text that is not
      JSON is read as Netscape lines. */
  function ImportedCookies(text: string, decoded: Decoded): (r: Option<seq<Json>>)
    ensures decoded.Some? && decoded.value.Array? ==> r == Some(decoded.value.items)
    ensures decoded.Some? && decoded.value.Object? ==> r == Some([decoded.value])
    ensures decoded.Some? && !decoded.value.Array? && !decoded.value.Object? ==> r.None?
    ensures decoded.None? ==> r.Some? && |r.value| <= |Split(Strip(text), '\n')|
  {
    match decoded
    case Some(Array(items)) => Some(items)
    case Some(Object(f)) => Some([Object(f)])
    case Some(_) => None
    case None =>
      var cs := NetscapeCookies(Split(Strip(text), '\n'));
      Some(seq(|cs|, i requires 0 <= i < |cs| => Object(cs[i])))
  }

  /** `'facebook.com' in c.get('domain', '')`: substring test on a string,
      membership test on a list or dict; None when it raises (the cookie is
      not a dict, or its domain is a number, a boolean or null). */
  function FacebookDomain(c: Json): (r: Option<bool>)
    ensures c.Object? && ("domain" !in c.fields || c.fields["domain"] == Str("")) ==> r == Some(false)
    ensures c.Object? && "domain" in c.fields && c.fields["domain"].Str? ==>
              r == Some(Contains(c.fields["domain"].s, "facebook.com"))
    ensures !c.Object? ==> r.None?
  {
    match c
    case Object(f) =>
      var d := if "domain" in f then f["domain"] else Str("");
      (match d
       case Str(s) =>
         assert s == "" ==> !Contains(s, "facebook.com");
         Some(Contains(s, "facebook.com"))
       case Array(items) => Some(Str("facebook.com") in items)
       case Object(g) => Some("facebook.com" in g)
       case _ => None)
    case _ => None
  }

  /** `[c for c in cookies if 'facebook.com' in c.get('domain', '')]`; None
      when the test raises on some cookie. */
  function FacebookCookies(cs: seq<Json>): (r: Option<seq<Json>>)
    ensures r.Some? <==> forall i :: 0 <= i < |cs| ==> FacebookDomain(cs[i]).Some?
    ensures r.Some? ==> forall c :: c in r.value ==> c in cs && FacebookDomain(c) == Some(true)
    ensures r.Some? ==> forall i :: 0 <= i < |cs| && FacebookDomain(cs[i]) == Some(true) ==> cs[i] in r.value
    ensures r.Some? ==> |r.value| <= |cs|
  {
    if cs == [] then Some([])
    else
      match (FacebookDomain(cs[0]), FacebookCookies(cs[1..]))
      case (Some(keep), Some(rest)) =>
        assert forall i :: 1 <= i < |cs| ==> cs[i] == cs[1..][i - 1];
        Some(if keep then [cs[0]] + rest else rest)
      case (None, _) => None
      case (_, None) =>
        assert forall i :: 1 <= i < |cs| ==> cs[i] == cs[1..][i - 1];
        None
  }

  /** How `_process_cookie_import` ends: nothing parsed, no Facebook cookie,
      the Facebook cookies written to the cookie store, or an exception. */
  datatype ImportOutcome =
    | NoCookies
    | NoFacebookCookies
    | Saved(total: nat, saved: seq<Json>)
    | ImportError

  function ProcessCookieImport(text: string, decoded: Decoded): (r: ImportOutcome)
    ensures r.Saved? ==> r.saved != [] && r.total >= |r.saved|
    ensures r.Saved? ==> forall c :: c in r.saved ==> FacebookDomain(c) == Some(true)
    ensures r.NoCookies? <==> ImportedCookies(text, decoded) == Some([])
    ensures r.ImportError? <==>
              ImportedCookies(text, decoded).None? ||
              (ImportedCookies(text, decoded).value != [] && FacebookCookies(ImportedCookies(text, decoded).value).None?)
  {
    match ImportedCookies(text, decoded)
    case None => ImportError
    case Some(cs) =>
      if cs == [] then NoCookies
      else
        match FacebookCookies(cs)
        case None => ImportError
        case Some(fb) => if fb == [] then NoFacebookCookies else Saved(|cs|, fb)
  }

  /** The import clears the chat's login state when it reaches the save (the
      later session check ends either normally or through the handler's own
      exception path, and both clear it) or fails with an exception; the two
      "nothing found" answers return early and keep the state. */
  predicate ClearsState(o: ImportOutcome)
  {
    o.Saved? || o.ImportError?
  }

  // ---------------------------------------------------------------------------
  // Login states and routing

  datatype LoginState = ChoosingLoginMethod | WaitingForCookies | ManualLoginActive

  /** What the handlers hold per chat: the login states, the keys of the
      stored browser handles (a chat's driver under its id, its virtual
      display under `<id>_xvfb`) and the flag that pauses the main scraper. */
  datatype Session = Session(states: map<string, LoginState>, drivers: set<string>, pause: bool)

  function XvfbKey(chatId: string): string
  {
    chatId + "_xvfb"
  }

  /** The commands with a regular handler; `/login`, `/done` and `/cancel`
      are the ones that touch the login states. */
  const RegularCommands: set<string> :=
    {"/start", "/config", "/groups", "/addgroup", "/removegroup", "/sethours", "/settiming",
     "/setlimit", "/setposts", "/prompt", "/setsystem", "/setprompt", "/cookies",
     "/clearcookies", "/updategroup"}

  datatype Route = ToLoginFlow | Regular(command: string) | LoginCommand | DoneCommand | CancelCommand | Unknown

  /** `handle_text_command` as written: a chat with any login state goes to
      the login flow before any command is looked at. */
  function RouteOf(states: map<string, LoginState>, chatId: string, command: string): (r: Route)
    ensures chatId in states ==> r == ToLoginFlow
    ensures chatId !in states && command in RegularCommands ==> r == Regular(command)
  {
    if chatId in states then ToLoginFlow else CommandRoute(command)
  }

  /** The command table consulted outside a login flow. */
  function CommandRoute(command: string): (r: Route)
    ensures r != ToLoginFlow
    ensures command in RegularCommands ==> r == Regular(command)
  {
    if command in RegularCommands then Regular(command)
    else if command == "/login" then LoginCommand
    else if command == "/done" then DoneCommand
    else if command == "/cancel" then CancelCommand
    else Unknown
  }

  /** `_handle_login_flow`: only a chat waiting for cookies does anything. */
  function LoginFlow(s: Session, chatId: string, text: string, decoded: Decoded): (r: Session)
    ensures (chatId !in s.states || s.states[chatId] != WaitingForCookies) ==> r == s
    ensures r.drivers == s.drivers && r.pause == s.pause
    ensures forall c :: c != chatId ==> (c in r.states <==> c in s.states) && (c in r.states ==> r.states[c] == s.states[c])
    ensures chatId in s.states && s.states[chatId] == WaitingForCookies ==>
              (chatId !in r.states <==> ClearsState(ProcessCookieImport(text, decoded)))
  {
    if chatId in s.states && s.states[chatId] == WaitingForCookies then
      if ClearsState(ProcessCookieImport(text, decoded)) then s.(states := s.states - {chatId}) else s
    else s
  }

  /** Why `/done` answered as it did. */
  datatype DoneOutcome = NoSession | NoBrowser | Completed

  /** `_handle_done`: only an active manual login with a stored browser is
      completed; it then forgets the chat's state and browser handles and
      resumes the scraper. */
  function Done(s: Session, chatId: string): (r: (Session, DoneOutcome))
    ensures r.1 != Completed ==> r.0 == s
    ensures r.1 == Completed <==>
              chatId in s.states && s.states[chatId] == ManualLoginActive && chatId in s.drivers
    ensures r.1 == Completed ==>
              r.0 == Session(s.states - {chatId}, s.drivers - {chatId, XvfbKey(chatId)}, false)
  {
    if chatId !in s.states || s.states[chatId] != ManualLoginActive then (s, NoSession)
    else if chatId !in s.drivers then (s, NoBrowser)
    else (Session(s.states - {chatId}, s.drivers - {chatId, XvfbKey(chatId)}, false), Completed)
  }

  /** Why `/cancel` answered as it did. */
  datatype CancelOutcome = NoManualSession | Cancelled | CancelFailed

  /** `_handle_cancel`: an active manual login is forgotten and the scraper
      resumed. Without a stored browser the deletion of the driver entry
      raises after the state is already gone, so the pause stays on. */
  function Cancel(s: Session, chatId: string): (r: (Session, CancelOutcome))
    ensures r.1 == NoManualSession <==> chatId !in s.states || s.states[chatId] != ManualLoginActive
    ensures r.1 == NoManualSession ==> r.0 == s
    ensures r.1 != NoManualSession ==> chatId !in r.0.states && r.0.states == s.states - {chatId}
    ensures r.1 == Cancelled ==> !r.0.pause && r.0.drivers == s.drivers - {chatId, XvfbKey(chatId)}
    ensures r.1 == CancelFailed ==> r.0.pause == s.pause && r.0.drivers == s.drivers
  {
    if chatId !in s.states || s.states[chatId] != ManualLoginActive then (s, NoManualSession)
    else if chatId !in s.drivers then (s.(states := s.states - {chatId}), CancelFailed)
    else (Session(s.states - {chatId}, s.drivers - {chatId, XvfbKey(chatId)}, false), Cancelled)
  }

  /** The effect of one text command on the login session, as written. */
  function AfterCommand(s: Session, chatId: string, command: string, arg: string, decoded: Decoded): Session
  {
    match RouteOf(s.states, chatId, command)
    case ToLoginFlow => LoginFlow(s, chatId, arg, decoded)
    case LoginCommand => s.(states := s.states[chatId := ChoosingLoginMethod])
    case DoneCommand => Done(s, chatId).0
    case CancelCommand => Cancel(s, chatId).0
    case _ => s
  }

  /** While a chat is in any login flow no command runs a regular handler,
      and outside the cookie wait no command changes anything. */
  lemma LoginFlowCapturesCommands(s: Session, chatId: string, command: string, arg: string, decoded: Decoded)
    requires chatId in s.states
    ensures RouteOf(s.states, chatId, command) == ToLoginFlow
    ensures s.states[chatId] != WaitingForCookies ==> AfterCommand(s, chatId, command, arg, decoded) == s
  {
  }

  /** As written, a manual login can never be finished or cancelled from the
      chat: `/done` and `/cancel` are routed to the login flow, which ignores
      them, so the scraper stays paused. */
  lemma ManualLoginStuck(s: Session, chatId: string, arg: string, decoded: Decoded)
    requires chatId in s.states && s.states[chatId] == ManualLoginActive && s.pause
    ensures AfterCommand(s, chatId, "/done", arg, decoded).pause
    ensures AfterCommand(s, chatId, "/cancel", arg, decoded).pause
    ensures AfterCommand(s, chatId, "/done", arg, decoded).states[chatId] == ManualLoginActive
  {
    LoginFlowCapturesCommands(s, chatId, "/done", arg, decoded);
    LoginFlowCapturesCommands(s, chatId, "/cancel", arg, decoded);
  }

  /** The handlers as evidently intended: `/done` and `/cancel` reach their
      own handlers even while the chat is in a login flow. */
  function RouteFixed(states: map<string, LoginState>, chatId: string, command: string): (r: Route)
    ensures command == "/done" ==> r == DoneCommand
    ensures command == "/cancel" ==> r == CancelCommand
    ensures command != "/done" && command != "/cancel" ==> r == RouteOf(states, chatId, command)
  {
    if command == "/done" || command == "/cancel" then CommandRoute(command)
    else RouteOf(states, chatId, command)
  }

  function AfterCommandFixed(s: Session, chatId: string, command: string, arg: string, decoded: Decoded): Session
  {
    match RouteFixed(s.states, chatId, command)
    case ToLoginFlow => LoginFlow(s, chatId, arg, decoded)
    case LoginCommand => s.(states := s.states[chatId := ChoosingLoginMethod])
    case DoneCommand => Done(s, chatId).0
    case CancelCommand => Cancel(s, chatId).0
    case _ => s
  }

  /** With the corrected routing, an active manual login with its browser is
      ended by either `/done` or `/cancel`, which resume the scraper; every
      other command behaves as before. */
  lemma ManualLoginEnds(s: Session, chatId: string, command: string, arg: string, decoded: Decoded)
    requires chatId in s.states && s.states[chatId] == ManualLoginActive && chatId in s.drivers
    ensures !AfterCommandFixed(s, chatId, "/done", arg, decoded).pause
    ensures chatId !in AfterCommandFixed(s, chatId, "/done", arg, decoded).states
    ensures !AfterCommandFixed(s, chatId, "/cancel", arg, decoded).pause
    ensures chatId !in AfterCommandFixed(s, chatId, "/cancel", arg, decoded).states
    ensures command != "/done" && command != "/cancel" ==>
              AfterCommandFixed(s, chatId, command, arg, decoded) == AfterCommand(s, chatId, command, arg, decoded)
  {
    assert RouteFixed(s.states, chatId, "/done") == DoneCommand;
    assert RouteFixed(s.states, chatId, "/cancel") == CancelCommand;
  }

  /** Outside a login flow the correction changes nothing: every command is
      looked up in the command table, `/login` starts the login choice and
      `/done` or `/cancel` without a manual login leave the session as it is. */
  lemma CommandsOutsideLogin(s: Session, chatId: string, command: string, arg: string, decoded: Decoded)
    requires chatId !in s.states
    ensures AfterCommandFixed(s, chatId, command, arg, decoded) == AfterCommand(s, chatId, command, arg, decoded)
    ensures command == "/login" ==>
              AfterCommand(s, chatId, command, arg, decoded) == s.(states := s.states[chatId := ChoosingLoginMethod])
    ensures command == "/done" || command == "/cancel" ==> AfterCommand(s, chatId, command, arg, decoded) == s
  {
    assert RouteFixed(s.states, chatId, command) == RouteOf(s.states, chatId, command);
  }

  // ---------------------------------------------------------------------------
  // The handler object

  /** The login buttons: `login_import` waits for cookies, `login_manual`
      pauses the scraper for a manual login; callbacks from chats that are
      not allowed, and the other buttons, change no login state. */
  function CallbackEffect(s: Session, chatId: string, data: string, allowed: seq<string>): (r: Session)
    ensures chatId !in allowed || (data != "login_import" && data != "login_manual") ==> r == s
    ensures r.drivers == s.drivers
    ensures r.pause <==> s.pause || (chatId in allowed && data == "login_manual")
  {
    if chatId !in allowed then s
    else if data == "login_manual" then Session(s.states[chatId := ManualLoginActive], s.drivers, true)
    else if data == "login_import" then s.(states := s.states[chatId := WaitingForCookies])
    else s
  }

  class CommandHandlers {
    var loginStates: map<string, LoginState>
    var drivers: set<string>
    var pauseMainScraper: bool

    function Snapshot(): Session
      reads this
    {
      Session(loginStates, drivers, pauseMainScraper)
    }

    constructor ()
      ensures loginStates == map[] && drivers == {} && !pauseMainScraper
    {
      loginStates := map[];
      drivers := {};
      pauseMainScraper := false;
    }

    /** `handle_text_command`, routing as written. */
    method HandleTextCommand(chatId: string, command: string, arg: string, decoded: Decoded) returns (route: Route)
      modifies this
      ensures route == RouteOf(old(loginStates), chatId, command)
      ensures Snapshot() == AfterCommand(old(Snapshot()), chatId, command, arg, decoded)
    {
      route := RouteOf(loginStates, chatId, command);
      match route
      case ToLoginFlow =>
        HandleLoginFlow(chatId, arg, decoded);
      case LoginCommand =>
        StartLogin(chatId);
      case DoneCommand =>
        var _ := HandleDone(chatId);
      case CancelCommand =>
        var _ := HandleCancel(chatId);
      case Regular(_) =>
      case Unknown =>
    }

    /** `handle_text_command` with `/done` and `/cancel` routed first. */
    method HandleTextCommandFixed(chatId: string, command: string, arg: string, decoded: Decoded) returns (route: Route)
      modifies this
      ensures route == RouteFixed(old(loginStates), chatId, command)
      ensures Snapshot() == AfterCommandFixed(old(Snapshot()), chatId, command, arg, decoded)
    {
      route := RouteFixed(loginStates, chatId, command);
      match route
      case ToLoginFlow =>
        HandleLoginFlow(chatId, arg, decoded);
      case LoginCommand =>
        StartLogin(chatId);
      case DoneCommand =>
        var _ := HandleDone(chatId);
      case CancelCommand =>
        var _ := HandleCancel(chatId);
      case Regular(_) =>
      case Unknown =>
    }

    /** `_handle_login`: the chat starts choosing a login method. */
    method StartLogin(chatId: string)
      modifies this
      ensures loginStates == old(loginStates)[chatId := ChoosingLoginMethod]
      ensures drivers == old(drivers) && pauseMainScraper == old(pauseMainScraper)
    {
      loginStates := loginStates[chatId := ChoosingLoginMethod];
    }

    /** `_start_cookie_import` (the import button). */
    method StartCookieImport(chatId: string)
      modifies this
      ensures loginStates == old(loginStates)[chatId := WaitingForCookies]
      ensures drivers == old(drivers) && pauseMainScraper == old(pauseMainScraper)
    {
      loginStates := loginStates[chatId := WaitingForCookies];
    }

    /** `_start_manual_login_sync` (the manual-browser button): pause the
        scraper and mark the chat's manual login active. */
    method StartManualLogin(chatId: string)
      modifies this
      ensures loginStates == old(loginStates)[chatId := ManualLoginActive]
      ensures drivers == old(drivers) && pauseMainScraper
    {
      pauseMainScraper := true;
      loginStates := loginStates[chatId := ManualLoginActive];
    }

    /** The background browser start stores the driver once it has finished.
        `displayRecorded` says whether the login process set its
        `xvfb_process` attribute; the `_xvfb` entry is then stored, even when
        that attribute holds None because no virtual display was started. */
    method BrowserReady(chatId: string, displayRecorded: bool)
      modifies this
      ensures drivers == old(drivers) + {chatId} + (if displayRecorded then {XvfbKey(chatId)} else {})
      ensures loginStates == old(loginStates) && pauseMainScraper == old(pauseMainScraper)
    {
      drivers := drivers + {chatId};
      if displayRecorded {
        drivers := drivers + {XvfbKey(chatId)};
      }
    }

    /** `_handle_login_flow`. */
    method HandleLoginFlow(chatId: string, text: string, decoded: Decoded)
      modifies this
      ensures Snapshot() == LoginFlow(old(Snapshot()), chatId, text, decoded)
    {
      if chatId in loginStates && loginStates[chatId] == WaitingForCookies {
        var outcome := ProcessCookieImport(text, decoded);
        if outcome.Saved? || outcome.ImportError? {
          loginStates := loginStates - {chatId};
        }
      }
    }

    /** `_handle_done`. */
    method HandleDone(chatId: string) returns (outcome: DoneOutcome)
      modifies this
      ensures (Snapshot(), outcome) == Done(old(Snapshot()), chatId)
    {
      if chatId !in loginStates || loginStates[chatId] != ManualLoginActive {
        return NoSession;
      }
      if chatId !in drivers {
        return NoBrowser;
      }
      loginStates := loginStates - {chatId};
      drivers := drivers - {chatId, XvfbKey(chatId)};
      pauseMainScraper := false;
      outcome := Completed;
    }

    /** `_handle_cancel`. */
    method HandleCancel(chatId: string) returns (outcome: CancelOutcome)
      modifies this
      ensures (Snapshot(), outcome) == Cancel(old(Snapshot()), chatId)
    {
      if chatId !in loginStates || loginStates[chatId] != ManualLoginActive {
        return NoManualSession;
      }
      loginStates := loginStates - {chatId};
      if chatId !in drivers {
        return CancelFailed;
      }
      drivers := drivers - {chatId, XvfbKey(chatId)};
      pauseMainScraper := false;
      outcome := Cancelled;
    }

    /** `handle_callback_query` for the login buttons: callbacks from chats
        that are not allowed are ignored. */
    method HandleCallback(chatId: string, data: string, allowed: seq<string>)
      modifies this
      ensures Snapshot() == CallbackEffect(old(Snapshot()), chatId, data, allowed)
      ensures chatId !in allowed ==> Snapshot() == old(Snapshot())
      ensures chatId in allowed && data == "login_import" ==>
                Snapshot() == old(Snapshot()).(states := old(loginStates)[chatId := WaitingForCookies])
      ensures chatId in allowed && data == "login_manual" ==>
                Snapshot() == Session(old(loginStates)[chatId := ManualLoginActive], old(drivers), true)
      ensures data != "login_import" && data != "login_manual" ==> Snapshot() == old(Snapshot())
    {
      if chatId !in allowed {
        return;
      }
      if data == "login_manual" {
        StartManualLogin(chatId);
      } else if data == "login_import" {
        StartCookieImport(chatId);
      }
    }
  }
}

=== FILE: manager.dfy ===
/** The scraper manager: the per-post save-and-notify decision, the batch
    save loop, the notification text (cleaned content, group name, group
    chats) and the browser lifecycle flags. */
module Manager {
  import opened Wrappers
  import opened PyStr
  import Extract
  import Storage
  import Notifier
  import Validators

  // ---------------------------------------------------------------------------
  // Notification text

  /** The "read more" labels removed from a post's text, in the order they
      are removed. */
  const ReadMoreLabels: seq<string> := ["See more", "Show more", "… Žr. daugiau", "Žr. daugiau"]

  /** The longest text shown before the ellipsis. */
  const ShortLimit := 300

  /** Each label in turn replaced by nothing. */
  function RemoveLabels(s: string, labels: seq<string>): (r: string)
    requires forall i :: 0 <= i < |labels| ==> labels[i] != []
    ensures |r| <= |s|
    ensures (forall i :: 0 <= i < |labels| ==> !Contains(s, labels[i])) ==> r == s
    decreases |labels|
  {
    if labels == [] then s
    else
      var once := Replace(s, labels[0], "");
      ReplaceDeleteShorter(s, labels[0]);
      DeleteAbsent(s, labels[0]);
      RemoveLabels(once, labels[1..])
  }

  /** Deleting every occurrence of a string never lengthens the text. */
  lemma {:induction false} ReplaceDeleteShorter(s: string, pat: string)
    requires pat != []
    ensures |Replace(s, pat, "")| <= |s|
    decreases |s|
  {
    if |s| >= |pat| {
      if s[..|pat|] == pat {
        ReplaceDeleteShorter(s[|pat|..], pat);
      } else {
        ReplaceDeleteShorter(s[1..], pat);
      }
    }
  }

  lemma DeleteAbsent(s: string, pat: string)
    requires pat != []
    ensures !Contains(s, pat) ==> Replace(s, pat, "") == s
  {
    if !Contains(s, pat) {
      ReplaceAbsent(s, pat, "");
    }
  }

  lemma LabelsNonEmpty()
    ensures forall i :: 0 <= i < |ReadMoreLabels| ==> ReadMoreLabels[i] != []
  {
  }

  /** The post text with the labels removed and surrounding white space stripped. */
  function CleanContent(content: string): (r: string)
    ensures |r| <= |content|
    ensures r == [] || (!IsSpace(r[0]) && !IsSpace(r[|r| - 1]))
  {
    LabelsNonEmpty();
    Strip(RemoveLabels(content, ReadMoreLabels))
  }

  /** The text shown in a notification: the cleaned content, cut to 300
      characters plus an ellipsis when longer. */
  function ShortText(content: string): (r: string)
    ensures |r| <= ShortLimit + 3
    ensures var c := CleanContent(content);
              |c| <= ShortLimit ==> r == c
    ensures var c := CleanContent(content);
              |c| > ShortLimit ==> |r| == ShortLimit + 3 && StartsWith(c, r[..ShortLimit]) && r[ShortLimit..] == "..."
  {
    var c := CleanContent(content);
    if |c| > ShortLimit then
      var r := c[..ShortLimit] + "...";
      assert r[..ShortLimit] == c[..ShortLimit];
      r
    else c
  }

  /** Text without labels or surrounding white space and within the limit
      is shown as it is. */
  lemma ShortTextPlain(content: string)
    requires NoLabels(content)
    requires content == [] || (!IsSpace(content[0]) && !IsSpace(content[|content| - 1]))
    requires |content| <= ShortLimit
    ensures ShortText(content) == content
  {
    CleanPlain(content);
  }

  /** Whether none of the labels occurs in the text. */
  predicate NoLabels(content: string)
  {
    forall i :: 0 <= i < |ReadMoreLabels| ==> !Contains(content, ReadMoreLabels[i])
  }

  lemma CleanPlain(content: string)
    requires NoLabels(content)
    requires content == [] || (!IsSpace(content[0]) && !IsSpace(content[|content| - 1]))
    ensures CleanContent(content) == content
  {
    LabelsNonEmpty();
    var removed := RemoveLabels(content, ReadMoreLabels);
    assert removed == content;
  }

  /** Only group chats (ids starting with `-`) receive notifications, in the
      configured order. */
  function GroupChats(chatIds: seq<string>): (r: seq<string>)
    ensures |r| <= |chatIds|
    ensures forall i :: 0 <= i < |r| ==> r[i] != [] && r[i][0] == '-' && r[i] in chatIds
    ensures forall i :: 0 <= i < |chatIds| && chatIds[i] != [] && chatIds[i][0] == '-' ==> chatIds[i] in r
  {
    if chatIds == [] then []
    else
      var rest := GroupChats(chatIds[1..]);
      assert forall i :: 1 <= i < |chatIds| ==> chatIds[i] == chatIds[1..][i - 1];
      if chatIds[0] != [] && chatIds[0][0] == '-' then [chatIds[0]] + rest else rest
  }

  // ---------------------------------------------------------------------------
  // Group name shown in a notification

  const GroupMarker := "facebook.com/groups/"

  const UnknownGroup := "Unknown Group"

  /** The name prefix `get_or_create_group` gives a group without a name. */
  const FallbackPrefix := "Group from "

  /** `re.search(r'facebook\.com/groups/([^/]+)', s).group(1)`: the run of
      non-slash characters after the leftmost marker that is followed by
      one; a marker followed by `/` or by nothing does not match there. */
  function GroupIdentifier(s: string): (r: Option<string>)
    ensures r.Some? ==> r.value != [] && '/' !in r.value
    decreases |s|
  {
    if |s| <= |GroupMarker| then None
    else if s[..|GroupMarker|] == GroupMarker && s[|GroupMarker|] != '/' then
      var u := s[|GroupMarker|..];
      Some(if '/' in u then u[..IndexOf(u, '/')] else u)
    else GroupIdentifier(s[1..])
  }

  /** The identifier is read back from a URL built around it, whatever
      precedes the marker as long as it holds no `f`. */
  lemma {:induction false} GroupIdentifierOf(prefix: string, id: string, tail: string)
    requires 'f' !in prefix
    requires id != [] && '/' !in id
    requires tail == [] || tail[0] == '/'
    ensures GroupIdentifier(prefix + GroupMarker + id + tail) == Some(id)
    decreases |prefix|
  {
    var s := prefix + GroupMarker + id + tail;
    if prefix == [] {
      assert s == GroupMarker + (id + tail);
      assert s[..|GroupMarker|] == GroupMarker;
      var u := s[|GroupMarker|..];
      assert u == id + tail;
      assert s[|GroupMarker|] == id[0];
      if tail != [] {
        assert u == id + ['/'] + tail[1..];
        IndexOfAfter(id, '/', tail[1..]);
        assert IndexOf(u, '/') == |id|;
        assert u[..|id|] == id;
      } else {
        assert u == id;
      }
    } else {
      assert s[0] == prefix[0] != GroupMarker[0];
      assert s[1..] == prefix[1..] + GroupMarker + id + tail;
      GroupIdentifierOf(prefix[1..], id, tail);
    }
  }

  /** `SELECT group_name FROM Groups WHERE group_url = ? OR group_url LIKE ?`
      with the canonical URL and `%<identifier>%`: the name of the first
      matching group. */
  function LookupGroupName(groups: seq<Storage.GroupRow>, id: string): (r: Option<string>)
    ensures r.Some? ==> exists g :: g in groups && r.value == g.name
    ensures r.None? ==> forall g :: g in groups ==> g.url != Validators.GroupsUrlPrefix + id
  {
    var k := Storage.FirstWhere(groups, (g: Storage.GroupRow) =>
               g.url == Validators.GroupsUrlPrefix + id || Storage.Like(g.url, "%" + id + "%"));
    if k.Some? then Some(groups[k.value].name) else None
  }

  /** The group name of a notification: the stored name of the group the
      post URL points into (its identifier when the name is the automatic
      `Group from ...`), else the name of the group being scraped. A post
      without a URL fails the substring test with an exception that skips
      the fallback too. */
  function GroupNameFor(postUrl: Option<string>, groups: seq<Storage.GroupRow>, current: Option<string>): (r: string)
    ensures postUrl.None? ==> r == UnknownGroup
    ensures postUrl.Some? && GroupIdentifier(postUrl.value).None? ==>
              r == if current.Some? then current.value else UnknownGroup
  {
    match postUrl
    case None => UnknownGroup
    case Some(u) =>
      var named :=
        match GroupIdentifier(u)
        case None => UnknownGroup
        case Some(id) =>
          match LookupGroupName(groups, id)
          case None => UnknownGroup
          case Some(raw) => if StartsWith(raw, FallbackPrefix) then id else raw;
      if named == UnknownGroup && current.Some? then current.value else named
  }

  /** The canonical group URL starts with `https://www.` and then the marker. */
  lemma CanonicalUrlShape()
    ensures Validators.GroupsUrlPrefix == "https://www." + GroupMarker
    ensures 'f' !in "https://www."
  {
  }

  /** A post URL inside a group's canonical URL names that group when the
      group is the first stored one: by its identifier when it kept the
      automatic name, else by its stored name (an `Unknown Group` name gives
      way to the current group's). */
  lemma PostOfFirstGroup(groups: seq<Storage.GroupRow>, id: string, tail: string, current: Option<string>)
    requires groups != [] && groups[0].url == Validators.GroupsUrlPrefix + id
    requires id != [] && '/' !in id && ' ' !in id
    requires tail == [] || tail[0] == '/'
    ensures var name := groups[0].name;
              GroupNameFor(Some(groups[0].url + tail), groups, current) ==
              if StartsWith(name, FallbackPrefix) then id
              else if name == UnknownGroup && current.Some? then current.value
              else name
  {
    var u := groups[0].url + tail;
    assert u == Validators.GroupsUrlPrefix + id + tail;
    IdentifierOfCanonical(id, tail);
    LookupFirst(groups, id);
    IdentifierNotUnknown(id);
  }

  lemma IdentifierOfCanonical(id: string, tail: string)
    requires id != [] && '/' !in id
    requires tail == [] || tail[0] == '/'
    ensures GroupIdentifier(Validators.GroupsUrlPrefix + id + tail) == Some(id)
  {
    CanonicalUrlShape();
    assert Validators.GroupsUrlPrefix + id + tail == "https://www." + GroupMarker + id + tail;
    GroupIdentifierOf("https://www.", id, tail);
  }

  lemma LookupFirst(groups: seq<Storage.GroupRow>, id: string)
    requires groups != [] && groups[0].url == Validators.GroupsUrlPrefix + id
    ensures LookupGroupName(groups, id) == Some(groups[0].name)
  {
  }

  /** The identifier is never the placeholder name, since it holds no space. */
  lemma IdentifierNotUnknown(id: string)
    requires '/' !in id && ' ' !in id
    ensures id != UnknownGroup
  {
    assert UnknownGroup[7] == ' ';
  }

  /** A notification: the formatted message and the chats it goes to. */
  datatype Notification = Notification(message: string, recipients: seq<string>)

  const NotificationTitle := "Naujas įrašas"

  /** `_send_post_notification`: nothing is sent when no group chat is
      configured; otherwise every group chat gets the same message built
      from the short text, the post URL and the group name. */
  function PostNotification(content: string, postUrl: Option<string>, groups: seq<Storage.GroupRow>,
                            current: Option<string>, chatIds: seq<string>): (r: Option<Notification>)
    ensures r.None? <==> forall i :: 0 <= i < |chatIds| ==> chatIds[i] == [] || chatIds[i][0] != '-'
    ensures r.Some? ==> r.value.recipients == GroupChats(chatIds)
    ensures r.Some? ==>
              var g := Notifier.EscapeHtml(Some(Notifier.CleanGroupName(Some(GroupNameFor(postUrl, groups, current)))));
              var head := Notifier.Heading + g + Notifier.AfterGroup;
              var body := head + Notifier.EscapeHtml(Some(ShortText(content)));
              var m := r.value.message;
              StartsWith(m, body) && Notifier.Unescape(m[|head|..|body|]) == ShortText(content) &&
              (Notifier.ShowsLink(postUrl) ==> m[|body|..] == Notifier.LinkOpen + Notifier.EscapeHtml(postUrl) + Notifier.LinkClose) &&
              (!Notifier.ShowsLink(postUrl) ==> m == body)
  {
    var chats := GroupChats(chatIds);
    if chats == [] then None
    else
      assert chats[0] in chatIds;
      Some(Notification(
        Notifier.FormatPostMessage(NotificationTitle, Some(ShortText(content)), postUrl, Some("Anonymous"),
                                   Some(GroupNameFor(postUrl, groups, current))),
        chats))
  }

  // ---------------------------------------------------------------------------
  // Saving posts

  /** The AI's verdict on a post; the call itself is an input and None when
      it raised. */
  datatype AiResult = AiResult(relevant: bool, summary: string)

  /** The post fields `_process_single_post` and `_save_and_process_posts`
      require: both the text and the hash are non-empty. */
  predicate Complete(p: Extract.PostRecord)
  {
    p.contentText != [] && p.contentHash != []
  }

  /** The row `add_post_to_group` receives; the single-post path passes no
      Facebook post id. */
  function ToNewPost(p: Extract.PostRecord, withFbId: bool): Storage.NewPost
  {
    Storage.NewPost(if withFbId then p.facebookPostId else None, p.postUrl, Some(p.contentText), Some(p.contentHash))
  }

  /** The rows a batch hands to `add_post_to_group`: its complete posts, in order. */
  function Kept(ps: seq<Extract.PostRecord>, withFbId: bool): (r: seq<Storage.NewPost>)
    ensures |r| <= |ps|
    ensures forall i :: 0 <= i < |r| ==> r[i].hash.Some? && r[i].hash.value != [] && r[i].content.Some? && r[i].content.value != []
    decreases |ps|
  {
    if ps == [] then []
    else
      var last := ps[|ps| - 1];
      Kept(ps[..|ps| - 1], withFbId) + (if Complete(last) then [ToNewPost(last, withFbId)] else [])
  }

  lemma KeptSnoc(ps: seq<Extract.PostRecord>, i: nat, withFbId: bool)
    requires i < |ps|
    ensures Kept(ps[..i + 1], withFbId) ==
            Kept(ps[..i], withFbId) + (if Complete(ps[i]) then [ToNewPost(ps[i], withFbId)] else [])
  {
    assert ps[..i + 1][..i] == ps[..i];
  }

  /** One post of a batch applied to a table: a complete post is handed to
      `add_post_to_group`, an incomplete one is skipped. A stored hash needs
      no separate case, since adding it changes nothing. */
  function Step(rows: seq<Storage.PostRow>, next: int, post: Extract.PostRecord, withFbId: bool): Storage.Added
  {
    if Complete(post) then Storage.AddPost(rows, next, ToNewPost(post, withFbId))
    else Storage.Added(rows, next, None, false)
  }

  /** Persisting one more post of the batch is one more step. */
  lemma PersistKeptSnoc(rows: seq<Storage.PostRow>, next: int, ps: seq<Extract.PostRecord>, i: nat, withFbId: bool)
    requires i < |ps|
    ensures var b := Storage.PersistAll(rows, next, Kept(ps[..i], withFbId));
            var c := Storage.PersistAll(rows, next, Kept(ps[..i + 1], withFbId));
            c.rows == Step(b.rows, b.next, ps[i], withFbId).rows && c.next == Step(b.rows, b.next, ps[i], withFbId).next
  {
    KeptSnoc(ps, i, withFbId);
    var k := Kept(ps[..i], withFbId);
    if Complete(ps[i]) {
      assert Kept(ps[..i + 1], withFbId) == k + [ToNewPost(ps[i], withFbId)];
      Storage.PersistAllSnoc(rows, next, k, ToNewPost(ps[i], withFbId));
    } else {
      assert Kept(ps[..i + 1], withFbId) == k;
    }
  }

  /** `a` is the table after the complete posts of `ps` were added to
      `rows` in order. */
  predicate Batch(rows: seq<Storage.PostRow>, next: int, ps: seq<Extract.PostRecord>, withFbId: bool, a: Storage.Added)
  {
    var p := Storage.PersistAll(rows, next, Kept(ps, withFbId));
    a.rows == p.rows && a.next == p.next
  }

  /** The store's tables and ids as a batch leaves them: the one table, when
      it exists, holds the rows and next id of `a`, and every other table is
      as it was at the start. */
  ghost predicate Tracks(tables: map<string, seq<Storage.PostRow>>, ids: map<string, int>, table: string,
                         tables0: map<string, seq<Storage.PostRow>>, ids0: map<string, int>, a: Storage.Added)
  {
    if table in tables0 then tables == tables0[table := a.rows] && ids == ids0[table := a.next]
    else tables == tables0 && ids == ids0
  }

  lemma BatchSnoc(rows: seq<Storage.PostRow>, next: int, ps: seq<Extract.PostRecord>, i: nat, withFbId: bool, a: Storage.Added)
    requires i < |ps| && Batch(rows, next, ps[..i], withFbId, a)
    ensures Batch(rows, next, ps[..i + 1], withFbId, Step(a.rows, a.next, ps[i], withFbId))
  {
    PersistKeptSnoc(rows, next, ps, i, withFbId);
  }

  /** What `_save_and_process_posts` reports for a batch saved into a table
      holding `rows`: every post whose save step added a row, with the new
      id, its text, its URL and its 1-based position. */
  function Reported(rows: seq<Storage.PostRow>, next: int, ps: seq<Extract.PostRecord>, withFbId: bool): seq<SavedPost>
    decreases |ps|
  {
    if ps == [] then []
    else
      var pre := ps[..|ps| - 1];
      var b := Storage.PersistAll(rows, next, Kept(pre, withFbId));
      var last := ps[|ps| - 1];
      var a := Step(b.rows, b.next, last, withFbId);
      Reported(rows, next, pre, withFbId) + (if a.isNew then [SavedPost(a.id, last.contentText, last.postUrl, |ps|)] else [])
  }

  lemma ReportedSnoc(rows: seq<Storage.PostRow>, next: int, ps: seq<Extract.PostRecord>, i: nat, withFbId: bool,
                     a: Storage.Added)
    requires i < |ps| && Batch(rows, next, ps[..i], withFbId, a)
    ensures var s := Step(a.rows, a.next, ps[i], withFbId);
            Reported(rows, next, ps[..i + 1], withFbId) ==
            Reported(rows, next, ps[..i], withFbId) +
            (if s.isNew then [SavedPost(s.id, ps[i].contentText, ps[i].postUrl, i + 1)] else [])
  {
    assert ps[..i + 1][..i] == ps[..i];
  }

  /** The posts reported are numbered on from the table's next id, one
      each, and the table's next id moves past them. */
  lemma {:induction false} ReportedIds(rows: seq<Storage.PostRow>, next: int, ps: seq<Extract.PostRecord>, withFbId: bool)
    ensures var r := Reported(rows, next, ps, withFbId);
            Storage.PersistAll(rows, next, Kept(ps, withFbId)).next == next + |r| &&
            forall k :: 0 <= k < |r| ==> r[k].id == Some(next + k)
    decreases |ps|
  {
    if ps != [] {
      var i := |ps| - 1;
      var pre := ps[..i];
      var r0 := Reported(rows, next, pre, withFbId);
      ReportedIds(rows, next, pre, withFbId);
      var b := Storage.PersistAll(rows, next, Kept(pre, withFbId));
      var a := Step(b.rows, b.next, ps[i], withFbId);
      var tail := if a.isNew then [SavedPost(a.id, ps[i].contentText, ps[i].postUrl, |ps|)] else [];
      assert Reported(rows, next, ps, withFbId) == r0 + tail;
      assert Storage.PersistAll(rows, next, Kept(ps, withFbId)).next == a.next by {
        PersistKeptSnoc(rows, next, ps, i, withFbId);
        assert ps[..i + 1] == ps;
      }
      StepNext(b.rows, b.next, ps[i], withFbId);
      NumberedSnoc(r0, tail, next);
    }
  }

  /** Appending at most one entry numbered next after `r` keeps the entries
      numbered on from `next`. */
  lemma NumberedSnoc(r: seq<SavedPost>, tail: seq<SavedPost>, next: int)
    requires forall k :: 0 <= k < |r| ==> r[k].id == Some(next + k)
    requires |tail| <= 1 && (tail != [] ==> tail[0].id == Some(next + |r|))
    ensures forall k :: 0 <= k < |r + tail| ==> (r + tail)[k].id == Some(next + k)
  {
  }

  /** With the harvest call corrected, a group whose table lacks a complete
      post's hash gains that post's row; as written, `scrape_group` raises
      before saving, so the table keeps its rows. */
  lemma ScrapeGroupSavesFresh(rows: seq<Storage.PostRow>, next: int, post: Extract.PostRecord)
    requires Storage.TableValid(rows, next) && Complete(post) && !Storage.HashIn(rows, post.contentHash)
    ensures Storage.PersistAll(rows, next, Kept([post], false)).rows ==
            rows + [Storage.PostRow(next, None, post.postUrl, Some(post.contentText), Some(post.contentHash))]
  {
    assert [post][..0] == [];
    var p := ToNewPost(post, false);
    assert Kept([post], false) == [p];
    Storage.AddPostFresh(rows, next, p);
  }

  /** One save step moves the next id on by one exactly when it adds a row,
      and the added row takes the old next id. */
  lemma StepNext(rows: seq<Storage.PostRow>, next: int, post: Extract.PostRecord, withFbId: bool)
    ensures var a := Step(rows, next, post, withFbId);
            a.next == next + (if a.isNew then 1 else 0) && (a.isNew ==> a.id == Some(next))
  {
  }

  /** The saved entries come from complete posts among the first `upto`,
      carry their text, and keep the batch order. */
  predicate SavedFrom(posts: seq<Extract.PostRecord>, saved: seq<SavedPost>, upto: nat)
  {
    (forall k :: 0 <= k < |saved| ==>
       1 <= saved[k].position <= upto && saved[k].position <= |posts| &&
       Complete(posts[saved[k].position - 1]) && saved[k].content == posts[saved[k].position - 1].contentText) &&
    (forall k, l :: 0 <= k < l < |saved| ==> saved[k].position < saved[l].position)
  }

  /** The save loop after the first `i` posts: the tables follow the batch
      so far, and `saved` is what that batch reports. */
  ghost predicate SaveProgress(tables: map<string, seq<Storage.PostRow>>, ids: map<string, int>, table: string,
                               tables0: map<string, seq<Storage.PostRow>>, ids0: map<string, int>,
                               posts: seq<Extract.PostRecord>, i: nat, saved: seq<SavedPost>, cur: Storage.Added)
  {
    i <= |posts| && tables0.Keys == ids0.Keys &&
    Tracks(tables, ids, table, tables0, ids0, cur) &&
    (table !in tables0 ==> saved == []) &&
    (table in tables0 ==>
       Batch(tables0[table], ids0[table], posts[..i], true, cur) &&
       |cur.rows| == |tables0[table]| + |saved| &&
       saved == Reported(tables0[table], ids0[table], posts[..i], true)) &&
    SavedFrom(posts, saved, i)
  }

  lemma SaveProgressDone(tables: map<string, seq<Storage.PostRow>>, ids: map<string, int>, table: string,
                         tables0: map<string, seq<Storage.PostRow>>, ids0: map<string, int>,
                         posts: seq<Extract.PostRecord>, saved: seq<SavedPost>, cur: Storage.Added)
    requires SaveProgress(tables, ids, table, tables0, ids0, posts, |posts|, saved, cur)
    ensures table !in tables0 ==> saved == [] && tables == tables0 && ids == ids0
    ensures table in tables0 ==>
              var a := Storage.PersistAll(tables0[table], ids0[table], Kept(posts, true));
              tables == tables0[table := a.rows] && ids == ids0[table := a.next] &&
              |a.rows| == |tables0[table]| + |saved| &&
              saved == Reported(tables0[table], ids0[table], posts, true)
    ensures SavedFrom(posts, saved, |posts|)
  {
    assert posts[..|posts|] == posts;
  }

  lemma SavedSnoc(posts: seq<Extract.PostRecord>, saved: seq<SavedPost>, i: nat, s: SavedPost)
    requires i < |posts| && SavedFrom(posts, saved, i)
    requires s.position == i + 1 && Complete(posts[i]) && s.content == posts[i].contentText
    ensures SavedFrom(posts, saved + [s], i + 1)
  {
  }

  lemma SavedWiden(posts: seq<Extract.PostRecord>, saved: seq<SavedPost>, i: nat)
    requires SavedFrom(posts, saved, i)
    ensures SavedFrom(posts, saved, i + 1)
  {
  }

  /** How `_process_single_post` ended. */
  datatype PostOutcome =
    | MissingField
    | Duplicate
    | SaveFailed
    | Saved(id: Option<int>, notify: bool)

  /** What `_process_single_post` reports for one post handed to a table
      holding `rows` with next id `next`; `present` says whether the table
      exists. */
  function OutcomeOf(rows: seq<Storage.PostRow>, next: int, post: Extract.PostRecord, ai: Option<AiResult>,
                     present: bool): PostOutcome
  {
    if !Complete(post) then MissingField
    else if !present then SaveFailed
    else
      var a := Step(rows, next, post, false);
      if a.isNew then Saved(a.id, ai.Some? && ai.value.relevant) else Duplicate
  }

  /** A post is skipped for a missing field, a duplicate when its hash is
      stored, and otherwise saved as the table's next id, to be announced
      exactly when the AI judged it relevant. */
  lemma OutcomeOfMeaning(rows: seq<Storage.PostRow>, next: int, post: Extract.PostRecord, ai: Option<AiResult>,
                         present: bool)
    ensures var o := OutcomeOf(rows, next, post, ai, present);
            (o.MissingField? <==> !Complete(post)) &&
            (o.SaveFailed? <==> Complete(post) && !present) &&
            (o.Duplicate? <==> Complete(post) && present && Storage.HashIn(rows, post.contentHash)) &&
            (o.Saved? <==> Complete(post) && present && !Storage.HashIn(rows, post.contentHash)) &&
            (o.Saved? ==> o.id == Some(next) && (o.notify <==> ai.Some? && ai.value.relevant))
  {
  }

  /** The outcome of the `k`-th post of a batch: it meets the table as the
      posts before it left it. */
  function OutcomeAt(rows: seq<Storage.PostRow>, next: int, present: bool, posts: seq<Extract.PostRecord>,
                     ai: seq<Option<AiResult>>, k: nat): PostOutcome
    requires k < |posts| && |ai| == |posts|
  {
    var b := Storage.PersistAll(rows, next, Kept(posts[..k], false));
    OutcomeOf(b.rows, b.next, posts[k], ai[k], present)
  }

  /** The outcomes of the loop in `scrape_group`, one per post, in order. */
  function Outcomes(rows: seq<Storage.PostRow>, next: int, present: bool, posts: seq<Extract.PostRecord>,
                    ai: seq<Option<AiResult>>): seq<PostOutcome>
    requires |ai| == |posts|
  {
    seq(|posts|, k requires 0 <= k < |posts| => OutcomeAt(rows, next, present, posts, ai, k))
  }

  /** The loop's view of the `i`-th post: the table as the earlier posts
      left it. */
  lemma OutcomeStep(rows: seq<Storage.PostRow>, next: int, present: bool, posts: seq<Extract.PostRecord>,
                    ai: seq<Option<AiResult>>, i: nat, cur: Storage.Added)
    requires i < |posts| && |ai| == |posts|
    requires present ==> Batch(rows, next, posts[..i], false, cur)
    ensures OutcomeOf(cur.rows, cur.next, posts[i], ai[i], present) == OutcomeAt(rows, next, present, posts, ai, i)
  {
  }

  lemma OutcomesAll(rows: seq<Storage.PostRow>, next: int, present: bool, posts: seq<Extract.PostRecord>,
                    ai: seq<Option<AiResult>>, outcomes: seq<PostOutcome>)
    requires |ai| == |posts| && |outcomes| == |posts|
    requires forall k :: 0 <= k < |posts| ==> outcomes[k] == OutcomeAt(rows, next, present, posts, ai, k)
    ensures outcomes == Outcomes(rows, next, present, posts, ai)
  {
  }

  /** A post saved by `_save_and_process_posts`: its new id, text, URL and
      1-based position in the batch. */
  datatype SavedPost = SavedPost(id: Option<int>, content: string, postUrl: Option<string>, position: nat)

  /** Whether the browser may be reused: `Launched(valid)` is a created
      driver and the session check's answer, `NotCreated` a factory that
      returned nothing, `LaunchFailed` an exception during setup. */
  datatype Launch = Launched(sessionValid: bool) | NotCreated | LaunchFailed

  class ScraperManager {
    var hasDriver: bool
    var initialized: bool
    var currentGroupName: Option<string>

    /** An initialised manager always holds a browser. */
    predicate Valid()
      reads this
    {
      initialized ==> hasDriver
    }

    constructor ()
      ensures Valid() && !hasDriver && !initialized && currentGroupName.None?
    {
      hasDriver := false;
      initialized := false;
      currentGroupName := None;
    }

    /** `initialize`: reuse a live browser, otherwise create one and check
        the session; only a valid session leaves the manager initialised. */
    method Initialize(alive: bool, launch: Launch) returns (ok: bool)
      requires Valid()
      modifies this
      ensures Valid()
      ensures ok <==> (old(initialized) && alive) || launch == Launched(true)
      ensures ok ==> initialized && hasDriver
      ensures !ok ==> !initialized
      ensures old(initialized) && alive ==> hasDriver && initialized
      ensures !(old(initialized) && alive) ==> (hasDriver <==> launch.Launched?)
      ensures currentGroupName == old(currentGroupName)
    {
      if initialized && hasDriver {
        if alive {
          return true;
        }
        initialized := false;
      }
      match launch
      case LaunchFailed =>
        hasDriver := false;
        initialized := false;
        ok := false;
      case NotCreated =>
        hasDriver := false;
        ok := false;
      case Launched(valid) =>
        hasDriver := true;
        if !valid {
          return false;
        }
        initialized := true;
        ok := true;
    }

    /** `cleanup`: quit and forget the browser; when quitting raises, the
        handler leaves both fields as they were. */
    method Cleanup(quitRaises: bool)
      requires Valid()
      modifies this
      ensures Valid()
      ensures old(hasDriver) && quitRaises ==> hasDriver == old(hasDriver) && initialized == old(initialized)
      ensures !(old(hasDriver) && quitRaises) ==> !hasDriver && !initialized
      ensures currentGroupName == old(currentGroupName)
    {
      if hasDriver {
        if quitRaises {
          return;
        }
        hasDriver := false;
      }
      initialized := false;
    }

    /** `_process_single_post`: incomplete posts and stored hashes are
        skipped before the AI call; otherwise the post is saved whether or
        not the AI call succeeded, and a notification is due exactly when
        the save was new and the AI judged the post relevant. */
    method ProcessSinglePost(store: Storage.Store, table: string, post: Extract.PostRecord, ai: Option<AiResult>)
      returns (outcome: PostOutcome)
      requires store.Valid()
      modifies store
      ensures store.Valid()
      ensures store.groups == old(store.groups) && store.nextGroupId == old(store.nextGroupId)
      ensures outcome.MissingField? <==> !Complete(post)
      ensures outcome.Duplicate? <==>
                Complete(post) && table in old(store.tables) && Storage.HashIn(old(store.tables[table]), post.contentHash)
      ensures outcome.SaveFailed? <==> Complete(post) && table !in old(store.tables)
      ensures !outcome.Saved? ==> store.tables == old(store.tables) && store.nextPostId == old(store.nextPostId)
      ensures outcome.Saved? ==>
                var rows := old(store.tables[table]);
                var next := old(store.nextPostId[table]);
                outcome.id == Some(next) &&
                store.tables == old(store.tables)[table := rows + [Storage.PostRow(next, None, post.postUrl, Some(post.contentText), Some(post.contentHash))]] &&
                store.nextPostId == old(store.nextPostId)[table := next + 1]
      ensures outcome.Saved? ==> (outcome.notify <==> ai.Some? && ai.value.relevant)
      ensures table in old(store.tables) ==>
                var a := Step(old(store.tables[table]), old(store.nextPostId[table]), post, false);
                store.tables == old(store.tables)[table := a.rows] && store.nextPostId == old(store.nextPostId)[table := a.next]
      ensures table in old(store.tables) ==>
                outcome == OutcomeOf(old(store.tables[table]), old(store.nextPostId[table]), post, ai, true)
      ensures table !in old(store.tables) ==> outcome == OutcomeOf([], 0, post, ai, false)
    {
      if !Complete(post) {
        return MissingField;
      }
      var dup := store.ContentHashExists(table, post.contentHash);
      if dup {
        Storage.AddPostExisting(store.tables[table], store.nextPostId[table], ToNewPost(post, false));
        return Duplicate;
      }
      var p := ToNewPost(post, false);
      if table in store.tables {
        Storage.AddPostFresh(store.tables[table], store.nextPostId[table], p);
      }
      var r := store.AddPostToGroup(table, p);
      if r.None? {
        return SaveFailed;
      }
      var (id, isNew) := r.value;
      outcome := Saved(id, isNew && ai.Some? && ai.value.relevant);
    }

    /** `scrape_group` as written: it remembers the group's name and reads
        the table's cursors, then calls `scrape_authenticated_group` with
        keyword arguments that function does not declare. The call raises
        `TypeError`, which the handler logs and re-raises, so no table
        changes and no post is processed. */
    method ScrapeGroupAsWritten(store: Storage.Store, group: Storage.GroupRow, storedName: Option<string>)
      returns (raised: bool)
      requires Valid()
      modifies this
      ensures Valid() && raised
      ensures currentGroupName == Some(if storedName.Some? then storedName.value else UnknownGroup)
      ensures hasDriver == old(hasDriver) && initialized == old(initialized)
    {
      currentGroupName := Some(if storedName.Some? then storedName.value else UnknownGroup);
      var fbId := store.MostRecentFacebookPostId(group.table);
      var hash := store.MostRecentContentHash(group.table);
      raised := true;
    }

    /** `scrape_group` with the harvest call corrected: remember the group's
        name and run every post through `_process_single_post`; the group's
        table ends as the batch of complete posts added in order, and each
        post's outcome is what it met in the table the posts before it left. */
    method ScrapeGroup(store: Storage.Store, group: Storage.GroupRow, storedName: Option<string>,
                       posts: seq<Extract.PostRecord>, ai: seq<Option<AiResult>>)
      returns (outcomes: seq<PostOutcome>)
      requires Valid() && store.Valid() && |ai| == |posts|
      modifies this, store
      ensures store.Valid() && Valid()
      ensures currentGroupName == Some(if storedName.Some? then storedName.value else UnknownGroup)
      ensures hasDriver == old(hasDriver) && initialized == old(initialized)
      ensures store.groups == old(store.groups) && store.nextGroupId == old(store.nextGroupId)
      ensures |outcomes| == |posts|
      ensures group.table !in old(store.tables) ==>
                store.tables == old(store.tables) && store.nextPostId == old(store.nextPostId)
      ensures group.table in old(store.tables) ==>
                var a := Storage.PersistAll(old(store.tables[group.table]), old(store.nextPostId[group.table]), Kept(posts, false));
                store.tables == old(store.tables)[group.table := a.rows] &&
                store.nextPostId == old(store.nextPostId)[group.table := a.next]
      ensures group.table in old(store.tables) ==>
                outcomes == Outcomes(old(store.tables[group.table]), old(store.nextPostId[group.table]), true, posts, ai)
      ensures group.table !in old(store.tables) ==> outcomes == Outcomes([], 0, false, posts, ai)
    {
      currentGroupName := Some(if storedName.Some? then storedName.value else UnknownGroup);
      outcomes := ProcessPosts(store, group.table, posts, ai);
    }

    /** The loop of `scrape_group`: every post goes through
        `_process_single_post`, and the table ends as the batch of complete
        posts added in order. */
    method ProcessPosts(store: Storage.Store, table: string, posts: seq<Extract.PostRecord>,
                        ai: seq<Option<AiResult>>)
      returns (outcomes: seq<PostOutcome>)
      requires store.Valid() && |ai| == |posts|
      modifies store
      ensures store.Valid()
      ensures store.groups == old(store.groups) && store.nextGroupId == old(store.nextGroupId)
      ensures |outcomes| == |posts|
      ensures table !in old(store.tables) ==>
                store.tables == old(store.tables) && store.nextPostId == old(store.nextPostId)
      ensures table in old(store.tables) ==>
                var a := Storage.PersistAll(old(store.tables[table]), old(store.nextPostId[table]), Kept(posts, false));
                store.tables == old(store.tables)[table := a.rows] &&
                store.nextPostId == old(store.nextPostId)[table := a.next]
      ensures table in old(store.tables) ==>
                outcomes == Outcomes(old(store.tables[table]), old(store.nextPostId[table]), true, posts, ai)
      ensures table !in old(store.tables) ==> outcomes == Outcomes([], 0, false, posts, ai)
    {
      ghost var tables0 := store.tables;
      ghost var ids0 := store.nextPostId;
      ghost var present := table in tables0;
      ghost var cur := Storage.Added([], 0, None, false);
      if table in tables0 {
        cur := Storage.Added(tables0[table], ids0[table], None, false);
        Storage.MapSelf(tables0, table);
        Storage.MapSelf(ids0, table);
      }
      ghost var rows0 := cur.rows;
      ghost var next0 := cur.next;
      outcomes := [];
      var i := 0;
      while i < |posts|
        invariant 0 <= i <= |posts| && |outcomes| == i
        invariant store.Valid()
        invariant store.groups == old(store.groups) && store.nextGroupId == old(store.nextGroupId)
        invariant Tracks(store.tables, store.nextPostId, table, tables0, ids0, cur)
        invariant table in tables0 ==> Batch(tables0[table], ids0[table], posts[..i], false, cur)
        invariant forall k :: 0 <= k < i ==> outcomes[k] == OutcomeAt(rows0, next0, present, posts, ai, k)
      {
        if table in tables0 {
          BatchSnoc(tables0[table], ids0[table], posts, i, false, cur);
        }
        var o := ProcessStep(store, table, posts[i], ai[i], tables0, ids0, cur);
        OutcomeStep(rows0, next0, present, posts, ai, i, cur);
        cur := Step(cur.rows, cur.next, posts[i], false);
        outcomes := outcomes + [o];
        i := i + 1;
      }
      assert posts[..|posts|] == posts;
      OutcomesAll(rows0, next0, present, posts, ai, outcomes);
    }

    /** One pass of the loop in `scrape_group`, followed on the batch's
        tables. */
    method ProcessStep(store: Storage.Store, table: string, post: Extract.PostRecord, ai: Option<AiResult>,
                       ghost tables0: map<string, seq<Storage.PostRow>>, ghost ids0: map<string, int>,
                       ghost cur: Storage.Added)
      returns (outcome: PostOutcome)
      requires store.Valid() && Tracks(store.tables, store.nextPostId, table, tables0, ids0, cur)
      modifies store
      ensures store.Valid()
      ensures store.groups == old(store.groups) && store.nextGroupId == old(store.nextGroupId)
      ensures Tracks(store.tables, store.nextPostId, table, tables0, ids0, Step(cur.rows, cur.next, post, false))
      ensures outcome == OutcomeOf(cur.rows, cur.next, post, ai, table in tables0)
    {
      ghost var nxt := Step(cur.rows, cur.next, post, false);
      if table in tables0 {
        Storage.MapTwice(tables0, table, cur.rows, nxt.rows);
        Storage.MapTwice(ids0, table, cur.next, nxt.next);
      }
      outcome := ProcessSinglePost(store, table, post, ai);
    }

    /** One pass of the save loop in `_save_and_process_posts`: a complete
        post whose hash is not stored is added, and reported when the add
        was new. */
    method SavePost(store: Storage.Store, table: string, post: Extract.PostRecord, position: nat)
      returns (saved: Option<SavedPost>)
      requires store.Valid()
      modifies store
      ensures store.Valid()
      ensures store.groups == old(store.groups) && store.nextGroupId == old(store.nextGroupId)
      ensures table !in old(store.tables) ==>
                saved.None? && store.tables == old(store.tables) && store.nextPostId == old(store.nextPostId)
      ensures table in old(store.tables) ==>
                var a := Step(old(store.tables[table]), old(store.nextPostId[table]), post, true);
                store.tables == old(store.tables)[table := a.rows] && store.nextPostId == old(store.nextPostId)[table := a.next] &&
                |a.rows| == |old(store.tables[table])| + (if saved.Some? then 1 else 0)
      ensures saved.Some? ==>
                Complete(post) && saved.value.content == post.contentText && saved.value.position == position
      ensures table in old(store.tables) ==>
                var a := Step(old(store.tables[table]), old(store.nextPostId[table]), post, true);
                saved == if a.isNew then Some(SavedPost(a.id, post.contentText, post.postUrl, position)) else None
    {
      saved := None;
      if !Complete(post) {
        return;
      }
      var dup := store.ContentHashExists(table, post.contentHash);
      var p := ToNewPost(post, true);
      if dup {
        Storage.AddPostExisting(store.tables[table], store.nextPostId[table], p);
        return;
      }
      if table in store.tables {
        Storage.AddPostFresh(store.tables[table], store.nextPostId[table], p);
      }
      var r := store.AddPostToGroup(table, p);
      if r.Some? && r.value.1 {
        saved := Some(SavedPost(r.value.0, post.contentText, post.postUrl, position));
      }
    }

    /** One pass of the save loop, followed on the batch's tables. */
    method SaveStep(store: Storage.Store, table: string, post: Extract.PostRecord, position: nat,
                    ghost tables0: map<string, seq<Storage.PostRow>>, ghost ids0: map<string, int>,
                    ghost cur: Storage.Added)
      returns (saved: Option<SavedPost>)
      requires store.Valid() && Tracks(store.tables, store.nextPostId, table, tables0, ids0, cur)
      modifies store
      ensures store.Valid()
      ensures store.groups == old(store.groups) && store.nextGroupId == old(store.nextGroupId)
      ensures var a := Step(cur.rows, cur.next, post, true);
              Tracks(store.tables, store.nextPostId, table, tables0, ids0, a) &&
              (table in tables0 ==>
                 |a.rows| == |cur.rows| + (if saved.Some? then 1 else 0) &&
                 saved == if a.isNew then Some(SavedPost(a.id, post.contentText, post.postUrl, position)) else None)
      ensures table !in tables0 ==> saved.None?
      ensures saved.Some? ==>
                Complete(post) && saved.value.content == post.contentText && saved.value.position == position
    {
      ghost var nxt := Step(cur.rows, cur.next, post, true);
      if table in tables0 {
        Storage.MapTwice(tables0, table, cur.rows, nxt.rows);
        Storage.MapTwice(ids0, table, cur.next, nxt.next);
        assert store.tables[table] == cur.rows && store.nextPostId[table] == cur.next;
      }
      saved := SavePost(store, table, post, position);
    }

    /** `_save_and_process_posts`, the save step: complete posts whose hash
        is not stored are added, and the new ones are collected with their
        1-based position. */
    method SaveAndProcessPosts(store: Storage.Store, table: string, posts: seq<Extract.PostRecord>)
      returns (saved: seq<SavedPost>)
      requires store.Valid()
      modifies store
      ensures store.Valid()
      ensures store.groups == old(store.groups) && store.nextGroupId == old(store.nextGroupId)
      ensures table !in old(store.tables) ==>
                saved == [] && store.tables == old(store.tables) && store.nextPostId == old(store.nextPostId)
      ensures table in old(store.tables) ==>
                var a := Storage.PersistAll(old(store.tables[table]), old(store.nextPostId[table]), Kept(posts, true));
                store.tables == old(store.tables)[table := a.rows] &&
                store.nextPostId == old(store.nextPostId)[table := a.next] &&
                |a.rows| == |old(store.tables[table])| + |saved|
      ensures table in old(store.tables) ==>
                saved == Reported(old(store.tables[table]), old(store.nextPostId[table]), posts, true)
      ensures SavedFrom(posts, saved, |posts|)
    {
      saved := [];
      if posts == [] {
        assert Kept(posts, true) == [];
        return;
      }
      ghost var tables0 := store.tables;
      ghost var ids0 := store.nextPostId;
      ghost var cur := Storage.Added([], 0, None, false);
      if table in tables0 {
        cur := Storage.Added(tables0[table], ids0[table], None, false);
        Storage.MapSelf(tables0, table);
        Storage.MapSelf(ids0, table);
      }
      assert posts[..0] == [];
      var i := 0;
      while i < |posts|
        invariant 0 <= i <= |posts|
        invariant store.Valid()
        invariant store.groups == old(store.groups) && store.nextGroupId == old(store.nextGroupId)
        invariant SaveProgress(store.tables, store.nextPostId, table, tables0, ids0, posts, i, saved, cur)
      {
        saved := SaveNext(store, table, posts, i, saved, tables0, ids0, cur);
        cur := Step(cur.rows, cur.next, posts[i], true);
        i := i + 1;
      }
      SaveProgressDone(store.tables, store.nextPostId, table, tables0, ids0, posts, saved, cur);
    }

    /** One pass of the save loop with the batch's bookkeeping: the step
        keeps `SaveProgress` one post further on. */
    method SaveNext(store: Storage.Store, table: string, posts: seq<Extract.PostRecord>, i: nat,
                    saved: seq<SavedPost>, ghost tables0: map<string, seq<Storage.PostRow>>,
                    ghost ids0: map<string, int>, ghost cur: Storage.Added)
      returns (saved': seq<SavedPost>)
      requires i < |posts| && store.Valid()
      requires SaveProgress(store.tables, store.nextPostId, table, tables0, ids0, posts, i, saved, cur)
      modifies store
      ensures store.Valid()
      ensures store.groups == old(store.groups) && store.nextGroupId == old(store.nextGroupId)
      ensures SaveProgress(store.tables, store.nextPostId, table, tables0, ids0, posts, i + 1, saved',
                           Step(cur.rows, cur.next, posts[i], true))
    {
      if table in tables0 {
        BatchSnoc(tables0[table], ids0[table], posts, i, true, cur);
        ReportedSnoc(tables0[table], ids0[table], posts, i, true, cur);
      }
      var one := SaveStep(store, table, posts[i], i + 1, tables0, ids0, cur);
      if one.Some? {
        SavedSnoc(posts, saved, i, one.value);
        saved' := saved + [one.value];
      } else {
        SavedWiden(posts, saved, i);
        saved' := saved;
      }
    }
  }
}

=== FILE: notifier.dfy ===
/** The Telegram notifier's text functions: truncating outgoing text,
    reading a command out of an update, HTML escaping and the post message. */
module Notifier {
  import opened Wrappers
  import opened PyStr

  /** The cap `send_telegram_message` puts on every outgoing text. */
  const MaxMessage := 3500

  const Ellipsis := "..."

  // ---------------------------------------------------------------------------
  // Truncation

  /** Python's `s[:k]`: a negative `k` counts from the end. */
  function PyPrefix(s: string, k: int): (r: string)
    ensures StartsWith(s, r)
    ensures 0 <= k <= |s| ==> |r| == k
  {
    if k >= |s| then s
    else if k >= 0 then s[..k]
    else if |s| + k >= 0 then s[..|s| + k]
    else []
  }

  /** `_truncate_text`: None becomes "", text within the limit is kept, longer
      text keeps its first `maxLen - 3` characters followed by "...". */
  function TruncateText(text: Option<string>, maxLen: int): (r: string)
    ensures text.None? ==> r == ""
    ensures text.Some? && |text.value| <= maxLen ==> r == text.value
    ensures text.Some? && |text.value| > maxLen ==>
              |r| >= 3 && StartsWith(text.value, r[..|r| - 3]) && r[|r| - 3..] == Ellipsis
    ensures text.Some? && |text.value| > maxLen && maxLen >= 3 ==> |r| == maxLen
  {
    if text.None? then ""
    else if |text.value| <= maxLen then text.value
    else
      var p := PyPrefix(text.value, maxLen - 3);
      assert (p + Ellipsis)[..|p|] == p;
      p + Ellipsis
  }

  /** With a limit of at least three, the result fits the limit and a second
      truncation changes nothing. */
  lemma TruncateFits(text: Option<string>, maxLen: int)
    requires maxLen >= 3
    ensures |TruncateText(text, maxLen)| <= maxLen
    ensures TruncateText(Some(TruncateText(text, maxLen)), maxLen) == TruncateText(text, maxLen)
  {
  }

  /** What `send_telegram_message` puts in the request's text field. */
  function OutgoingText(text: string): (r: string)
    ensures |r| <= MaxMessage
    ensures |text| <= MaxMessage ==> r == text
  {
    TruncateFits(Some(text), MaxMessage);
    TruncateText(Some(text), MaxMessage)
  }

  // ---------------------------------------------------------------------------
  // Commands

  /** A JSON chat id: a number, a string, or absent. */
  datatype ChatId = NumberId(n: int) | TextId(s: string) | NoId

  /** `update["message"]`: the chat id and the text (None for a missing or
      null text). */
  datatype Message = Message(chat: ChatId, text: Option<string>)

  datatype Update = Update(message: Option<Message>)

  datatype Command = Command(chatId: string, cmd: string, arg: string)

  predicate Truthy(id: ChatId)
  {
    match id
    case NumberId(n) => n != 0
    case TextId(s) => s != ""
    case NoId => false
  }

  /** `str(chat_id)`. */
  function ChatIdString(id: ChatId): string
  {
    match id
    case NumberId(n) => IntToString(n)
    case TextId(s) => s
    case NoId => "None"
  }

  /** `extract_commands`: None without a message, with a falsy chat id, or
      with a text that does not start with '/'; otherwise the lowercased
      first space-separated token of the stripped text and the stripped
      rest. */
  function ExtractCommands(u: Update): (r: Option<Command>)
    ensures r.Some? <==>
              u.message.Some? && Truthy(u.message.value.chat) &&
              StartsWith(u.message.value.text.GetOr(""), "/")
    ensures r.Some? ==> r.value.chatId == ChatIdString(u.message.value.chat)
    ensures r.Some? ==> ' ' !in r.value.cmd && r.value.arg == Strip(r.value.arg)
  {
    if u.message.None? then None
    else
      var m := u.message.value;
      var text := m.text.GetOr("");
      if !Truthy(m.chat) || !StartsWith(text, "/") then None
      else
        var parts := SplitOnce(Strip(text), ' ');
        StripStable(parts);
        Some(Command(ChatIdString(m.chat), Lower(parts[0]),
                     if |parts| > 1 then Strip(parts[1]) else ""))
  }

  /** Stripping twice is stripping once; lowering keeps spaces out. */
  lemma StripStable(parts: seq<string>)
    requires 1 <= |parts| <= 2 && ' ' !in parts[0]
    ensures ' ' !in Lower(parts[0])
    ensures |parts| > 1 ==> Strip(parts[1]) == Strip(Strip(parts[1]))
  {
    forall i | 0 <= i < |parts[0]|
      ensures Lower(parts[0])[i] != ' '
    {
      assert parts[0][i] in parts[0];
    }
  }

  /** A plain command line "/w a" (w without spaces, a without trailing
      whitespace) gives the command "/w" lowercased and the argument a
      stripped. */
  lemma CommandLine(chat: ChatId, w: string, a: string)
    requires Truthy(chat) && ' ' !in w && !IsSpace('/')
    requires a != [] && !IsSpace(a[|a| - 1])
    ensures ExtractCommands(Update(Some(Message(chat, Some("/" + w + " " + a))))) ==
            Some(Command(ChatIdString(chat), Lower("/" + w), Strip(a)))
  {
    var text := "/" + w + " " + a;
    assert text[0] == '/' && text[|text| - 1] == a[|a| - 1];
    assert StartsWith(text, "/");
    assert Strip(text) == text;
    assert ' ' !in "/" + w;
    var parts := SplitOnce(text, ' ');
    assert text == ("/" + w) + [' '] + a;
    SplitOnceAt("/" + w, a);
  }

  lemma SplitOnceAt(x: string, y: string)
    requires ' ' !in x
    ensures SplitOnce(x + [' '] + y, ' ') == [x, y]
  {
    var s := x + [' '] + y;
    IndexOfAfter(x, ' ', y);
    assert s[..|x|] == x && s[|x| + 1..] == y;
  }

  // ---------------------------------------------------------------------------
  // HTML escaping

  /** `html.escape` with quotes: '&', '<', '>', '"' and '\'' become entities. */
  function EscapeChar(c: char): string
  {
    if c == '&' then "&amp;"
    else if c == '<' then "&lt;"
    else if c == '>' then "&gt;"
    else if c == '"' then "&quot;"
    else if c == '\'' then "&#x27;"
    else [c]
  }

  predicate HtmlSafe(c: char)
  {
    c != '<' && c != '>' && c != '"' && c != '\''
  }

  predicate AllHtmlSafe(s: string)
  {
    forall i :: 0 <= i < |s| ==> HtmlSafe(s[i])
  }

  function Escape(s: string): (r: string)
    ensures AllHtmlSafe(r)
    ensures |r| >= |s|
  {
    if s == [] then []
    else
      var e := EscapeChar(s[0]);
      var t := Escape(s[1..]);
      assert AllHtmlSafe(e);
      assert forall i :: 0 <= i < |e + t| ==> (e + t)[i] == if i < |e| then e[i] else t[i - |e|];
      e + t
  }

  /** `escape_html`: None escapes to "". */
  function EscapeHtml(text: Option<string>): (r: string)
    ensures AllHtmlSafe(r)
  {
    Escape(text.GetOr(""))
  }

  /** One of the five entities `html.escape` writes starts at `i`. */
  predicate EntityAt(s: string, i: nat)
    requires i < |s|
  {
    var t := s[i..];
    StartsWith(t, "&amp;") || StartsWith(t, "&lt;") || StartsWith(t, "&gt;") ||
    StartsWith(t, "&quot;") || StartsWith(t, "&#x27;")
  }

  /** Every `&` in `s` opens an entity: there is no bare ampersand. */
  predicate NoBareAmp(s: string)
  {
    forall i :: 0 <= i < |s| && s[i] == '&' ==> EntityAt(s, i)
  }

  /** An escaped character opens an entity at its first position and holds
      no other `&`. */
  lemma EscapeCharAmp(c: char, t: string)
    ensures forall i :: 1 <= i < |EscapeChar(c)| ==> EscapeChar(c)[i] != '&'
    ensures EscapeChar(c)[0] == '&' ==> EntityAt(EscapeChar(c) + t, 0)
  {
    var e := EscapeChar(c);
    assert (e + t)[0..] == e + t;
    assert (e + t)[..|e|] == e;
  }

  /** The escaped text has no bare `&`: each one starts `&amp;`, `&lt;`,
      `&gt;`, `&quot;` or `&#x27;`. */
  lemma {:induction false} EscapeNoBareAmp(s: string)
    ensures NoBareAmp(Escape(s))
    decreases |s|
  {
    if s != [] {
      var e := EscapeChar(s[0]);
      var t := Escape(s[1..]);
      EscapeNoBareAmp(s[1..]);
      EscapeCharAmp(s[0], t);
      assert Escape(s) == e + t;
      forall i | 0 <= i < |e + t| && (e + t)[i] == '&'
        ensures EntityAt(e + t, i)
      {
        if i >= |e| {
          assert (e + t)[i] == t[i - |e|];
          assert (e + t)[i..] == t[i - |e|..];
        }
      }
    }
  }

  /** Reading the five entities back (`html.unescape` restricted to them). */
  function Unescape(s: string): string
    decreases |s|
  {
    if s == [] then []
    else if s[0] != '&' || |s| < 4 then [s[0]] + Unescape(s[1..])
    else if |s| >= 5 && s[1] == 'a' && s[2] == 'm' && s[3] == 'p' && s[4] == ';' then ['&'] + Unescape(s[5..])
    else if s[1] == 'l' && s[2] == 't' && s[3] == ';' then ['<'] + Unescape(s[4..])
    else if s[1] == 'g' && s[2] == 't' && s[3] == ';' then ['>'] + Unescape(s[4..])
    else if |s| >= 6 && s[1] == 'q' && s[2] == 'u' && s[3] == 'o' && s[4] == 't' && s[5] == ';' then
      ['"'] + Unescape(s[6..])
    else if |s| >= 6 && s[1] == '#' && s[2] == 'x' && s[3] == '2' && s[4] == '7' && s[5] == ';' then
      ['\''] + Unescape(s[6..])
    else [s[0]] + Unescape(s[1..])
  }

  lemma UnescapeChar(c: char, rest: string)
    ensures Unescape(EscapeChar(c) + rest) == [c] + Unescape(rest)
  {
    var e := EscapeChar(c) + rest;
    assert e[|EscapeChar(c)|..] == rest;
  }

  /** Escaping loses nothing: unescaping gives the text back. */
  lemma {:induction false} UnescapeEscape(s: string)
    ensures Unescape(Escape(s)) == s
    decreases |s|
  {
    if s != [] {
      UnescapeChar(s[0], Escape(s[1..]));
      UnescapeEscape(s[1..]);
    }
  }

  // ---------------------------------------------------------------------------
  // The post message

  const Placeholder := "Group from "
  const GroupsPrefix := "https://www.facebook.com/groups/"

  /** The group name shown: "Unknown Group" when missing or empty, the
      placeholder prefix removed (every occurrence) when the name starts with
      it, then every group-URL prefix removed. */
  function CleanGroupName(groupName: Option<string>): (r: string)
  {
    var g := if groupName.Some? && groupName.value != "" then groupName.value else "Unknown Group";
    var g' := if StartsWith(g, Placeholder) then Replace(g, Placeholder, "") else g;
    Replace(g', GroupsPrefix, "")
  }

  /** A missing or empty name shows as "Unknown Group"; a name that neither
      starts with the placeholder nor holds a group URL is shown as it is. */
  lemma CleanGroupNameKeeps(groupName: Option<string>)
    ensures groupName.None? || groupName == Some("") ==> CleanGroupName(groupName) == "Unknown Group"
    ensures (groupName.Some? && groupName.value != "" && !StartsWith(groupName.value, Placeholder) &&
             !Contains(groupName.value, GroupsPrefix)) ==> CleanGroupName(groupName) == groupName.value
  {
    var g := if groupName.Some? && groupName.value != "" then groupName.value else "Unknown Group";
    if g == "Unknown Group" {
      UnknownPlain();
    }
    if !StartsWith(g, Placeholder) && !Contains(g, GroupsPrefix) {
      ReplaceAbsent(g, GroupsPrefix, "");
    }
  }

  /** "Unknown Group" neither starts with the placeholder nor holds a group URL. */
  lemma UnknownPlain()
    ensures !StartsWith("Unknown Group", Placeholder) && !Contains("Unknown Group", GroupsPrefix)
  {
    assert "Unknown Group"[0] != Placeholder[0];
    assert GroupsPrefix[0] == 'h';
    NoFirstChar("Unknown Group", GroupsPrefix);
  }

  /** The placeholder name of a group registered by its numeric URL shows as
      the group's number. */
  lemma CleanPlaceholderName(id: string)
    requires AllDigits(id)
    ensures CleanGroupName(Some(Placeholder + GroupsPrefix + id)) == id
  {
    var u := GroupsPrefix + id;
    assert Placeholder + GroupsPrefix + id == Placeholder + u;
    assert !Contains(u, Placeholder) by {
      AllDigitsLower(id);
      UrlNoPlaceholder(id);
    }
    assert !Contains(id, GroupsPrefix) by {
      AllDigitsLower(id);
      assert GroupsPrefix[0] == 'h';
      NoFirstChar(id, GroupsPrefix);
    }
    StripPlaceholder(u);
    ReplaceLeading(GroupsPrefix, id);
  }

  /** A name made of the placeholder and a text without it shows as that text
      with its group-URL prefixes removed. */
  lemma StripPlaceholder(u: string)
    requires !Contains(u, Placeholder)
    ensures CleanGroupName(Some(Placeholder + u)) == Replace(u, GroupsPrefix, "")
  {
    var g := Placeholder + u;
    assert g[..|Placeholder|] == Placeholder;
    ReplaceLeading(Placeholder, u);
  }

  /** A group URL with a numeric id does not contain the placeholder. */
  lemma UrlNoPlaceholder(id: string)
    requires forall i :: 0 <= i < |id| ==> id[i] != 'G' && id[i] != 'h'
    ensures !Contains(GroupsPrefix + id, Placeholder)
  {
    GroupsPrefixChars();
    NoCharConcat(GroupsPrefix, id, 'G');
    assert Placeholder[0] == 'G';
    NoFirstChar(GroupsPrefix + id, Placeholder);
  }

  lemma NoCharConcat(a: string, b: string, c: char)
    requires forall i :: 0 <= i < |a| ==> a[i] != c
    requires forall i :: 0 <= i < |b| ==> b[i] != c
    ensures forall i :: 0 <= i < |a + b| ==> (a + b)[i] != c
  {
    forall i | 0 <= i < |a + b|
      ensures (a + b)[i] != c
    {
      if i >= |a| {
        assert (a + b)[i] == b[i - |a|];
      }
    }
  }

  /** Removing a pattern from a string that starts with it and does not
      contain it afterwards leaves the rest. */
  lemma ReplaceLeading(p: string, u: string)
    requires p != [] && !Contains(u, p)
    ensures Replace(p + u, p, "") == u
  {
    var s := p + u;
    assert s[..|p|] == p && s[|p|..] == u;
    ReplaceAbsent(u, p, "");
  }

  lemma GroupsPrefixChars()
    ensures forall i :: 0 <= i < |GroupsPrefix| ==> GroupsPrefix[i] != 'G'
  {
  }

  lemma {:induction false} AllDigitsLower(id: string)
    requires AllDigits(id)
    ensures forall i :: 0 <= i < |id| ==> id[i] != 'G' && id[i] != 'h'
  {
    forall i | 0 <= i < |id|
      ensures id[i] != 'G' && id[i] != 'h'
    {
      AllDigitsAt(id, i);
    }
  }

  lemma {:induction false} AllDigitsAt(s: string, i: nat)
    requires AllDigits(s) && i < |s|
    ensures IsDigit(s[i])
    decreases i
  {
    if i > 0 {
      AllDigitsAt(s[1..], i - 1);
    }
  }

  /** A string without the first character of `sub` does not contain it. */
  lemma {:induction false} NoFirstChar(s: string, sub: string)
    requires sub != [] && forall i :: 0 <= i < |s| ==> s[i] != sub[0]
    ensures !Contains(s, sub)
    decreases |s|
  {
    if s != [] {
      NoFirstChar(s[1..], sub);
    }
  }

  /** The link line is shown for a truthy URL other than "#". */
  predicate ShowsLink(url: Option<string>)
  {
    url.Some? && url.value != "" && url.value != "#"
  }

  const Heading := "📩 <b>Naujas įrašas</b>\n\n📍 <b>Grupė:</b> <i>"
  const AfterGroup := "</i>\n\n"
  const LinkOpen := "\n\n<a href=\""
  const LinkClose := "\">📱 Peržiūrėti įrašą</a>"

  /** `format_post_message`: the heading with the cleaned group name, the
      escaped short text and, when there is a usable URL, the link line.
      `title` and `author` are not shown. */
  function FormatPostMessage(title: string, shortText: Option<string>, url: Option<string>,
                             author: Option<string>, groupName: Option<string>): (r: string)
    ensures var g := EscapeHtml(Some(CleanGroupName(groupName)));
            var head := Heading + g + AfterGroup;
            var body := head + EscapeHtml(shortText);
            StartsWith(r, body) &&
            Unescape(r[|Heading|..|Heading| + |g|]) == CleanGroupName(groupName) &&
            Unescape(r[|head|..|body|]) == shortText.GetOr("") &&
            (ShowsLink(url) ==> r[|body|..] == LinkOpen + EscapeHtml(url) + LinkClose &&
                                Unescape(EscapeHtml(url)) == url.value) &&
            (!ShowsLink(url) ==> r == body)
  {
    var g := EscapeHtml(Some(CleanGroupName(groupName)));
    var head := Heading + g + AfterGroup;
    var body := head + EscapeHtml(shortText);
    var tail := if ShowsLink(url) then LinkOpen + EscapeHtml(url) + LinkClose else "";
    MessagePieces(Heading, g, AfterGroup, EscapeHtml(shortText), tail);
    UnescapeEscape(CleanGroupName(groupName));
    UnescapeEscape(shortText.GetOr(""));
    UnescapeEscape(url.GetOr(""));
    body + tail
  }

  /** The pieces of a message built as heading, name, separator, text and tail. */
  lemma MessagePieces(h: string, g: string, a: string, t: string, tail: string)
    ensures var body := h + g + a + t;
            StartsWith(body + tail, body) && (body + tail)[|h|..|h| + |g|] == g &&
            (body + tail)[|h + g + a|..|body|] == t && (body + tail)[|body|..] == tail
  {
    var body := h + g + a + t;
    var r := body + tail;
    assert r[..|body|] == body;
    assert body[|h|..|h| + |g|] == g;
    assert body[|h + g + a|..] == t;
  }

  /** An anchor tag starts at position i. */
  predicate AnchorAt(s: string, i: int)
  {
    0 <= i && i + 1 < |s| && s[i] == '<' && s[i + 1] == 'a'
  }

  predicate NoAnchor(s: string)
  {
    forall i :: 0 <= i < |s| ==> !AnchorAt(s, i)
  }

  /** The message holds an anchor tag exactly when the link line is shown:
      the escaped name, text and URL cannot open one. */
  lemma LinkIffShown(title: string, shortText: Option<string>, url: Option<string>,
                     author: Option<string>, groupName: Option<string>)
    ensures (exists i :: 0 <= i && AnchorAt(FormatPostMessage(title, shortText, url, author, groupName), i)) <==>
            ShowsLink(url)
  {
    var g := EscapeHtml(Some(CleanGroupName(groupName)));
    var c := EscapeHtml(shortText);
    var body := Heading + g + AfterGroup + c;
    BodyNoAnchor(g, c);
    var r := FormatPostMessage(title, shortText, url, author, groupName);
    if ShowsLink(url) {
      LinkAnchor(body, EscapeHtml(url));
    } else {
      assert r == body;
    }
  }

  /** The heading, escaped name, separator and escaped text open no anchor. */
  lemma BodyNoAnchor(g: string, c: string)
    requires AllHtmlSafe(g) && AllHtmlSafe(c)
    ensures NoAnchor(Heading + g + AfterGroup + c)
  {
    LiteralsNoAnchor();
    SafeNoAnchor(g);
    SafeNoAnchor(c);
    NoAnchorAppend(Heading, g);
    NoAnchorAppend(Heading + g, AfterGroup);
    NoAnchorAppend(Heading + g + AfterGroup, c);
  }

  /** The link line opens an anchor. */
  lemma LinkAnchor(body: string, u: string)
    ensures AnchorAt(body + (LinkOpen + u + LinkClose), |body| + 2)
  {
    var r := body + (LinkOpen + u + LinkClose);
    assert r[|body| + 2] == LinkOpen[2];
    assert r[|body| + 3] == LinkOpen[3];
  }

  lemma LiteralsNoAnchor()
    ensures NoAnchor(Heading) && NoAnchor(AfterGroup)
    ensures Heading[|Heading| - 1] != '<' && AfterGroup[|AfterGroup| - 1] != '<'
  {
    forall i | 0 <= i < |Heading| - 1 && Heading[i] == '<'
      ensures Heading[i + 1] != 'a'
    {
    }
    forall i | 0 <= i < |AfterGroup| - 1 && AfterGroup[i] == '<'
      ensures AfterGroup[i + 1] != 'a'
    {
    }
  }

  lemma SafeNoAnchor(s: string)
    requires AllHtmlSafe(s)
    ensures NoAnchor(s) && (s == [] || s[|s| - 1] != '<')
  {
    forall i | 0 <= i < |s|
      ensures !AnchorAt(s, i)
    {
      assert HtmlSafe(s[i]);
    }
  }

  lemma NoAnchorAppend(a: string, b: string)
    requires NoAnchor(a) && NoAnchor(b) && (a == [] || a[|a| - 1] != '<')
    requires b == [] || b[|b| - 1] != '<'
    ensures NoAnchor(a + b) && (a + b == [] || (a + b)[|a + b| - 1] != '<')
  {
    forall i | 0 <= i < |a + b|
      ensures !AnchorAt(a + b, i)
    {
      if i + 1 < |a| {
        assert !AnchorAt(a, i);
      } else if i >= |a| {
        assert !AnchorAt(b, i - |a|);
      }
    }
  }
}

=== FILE: permalink.dfy ===
/** Post identification: an element's first permalink `href` is parsed the
    way Python's `urllib.parse.urlparse` (3.12) parses it, and a post URL and
    post ID are derived from it; without a permalink a structural test decides
    whether the element is a post at all, and every candidate gets an ID. */
module Permalink {
  import opened Wrappers
  import opened PyStr

  // ---------------------------------------------------------------------------
  // urlparse

  /** The six components of `urlparse`. */
  datatype Url = Url(scheme: string, netloc: string, path: string, params: string,
                     query: string, fragment: string)

  /** Index of the first `c` in `s`, if any: `s.find(c)` with -1 as None. */
  function Find(s: string, c: char): (r: Option<nat>)
    ensures r.None? <==> c !in s
    ensures r.Some? ==> r.value < |s| && s[r.value] == c && c !in s[..r.value]
  {
    if c in s then Some(IndexOf(s, c)) else None
  }

  /** Index of the last `c` in `s`, if any: `s.rfind(c)`. */
  function RFind(s: string, c: char): (r: Option<nat>)
    ensures r.None? <==> c !in s
    ensures r.Some? ==> r.value < |s| && s[r.value] == c && c !in s[r.value + 1..]
  {
    if s == [] then None
    else if s[|s| - 1] == c then Some(|s| - 1)
    else
      var r := RFind(s[..|s| - 1], c);
      assert s == s[..|s| - 1] + [s[|s| - 1]];
      if r.Some? then
        assert s[r.value + 1..] == s[..|s| - 1][r.value + 1..] + [s[|s| - 1]];
        r
      else r
  }

  /** The characters removed by `lstrip` at the start of `urlsplit`: C0 controls and space. */
  predicate IsC0OrSpace(c: char) { c <= ' ' }

  function LStripC0(s: string): (r: string)
    ensures |r| <= |s| && r == s[|s| - |r|..]
    ensures r == [] || !IsC0OrSpace(r[0])
  {
    if s != [] && IsC0OrSpace(s[0]) then LStripC0(s[1..]) else s
  }

  /** Tab, carriage return and line feed are deleted anywhere in the URL. */
  predicate IsUnsafe(c: char) { c == '\t' || c == '\r' || c == '\n' }

  function RemoveUnsafe(s: string): (r: string)
    ensures |r| <= |s|
    ensures forall c :: c in r ==> c in s && !IsUnsafe(c)
  {
    if s == [] then []
    else (if IsUnsafe(s[0]) then [] else [s[0]]) + RemoveUnsafe(s[1..])
  }

  predicate IsAsciiLetter(c: char) { 'a' <= c <= 'z' || 'A' <= c <= 'Z' }

  /** `urllib.parse.scheme_chars`. */
  predicate IsSchemeChar(c: char) { IsAsciiLetter(c) || IsDigit(c) || c == '+' || c == '-' || c == '.' }

  predicate AllSchemeChars(s: string)
  {
    s == [] || (IsSchemeChar(s[0]) && AllSchemeChars(s[1..]))
  }

  /** End of the network location in `u` (which starts with `//`): the first
      `/`, `?` or `#` from index 2 on, else the end. */
  function NetlocEnd(u: string, k: nat): (d: nat)
    requires k <= |u|
    ensures k <= d <= |u|
    ensures d < |u| ==> u[d] in "/?#"
    decreases |u| - k
  {
    if k == |u| || u[k] in "/?#" then k else NetlocEnd(u, k + 1)
  }

  /** The first steps of `urlsplit`: leading C0 controls and spaces are
      stripped, then tabs and line breaks are deleted. */
  function CleanUrl(raw: string): string
  {
    RemoveUnsafe(LStripC0(raw))
  }

  /** The scheme, lower-cased, and what follows its `:`; no scheme unless the
      text before the first `:` is a letter followed by scheme characters. */
  function SplitScheme(u: string): (r: (string, string))
  {
    var colon := Find(u, ':');
    if colon.Some? && colon.value > 0 && IsAsciiLetter(u[0]) && AllSchemeChars(u[..colon.value])
    then (Lower(u[..colon.value]), u[colon.value + 1..])
    else ("", u)
  }

  /** `_splitnetloc`: after a leading `//`, the network location runs to the
      first `/`, `?` or `#`. */
  function SplitNetloc(u: string): (r: (string, string))
  {
    if |u| >= 2 && u[..2] == "//" then
      var d := NetlocEnd(u, 2);
      (u[2..d], u[d..])
    else ("", u)
  }

  /** The fragment is cut at the first `#`, then the query at the first `?`. */
  function SplitQuery(u: string): (r: (string, string, string))
    ensures '#' !in r.0 && '?' !in r.0
  {
    var h := Find(u, '#');
    var u3 := if h.Some? then u[..h.value] else u;
    var fragment := if h.Some? then u[h.value + 1..] else "";
    var q := Find(u3, '?');
    if q.Some? then (u3[..q.value], u3[q.value + 1..], fragment) else (u3, "", fragment)
  }

  /** What `ipaddress.ip_address` makes of a host: an IPv4 or an IPv6
      address, or neither (it raises `ValueError`). */
  datatype IpKind = IPv4 | IPv6 | NotAnAddress

  /** The library routines the permalink rule calls:
      `urllib.parse.unquote` and `ipaddress.ip_address`. */
  datatype Lib = Lib(unquote: string -> string, ipAddress: string -> IpKind)

  predicate IsHexDigit(c: char) { IsDigit(c) || 'a' <= c <= 'f' || 'A' <= c <= 'F' }

  /** Number of leading hexadecimal digits. */
  function SpanHex(s: string): (n: nat)
    ensures n <= |s|
    ensures forall i :: 0 <= i < n ==> IsHexDigit(s[i])
    ensures n < |s| ==> !IsHexDigit(s[n])
  {
    if s == [] || !IsHexDigit(s[0]) then 0 else SpanHex(s[1..]) + 1
  }

  /** `re.match(r"\Av[a-fA-F0-9]+\..+\Z", h)`: `v`, hex digits, a dot, and at
      least one more character, none of them a line feed. */
  predicate IsIPvFuture(h: string)
  {
    |h| > 0 && h[0] == 'v' &&
    var n := SpanHex(h[1..]);
    n > 0 && n + 2 < |h| && h[n + 1] == '.' && '\n' !in h[n + 2..]
  }

  /** `netloc.partition('[')[2].partition(']')[0]`. */
  function BracketedHost(netloc: string): (h: string)
    requires '[' in netloc
    ensures ']' !in h
  {
    var a := netloc[Find(netloc, '[').value + 1..];
    match Find(a, ']')
    case Some(j) => a[..j]
    case None => a
  }

  /** `_check_bracketed_host` passes: an IPvFuture literal when the host
      starts with `v`, otherwise an IPv6 address (an IPv4 address or no
      address raises). */
  predicate BracketedHostOk(h: string, ipAddress: string -> IpKind)
  {
    if |h| > 0 && h[0] == 'v' then IsIPvFuture(h) else ipAddress(h) == IPv6
  }

  /** The netloc checks of `urlsplit`: brackets come in pairs, and a
      bracketed host is an IPv6 or IPvFuture literal. */
  predicate NetlocOk(netloc: string, ipAddress: string -> IpKind)
  {
    ('[' in netloc) == (']' in netloc) &&
    ('[' in netloc ==> BracketedHostOk(BracketedHost(netloc), ipAddress))
  }

  /** `urlsplit(raw)`; None when it raises `ValueError` (an unpaired bracket
      or a bracketed host that is not an IPv6 or IPvFuture literal). */
  function UrlSplit(raw: string, ipAddress: string -> IpKind): (r: Option<Url>)
    ensures r.None? <==> !NetlocOk(SplitNetloc(SplitScheme(CleanUrl(raw)).1).0, ipAddress)
    ensures r.Some? ==> r.value.scheme == SplitScheme(CleanUrl(raw)).0
    ensures r.Some? ==> r.value.netloc == SplitNetloc(SplitScheme(CleanUrl(raw)).1).0
    ensures r.Some? ==> r.value.params == [] && '#' !in r.value.path && '?' !in r.value.path
    ensures r.Some? ==> NetlocOk(r.value.netloc, ipAddress)
  {
    var (scheme, u1) := SplitScheme(CleanUrl(raw));
    var (netloc, u2) := SplitNetloc(u1);
    if !NetlocOk(netloc, ipAddress) then None
    else
      var (path, query, fragment) := SplitQuery(u2);
      Some(Url(scheme, netloc, path, "", query, fragment))
  }

  /** `urllib.parse.uses_params`: the schemes whose last path segment may carry `;params`. */
  predicate UsesParams(scheme: string)
  {
    scheme in ["", "ftp", "hdl", "prospero", "http", "imap", "https", "shttp", "rtsp",
               "rtsps", "rtspu", "sip", "sips", "mms", "sftp", "tel"]
  }

  /** `_splitparams(path)`: a `;` in the last segment starts the parameters. */
  function SplitParams(path: string): (r: (string, string))
    ensures |r.0| <= |path|
  {
    var start := match RFind(path, '/') case Some(i) => i case None => 0;
    match Find(path[start..], ';')
    case None => (path, "")
    case Some(j) => (path[..start + j], path[start + j + 1..])
  }

  /** `urlparse(raw)`. */
  function UrlParse(raw: string, ipAddress: string -> IpKind): (r: Option<Url>)
    ensures r.None? <==> UrlSplit(raw, ipAddress).None?
    ensures r.Some? ==> r.value.scheme == UrlSplit(raw, ipAddress).value.scheme
                        && r.value.netloc == UrlSplit(raw, ipAddress).value.netloc
                        && r.value.query == UrlSplit(raw, ipAddress).value.query
    ensures r.Some? ==> NetlocOk(r.value.netloc, ipAddress)
  {
    match UrlSplit(raw, ipAddress)
    case None => None
    case Some(u) =>
      if UsesParams(u.scheme) && ';' in u.path then
        var (p, ps) := SplitParams(u.path);
        Some(u.(path := p, params := ps))
      else Some(u)
  }

  /** Every character of `s` satisfies `p`. */
  predicate AllChars(s: string, p: char -> bool)
  {
    s == [] || (p(s[0]) && AllChars(s[1..], p))
  }

  lemma {:induction false} AllCharsAppend(a: string, b: string, p: char -> bool)
    requires AllChars(a, p) && AllChars(b, p)
    ensures AllChars(a + b, p)
    decreases |a|
  {
    if a == [] {
      assert a + b == b;
    } else {
      assert (a + b)[1..] == a[1..] + b;
      AllCharsAppend(a[1..], b, p);
    }
  }

  lemma {:induction false} AllCharsExcludes(s: string, p: char -> bool, c: char)
    requires AllChars(s, p) && !p(c)
    ensures c !in s
    decreases |s|
  {
    if s != [] {
      AllCharsExcludes(s[1..], p, c);
      assert s == [s[0]] + s[1..];
    }
  }

  lemma {:induction false} AllCharsWeaken(s: string, p: char -> bool, q: char -> bool)
    requires AllChars(s, p)
    requires forall c :: p(c) ==> q(c)
    ensures AllChars(s, q)
    decreases |s|
  {
    if s != [] {
      AllCharsWeaken(s[1..], p, q);
    }
  }

  predicate IsSafe(c: char) { !IsUnsafe(c) }

  /** A character that may appear in a network location written before a path. */
  predicate IsHostChar(c: char) { IsSafe(c) && c != '/' && c != '?' && c != '#' && c != '[' && c != ']' }

  /** A character that may appear in a path written before a query. */
  predicate IsPathChar(c: char) { IsSafe(c) && c != '?' && c != '#' && c != ';' }

  /** A character that may appear in a query written without fragment. */
  predicate IsQueryChar(c: char) { IsSafe(c) && c != '#' }

  /** A string that starts with a printable character and holds no tab or
      line break is left alone by the cleaning steps. */
  lemma CleanKeeps(raw: string)
    requires raw != [] && !IsC0OrSpace(raw[0]) && AllChars(raw, IsSafe)
    ensures CleanUrl(raw) == raw
  {
    RemoveUnsafeKeeps(raw);
  }

  lemma SchemeStage(scheme: string, rest: string)
    requires scheme != [] && IsAsciiLetter(scheme[0]) && AllSchemeChars(scheme)
    ensures SplitScheme(scheme + "://" + rest) == (Lower(scheme), "//" + rest)
  {
    var u := scheme + "://" + rest;
    SchemeNoColon(scheme);
    assert u == scheme + [':'] + ("//" + rest);
    IndexOfAfter(scheme, ':', "//" + rest);
    assert u[..|scheme|] == scheme;
    assert u[|scheme| + 1..] == "//" + rest;
  }

  lemma NetlocStage(netloc: string, rest: string)
    requires AllChars(netloc, IsHostChar)
    requires rest == [] || rest[0] in "/?#"
    ensures SplitNetloc("//" + netloc + rest) == (netloc, rest)
  {
    var u := "//" + netloc + rest;
    assert u[..2] == "//";
    HostCharsAt(netloc, 0, u, 2);
    NetlocEndFrom(u, 2, 2 + |netloc|);
    assert u[2..2 + |netloc|] == netloc;
    assert u[2 + |netloc|..] == rest;
  }

  /** The host characters sit in `u` from `k` on, and none is a netloc delimiter. */
  lemma {:induction false} HostCharsAt(netloc: string, i: nat, u: string, k: nat)
    requires i <= |netloc| && AllChars(netloc[i..], IsHostChar)
    requires k + |netloc| <= |u| && u[k..k + |netloc|] == netloc
    ensures forall j :: k + i <= j < k + |netloc| ==> u[j] !in "/?#"
    decreases |netloc| - i
  {
    if i < |netloc| {
      assert u[k + i] == netloc[i];
      assert netloc[i..][1..] == netloc[i + 1..];
      HostCharsAt(netloc, i + 1, u, k);
    }
  }

  lemma QueryStage(path: string, query: string)
    requires '?' !in path && '#' !in path && '#' !in query
    ensures SplitQuery(path + "?" + query) == (path, query, "")
  {
    var u := path + "?" + query;
    assert u == path + ['?'] + query;
    assert '#' !in u;
    IndexOfAfter(path, '?', query);
    assert u[..|path|] == path;
    assert u[|path| + 1..] == query;
  }

  /** A URL written as scheme, `://`, host, path and query parses back into
      those parts (the scheme lower-cased) whenever the parts hold no
      delimiter of a later part. */
  lemma UrlParseRoundTrip(scheme: string, netloc: string, path: string, query: string, ip: string -> IpKind)
    requires scheme != [] && IsAsciiLetter(scheme[0]) && AllSchemeChars(scheme)
    requires AllChars(netloc, IsHostChar) && AllChars(path, IsPathChar) && AllChars(query, IsQueryChar)
    requires path == [] || path[0] == '/'
    ensures UrlParse(scheme + "://" + netloc + path + "?" + query, ip)
            == Some(Url(Lower(scheme), netloc, path, "", query, ""))
  {
    UrlSplitRoundTrip(scheme, netloc, path, query, ip);
    AllCharsExcludes(path, IsPathChar, ';');
  }

  lemma UrlSplitRoundTrip(scheme: string, netloc: string, path: string, query: string, ip: string -> IpKind)
    requires scheme != [] && IsAsciiLetter(scheme[0]) && AllSchemeChars(scheme)
    requires AllChars(netloc, IsHostChar) && AllChars(path, IsPathChar) && AllChars(query, IsQueryChar)
    requires path == [] || path[0] == '/'
    ensures UrlSplit(scheme + "://" + netloc + path + "?" + query, ip)
            == Some(Url(Lower(scheme), netloc, path, "", query, ""))
  {
    var tail := path + "?" + query;
    var raw := scheme + "://" + (netloc + tail);
    RoundTripAssoc(scheme, netloc, path, query);
    RoundTripSafe(scheme, netloc, path, query);
    assert raw[0] == scheme[0];
    CleanKeeps(raw);
    SchemeStage(scheme, netloc + tail);
    SlashesAssoc(netloc, tail);
    AllCharsExcludes(path, IsPathChar, '?');
    AllCharsExcludes(path, IsPathChar, '#');
    AllCharsExcludes(query, IsQueryChar, '#');
    AllCharsExcludes(netloc, IsHostChar, '[');
    AllCharsExcludes(netloc, IsHostChar, ']');
    NetlocStage(netloc, tail);
    QueryStage(path, query);
  }

  lemma SlashesAssoc(a: string, b: string)
    ensures "//" + (a + b) == "//" + a + b
  {
  }

  lemma RoundTripAssoc(scheme: string, netloc: string, path: string, query: string)
    ensures scheme + "://" + netloc + path + "?" + query == scheme + "://" + (netloc + (path + "?" + query))
  {
  }

  lemma RoundTripSafe(scheme: string, netloc: string, path: string, query: string)
    requires AllSchemeChars(scheme)
    requires AllChars(netloc, IsHostChar) && AllChars(path, IsPathChar) && AllChars(query, IsQueryChar)
    ensures AllChars(scheme + "://" + (netloc + (path + "?" + query)), IsSafe)
  {
    SchemeSafe(scheme);
    AllCharsWeaken(netloc, IsHostChar, IsSafe);
    AllCharsWeaken(path, IsPathChar, IsSafe);
    AllCharsWeaken(query, IsQueryChar, IsSafe);
    assert AllChars("?", IsSafe) && AllChars("://", IsSafe);
    AllCharsAppend(path, "?", IsSafe);
    AllCharsAppend(path + "?", query, IsSafe);
    AllCharsAppend(netloc, path + "?" + query, IsSafe);
    AllCharsAppend(scheme, "://", IsSafe);
    AllCharsAppend(scheme + "://", netloc + (path + "?" + query), IsSafe);
  }

  lemma {:induction false} SchemeSafe(s: string)
    requires AllSchemeChars(s)
    ensures AllChars(s, IsSafe)
    decreases |s|
  {
    if s != [] {
      SchemeSafe(s[1..]);
    }
  }

  lemma {:induction false} RemoveUnsafeKeeps(s: string)
    requires AllChars(s, IsSafe)
    ensures RemoveUnsafe(s) == s
    decreases |s|
  {
    if s != [] {
      RemoveUnsafeKeeps(s[1..]);
    }
  }

  lemma {:induction false} SchemeNoColon(s: string)
    requires AllSchemeChars(s)
    ensures ':' !in s
    decreases |s|
  {
    if s != [] {
      SchemeNoColon(s[1..]);
      assert s == [s[0]] + s[1..];
    }
  }

  lemma {:induction false} NetlocEndFrom(u: string, k: nat, e: nat)
    requires k <= e <= |u|
    requires forall i :: k <= i < e ==> u[i] !in "/?#"
    requires e == |u| || u[e] in "/?#"
    ensures NetlocEnd(u, k) == e
    decreases e - k
  {
    if k < e {
      NetlocEndFrom(u, k + 1, e);
    }
  }

  // ---------------------------------------------------------------------------
  // parse_qs

  /** `name.replace('+', ' ')`. */
  function PlusToSpace(s: string): string { Replace(s, "+", " ") }

  /** One `&`-separated field of a query as `parse_qsl` keeps it: a field with
      no `=` or an empty value is dropped; name and value are percent-decoded
      by `unquote`, a library routine passed in. */
  function QueryField(f: string, unquote: string -> string): Option<(string, string)>
  {
    var nv := SplitOnce(f, '=');
    if f == [] || |nv| != 2 || nv[1] == [] then None
    else Some((unquote(PlusToSpace(nv[0])), unquote(PlusToSpace(nv[1]))))
  }

  function QueryFields(fields: seq<string>, unquote: string -> string): (r: seq<(string, string)>)
    ensures |r| <= |fields|
  {
    if fields == [] then []
    else
      var rest := QueryFields(fields[1..], unquote);
      match QueryField(fields[0], unquote)
      case None => rest
      case Some(p) => [p] + rest
  }

  /** `parse_qsl(query)`: the kept (name, value) pairs in order. */
  function QueryPairs(query: string, unquote: string -> string): seq<(string, string)>
  {
    QueryFields(Split(query, '&'), unquote)
  }

  /** `parse_qs(query)[name][0]`: the first value given for `name`. */
  function FirstValue(pairs: seq<(string, string)>, name: string): (r: Option<string>)
    ensures r.Some? ==> (name, r.value) in pairs
    ensures r.None? ==> forall p :: p in pairs ==> p.0 != name
  {
    if pairs == [] then None
    else if pairs[0].0 == name then Some(pairs[0].1)
    else FirstValue(pairs[1..], name)
  }

  /** A first value that is not blank after `strip()`. */
  function NonBlankValue(pairs: seq<(string, string)>, name: string): Option<string>
  {
    match FirstValue(pairs, name)
    case Some(v) => if Strip(v) != [] then Some(v) else None
    case None => None
  }

  /** The query-parameter ID: the first of `story_fbid`, `fbid`, `id` whose
      first value is not blank, unstripped. */
  function QueryId(pairs: seq<(string, string)>): (r: Option<string>)
    ensures r.Some? ==>
              Strip(r.value) != [] &&
              (r == FirstValue(pairs, "story_fbid") ||
               (r == FirstValue(pairs, "fbid") && NonBlankValue(pairs, "story_fbid").None?) ||
               (r == FirstValue(pairs, "id") && NonBlankValue(pairs, "story_fbid").None?
                && NonBlankValue(pairs, "fbid").None?))
    ensures r.None? <==> NonBlankValue(pairs, "story_fbid").None? && NonBlankValue(pairs, "fbid").None?
                         && NonBlankValue(pairs, "id").None?
  {
    var a := NonBlankValue(pairs, "story_fbid");
    var b := NonBlankValue(pairs, "fbid");
    var c := NonBlankValue(pairs, "id");
    if a.Some? then a else if b.Some? then b else c
  }

  // ---------------------------------------------------------------------------
  // ID from the path

  predicate IsIdChar(c: char) { IsAsciiLetter(c) || IsDigit(c) || c == '.' || c == '_' || c == '-' }

  /** `re.match(r'^[a-zA-Z0-9._-]+$', s)`: a path segment holds no line feed,
      so `$` is the end of the string. */
  predicate IsIdToken(s: string)
  {
    s != [] && IsIdChar(s[0]) && (|s| == 1 || IsIdToken(s[1..]))
  }

  /** Position of the first element equal to `x`: `parts.index(x)`. */
  function IndexOfPart(parts: seq<string>, x: string): (i: nat)
    requires x in parts
    ensures i < |parts| && parts[i] == x && x !in parts[..i]
  {
    if parts[0] == x then 0
    else
      var i := IndexOfPart(parts[1..], x);
      assert parts[..i + 1] == [parts[0]] + parts[1..][..i];
      i + 1
  }

  /** `k` is the first `posts` segment. */
  predicate FirstPostsAt(parts: seq<string>, k: nat)
  {
    k < |parts| && parts[k] == "posts" && "posts" !in parts[..k]
  }

  /** Only one segment is the first `posts` segment. */
  lemma FirstPostsUnique(parts: seq<string>, k: nat, m: nat)
    requires FirstPostsAt(parts, k) && FirstPostsAt(parts, m)
    ensures k == m
  {
  }

  /** The segment after the first `posts` segment, when it is all digits or
      an ID token; None when there is no such segment or it is neither. */
  function PostsSegmentId(path: string): (r: Option<string>)
    ensures r.Some? ==> IsIdToken(r.value) || IsDigits(r.value)
    ensures r.Some? ==> exists k: nat :: FirstPostsAt(Split(path, '/'), k) && k + 1 < |Split(path, '/')|
                                    && Split(path, '/')[k + 1] == r.value
    ensures r.None? ==> forall k: nat :: FirstPostsAt(Split(path, '/'), k) && k + 1 < |Split(path, '/')| ==>
                                    !IsIdToken(Split(path, '/')[k + 1]) && !IsDigits(Split(path, '/')[k + 1])
  {
    var parts := Split(path, '/');
    if "posts" !in parts then None
    else
      var k := IndexOfPart(parts, "posts");
      assert FirstPostsAt(parts, k);
      assert forall m: nat :: FirstPostsAt(parts, m) ==> m == k by {
        forall m | FirstPostsAt(parts, m)
          ensures m == k
        {
          FirstPostsUnique(parts, k, m);
        }
      }
      if k + 1 < |parts| && (IsDigits(parts[k + 1]) || IsIdToken(parts[k + 1])) then Some(parts[k + 1])
      else None
  }

  /** Number of leading ASCII digits. */
  function SpanDigits(s: string): (n: nat)
    ensures n <= |s| && AllDigits(s[..n])
    ensures n < |s| ==> !IsDigit(s[n])
  {
    if s == [] || !IsDigit(s[0]) then 0
    else
      var n := SpanDigits(s[1..]) + 1;
      assert s[..n] == [s[0]] + s[1..][..n - 1];
      n
  }

  /** A `/` at `i` followed by at least ten digits. */
  predicate RunAt(path: string, i: nat)
  {
    i < |path| && path[i] == '/' && SpanDigits(path[i + 1..]) >= 10
  }

  /** All the digits right after position `i`. */
  function DigitsAfter(path: string, i: nat): string
    requires i < |path|
  {
    path[i + 1..][..SpanDigits(path[i + 1..])]
  }

  /** Where the leftmost run from position `i` on starts. */
  function RunIndex(path: string, i: nat): (r: Option<nat>)
    requires i <= |path|
    ensures r.None? ==> forall k: nat :: i <= k ==> !RunAt(path, k)
    ensures r.Some? ==> i <= r.value && RunAt(path, r.value) && forall j: nat :: i <= j < r.value ==> !RunAt(path, j)
    decreases |path| - i
  {
    if i == |path| then None
    else if RunAt(path, i) then Some(i)
    else RunIndex(path, i + 1)
  }

  /** `re.search(r'/(\d{10,})/?', path).group(1)`: all the digits after the
      leftmost `/` that is followed by at least ten digits. */
  function LongDigitRun(path: string): (r: Option<string>)
    ensures r.None? <==> forall k: nat :: !RunAt(path, k)
    ensures r.Some? ==> exists k: nat :: RunAt(path, k) && (forall j: nat :: j < k ==> !RunAt(path, j))
                                         && r.value == DigitsAfter(path, k)
    ensures r.Some? ==> |r.value| >= 10 && AllDigits(r.value)
  {
    match RunIndex(path, 0)
    case None => None
    case Some(k) => Some(DigitsAfter(path, k))
  }

  // ---------------------------------------------------------------------------
  // The element verdict

  /** What the browser reports about the element's content for the structural
      test: its text and the number of `img`, `a` and `div` descendants, or
      that reading them raised. */
  datatype Body = Counts(text: string, images: nat, links: nat, divs: nat) | Unreadable

  /** One probed feed element: it went stale (every lookup raises), or its
      first permalink's `href` (None when there is no link or no attribute)
      and its body. */
  datatype Probe = Stale | Element(href: Option<string>, body: Body)

  /** `(post_url, post_id, is_valid_post_candidate)`. */
  datatype Identity = Identity(url: Option<string>, id: Option<string>, candidate: bool)

  /** Post URL and ID read off a permalink. */
  datatype LinkInfo = LinkInfo(url: Option<string>, id: Option<string>)

  /** The permalink rule: a host containing `facebook.com` and a path
      containing `/posts/` give the URL without query; the ID comes from the
      `posts` segment, then the query, then (for any `facebook.com` host) a
      long digit run in the path. None when `urlparse` raises. */
  function FromHref(raw: string, lib: Lib): (r: Option<LinkInfo>)
    ensures r.None? <==> UrlParse(raw, lib.ipAddress).None?
    ensures r.Some? && r.value.url.Some? ==> Contains(r.value.url.value, "/posts/")
    ensures r.Some? && r.value.id.Some? ==> r.value.id.value != []
    ensures r.Some? ==>
      var u := UrlParse(raw, lib.ipAddress).value;
      var onFacebook := Contains(u.netloc, "facebook.com");
      var isPost := onFacebook && Contains(u.path, "/posts/");
      var query := QueryId(QueryPairs(u.query, lib.unquote));
      (r.value.url.Some? <==> isPost) &&
      (isPost ==> r.value.url.value == u.scheme + "://" + u.netloc + u.path) &&
      (!onFacebook ==> r.value.id.None?) &&
      (isPost && PostsSegmentId(u.path).Some? ==> r.value.id == PostsSegmentId(u.path)) &&
      (isPost && PostsSegmentId(u.path).None? && query.Some? ==> r.value.id == query) &&
      (onFacebook && (!isPost || (PostsSegmentId(u.path).None? && query.None?)) ==> r.value.id == LongDigitRun(u.path))
  {
    match UrlParse(raw, lib.ipAddress)
    case None => None
    case Some(u) =>
      if !Contains(u.netloc, "facebook.com") then Some(LinkInfo(None, None))
      else
        var isPost := Contains(u.path, "/posts/");
        var url := if isPost then
                     ContainsSuffix(u.scheme + "://" + u.netloc, u.path, "/posts/");
                     Some(u.scheme + "://" + u.netloc + u.path)
                   else None;
        var id0 := if !isPost then None
                   else if PostsSegmentId(u.path).Some? then PostsSegmentId(u.path)
                   else QueryId(QueryPairs(u.query, lib.unquote));
        var id := if id0.Some? then id0 else LongDigitRun(u.path);
        Some(LinkInfo(url, id))
  }

  /** The structural-substance test: stripped text longer than 5, an image,
      a link or more than 3 divs; a test that raises counts as a pass. */
  predicate Substantial(b: Body)
  {
    match b
    case Unreadable => true
    case Counts(text, images, links, divs) => |Strip(text)| > 5 || images > 0 || links > 0 || divs > 3
  }

  /** `f"generated_{uuid.uuid4().hex[:12]}"` with the hex digits supplied. */
  function GeneratedId(hex: string): (r: string)
    ensures StartsWith(r, "generated_") && |r| <= 22
  {
    "generated_" + (if |hex| <= 12 then hex else hex[..12])
  }

  /** `_get_post_identifiers_from_element`. */
  function Identify(p: Probe, lib: Lib, hex: string): (r: Identity)
    ensures r.candidate ==> r.id.Some? && r.id.value != []
    ensures r.url.Some? ==> r.candidate && Contains(r.url.value, "/posts/")
    ensures p.Stale? ==> !r.candidate
    ensures p.Element? && p.href.Some? && p.href.value != [] && UrlParse(p.href.value, lib.ipAddress).None? ==> !r.candidate
    ensures p.Element? && r.url.None? && (p.href.None? || p.href.value == [] || UrlParse(p.href.value, lib.ipAddress).Some?)
            ==> (r.candidate <==> Substantial(p.body))
  {
    match p
    case Stale => Identity(None, None, false)
    case Element(href, body) =>
      var link := if href.Some? && href.value != [] then FromHref(href.value, lib)
                  else Some(LinkInfo(None, None));
      match link
      case None => Identity(None, None, false)
      case Some(LinkInfo(url, id)) =>
        var candidate := url.Some? || Substantial(body);
        var id' := if candidate && id.None? then Some(GeneratedId(hex)) else id;
        Identity(url, id', candidate)
  }

  /** A canonical group permalink is recognised: the URL is the link without
      its query and the ID is the segment after `posts`. */
  lemma GroupPermalink(host: string, group: string, post: string, tail: string, query: string,
                       body: Body, lib: Lib, hex: string)
    requires AllChars(host, IsHostChar) && Contains(host, "facebook.com")
    requires IsIdToken(group) && group != "posts" && IsIdToken(post)
    requires AllChars(tail, IsPathChar) && (tail == [] || tail[0] == '/')
    requires AllChars(query, IsQueryChar)
    ensures var path := "/groups/" + group + "/posts/" + post + tail;
      Identify(Element(Some("https://" + host + path + "?" + query), body), lib, hex)
      == Identity(Some("https://" + host + path), Some(post), true)
  {
    var path := "/groups/" + group + "/posts/" + post + tail;
    var raw := "https://" + host + path + "?" + query;
    PostsPathShape(group, post, tail);
    HttpsScheme();
    UrlParseRoundTrip("https", host, path, query, lib.ipAddress);
    HttpsPrefix();
    PostsPath(group, post, tail);
    var u := Url("https", host, path, "", query, "");
    PostsSegmentLink(raw, u, lib, post);
    assert u.scheme + "://" + u.netloc + u.path == "https://" + host + path;
    CandidateLink(raw, body, lib, hex, "https://" + host + path, post);
  }

  /** A permalink whose path has an ID segment after `posts` gives the
      query-less URL and that ID. */
  lemma PostsSegmentLink(raw: string, u: Url, lib: Lib, id: string)
    requires UrlParse(raw, lib.ipAddress) == Some(u)
    requires Contains(u.netloc, "facebook.com") && Contains(u.path, "/posts/")
    requires PostsSegmentId(u.path) == Some(id)
    ensures FromHref(raw, lib) == Some(LinkInfo(Some(u.scheme + "://" + u.netloc + u.path), Some(id)))
  {
  }

  /** An element whose permalink gives a URL and an ID is a candidate with both. */
  lemma CandidateLink(raw: string, body: Body, lib: Lib, hex: string, url: string, id: string)
    requires raw != []
    requires FromHref(raw, lib) == Some(LinkInfo(Some(url), Some(id)))
    ensures Identify(Element(Some(raw), body), lib, hex) == Identity(Some(url), Some(id), true)
  {
  }

  lemma HttpsPrefix()
    ensures "https" + "://" == "https://"
  {
  }

  lemma HttpsScheme()
    ensures IsAsciiLetter("https"[0]) && AllSchemeChars("https") && Lower("https") == "https"
  {
    assert AllSchemeChars("s") && AllSchemeChars("ps") && AllSchemeChars("tps") && AllSchemeChars("ttps");
    assert "https"[1..] == "ttps" && "ttps"[1..] == "tps" && "tps"[1..] == "ps" && "ps"[1..] == "s";
  }

  /** An ID token is a valid path segment. */
  lemma {:induction false} IdTokenChars(s: string)
    requires IsIdToken(s)
    ensures AllChars(s, IsPathChar)
    decreases |s|
  {
    if |s| > 1 {
      IdTokenChars(s[1..]);
    }
  }

  /** An ID token holds no `/`. */
  lemma {:induction false} IdTokenNoSlash(s: string)
    requires IsIdToken(s)
    ensures '/' !in s
    decreases |s|
  {
    if |s| > 1 {
      IdTokenNoSlash(s[1..]);
      assert s == [s[0]] + s[1..];
    }
  }

  /** A group permalink path starts with `/`, holds `/posts/` and no delimiter
      of a later URL part. */
  lemma PostsPathShape(group: string, post: string, tail: string)
    requires IsIdToken(group) && IsIdToken(post)
    requires AllChars(tail, IsPathChar)
    ensures var path := "/groups/" + group + "/posts/" + post + tail;
      path[0] == '/' && AllChars(path, IsPathChar) && Contains(path, "/posts/")
  {
    PostsPathChars(group, post, tail);
    PostsPathContains(group, post, tail);
  }

  lemma PostsPathChars(group: string, post: string, tail: string)
    requires IsIdToken(group) && IsIdToken(post)
    requires AllChars(tail, IsPathChar)
    ensures AllChars("/groups/" + group + "/posts/" + post + tail, IsPathChar)
  {
    IdTokenChars(group);
    IdTokenChars(post);
    var g := "/groups/";
    var q := "/posts/";
    GroupsSegmentChars();
    PostsSegmentChars();
    AllCharsAppend(g, group, IsPathChar);
    AllCharsAppend(g + group, q, IsPathChar);
    AllCharsAppend(g + group + q, post, IsPathChar);
    AllCharsAppend(g + group + q + post, tail, IsPathChar);
  }

  lemma GroupsSegmentChars()
    ensures AllChars("/groups/", IsPathChar)
  {
  }

  lemma PostsSegmentChars()
    ensures AllChars("/posts/", IsPathChar)
  {
  }

  lemma PostsPathContains(group: string, post: string, tail: string)
    ensures Contains("/groups/" + group + "/posts/" + post + tail, "/posts/")
  {
    var a := "/groups/" + group;
    var b := "/posts/" + (post + tail);
    assert "/groups/" + group + "/posts/" + post + tail == a + b;
    ContainsPrefixAt("/posts/", post + tail);
    ContainsSuffix(a, b, "/posts/");
  }

  lemma SplitSlash(x: string, y: string)
    requires '/' !in x
    ensures Split(x + "/" + y, '/') == [x] + Split(y, '/')
  {
    assert x + "/" + y == x + ['/'] + y;
    SplitCons(x, '/', y);
  }

  lemma SplitWordTail(w: string, tail: string)
    requires '/' !in w
    requires tail == [] || tail[0] == '/'
    ensures Split(w + tail, '/') == [w] + (if tail == [] then [] else Split(tail[1..], '/'))
  {
    if tail == [] {
      assert w + tail == w;
    } else {
      assert w + tail == w + "/" + tail[1..];
      SplitSlash(w, tail[1..]);
    }
  }

  /** The `posts` segment of a group permalink path is followed by the post ID. */
  lemma PostsPath(group: string, post: string, tail: string)
    requires IsIdToken(group) && group != "posts" && IsIdToken(post)
    requires tail == [] || tail[0] == '/'
    ensures PostsSegmentId("/groups/" + group + "/posts/" + post + tail) == Some(post)
  {
    var parts := Split("/groups/" + group + "/posts/" + post + tail, '/');
    PostsPathParts(group, post, tail);
    assert parts[4] == post;
  }

  lemma PathNest(group: string, post: string, tail: string)
    ensures "/groups/" + group + "/posts/" + post + tail
            == [] + "/" + ("groups" + "/" + (group + "/" + ("posts" + "/" + (post + tail))))
  {
  }

  /** Splitting a group permalink path: the first `posts` is segment 3 and
      the post ID follows it. */
  lemma PostsPathParts(group: string, post: string, tail: string)
    requires IsIdToken(group) && group != "posts" && IsIdToken(post)
    requires tail == [] || tail[0] == '/'
    ensures var parts := Split("/groups/" + group + "/posts/" + post + tail, '/');
      "posts" in parts && IndexOfPart(parts, "posts") == 3 && |parts| > 4 && parts[4] == post
  {
    IdTokenNoSlash(group);
    IdTokenNoSlash(post);
    PathNest(group, post, tail);
    SplitNested("groups", group, "posts", post + tail);
    SplitWordTail(post, tail);
    FirstPostsAtThree(group, Split(post + tail, '/'));
  }

  /** Splitting four `/`-separated segments after a leading `/`. */
  lemma SplitNested(a: string, b: string, c: string, rest: string)
    requires '/' !in a && '/' !in b && '/' !in c
    ensures Split([] + "/" + (a + "/" + (b + "/" + (c + "/" + rest))), '/')
            == [[], a, b, c] + Split(rest, '/')
  {
    var p3 := c + "/" + rest;
    var p2 := b + "/" + p3;
    var p1 := a + "/" + p2;
    SplitSlash(c, rest);
    SplitSlash(b, p3);
    SplitSlash(a, p2);
    SplitSlash([], p1);
    Cons4([], a, b, c, Split(rest, '/'));
  }

  /** Four elements put in front one by one. */
  lemma Cons4<T>(w: T, x: T, y: T, z: T, s: seq<T>)
    ensures [w] + ([x] + ([y] + ([z] + s))) == [w, x, y, z] + s
  {
  }

  lemma FirstPostsAtThree(group: string, rest: seq<string>)
    requires group != "posts"
    ensures var parts := [[], "groups", group, "posts"] + rest;
      "posts" in parts && IndexOfPart(parts, "posts") == 3
  {
    var s3 := ["posts"] + rest;
    var s2 := [group] + s3;
    var s1 := ["groups"] + s2;
    IndexOfPartCons("posts", rest, "posts");
    IndexOfPartCons(group, s3, "posts");
    IndexOfPartCons("groups", s2, "posts");
    IndexOfPartCons([], s1, "posts");
    Cons4([], "groups", group, "posts", rest);
  }

  lemma IndexOfPartCons(x: string, rest: seq<string>, target: string)
    requires x == target || target in rest
    ensures target in [x] + rest
    ensures IndexOfPart([x] + rest, target) == if x == target then 0 else 1 + IndexOfPart(rest, target)
  {
    assert ([x] + rest)[1..] == rest;
  }
}

=== FILE: pystr.dfy ===
/** The handful of Python `str` operations the system relies on, with the
    semantics CPython gives them: `isspace`, `strip`, `split()`, `split(c)`,
    `split(c, 1)`, `sep.join`, `replace`, `startswith`, `in`, `lower`,
    `isdigit`, `int(...)` and `str(int)`.

    Predicates over whole strings are written recursively (through the span
    functions) rather than with quantifiers, which keeps the proofs cheap. */
module PyStr {
  import opened Wrappers

  // ---------------------------------------------------------------------------
  // Characters

  /** `str.isspace` for one character (the full Unicode whitespace set). */
  predicate IsSpace(c: char) {
    c == ' ' || ('\t' <= c <= '\r') || ('\U{1C}' <= c <= '\U{1F}')
    || c == '\U{85}' || c == '\U{A0}' || c == '\U{1680}'
    || ('\U{2000}' <= c <= '\U{200A}') || c == '\U{2028}' || c == '\U{2029}'
    || c == '\U{202F}' || c == '\U{205F}' || c == '\U{3000}'
  }

  predicate IsDigit(c: char) { '0' <= c <= '9' }

  // ---------------------------------------------------------------------------
  // Prefixes and substrings

  predicate StartsWith(s: string, p: string) { |p| <= |s| && s[..|p|] == p }

  /** Python's `sub in s`. */
  predicate Contains(s: string, sub: string)
    decreases |s|
  {
    StartsWith(s, sub) || (|s| > 0 && Contains(s[1..], sub))
  }

  /** A substring of a suffix is a substring of the whole. */
  lemma {:induction false} ContainsSuffix(a: string, b: string, sub: string)
    requires Contains(b, sub)
    ensures Contains(a + b, sub)
    decreases |a|
  {
    if a == [] {
      assert a + b == b;
    } else {
      ContainsSuffix(a[1..], b, sub);
      assert (a + b)[1..] == a[1..] + b;
      ContainsStep(a + b, sub);
    }
  }

  lemma ContainsStep(s: string, sub: string)
    requires s != [] && Contains(s[1..], sub)
    ensures Contains(s, sub)
  {
  }

  lemma ContainsPrefixAt(sub: string, rest: string)
    ensures Contains(sub + rest, sub)
  {
    assert (sub + rest)[..|sub|] == sub;
  }

  // ---------------------------------------------------------------------------
  // Whitespace spans and strip

  /** Number of leading whitespace characters. */
  function SpanSpace(s: string): (n: nat)
    ensures n <= |s|
    ensures n < |s| ==> !IsSpace(s[n])
  {
    if s == [] || !IsSpace(s[0]) then 0 else SpanSpace(s[1..]) + 1
  }

  /** Number of leading non-whitespace characters. */
  function SpanWord(s: string): (n: nat)
    ensures n <= |s|
    ensures n < |s| ==> IsSpace(s[n])
    ensures s != [] && !IsSpace(s[0]) ==> n > 0
  {
    if s == [] || IsSpace(s[0]) then 0 else SpanWord(s[1..]) + 1
  }

  /** Every character is whitespace. */
  predicate AllSpace(s: string) { SpanSpace(s) == |s| }

  /** No character is whitespace. */
  predicate NoSpace(s: string) { SpanWord(s) == |s| }

  lemma {:induction false} SpanSpaceAppend(x: string, y: string)
    ensures SpanSpace(x + y) == if SpanSpace(x) < |x| then SpanSpace(x) else |x| + SpanSpace(y)
    decreases |x|
  {
    if x == [] {
      assert x + y == y;
    } else {
      assert (x + y)[1..] == x[1..] + y;
      SpanSpaceAppend(x[1..], y);
    }
  }

  lemma {:induction false} SpanWordAppend(x: string, y: string)
    ensures SpanWord(x + y) == if SpanWord(x) < |x| then SpanWord(x) else |x| + SpanWord(y)
    decreases |x|
  {
    if x == [] {
      assert x + y == y;
    } else {
      assert (x + y)[1..] == x[1..] + y;
      SpanWordAppend(x[1..], y);
    }
  }

  /** The leading whitespace span is all whitespace. */
  lemma {:induction false} SpanSpacePrefix(s: string)
    ensures AllSpace(s[..SpanSpace(s)])
    decreases |s|
  {
    if s != [] && IsSpace(s[0]) {
      SpanSpacePrefix(s[1..]);
      var p := s[..SpanSpace(s)];
      assert p[1..] == s[1..][..SpanSpace(s[1..])];
    }
  }

  /** The leading word span holds no whitespace. */
  lemma {:induction false} SpanWordPrefix(s: string)
    ensures NoSpace(s[..SpanWord(s)])
    decreases |s|
  {
    if s != [] && !IsSpace(s[0]) {
      SpanWordPrefix(s[1..]);
      var p := s[..SpanWord(s)];
      assert p[1..] == s[1..][..SpanWord(s[1..])];
    }
  }

  /** Number of trailing whitespace characters. */
  function TrailSpace(s: string): (n: nat)
    ensures n <= |s|
    ensures n < |s| ==> !IsSpace(s[|s| - n - 1])
  {
    if s == [] || !IsSpace(s[|s| - 1]) then 0 else TrailSpace(s[..|s| - 1]) + 1
  }

  /** `s.strip()`: drops leading and trailing whitespace. */
  function Strip(s: string): (r: string)
    ensures |r| <= |s|
    ensures r == [] || (!IsSpace(r[0]) && !IsSpace(r[|r| - 1]))
    ensures r == s <==> (s == [] || (!IsSpace(s[0]) && !IsSpace(s[|s| - 1])))
  {
    var t := s[SpanSpace(s)..];
    var r := t[..|t| - TrailSpace(t)];
    assert r != [] ==> r[0] == s[SpanSpace(s)];
    assert (s != [] && !IsSpace(s[0]) && !IsSpace(s[|s| - 1])) ==> SpanSpace(s) == 0 && t == s;
    r
  }

  /** A whitespace-only string strips to nothing. */
  lemma StripAllSpace(s: string)
    requires AllSpace(s)
    ensures Strip(s) == []
  {
    assert s[SpanSpace(s)..] == [];
  }

  /** `s.rstrip(c)`: drops every trailing `c`. */
  function RStripChar(s: string, c: char): (r: string)
    ensures StartsWith(s, r)
    ensures r == [] || r[|r| - 1] != c
    ensures forall i :: |r| <= i < |s| ==> s[i] == c
  {
    if s == [] || s[|s| - 1] != c then s
    else
      var r := RStripChar(s[..|s| - 1], c);
      assert s[..|s| - 1][..|r|] == s[..|r|];
      r
  }

  // ---------------------------------------------------------------------------
  // Join and split

  /** `sep.join(parts)`. */
  function Join(sep: string, parts: seq<string>): string
  {
    if parts == [] then ""
    else if |parts| == 1 then parts[0]
    else parts[0] + sep + Join(sep, parts[1..])
  }

  /** Index of the first `c` in `s`. */
  function IndexOf(s: string, c: char): (i: nat)
    requires c in s
    ensures i < |s| && s[i] == c && c !in s[..i]
  {
    if s[0] == c then 0
    else
      var i := IndexOf(s[1..], c);
      assert s[..i + 1] == [s[0]] + s[1..][..i];
      i + 1
  }

  /** `s.split(c)` for a one-character separator: always at least one piece. */
  function Split(s: string, c: char): (r: seq<string>)
    ensures |r| >= 1
    decreases |s|
  {
    if c !in s then [s]
    else
      var i := IndexOf(s, c);
      [s[..i]] + Split(s[i + 1..], c)
  }

  /** No piece of a split holds the separator. */
  lemma {:induction false} SplitPieces(s: string, c: char)
    ensures forall k :: 0 <= k < |Split(s, c)| ==> c !in Split(s, c)[k]
    decreases |s|
  {
    if c in s {
      SplitPieces(s[IndexOf(s, c) + 1..], c);
    }
  }

  /** Joining the pieces of a split with the separator restores the string. */
  lemma {:induction false} JoinSplit(s: string, c: char)
    ensures Join([c], Split(s, c)) == s
    decreases |s|
  {
    if c in s {
      var i := IndexOf(s, c);
      var rest := Split(s[i + 1..], c);
      JoinSplit(s[i + 1..], c);
      assert Split(s, c) == [s[..i]] + rest;
      JoinCons(s[..i], [c], rest);
      assert s == s[..i] + [c] + s[i + 1..];
    }
  }

  lemma JoinCons(a: string, sep: string, rest: seq<string>)
    requires rest != []
    ensures Join(sep, [a] + rest) == a + sep + Join(sep, rest)
  {
    assert ([a] + rest)[1..] == rest;
  }


  /** The first `c` in `p + [c] + q` is the one after `p` when `p` holds none. */
  lemma IndexOfAfter(p: string, c: char, q: string)
    requires c !in p
    ensures c in p + [c] + q && IndexOf(p + [c] + q, c) == |p|
  {
    var s := p + [c] + q;
    assert s[|p|] == c;
    var i := IndexOf(s, c);
    assert s[..|p|] == p;
    assert i >= |p|;
    assert s[..i][|p|..] == s[|p|..i];
  }

  /** Splitting `p + [c] + q` yields `p` and then the pieces of `q`. */
  lemma SplitCons(p: string, c: char, q: string)
    requires c !in p
    ensures Split(p + [c] + q, c) == [p] + Split(q, c)
  {
    var s := p + [c] + q;
    IndexOfAfter(p, c, q);
    assert s[..|p|] == p;
    assert s[|p| + 1..] == q;
  }

  /** Splitting a join of separator-free pieces gives the pieces back. */
  lemma {:induction false} SplitJoin(parts: seq<string>, c: char)
    requires |parts| >= 1
    requires forall k :: 0 <= k < |parts| ==> c !in parts[k]
    ensures Split(Join([c], parts), c) == parts
  {
    if |parts| > 1 {
      var rest := Join([c], parts[1..]);
      assert Join([c], parts) == parts[0] + [c] + rest;
      SplitCons(parts[0], c, rest);
      SplitJoin(parts[1..], c);
      assert parts == [parts[0]] + parts[1..];
    }
  }

  /** `s.split(c, 1)`: at most two pieces, split at the first `c`. */
  function SplitOnce(s: string, c: char): (r: seq<string>)
    ensures 1 <= |r| <= 2
    ensures |r| == 1 <==> c !in s
    ensures |r| == 1 ==> r[0] == s
    ensures |r| == 2 ==> s == r[0] + [c] + r[1] && c !in r[0]
  {
    if c !in s then [s]
    else
      var i := IndexOf(s, c);
      assert s == s[..i] + [c] + s[i + 1..];
      [s[..i], s[i + 1..]]
  }

  // ---------------------------------------------------------------------------
  // Whitespace-separated words: `s.split()`

  /** `s.split()` with no argument: the maximal runs of non-whitespace. */
  function Words(s: string): (r: seq<string>)
    decreases |s|, 1
  {
    WordsFrom(s[SpanSpace(s)..])
  }

  /** The words of a string that is empty or starts with a non-space. */
  function WordsFrom(u: string): (r: seq<string>)
    requires u == [] || !IsSpace(u[0])
    decreases |u|, 0
  {
    if u == [] then []
    else
      var j := SpanWord(u);
      [u[..j]] + Words(u[j..])
  }

  /** Leading whitespace is skipped before the first word. */
  lemma WordsSkip(s: string)
    ensures Words(s) == Words(s[SpanSpace(s)..])
  {
    var u := s[SpanSpace(s)..];
    assert SpanSpace(u) == 0;
    assert u[0..] == u;
  }

  /** A string that starts with a non-space character starts with its first word. */
  lemma WordsStep(s: string)
    requires s != [] && !IsSpace(s[0])
    ensures Words(s) == [s[..SpanWord(s)]] + Words(s[SpanWord(s)..])
  {
    assert SpanSpace(s) == 0;
    assert s[0..] == s;
  }

  /** Every word is non-empty and free of whitespace. */
  lemma {:induction false} WordsShape(s: string)
    ensures forall k :: 0 <= k < |Words(s)| ==> Words(s)[k] != [] && NoSpace(Words(s)[k])
    decreases |s|
  {
    var u := s[SpanSpace(s)..];
    if u != [] {
      var j := SpanWord(u);
      SpanWordPrefix(u);
      WordsShape(u[j..]);
      assert Words(s) == [u[..j]] + Words(u[j..]);
    }
  }

  /** Leading whitespace does not change the words. */
  lemma WordsSpacePrefix(w: string, t: string)
    requires AllSpace(w)
    ensures Words(w + t) == Words(t)
  {
    var s := w + t;
    var i := SpanSpace(t);
    SpanSpaceAppend(w, t);
    WordsSkip(s);
    assert s[|w| + i..] == t[i..];
    WordsSkip(t);
  }

  /** A whitespace-free word followed by whitespace (or nothing) is split off first. */
  lemma WordsWordPrefix(w: string, t: string)
    requires w != [] && NoSpace(w)
    requires t == [] || IsSpace(t[0])
    ensures Words(w + t) == [w] + Words(t)
  {
    var s := w + t;
    SpanWordAppend(w, t);
    assert SpanWord(t) == 0;
    WordsStep(s);
    assert s[..|w|] == w;
    assert s[|w|..] == t;
  }

  /** Leading whitespace of the first part is dropped. */
  lemma WordsDropLeading(a: string, rest: string)
    ensures Words(a + rest) == Words(a[SpanSpace(a)..] + rest)
  {
    var i := SpanSpace(a);
    SpanSpacePrefix(a);
    assert a + rest == a[..i] + (a[i..] + rest);
    WordsSpacePrefix(a[..i], a[i..] + rest);
  }

  /** The first word of `a` is split off when `a` goes on after it. */
  lemma WordsFirstWord(a: string, rest: string)
    requires a != [] && !IsSpace(a[0])
    requires SpanWord(a) < |a|
    ensures Words(a + rest) == [a[..SpanWord(a)]] + Words(a[SpanWord(a)..] + rest)
  {
    var j := SpanWord(a);
    SpanWordPrefix(a);
    assert a + rest == a[..j] + (a[j..] + rest);
    WordsWordPrefix(a[..j], a[j..] + rest);
  }

  /** Two tails that have the same words and start with whitespace (or are
      empty) can be exchanged behind any prefix. */
  lemma {:induction false} WordsCongruence(a: string, x: string, y: string)
    requires x == [] || IsSpace(x[0])
    requires y == [] || IsSpace(y[0])
    requires Words(x) == Words(y)
    ensures Words(a + x) == Words(a + y)
    decreases |a|, 1
  {
    var i := SpanSpace(a);
    if i == |a| {
      WordsSpacePrefix(a, x);
      WordsSpacePrefix(a, y);
    } else {
      WordsDropLeading(a, x);
      WordsDropLeading(a, y);
      WordsCongruenceWord(a[i..], x, y);
    }
  }

  /** WordsCongruence when the prefix starts with a word. */
  lemma {:induction false} WordsCongruenceWord(a: string, x: string, y: string)
    requires a != [] && !IsSpace(a[0])
    requires x == [] || IsSpace(x[0])
    requires y == [] || IsSpace(y[0])
    requires Words(x) == Words(y)
    ensures Words(a + x) == Words(a + y)
    decreases |a|, 0
  {
    var j := SpanWord(a);
    if j < |a| {
      WordsFirstWord(a, x);
      WordsFirstWord(a, y);
      WordsCongruence(a[j..], x, y);
    } else {
      SpanWordPrefix(a);
      assert a[..j] == a;
      WordsWordPrefix(a, x);
      WordsWordPrefix(a, y);
    }
  }

  /** A run of whitespace can be replaced by a single space without changing the words. */
  lemma WordsCollapse(a: string, w: string, b: string)
    requires AllSpace(w) && w != []
    ensures Words(a + w + b) == Words(a + " " + b)
  {
    assert AllSpace(" ");
    WordsSpacePrefix(w, b);
    WordsSpacePrefix(" ", b);
    WordsCongruence(a, w + b, " " + b);
    assert a + w + b == a + (w + b) && a + " " + b == a + (" " + b);
  }

  /** Trailing whitespace does not change the words. */
  lemma WordsSpaceSuffix(s: string, w: string)
    requires AllSpace(w)
    ensures Words(s + w) == Words(s)
  {
    WordsCongruence(s, w, []);
    assert s + [] == s;
  }

  lemma AllSpaceAppend(x: string, y: string)
    requires AllSpace(x) && AllSpace(y)
    ensures AllSpace(x + y)
  {
    SpanSpaceAppend(x, y);
  }

  /** `s.split()` inverts `' '.join(ws)` for whitespace-free, non-empty words. */
  lemma {:induction false} WordsJoin(ws: seq<string>)
    requires forall k :: 0 <= k < |ws| ==> ws[k] != [] && NoSpace(ws[k])
    ensures Words(Join(" ", ws)) == ws
  {
    if ws == [] {
    } else if |ws| == 1 {
      assert ws[0] + [] == ws[0];
      WordsWordPrefix(ws[0], []);
    } else {
      var rest := Join(" ", ws[1..]);
      assert Join(" ", ws) == ws[0] + (" " + rest);
      WordsWordPrefix(ws[0], " " + rest);
      assert AllSpace(" ");
      WordsSpacePrefix(" ", rest);
      WordsJoin(ws[1..]);
      assert ws == [ws[0]] + ws[1..];
    }
  }

  // ---------------------------------------------------------------------------
  // Replace and lower

  /** `s.replace(pat, rep)`: every non-overlapping occurrence, scanning left to right. */
  function Replace(s: string, pat: string, rep: string): (r: string)
    requires pat != []
    decreases |s|
  {
    if |s| < |pat| then s
    else if s[..|pat|] == pat then rep + Replace(s[|pat|..], pat, rep)
    else [s[0]] + Replace(s[1..], pat, rep)
  }

  /** Replacing a string that does not occur changes nothing. */
  lemma {:induction false} ReplaceAbsent(s: string, pat: string, rep: string)
    requires pat != [] && !Contains(s, pat)
    ensures Replace(s, pat, rep) == s
    decreases |s|
  {
    if |s| >= |pat| {
      ReplaceAbsent(s[1..], pat, rep);
      assert s == [s[0]] + s[1..];
    }
  }

  function LowerChar(c: char): char
  {
    if 'A' <= c <= 'Z' then (c as int + 32) as char else c
  }

  /** `s.lower()` restricted to ASCII letters. */
  function Lower(s: string): (r: string)
    ensures |r| == |s|
    ensures forall i :: 0 <= i < |s| ==> r[i] == LowerChar(s[i])
  {
    seq(|s|, i requires 0 <= i < |s| => LowerChar(s[i]))
  }

  // ---------------------------------------------------------------------------
  // int(...) and str(int)

  function DigitValue(c: char): nat
    requires IsDigit(c)
  {
    c as int - '0' as int
  }

  /** Every character is a decimal digit. */
  predicate AllDigits(s: string)
  {
    s == [] || (IsDigit(s[0]) && AllDigits(s[1..]))
  }

  /** `s.isdigit()`: non-empty and only decimal digits. */
  predicate IsDigits(s: string) { s != [] && AllDigits(s) }

  /** Reads the digits `ds` after an already accumulated value `acc`. */
  function DigitsFold(acc: nat, ds: string): nat
    requires AllDigits(ds)
    decreases |ds|
  {
    if ds == [] then acc else DigitsFold(acc * 10 + DigitValue(ds[0]), ds[1..])
  }

  /** Digits after a first digit, with single underscores allowed between digits. */
  function ParseDigitsFrom(acc: nat, r: string): Option<nat>
    decreases |r|
  {
    if r == [] then Some(acc)
    else if IsDigit(r[0]) then ParseDigitsFrom(acc * 10 + DigitValue(r[0]), r[1..])
    else if r[0] == '_' && |r| > 1 && IsDigit(r[1]) then
      ParseDigitsFrom(acc * 10 + DigitValue(r[1]), r[2..])
    else None
  }

  function ParseUnsigned(b: string): Option<nat>
  {
    if b != [] && IsDigit(b[0]) then ParseDigitsFrom(DigitValue(b[0]), b[1..]) else None
  }

  /** `int(s)` on a string: surrounding whitespace, an optional sign and
      underscore-grouped decimal digits; anything else raises (None). */
  function ParseInt(s: string): Option<int>
  {
    var t := Strip(s);
    var signed := t != [] && (t[0] == '-' || t[0] == '+');
    match ParseUnsigned(if signed then t[1..] else t)
    case None => None
    case Some(n) => var v: int := n; Some(if signed && t[0] == '-' then -v else v)
  }

  lemma {:induction false} ParseDigitsAll(acc: nat, ds: string)
    requires AllDigits(ds)
    ensures ParseDigitsFrom(acc, ds) == Some(DigitsFold(acc, ds))
    decreases |ds|
  {
    if ds != [] {
      ParseDigitsAll(acc * 10 + DigitValue(ds[0]), ds[1..]);
    }
  }

  lemma {:induction false} DigitsAppend(acc: nat, x: string, d: char)
    requires AllDigits(x) && IsDigit(d)
    ensures AllDigits(x + [d])
    ensures DigitsFold(acc, x + [d]) == DigitsFold(acc, x) * 10 + DigitValue(d)
    decreases |x|
  {
    if x == [] {
      assert x + [d] == [d];
      assert [d][1..] == [];
    } else {
      assert (x + [d])[1..] == x[1..] + [d];
      DigitsAppend(acc * 10 + DigitValue(x[0]), x[1..], d);
    }
  }

  function DigitChar(d: nat): (c: char)
    requires d < 10
    ensures IsDigit(c) && DigitValue(c) == d
  {
    ('0' as int + d) as char
  }

  /** `str(n)` for a natural number. */
  function NatToString(n: nat): (r: string)
    ensures IsDigits(r)
    ensures DigitsFold(0, r) == n
  {
    if n < 10 then
      assert [DigitChar(n)][1..] == [];
      [DigitChar(n)]
    else
      var r := NatToString(n / 10);
      DigitsAppend(0, r, DigitChar(n % 10));
      r + [DigitChar(n % 10)]
  }

  /** `str(n)`. */
  function IntToString(n: int): string
  {
    if n < 0 then "-" + NatToString(-n) else NatToString(n)
  }

  /** `int(str(n)) == n`. */
  lemma IntToStringRoundTrip(n: int)
    ensures ParseInt(IntToString(n)) == Some(n)
  {
    var m: nat := if n < 0 then -n else n;
    var ds := NatToString(m);
    NatToStringRoundTrip(m);
    var s := IntToString(n);
    assert ds[0] != '-' && ds[0] != '+';
    if n < 0 {
      assert s == "-" + ds && s[1..] == ds && s[0] == '-';
      assert s[|s| - 1] == ds[|ds| - 1];
    } else {
      assert s == ds;
    }
    assert !IsSpace(s[0]) && !IsSpace(s[|s| - 1]);
    assert Strip(s) == s;
  }

  lemma NatToStringRoundTrip(m: nat)
    ensures ParseUnsigned(NatToString(m)) == Some(m)
    ensures NatToString(m) != [] && IsDigit(NatToString(m)[0]) && IsDigit(NatToString(m)[|NatToString(m)| - 1])
  {
    var ds := NatToString(m);
    ParseDigitsAll(DigitValue(ds[0]), ds[1..]);
    AllDigitsLast(ds);
  }

  lemma {:induction false} AllDigitsLast(ds: string)
    requires ds != [] && AllDigits(ds)
    ensures IsDigit(ds[|ds| - 1])
    decreases |ds|
  {
    if |ds| > 1 {
      AllDigitsLast(ds[1..]);
    }
  }
}

=== FILE: retry.dfy ===
/** `safe_element_operation`: run an operation on a browser element up to
    `max_retries` times, waiting a little longer after each failure, and
    re-raise the last failure when every attempt failed. */
module Retry {

  /** What one attempt of the operation does: return a value, or raise a
      stale-element error or any other error. */
  datatype Outcome<T> = Returned(value: T) | Stale | Failed

  /** What the helper does: return a value, re-raise the last failure
      (`stale` says which kind), or fall through to `return None` when no
      attempt was made. */
  datatype Attempted<T> = Value(value: T) | Raised(stale: bool) | NoAttempt

  /** Attempt `i` of the operation is `op(i)`. `delays` lists the sleeps
      between attempts in half-seconds: the wait after failed attempt `i` is
      `i + 1` half-seconds, and there is none after the last attempt. */
  method SafeElementOperation<T(==)>(op: nat -> Outcome<T>, maxRetries: int)
    returns (r: Attempted<T>, delays: seq<nat>)
    ensures r.NoAttempt? <==> maxRetries <= 0
    ensures r.Value? ==>
              exists i :: 0 <= i < maxRetries && op(i) == Returned(r.value) &&
                forall j :: 0 <= j < i ==> !op(j).Returned?
    ensures (exists i :: 0 <= i < maxRetries && op(i).Returned?) ==> r.Value?
    ensures r.Raised? ==>
              maxRetries > 0 && (forall j :: 0 <= j < maxRetries ==> !op(j).Returned?) &&
              r.stale == op(maxRetries - 1).Stale?
    ensures r.Value? ==> exists i :: 0 <= i < maxRetries && op(i) == Returned(r.value) && |delays| == i
    ensures r.Raised? ==> |delays| == maxRetries - 1
    ensures forall i :: 0 <= i < |delays| ==> delays[i] == i + 1
  {
    delays := [];
    var attempt := 0;
    while attempt < maxRetries
      invariant 0 <= attempt && (maxRetries > 0 ==> attempt < maxRetries)
      invariant forall j :: 0 <= j < attempt ==> !op(j).Returned?
      invariant |delays| == attempt
      invariant forall i :: 0 <= i < |delays| ==> delays[i] == i + 1
    {
      var o := op(attempt);
      if o.Returned? {
        return Value(o.value), delays;
      }
      if attempt < maxRetries - 1 {
        delays := delays + [attempt + 1];
        attempt := attempt + 1;
      } else {
        return Raised(o.Stale?), delays;
      }
    }
    return NoAttempt, delays;
  }
}

=== FILE: storage.dfy ===
/** The per-group post store: a `Groups` table and one `Posts_<suffix>` table
    per group, with SQLite's AUTOINCREMENT row ids, held in memory.

    A group row carries its id, name, URL and table suffix; the schema makes
    the name, the URL and the suffix unique. A post row carries its
    `internal_post_id`, the Facebook id, the URL, the raw content and the
    content hash; the hash is unique among rows that have one. */
module Storage {
  import opened Wrappers
  import opened PyStr
  import Permalink

  // ---------------------------------------------------------------------------
  // Rows

  datatype GroupRow = GroupRow(id: int, name: string, url: string, table: string)

  datatype PostRow = PostRow(
    id: int,
    fbId: Option<string>,
    url: Option<string>,
    content: Option<string>,
    hash: Option<string>)

  /** The fields of `post_data` that `add_post_to_group` reads. */
  datatype NewPost = NewPost(
    fbId: Option<string>,
    url: Option<string>,
    content: Option<string>,
    hash: Option<string>)

  /** A row of `list_all_groups`: the group and the row count of its table. */
  datatype GroupSummary = GroupSummary(group: GroupRow, postCount: nat)

  /** The state of one table after `add_post_to_group`, with the returned
      `(internal_post_id, is_new)` pair. */
  datatype Added = Added(rows: seq<PostRow>, next: int, id: Option<int>, isNew: bool)

  // ---------------------------------------------------------------------------
  // Table invariants

  /** AUTOINCREMENT ids: positive, below the next id to hand out, and increasing
      in insertion order. */
  predicate IdsBelow(rows: seq<PostRow>, next: int)
  {
    1 <= next &&
    (forall i :: 0 <= i < |rows| ==> 1 <= rows[i].id < next) &&
    (forall i, j :: 0 <= i < j < |rows| ==> rows[i].id < rows[j].id)
  }

  /** The `UNIQUE` constraint on `content_hash` (NULLs never collide). */
  predicate HashesUnique(rows: seq<PostRow>)
  {
    forall i, j :: 0 <= i < j < |rows| && rows[i].hash.Some? ==> rows[i].hash != rows[j].hash
  }

  predicate TableValid(rows: seq<PostRow>, next: int)
  {
    IdsBelow(rows, next) && HashesUnique(rows)
  }

  predicate HashIn(rows: seq<PostRow>, h: string)
  {
    exists i :: 0 <= i < |rows| && rows[i].hash == Some(h)
  }

  // ---------------------------------------------------------------------------
  // add_post_to_group on one table

  /** `SELECT internal_post_id ... WHERE content_hash = ?`: the first row with
      that hash. */
  function FindHash(rows: seq<PostRow>, h: string): (r: Option<nat>)
    ensures r.Some? ==> r.value < |rows| && rows[r.value].hash == Some(h)
    ensures r.None? <==> !HashIn(rows, h)
  {
    if rows == [] then None
    else if rows[0].hash == Some(h) then Some(0)
    else
      var r := FindHash(rows[1..], h);
      if r.Some? then Some(r.value + 1)
      else
        assert forall i :: 1 <= i < |rows| ==> rows[i] == rows[1..][i - 1];
        None
  }

  /** `add_post_to_group` on a table: a post whose hash is already stored
      returns that row's id with `is_new` False; any other post (a NULL hash
      matches no row in SQL) is inserted with the next AUTOINCREMENT id. */
  function AddPost(rows: seq<PostRow>, next: int, p: NewPost): Added
  {
    var existing := if p.hash.Some? then FindHash(rows, p.hash.value) else None;
    if existing.Some? then Added(rows, next, Some(rows[existing.value].id), false)
    else Added(rows + [PostRow(next, p.fbId, p.url, p.content, p.hash)], next + 1, Some(next), true)
  }

  /** A post whose hash is stored leaves the table untouched and reports the
      stored row's id as not new. */
  lemma AddPostExisting(rows: seq<PostRow>, next: int, p: NewPost)
    requires p.hash.Some? && HashIn(rows, p.hash.value)
    ensures var a := AddPost(rows, next, p);
      a.rows == rows && a.next == next && !a.isNew &&
      exists i :: 0 <= i < |rows| && rows[i].hash == p.hash && a.id == Some(rows[i].id)
  {
  }

  /** A post with an absent hash is appended as exactly one row whose id is
      larger than every stored id, and it is reported as new. */
  lemma AddPostFresh(rows: seq<PostRow>, next: int, p: NewPost)
    requires TableValid(rows, next)
    requires p.hash.None? || !HashIn(rows, p.hash.value)
    ensures var a := AddPost(rows, next, p);
      a.isNew && a.id == Some(next) && |a.rows| == |rows| + 1 && a.rows[..|rows|] == rows &&
      a.rows[|rows|] == PostRow(next, p.fbId, p.url, p.content, p.hash) &&
      (forall i :: 0 <= i < |rows| ==> rows[i].id < next) && a.next == next + 1
  {
    var a := AddPost(rows, next, p);
    assert a.rows[..|rows|] == rows;
  }

  /** The first row holding the post's hash is the one reported. */
  lemma AddPostFound(rows: seq<PostRow>, next: int, p: NewPost, i: int)
    requires 0 <= i < |rows| && p.hash.Some? && rows[i].hash == p.hash
    requires forall j :: 0 <= j < i ==> rows[j].hash != p.hash
    ensures AddPost(rows, next, p) == Added(rows, next, Some(rows[i].id), false)
  {
    FindHashFirst(rows, p.hash.value, i);
  }

  lemma {:induction false} FindHashFirst(rows: seq<PostRow>, h: string, i: int)
    requires 0 <= i < |rows| && rows[i].hash == Some(h)
    requires forall j :: 0 <= j < i ==> rows[j].hash != Some(h)
    ensures FindHash(rows, h) == Some(i)
    decreases i
  {
    if i > 0 {
      FindHashFirst(rows[1..], h, i - 1);
    }
  }

  /** A post whose hash no row holds is appended with the next id. */
  lemma AddPostAppends(rows: seq<PostRow>, next: int, p: NewPost)
    requires p.hash.Some? ==> forall j :: 0 <= j < |rows| ==> rows[j].hash != p.hash
    ensures AddPost(rows, next, p) ==
              Added(rows + [PostRow(next, p.fbId, p.url, p.content, p.hash)], next + 1, Some(next), true)
  {
  }

  lemma MapSelf<K, V>(m: map<K, V>, k: K)
    requires k in m
    ensures m[k := m[k]] == m
  {
  }

  /** A second update of the same key overrides the first. */
  lemma MapTwice<K, V>(m: map<K, V>, k: K, v1: V, v2: V)
    ensures m[k := v1][k := v2] == m[k := v2]
  {
  }

  /** Adding keeps the table's invariants. */
  lemma AddPostValid(rows: seq<PostRow>, next: int, p: NewPost)
    requires TableValid(rows, next)
    ensures TableValid(AddPost(rows, next, p).rows, AddPost(rows, next, p).next)
  {
    var a := AddPost(rows, next, p);
    if a.isNew {
      assert p.hash.Some? ==> !HashIn(rows, p.hash.value);
      assert a.next == next + 1 && a.rows[|rows|].id == next;
      assert forall i :: 0 <= i < |rows| ==> a.rows[i] == rows[i];
      forall i, j | 0 <= i < j < |a.rows| && a.rows[i].hash.Some?
        ensures a.rows[i].hash != a.rows[j].hash
      {
        if j == |rows| {
          assert a.rows[i] == rows[i];
        }
      }
    }
  }

  /** Adding the same post a second time changes nothing more. */
  lemma AddPostIdempotent(rows: seq<PostRow>, next: int, p: NewPost)
    requires p.hash.Some?
    ensures var a := AddPost(rows, next, p);
      AddPost(a.rows, a.next, p).rows == a.rows && !AddPost(a.rows, a.next, p).isNew
  {
    var a := AddPost(rows, next, p);
    if a.isNew {
      assert a.rows[|rows|].hash == p.hash;
    }
  }

  // ---------------------------------------------------------------------------
  // The most recent row with a property

  /** The last (highest-id) row satisfying `keep`. */
  function LastIndex(rows: seq<PostRow>, keep: PostRow -> bool): (r: Option<nat>)
    ensures r.Some? ==> (
              r.value < |rows| && keep(rows[r.value]) &&
              forall j :: r.value < j < |rows| ==> !keep(rows[j]))
    ensures r.None? ==> forall j :: 0 <= j < |rows| ==> !keep(rows[j])
  {
    if rows == [] then None
    else if keep(rows[|rows| - 1]) then Some(|rows| - 1)
    else LastIndex(rows[..|rows| - 1], keep)
  }

  /** The rows the cursor query looks at: a non-NULL, non-empty hash. */
  predicate HasCursorHash(row: PostRow)
  {
    row.hash.Some? && row.hash.value != ""
  }

  /** `get_most_recent_post_content_hash` on a table. */
  function LatestHash(rows: seq<PostRow>): Option<string>
  {
    match LastIndex(rows, HasCursorHash)
    case None => None
    case Some(i) => rows[i].hash
  }

  /** The ids the id query looks at: non-NULL, non-empty and not
      `LIKE 'generated_%'`. */
  predicate HasRealId(row: PostRow)
  {
    row.fbId.Some? && row.fbId.value != "" && !Like(row.fbId.value, "generated_%")
  }

  /** `get_most_recent_facebook_post_id` on a table. */
  function LatestRealId(rows: seq<PostRow>): Option<string>
  {
    match LastIndex(rows, HasRealId)
    case None => None
    case Some(i) => rows[i].fbId
  }

  /** `ORDER BY internal_post_id DESC LIMIT 1`: with increasing ids the last
      matching row is the one with the highest id; there is none exactly
      when no row matches. */
  lemma LastIndexHighestId(rows: seq<PostRow>, next: int, keep: PostRow -> bool)
    requires IdsBelow(rows, next)
    ensures LastIndex(rows, keep).None? <==> forall j :: 0 <= j < |rows| ==> !keep(rows[j])
    ensures LastIndex(rows, keep).Some? ==>
              forall j :: 0 <= j < |rows| && keep(rows[j]) ==>
                rows[j].id <= rows[LastIndex(rows, keep).value].id
  {
  }

  /** The cursor is the highest-id non-empty hash, or None when no row has one. */
  lemma LatestHashSpec(rows: seq<PostRow>, next: int)
    requires IdsBelow(rows, next)
    ensures LatestHash(rows).None? <==> forall j :: 0 <= j < |rows| ==> !HasCursorHash(rows[j])
    ensures LatestHash(rows).Some? ==> (
              LatestHash(rows).value != "" &&
              exists i :: 0 <= i < |rows| && rows[i].hash == LatestHash(rows) &&
                forall j :: 0 <= j < |rows| && HasCursorHash(rows[j]) ==> rows[j].id <= rows[i].id)
  {
    LastIndexHighestId(rows, next, HasCursorHash);
  }

  /** A row appended behind the table decides the cursor when it has a
      non-empty hash, and leaves it alone otherwise. */
  lemma LatestHashSnoc(rows: seq<PostRow>, row: PostRow)
    ensures LatestHash(rows + [row]) == if HasCursorHash(row) then row.hash else LatestHash(rows)
  {
    assert (rows + [row])[..|rows|] == rows;
  }

  // ---------------------------------------------------------------------------
  // SQL LIKE

  /** SQLite's `s LIKE pat` without ESCAPE: `%` matches any run of characters,
      `_` any one character, and other characters match up to ASCII case. */
  predicate Like(s: string, pat: string)
    decreases |pat|, |s|
  {
    if pat == [] then s == []
    else if pat[0] == '%' then Like(s, pat[1..]) || (s != [] && Like(s[1..], pat))
    else s != [] && (pat[0] == '_' || LowerChar(s[0]) == LowerChar(pat[0])) && Like(s[1..], pat[1..])
  }

  /** Equal up to ASCII case. */
  predicate CaseFoldEq(a: string, b: string)
  {
    |a| == |b| && (a == [] || (LowerChar(a[0]) == LowerChar(b[0]) && CaseFoldEq(a[1..], b[1..])))
  }

  predicate NoWildcards(s: string)
  {
    s == [] || (s[0] != '%' && s[0] != '_' && NoWildcards(s[1..]))
  }

  /** `%` matches everything. */
  lemma {:induction false} LikeAny(s: string)
    ensures Like(s, "%")
    decreases |s|
  {
    if s != [] {
      LikeAny(s[1..]);
    }
  }

  /** A pattern `lit_%` with a wildcard-free `lit` matches exactly the strings
      that are longer than `lit` and start with `lit` up to ASCII case. */
  lemma {:induction false} LikePrefixPattern(s: string, lit: string)
    requires NoWildcards(lit)
    ensures Like(s, lit + "_%") <==> |s| > |lit| && CaseFoldEq(s[..|lit|], lit)
    decreases |lit|
  {
    if lit == [] {
      assert lit + "_%" == "_%";
      if s != [] {
        LikeAny(s[1..]);
      }
    } else {
      assert (lit + "_%")[0] == lit[0];
      assert (lit + "_%")[1..] == lit[1..] + "_%";
      if s != [] {
        LikePrefixPattern(s[1..], lit[1..]);
        if |s| > |lit| {
          assert s[..|lit|][1..] == s[1..][..|lit| - 1];
        }
      }
    }
  }

  lemma CaseFoldRefl(a: string)
    ensures CaseFoldEq(a, a)
  {
  }

  lemma GeneratedPattern()
    ensures "generated" + "_%" == "generated_%"
  {
  }

  lemma GeneratedPlain()
    ensures NoWildcards("generated") && |"generated"| == 9
  {
  }

  lemma GeneratedHead(hex: string)
    ensures Permalink.GeneratedId(hex)[..9] == "generated"
  {
    var g := Permalink.GeneratedId(hex);
    assert g[..10] == "generated_";
    assert g[..9] == g[..10][..9];
  }

  /** Every id the element probe synthesises is excluded by `NOT LIKE 'generated_%'`. */
  lemma GeneratedIdIsLike(hex: string)
    ensures Like(Permalink.GeneratedId(hex), "generated_%")
  {
    var g := Permalink.GeneratedId(hex);
    GeneratedPlain();
    GeneratedPattern();
    GeneratedHead(hex);
    CaseFoldRefl("generated");
    LikePrefixPattern(g, "generated");
  }

  /** The id cursor never returns a synthesised `generated_…` id. */
  lemma LatestRealIdNotGenerated(rows: seq<PostRow>, hex: string)
    ensures LatestRealId(rows) != Some(Permalink.GeneratedId(hex))
  {
    GeneratedIdIsLike(hex);
  }

  // ---------------------------------------------------------------------------
  // Persisting a batch and the next run's cursor

  /** The posts of a batch added one after another, in the given order. */
  function PersistAll(rows: seq<PostRow>, next: int, ps: seq<NewPost>): Added
    decreases |ps|
  {
    if ps == [] then Added(rows, next, None, false)
    else
      var a := AddPost(rows, next, ps[0]);
      PersistAll(a.rows, a.next, ps[1..])
  }

  /** Persisting a batch keeps the table's invariants. */
  lemma {:induction false} PersistAllValid(rows: seq<PostRow>, next: int, ps: seq<NewPost>)
    requires TableValid(rows, next)
    ensures TableValid(PersistAll(rows, next, ps).rows, PersistAll(rows, next, ps).next)
    decreases |ps|
  {
    if ps != [] {
      var a := AddPost(rows, next, ps[0]);
      AddPostValid(rows, next, ps[0]);
      PersistAllValid(a.rows, a.next, ps[1..]);
    }
  }

  /** The batch with one more post behind it. */
  lemma {:induction false} PersistAllSnoc(rows: seq<PostRow>, next: int, ps: seq<NewPost>, p: NewPost)
    ensures var b := PersistAll(rows, next, ps);
      PersistAll(rows, next, ps + [p]).rows == AddPost(b.rows, b.next, p).rows &&
      PersistAll(rows, next, ps + [p]).next == AddPost(b.rows, b.next, p).next
    decreases |ps|
  {
    if ps == [] {
      assert ([] + [p])[1..] == [];
    } else {
      var a := AddPost(rows, next, ps[0]);
      assert (ps + [p])[0] == ps[0];
      assert (ps + [p])[1..] == ps[1..] + [p];
      PersistAllSnoc(a.rows, a.next, ps[1..], p);
    }
  }

  /** A hash in the table after a batch was stored before or came with the batch. */
  lemma {:induction false} PersistAllHashes(rows: seq<PostRow>, next: int, ps: seq<NewPost>, h: string)
    requires HashIn(PersistAll(rows, next, ps).rows, h)
    ensures HashIn(rows, h) || exists k :: 0 <= k < |ps| && ps[k].hash == Some(h)
    decreases |ps|
  {
    if ps != [] {
      var a := AddPost(rows, next, ps[0]);
      PersistAllHashes(a.rows, a.next, ps[1..], h);
      if HashIn(a.rows, h) && !HashIn(rows, h) {
        var i :| 0 <= i < |a.rows| && a.rows[i].hash == Some(h);
        assert i == |rows|;
      }
      if exists k :: 0 <= k < |ps[1..]| && ps[1..][k].hash == Some(h) {
        var k :| 0 <= k < |ps[1..]| && ps[1..][k].hash == Some(h);
        assert ps[k + 1].hash == Some(h);
      }
    }
  }

  /** The cross-run property: when the last record of a persisted batch has
      a non-empty hash that neither the table nor the rest of the batch held,
      the next run's cursor is that hash. */
  lemma PersistAdvancesCursor(rows: seq<PostRow>, next: int, ps: seq<NewPost>, p: NewPost, h: string)
    requires p.hash == Some(h) && h != ""
    requires !HashIn(rows, h)
    requires forall k :: 0 <= k < |ps| ==> ps[k].hash != Some(h)
    ensures LatestHash(PersistAll(rows, next, ps + [p]).rows) == Some(h)
  {
    var b := PersistAll(rows, next, ps);
    PersistAllSnoc(rows, next, ps, p);
    if HashIn(b.rows, h) {
      PersistAllHashes(rows, next, ps, h);
    }
    LatestHashSnoc(b.rows, PostRow(b.next, p.fbId, p.url, p.content, p.hash));
  }

  /** A batch of posts that are all stored already changes nothing, so the
      cursor stays where it was. */
  lemma {:induction false} PersistAllStored(rows: seq<PostRow>, next: int, ps: seq<NewPost>)
    requires forall k :: 0 <= k < |ps| ==> ps[k].hash.Some? && HashIn(rows, ps[k].hash.value)
    ensures PersistAll(rows, next, ps).rows == rows && PersistAll(rows, next, ps).next == next
    decreases |ps|
  {
    if ps != [] {
      AddPostExisting(rows, next, ps[0]);
      PersistAllStored(rows, next, ps[1..]);
    }
  }

  // ---------------------------------------------------------------------------
  // Table names and group names

  /** The digits of the leftmost `/groups/<digits>` in `s` from index `i` on
      (`re.search(r'/groups/(\d+)', s)`). */
  function GroupNumber(s: string): (r: Option<string>)
    ensures r.Some? ==> IsDigits(r.value)
    decreases |s|
  {
    if s == [] then None
    else if StartsWith(s, "/groups/") && SpanDigits(s[8..]) > 0 then Some(s[8..][..SpanDigits(s[8..])])
    else GroupNumber(s[1..])
  }

  /** `sanitize_table_name`: `Group_<digits>` for a numeric group URL, else
      `Group_` and the first ten hex digits of the URL's MD5. */
  function SanitizeTableName(url: string, md5: string -> string): (r: string)
    ensures StartsWith(r, "Group_")
  {
    var suffix := match GroupNumber(url)
      case Some(d) => d
      case None => var h := md5(url); if |h| <= 10 then h else h[..10];
    "Group_" + suffix
  }

  /** The number of leading decimal digits. */
  function SpanDigits(s: string): (n: nat)
    ensures n <= |s| && AllDigits(s[..n])
    ensures n < |s| ==> !IsDigit(s[n])
  {
    if s == [] || !IsDigit(s[0]) then 0
    else
      var n := SpanDigits(s[1..]) + 1;
      assert s[..n] == [s[0]] + s[1..][..n - 1];
      n
  }

  lemma {:induction false} SpanDigitsAll(d: string, tail: string)
    requires AllDigits(d) && (tail == [] || !IsDigit(tail[0]))
    ensures SpanDigits(d + tail) == |d|
    decreases |d|
  {
    if d != [] {
      assert (d + tail)[1..] == d[1..] + tail;
      SpanDigitsAll(d[1..], tail);
    } else {
      assert d + tail == tail;
    }
  }

  lemma GroupsLiteral()
    ensures |"/groups/"| == 8 && "/groups/"[0] == '/'
  {
  }

  /** A URL whose first `/` opens `/groups/<digits>` is named after those digits. */
  lemma {:induction false} SanitizeNumericUrl(host: string, d: string, tail: string, md5: string -> string)
    requires Permalink.AllChars(host, c => c != '/')
    requires IsDigits(d) && (tail == [] || !IsDigit(tail[0]))
    ensures SanitizeTableName(host + "/groups/" + d + tail, md5) == "Group_" + d
  {
    GroupNumberAfter(host, d, tail);
  }

  lemma {:induction false} GroupNumberAfter(host: string, d: string, tail: string)
    requires Permalink.AllChars(host, c => c != '/')
    requires IsDigits(d) && (tail == [] || !IsDigit(tail[0]))
    ensures GroupNumber(host + "/groups/" + d + tail) == Some(d)
    decreases |host|
  {
    var s := host + "/groups/" + d + tail;
    GroupsLiteral();
    if host == [] {
      assert s == "/groups/" + (d + tail);
      assert s[..8] == "/groups/";
      assert s[8..] == d + tail;
      SpanDigitsAll(d, tail);
      assert (d + tail)[..|d|] == d;
    } else {
      assert s[0] == host[0] && host[0] != '/';
      assert s[1..] == host[1..] + "/groups/" + d + tail;
      GroupNumberAfter(host[1..], d, tail);
    }
  }

  /** A URL without a numeric group path is named after its MD5. */
  lemma SanitizeHashedUrl(url: string, md5: string -> string)
    requires GroupNumber(url).None? && |md5(url)| >= 10
    ensures SanitizeTableName(url, md5) == "Group_" + md5(url)[..10]
    ensures |SanitizeTableName(url, md5)| == 16
  {
  }

  /** The UI texts that the group-name filter rejects. */
  predicate HasUiWord(text: string)
  {
    Contains(text, "Facebook") || Contains(text, "See all") || Contains(text, "More")
    || Contains(Lower(text), "home") || Contains(text, "Join") || Contains(text, "Invite")
    || Contains(text, "Search") || Contains(Lower(text), "members")
  }

  /** The filter a scraped group name must pass. */
  predicate GroupNameAcceptable(text: string)
  {
    text != [] && 2 < |text| < 150 && !HasUiWord(text) && !IsDigits(text)
  }

  /** The position of the first selector hit whose stripped text passes the
      filter (hits are supplied in selector order; a selector that timed out
      contributes nothing). */
  function FirstAcceptable(hits: seq<string>): (r: Option<nat>)
    ensures r.Some? ==> (
              r.value < |hits| && GroupNameAcceptable(Strip(hits[r.value])) &&
              forall j :: 0 <= j < r.value ==> !GroupNameAcceptable(Strip(hits[j])))
    ensures r.None? ==> forall j :: 0 <= j < |hits| ==> !GroupNameAcceptable(Strip(hits[j]))
  {
    FirstWhere(hits, NameHit)
  }

  /** A selector hit whose stripped text passes the name filter. */
  predicate NameHit(h: string)
  {
    GroupNameAcceptable(Strip(h))
  }

  /** The position of the first element satisfying `p`. */
  function FirstWhere<T>(xs: seq<T>, p: T -> bool): (r: Option<nat>)
    ensures r.Some? ==> r.value < |xs| && p(xs[r.value]) && forall j :: 0 <= j < r.value ==> !p(xs[j])
    ensures r.None? ==> forall j :: 0 <= j < |xs| ==> !p(xs[j])
  {
    if xs == [] then None
    else if p(xs[0]) then Some(0)
    else
      var r := FirstWhere(xs[1..], p);
      if r.Some? then Some(r.value + 1) else None
  }

  /** `_scrape_group_name_from_page`: the stripped text of that hit. */
  function ScrapedGroupName(hits: seq<string>): Option<string>
  {
    match FirstAcceptable(hits)
    case Some(i) => Some(Strip(hits[i]))
    case None => None
  }

  /** The name a new group is stored under: the given name, else the scraped
      one, else `Group from <url>`. */
  function GroupName(url: string, given: Option<string>, scraped: Option<string>): (r: string)
    ensures r != []
    ensures r == "Group from " + url || (given.Some? && r == given.value) || (scraped.Some? && r == scraped.value)
  {
    if given.Some? && given.value != "" then given.value
    else if scraped.Some? && scraped.value != "" then scraped.value
    else "Group from " + url
  }

  // ---------------------------------------------------------------------------
  // Group lookups

  /** `SELECT ... FROM Groups WHERE group_url = ?`. */
  function FindUrl(gs: seq<GroupRow>, url: string): (r: Option<GroupRow>)
    ensures r.Some? ==> r.value in gs && r.value.url == url
    ensures r.None? ==> forall i :: 0 <= i < |gs| ==> gs[i].url != url
  {
    if gs == [] then None
    else if gs[0].url == url then Some(gs[0])
    else FindUrl(gs[1..], url)
  }

  /** `SELECT ... FROM Groups WHERE table_name = ?`. */
  function FindTable(gs: seq<GroupRow>, table: string): (r: Option<GroupRow>)
    ensures r.Some? ==> r.value in gs && r.value.table == table
    ensures r.None? ==> forall i :: 0 <= i < |gs| ==> gs[i].table != table
  {
    if gs == [] then None
    else if gs[0].table == table then Some(gs[0])
    else FindTable(gs[1..], table)
  }

  /** The index of the group with an id. */
  function FindId(gs: seq<GroupRow>, id: int): (r: Option<nat>)
    ensures r.Some? ==> r.value < |gs| && gs[r.value].id == id
    ensures r.None? ==> forall i :: 0 <= i < |gs| ==> gs[i].id != id
  {
    if gs == [] then None
    else if gs[0].id == id then Some(0)
    else
      var r := FindId(gs[1..], id);
      if r.Some? then Some(r.value + 1) else None
  }

  /** The UNIQUE constraints on a new group's name or table suffix fail. */
  predicate Clashes(gs: seq<GroupRow>, name: string, table: string)
  {
    exists i :: 0 <= i < |gs| && (gs[i].name == name || gs[i].table == table)
  }

  predicate GroupsValid(gs: seq<GroupRow>, next: int)
  {
    1 <= next &&
    (forall i :: 0 <= i < |gs| ==> 1 <= gs[i].id < next) &&
    (forall i, j :: 0 <= i < j < |gs| ==>
       gs[i].id < gs[j].id && gs[i].name != gs[j].name &&
       gs[i].url != gs[j].url && gs[i].table != gs[j].table)
  }

  /** Appending a group with the next id and a new name, URL and suffix
      keeps the Groups table's invariants. */
  lemma AppendGroupValid(gs: seq<GroupRow>, next: int, g: GroupRow)
    requires GroupsValid(gs, next) && g.id == next
    requires forall i :: 0 <= i < |gs| ==> gs[i].name != g.name && gs[i].url != g.url && gs[i].table != g.table
    ensures GroupsValid(gs + [g], next + 1)
  {
    assert forall i :: 0 <= i < |gs| ==> (gs + [g])[i] == gs[i];
  }

  /** Removing one group keeps the Groups table's invariants. */
  lemma RemoveGroupValid(gs: seq<GroupRow>, next: int, k: nat)
    requires GroupsValid(gs, next) && k < |gs|
    ensures GroupsValid(gs[..k] + gs[k + 1..], next)
  {
    var r := gs[..k] + gs[k + 1..];
    forall i | 0 <= i < |r|
      ensures r[i] == gs[if i < k then i else i + 1]
    {
    }
  }

  /** Another group than the one at index `k` already has the name. */
  predicate NameTaken(gs: seq<GroupRow>, k: nat, name: string)
  {
    exists i :: 0 <= i < |gs| && i != k && gs[i].name == name
  }

  /** Renaming a group to a name no other group has keeps the Groups table's
      invariants. */
  lemma RenameGroupValid(gs: seq<GroupRow>, next: int, k: nat, name: string)
    requires GroupsValid(gs, next) && k < |gs| && !NameTaken(gs, k, name)
    ensures GroupsValid(gs[k := gs[k].(name := name)], next)
  {
    var r := gs[k := gs[k].(name := name)];
    forall i, j | 0 <= i < j < |r|
      ensures r[i].name != r[j].name
    {
      if i != k && j != k {
        assert r[i].name == gs[i].name && r[j].name == gs[j].name;
      } else if i == k {
        assert r[j] == gs[j];
      } else {
        assert r[i] == gs[i];
      }
    }
  }

  /** A rename keeps every id where it was. */
  lemma {:induction false} FindIdRename(gs: seq<GroupRow>, k: nat, name: string, id: int)
    requires k < |gs|
    ensures FindId(gs[k := gs[k].(name := name)], id) == FindId(gs, id)
    decreases |gs|
  {
    var r := gs[k := gs[k].(name := name)];
    if k > 0 {
      assert r[1..] == gs[1..][k - 1 := gs[1..][k - 1].(name := name)];
      FindIdRename(gs[1..], k - 1, name, id);
    } else {
      assert r[1..] == gs[1..];
    }
  }

  // ---------------------------------------------------------------------------
  // The store

  class Store {
    var groups: seq<GroupRow>
    var nextGroupId: int
    var tables: map<string, seq<PostRow>>
    var nextPostId: map<string, int>

    ghost predicate Valid()
      reads this
    {
      GroupsValid(groups, nextGroupId) &&
      tables.Keys == nextPostId.Keys &&
      forall t :: t in tables ==> TableValid(tables[t], nextPostId[t])
    }

    /** An empty database. */
    constructor ()
      ensures Valid() && groups == [] && tables == map[]
    {
      groups := [];
      nextGroupId := 1;
      tables := map[];
      nextPostId := map[];
    }

    /** `get_or_create_group`. `given` is the caller's name and `scraped` the
        name read from the page (None when no browser was passed). A known URL
        returns its stored pair and writes nothing. A new URL is inserted under
        `sanitize_table_name(url)` with a fresh id and gets an (empty) posts
        table. When the name or suffix is taken the INSERT fails: the group
        holding the suffix is returned, and without one the call fails (None). */
    method GetOrCreateGroup(url: string, given: Option<string>, scraped: Option<string>, md5: string -> string)
      returns (r: Option<(int, string)>)
      requires Valid()
      modifies this
      ensures Valid()
      ensures old(FindUrl(groups, url)).Some? ==>
                r == Some((old(FindUrl(groups, url)).value.id, old(FindUrl(groups, url)).value.table)) &&
                groups == old(groups) && tables == old(tables) && nextPostId == old(nextPostId)
      ensures var table := SanitizeTableName(url, md5);
              old(FindUrl(groups, url)).None? && old(Clashes(groups, GroupName(url, given, scraped), table)) ==>
                groups == old(groups) && tables == old(tables) && nextPostId == old(nextPostId) &&
                r == (match old(FindTable(groups, table))
                      case Some(g) => Some((g.id, table))
                      case None => None)
      ensures var table := SanitizeTableName(url, md5);
              var name := GroupName(url, given, scraped);
              old(FindUrl(groups, url)).None? && !old(Clashes(groups, name, table)) ==>
                groups == old(groups) + [GroupRow(old(nextGroupId), name, url, table)] &&
                nextGroupId == old(nextGroupId) + 1 &&
                r == Some((old(nextGroupId), table)) &&
                (table in old(tables) ==> tables == old(tables) && nextPostId == old(nextPostId)) &&
                (table !in old(tables) ==>
                   tables == old(tables)[table := []] && nextPostId == old(nextPostId)[table := 1])
      // What makes a second call return the same pair: the URL now leads to
      // the returned pair, or nothing was written.
      ensures FindUrl(groups, url).Some? ==>
                r == Some((FindUrl(groups, url).value.id, FindUrl(groups, url).value.table))
      ensures FindUrl(groups, url).None? ==> groups == old(groups) && tables == old(tables)
      // The returned group exists, and no posts table loses rows.
      ensures r.Some? ==> FindId(groups, r.value.0).Some?
      ensures forall t :: t in old(tables) ==> t in tables && tables[t] == old(tables)[t]
      ensures forall t :: t in tables && t !in old(tables) ==> tables[t] == []
    {
      var found := LookupUrl(url);
      if found.Some? {
        return Some((found.value.id, found.value.table));
      }
      var table := SanitizeTableName(url, md5);
      var name := GroupName(url, given, scraped);
      var clash := HasClash(name, table);
      if clash {
        // IntegrityError: roll back and look the group up by URL or suffix.
        var t := FindTable(groups, table);
        return if t.Some? then Some((t.value.id, table)) else None;
      }
      FindUrlSnoc(groups, GroupRow(nextGroupId, name, url, table));
      r := InsertGroup(name, url, table);
    }

    /** The INSERT of a new group and `CREATE TABLE IF NOT EXISTS` for its posts. */
    method InsertGroup(name: string, url: string, table: string) returns (r: Option<(int, string)>)
      requires Valid()
      requires forall i :: 0 <= i < |groups| ==>
                 groups[i].name != name && groups[i].url != url && groups[i].table != table
      modifies this
      ensures Valid()
      ensures groups == old(groups) + [GroupRow(old(nextGroupId), name, url, table)]
      ensures nextGroupId == old(nextGroupId) + 1 && r == Some((old(nextGroupId), table))
      ensures table in old(tables) ==> tables == old(tables) && nextPostId == old(nextPostId)
      ensures table !in old(tables) ==>
                tables == old(tables)[table := []] && nextPostId == old(nextPostId)[table := 1]
    {
      AppendGroupValid(groups, nextGroupId, GroupRow(nextGroupId, name, url, table));
      groups := groups + [GroupRow(nextGroupId, name, url, table)];
      r := Some((nextGroupId, table));
      nextGroupId := nextGroupId + 1;
      if table !in tables {
        assert TableValid([], 1);
        tables := tables[table := []];
        nextPostId := nextPostId[table := 1];
      }
    }

    /** The Groups row with a URL. */
    method LookupUrl(url: string) returns (g: Option<GroupRow>)
      ensures g == FindUrl(groups, url)
    {
      var k := 0;
      while k < |groups|
        invariant 0 <= k <= |groups|
        invariant FindUrl(groups, url) == FindUrl(groups[k..], url)
      {
        if groups[k].url == url {
          return Some(groups[k]);
        }
        assert groups[k..][1..] == groups[k + 1..];
        k := k + 1;
      }
      return None;
    }

    /** Whether a new row with this name and suffix breaks a UNIQUE constraint. */
    method HasClash(name: string, table: string) returns (b: bool)
      ensures b == Clashes(groups, name, table)
    {
      var k := 0;
      while k < |groups|
        invariant 0 <= k <= |groups|
        invariant forall i :: 0 <= i < k ==> groups[i].name != name && groups[i].table != table
      {
        if groups[k].name == name || groups[k].table == table {
          return true;
        }
        k := k + 1;
      }
      return false;
    }

    /** `add_post_to_group`. A missing table is an SQL error (None); otherwise
        the table changes as `AddPost` says and the pair it reports is returned. */
    method AddPostToGroup(table: string, p: NewPost) returns (r: Option<(Option<int>, bool)>)
      requires Valid()
      modifies this
      ensures Valid()
      ensures groups == old(groups) && nextGroupId == old(nextGroupId)
      ensures table !in old(tables) ==> r.None? && tables == old(tables) && nextPostId == old(nextPostId)
      ensures table in old(tables) ==>
                var a := AddPost(old(tables[table]), old(nextPostId[table]), p);
                r == Some((a.id, a.isNew)) &&
                tables == old(tables)[table := a.rows] && nextPostId == old(nextPostId)[table := a.next]
    {
      if table !in tables {
        return None;
      }
      var rows := tables[table];
      var next := nextPostId[table];
      if p.hash.Some? {
        var i := 0;
        while i < |rows|
          invariant 0 <= i <= |rows|
          invariant forall j :: 0 <= j < i ==> rows[j].hash != p.hash
        {
          if rows[i].hash == p.hash {
            AddPostFound(rows, next, p, i);
            MapSelf(tables, table);
            MapSelf(nextPostId, table);
            return Some((Some(rows[i].id), false));
          }
          i := i + 1;
        }
      }
      AddPostAppends(rows, next, p);
      AddPostValid(rows, next, p);
      tables := tables[table := rows + [PostRow(next, p.fbId, p.url, p.content, p.hash)]];
      nextPostId := nextPostId[table := next + 1];
      r := Some((Some(next), true));
    }

    /** `content_hash_exists`: true exactly when the table exists and holds a
        row with that hash (a missing table is an SQL error, hence False). */
    method ContentHashExists(table: string, h: string) returns (b: bool)
      ensures b <==> table in tables && HashIn(tables[table], h)
    {
      if table !in tables {
        return false;
      }
      var rows := tables[table];
      var i := 0;
      while i < |rows|
        invariant 0 <= i <= |rows|
        invariant forall j :: 0 <= j < i ==> rows[j].hash != Some(h)
      {
        if rows[i].hash == Some(h) {
          return true;
        }
        i := i + 1;
      }
      return false;
    }

    /** `get_most_recent_post_content_hash`: the next run's cursor. */
    method MostRecentContentHash(table: string) returns (r: Option<string>)
      ensures r == if table in tables then LatestHash(tables[table]) else None
    {
      if table !in tables {
        return None;
      }
      var rows := tables[table];
      var i := |rows|;
      while i > 0
        invariant 0 <= i <= |rows|
        invariant forall j :: i <= j < |rows| ==> !HasCursorHash(rows[j])
      {
        if HasCursorHash(rows[i - 1]) {
          return rows[i - 1].hash;
        }
        i := i - 1;
      }
      return None;
    }

    /** `get_most_recent_facebook_post_id`. */
    method MostRecentFacebookPostId(table: string) returns (r: Option<string>)
      ensures r == if table in tables then LatestRealId(tables[table]) else None
    {
      if table !in tables {
        return None;
      }
      var rows := tables[table];
      var i := |rows|;
      while i > 0
        invariant 0 <= i <= |rows|
        invariant forall j :: i <= j < |rows| ==> !HasRealId(rows[j])
      {
        if HasRealId(rows[i - 1]) {
          return rows[i - 1].fbId;
        }
        i := i - 1;
      }
      return None;
    }

    /** `UPDATE Groups SET group_name = ? WHERE group_id = ?`. An unknown id
        updates no row; a name another group holds violates the UNIQUE
        constraint (False, nothing written); otherwise only that group's
        name changes. */
    method RenameGroup(id: int, name: string) returns (ok: bool)
      requires Valid()
      modifies this
      ensures Valid()
      ensures tables == old(tables) && nextPostId == old(nextPostId) && nextGroupId == old(nextGroupId)
      ensures forall j :: FindId(groups, j) == FindId(old(groups), j)
      ensures FindId(old(groups), id).None? ==> ok && groups == old(groups)
      ensures FindId(old(groups), id).Some? ==>
                var k := FindId(old(groups), id).value;
                (ok <==> !NameTaken(old(groups), k, name)) &&
                groups == if ok then old(groups)[k := old(groups)[k].(name := name)] else old(groups)
    {
      var k := FindId(groups, id);
      if k.None? {
        return true;
      }
      var i := 0;
      while i < |groups|
        invariant 0 <= i <= |groups|
        invariant forall j :: 0 <= j < i && j != k.value ==> groups[j].name != name
      {
        if i != k.value && groups[i].name == name {
          return false;
        }
        i := i + 1;
      }
      RenameGroupValid(groups, nextGroupId, k.value, name);
      forall j {
        FindIdRename(groups, k.value, name, j);
      }
      groups := groups[k.value := groups[k.value].(name := name)];
      ok := true;
    }

    /** `drop_group_table`: an unknown id changes nothing and reports False;
        otherwise the group's table and its row are removed. */
    method DropGroup(id: int) returns (ok: bool)
      requires Valid()
      modifies this
      ensures Valid()
      ensures nextGroupId == old(nextGroupId)
      ensures FindId(old(groups), id).None? ==>
                !ok && groups == old(groups) && tables == old(tables) && nextPostId == old(nextPostId)
      ensures FindId(old(groups), id).Some? ==>
                var k := FindId(old(groups), id).value;
                ok && groups == old(groups[..k] + groups[k + 1..]) &&
                tables == old(tables) - {old(groups[k].table)} &&
                nextPostId == old(nextPostId) - {old(groups[k].table)}
    {
      var k := 0;
      while k < |groups|
        invariant 0 <= k <= |groups|
        invariant forall i :: 0 <= i < k ==> groups[i].id != id
      {
        if groups[k].id == id {
          break;
        }
        k := k + 1;
      }
      if k == |groups| {
        return false;
      }
      FindIdFirst(groups, id, k);
      var t := groups[k].table;
      RemoveGroupValid(groups, nextGroupId, k);
      groups := groups[..k] + groups[k + 1..];
      tables := tables - {t};
      nextPostId := nextPostId - {t};
      ok := true;
    }

    /** `list_all_groups`: every group in id order with its table's row count
        (0 when the table is missing). */
    method ListAllGroups() returns (out: seq<GroupSummary>)
      requires Valid()
      ensures |out| == |groups|
      ensures forall i :: 0 <= i < |out| ==> (
                out[i].group == groups[i] &&
                out[i].postCount == if groups[i].table in tables then |tables[groups[i].table]| else 0)
      ensures forall i, j :: 0 <= i < j < |out| ==> out[i].group.id < out[j].group.id
    {
      out := [];
      var k := 0;
      while k < |groups|
        invariant 0 <= k <= |groups| && |out| == k
        invariant forall i :: 0 <= i < k ==> (
                    out[i].group == groups[i] &&
                    out[i].postCount == if groups[i].table in tables then |tables[groups[i].table]| else 0)
      {
        var g := groups[k];
        var count := if g.table in tables then |tables[g.table]| else 0;
        out := out + [GroupSummary(g, count)];
        k := k + 1;
      }
    }
  }

  // ---------------------------------------------------------------------------
  // Helpers for the store's loops

  lemma FindUrlSnoc(gs: seq<GroupRow>, g: GroupRow)
    requires forall i :: 0 <= i < |gs| ==> gs[i].url != g.url
    ensures FindUrl(gs + [g], g.url) == Some(g)
  {
    if gs != [] {
      assert (gs + [g])[1..] == gs[1..] + [g];
      FindUrlSnoc(gs[1..], g);
    }
  }

  lemma FindIdFirst(gs: seq<GroupRow>, id: int, k: nat)
    requires k < |gs| && gs[k].id == id
    requires forall i :: 0 <= i < k ==> gs[i].id != id
    ensures FindId(gs, id) == Some(k)
  {
    if k > 0 {
      FindIdFirst(gs[1..], id, k - 1);
    }
  }
}

=== FILE: validators.dfy ===
/** The argument checks of the settings commands (`/sethours`, `/settiming`,
    `/setlimit`, `/setposts`, `/addgroup`). A settings command answers with a
    message and writes zero or more values to the bot's settings table; each
    check is modelled by the writes it makes, in order. */
module Validators {
  import opened Wrappers
  import opened PyStr
  import Config
  import Storage

  /** One `botsettings_set(conn, key, value)`. */
  datatype Write = Write(key: string, value: string)

  const EnabledKey := "working_hours_enabled"
  const StartKey := "working_hours_start"
  const EndKey := "working_hours_end"
  const GroupDelayKey := "group_delay"
  const PostDelayKey := "post_delay"
  const HourlyLimitKey := "bot_hourly_limit"
  const MaxPostsKey := "max_posts_per_group"

  /** `arg.lower().strip()`. */
  function Normalized(arg: string): string
  {
    Strip(Lower(arg))
  }

  // ---------------------------------------------------------------------------
  // /sethours

  /** `start, end = arg.split('-')` followed by `int` on both halves and the
      range check; None when any step raises. */
  function HoursRange(a: string): (r: Option<(int, int)>)
    ensures r.Some? ==> 0 <= r.value.0 < r.value.1 <= 23
  {
    var parts := Split(a, '-');
    if |parts| != 2 then None
    else
      match (ParseInt(parts[0]), ParseInt(parts[1]))
      case (Some(s), Some(e)) => if 0 <= s <= 23 && 0 <= e <= 23 && s < e then Some((s, e)) else None
      case _ => None
  }

  /** `_handle_sethours`. */
  function SetHours(arg: string): (w: seq<Write>)
    ensures arg == [] ==> w == []
    ensures arg != [] && Normalized(arg) == "on" ==> w == [Write(EnabledKey, "true")]
    ensures arg != [] && Normalized(arg) == "off" ==> w == [Write(EnabledKey, "false")]
    ensures w != [] && Normalized(arg) != "on" && Normalized(arg) != "off" ==>
              |w| == 3 && w[0].key == StartKey && w[1].key == EndKey && w[2] == Write(EnabledKey, "true") &&
              Config.ReadHours(Config.HourFields(w[2].value, w[0].value, w[1].value)).Some? &&
              var h := Config.ReadHours(Config.HourFields(w[2].value, w[0].value, w[1].value)).value;
              h.0 && 0 <= h.1 < h.2 <= 23
  {
    if arg == [] then []
    else
      var a := Normalized(arg);
      if a == "on" then [Write(EnabledKey, "true")]
      else if a == "off" then [Write(EnabledKey, "false")]
      else if '-' in a then
        match HoursRange(a)
        case Some((s, e)) =>
          IntToStringRoundTrip(s);
          IntToStringRoundTrip(e);
          TrueLower();
          [Write(StartKey, IntToString(s)), Write(EndKey, IntToString(e)), Write(EnabledKey, "true")]
        case None => []
      else []
  }

  lemma TrueLower()
    ensures Lower("true") == "true"
  {
  }

  /** `/sethours A-B` with `0 <= A < B <= 23` is accepted and writes both hours. */
  lemma SetHoursAccepts(s: int, e: int)
    requires 0 <= s < e <= 23
    ensures SetHours(IntToString(s) + "-" + IntToString(e)) ==
              [Write(StartKey, IntToString(s)), Write(EndKey, IntToString(e)), Write(EnabledKey, "true")]
  {
    var a := IntToString(s);
    var b := IntToString(e);
    var arg := a + "-" + b;
    NatDigitsShape(s);
    NatDigitsShape(e);
    DashedNormalized(a, b);
    HoursRangeDashed(s, e);
    assert arg[0] == a[0];
    NotOnOff(arg);
    SetHoursOfRange(arg, s, e);
  }

  /** `int` reads back both halves of `str(s) + "-" + str(e)`. */
  lemma HoursRangeDashed(s: int, e: int)
    requires 0 <= s < e <= 23
    ensures HoursRange(IntToString(s) + "-" + IntToString(e)) == Some((s, e))
  {
    NatDigitsShape(s);
    NatDigitsShape(e);
    DashedSplit(IntToString(s), IntToString(e));
    IntToStringRoundTrip(s);
    IntToStringRoundTrip(e);
  }

  lemma SetHoursOfRange(arg: string, s: int, e: int)
    requires arg != [] && Normalized(arg) == arg && arg != "on" && arg != "off" && '-' in arg
    requires HoursRange(arg) == Some((s, e))
    ensures SetHours(arg) == [Write(StartKey, IntToString(s)), Write(EndKey, IntToString(e)), Write(EnabledKey, "true")]
  {
  }

  /** Two digit strings joined by a dash are left alone by `lower().strip()`. */
  lemma DashedNormalized(a: string, b: string)
    requires a != [] && b != [] && AllDigits(a) && AllDigits(b)
    requires IsDigit(a[0]) && IsDigit(b[|b| - 1])
    ensures Normalized(a + "-" + b) == a + "-" + b
    ensures '-' in a + "-" + b
  {
    var arg := a + "-" + b;
    LowerDashed(a, b);
    DigitNotSpace(a[0]);
    DigitNotSpace(b[|b| - 1]);
    assert arg[0] == a[0];
    assert arg[|arg| - 1] == b[|b| - 1];
    assert arg[|a|] == '-';
  }

  lemma LowerDashed(a: string, b: string)
    requires AllDigits(a) && AllDigits(b)
    ensures Lower(a + "-" + b) == a + "-" + b
  {
    LowerDigits(a);
    LowerDigits(b);
    LowerAppend(a, "-");
    LowerAppend(a + "-", b);
  }

  lemma DigitNotSpace(c: char)
    requires IsDigit(c)
    ensures !IsSpace(c)
  {
  }

  /** Splitting two dash-free strings joined by a dash gives the two strings. */
  lemma DashedSplit(a: string, b: string)
    requires '-' !in a && '-' !in b
    ensures Split(a + "-" + b, '-') == [a, b]
  {
    assert a + "-" + b == a + ['-'] + b;
    SplitCons(a, '-', b);
  }

  /** A string starting with a digit is neither `on` nor `off`. */
  lemma NotOnOff(arg: string)
    requires arg != [] && IsDigit(arg[0])
    ensures arg != "on" && arg != "off"
  {
    assert "on"[0] == 'o' && "off"[0] == 'o';
  }

  /** A non-negative `str(n)` is a non-empty digit string without `-`. */
  lemma NatDigitsShape(n: int)
    requires n >= 0
    ensures IntToString(n) != [] && IsDigit(IntToString(n)[0]) && IsDigit(IntToString(n)[|IntToString(n)| - 1])
    ensures AllDigits(IntToString(n)) && '-' !in IntToString(n)
  {
    NatToStringRoundTrip(n);
    DigitsNoChar(IntToString(n), '-');
  }

  lemma {:induction false} DigitsNoChar(ds: string, c: char)
    requires AllDigits(ds) && !IsDigit(c)
    ensures c !in ds
    decreases |ds|
  {
    if ds != [] {
      DigitsNoChar(ds[1..], c);
      assert ds == [ds[0]] + ds[1..];
    }
  }

  lemma {:induction false} LowerDigits(ds: string)
    requires AllDigits(ds)
    ensures Lower(ds) == ds
    decreases |ds|
  {
    if ds != [] {
      LowerDigits(ds[1..]);
      assert Lower(ds) == [LowerChar(ds[0])] + Lower(ds[1..]);
    }
  }

  lemma LowerAppend(x: string, y: string)
    ensures Lower(x + y) == Lower(x) + Lower(y)
  {
  }

  // ---------------------------------------------------------------------------
  // /settiming

  /** `_handle_settiming`: three presets, or a group delay of 5 to 300 seconds. */
  function SetTiming(arg: string): (w: seq<Write>)
    ensures arg == [] ==> w == []
    ensures arg != [] && Normalized(arg) == "conservative" ==> w == [Write(GroupDelayKey, "60"), Write(PostDelayKey, "2.0")]
    ensures arg != [] && Normalized(arg) == "normal" ==> w == [Write(GroupDelayKey, "30"), Write(PostDelayKey, "1.0")]
    ensures arg != [] && Normalized(arg) == "aggressive" ==> w == [Write(GroupDelayKey, "15"), Write(PostDelayKey, "0.5")]
    ensures |w| == 1 ==>
              w[0].key == GroupDelayKey && ParseInt(w[0].value).Some? && 5 <= ParseInt(w[0].value).value <= 300
    ensures |w| <= 2
  {
    if arg == [] then []
    else
      var a := Normalized(arg);
      if a == "conservative" then [Write(GroupDelayKey, "60"), Write(PostDelayKey, "2.0")]
      else if a == "normal" then [Write(GroupDelayKey, "30"), Write(PostDelayKey, "1.0")]
      else if a == "aggressive" then [Write(GroupDelayKey, "15"), Write(PostDelayKey, "0.5")]
      else
        match ParseInt(a)
        case Some(d) =>
          if d < 5 || d > 300 then []
          else
            IntToStringRoundTrip(d);
            [Write(GroupDelayKey, IntToString(d))]
        case None => []
  }

  // ---------------------------------------------------------------------------
  // /setlimit and /setposts

  /** `_handle_setlimit`: a positive number of runs per hour. */
  function SetLimit(arg: string): (w: seq<Write>)
    ensures |w| <= 1
    ensures w != [] <==> arg != [] && ParseInt(arg).Some? && ParseInt(arg).value >= 1
    ensures w != [] ==> w[0] == Write(HourlyLimitKey, IntToString(ParseInt(arg).value))
  {
    if arg == [] then []
    else
      match ParseInt(arg)
      case Some(n) => if n < 1 then [] else [Write(HourlyLimitKey, IntToString(n))]
      case None => []
  }

  /** `_handle_setposts`: 1 to 50 posts per group. */
  function SetPosts(arg: string): (w: seq<Write>)
    ensures |w| <= 1
    ensures w != [] <==> arg != [] && ParseInt(arg).Some? && 1 <= ParseInt(arg).value <= 50
    ensures w != [] ==> w[0] == Write(MaxPostsKey, IntToString(ParseInt(arg).value))
  {
    if arg == [] then []
    else
      match ParseInt(arg)
      case Some(n) => if n < 1 || n > 50 then [] else [Write(MaxPostsKey, IntToString(n))]
      case None => []
  }

  /** What `/setlimit` and `/setposts` write reads back as the number given. */
  lemma LimitReadsBack(n: int)
    requires n >= 1
    ensures SetLimit(IntToString(n)) == [Write(HourlyLimitKey, IntToString(n))]
    ensures n <= 50 ==> SetPosts(IntToString(n)) == [Write(MaxPostsKey, IntToString(n))]
    ensures n > 50 ==> SetPosts(IntToString(n)) == []
  {
    IntToStringRoundTrip(n);
    NatDigitsShape(n);
  }

  // ---------------------------------------------------------------------------
  // /addgroup

  const GroupsUrlPrefix := "https://www.facebook.com/groups/"

  /** The most groups `/addgroup` lets exist. */
  const MaxGroups := 5

  /** The URL normalisation of `_handle_addgroup`: strip, require the groups
      prefix, cut at the first `?` and drop trailing slashes. None when the
      prefix check raises. */
  function NormalizeGroupUrl(arg: string): (r: Option<string>)
    ensures r.Some? <==> StartsWith(Strip(arg), GroupsUrlPrefix)
    ensures r.Some? ==> '?' !in r.value && (r.value == [] || r.value[|r.value| - 1] != '/')
    ensures r.Some? ==> StartsWith(Strip(arg), r.value)
    ensures r.Some? ==> r.value == RStripChar(BeforeQuery(Strip(arg)), '/')
    ensures r.Some? ==> var c := BeforeQuery(Strip(arg));
                        (c == Strip(arg) || Strip(arg)[|c|] == '?') &&
                        forall i :: |r.value| <= i < |c| ==> c[i] == '/'
  {
    var u := Strip(arg);
    if !StartsWith(u, GroupsUrlPrefix) then None
    else
      var cut := BeforeQuery(u);
      var r := RStripChar(cut, '/');
      PrefixNoQuery(cut, r);
      PrefixTrans(u, cut, r);
      Some(r)
  }

  /** `u.split('?')[0]` when `u` holds a `?`, otherwise `u`. */
  function BeforeQuery(u: string): (c: string)
    ensures StartsWith(u, c) && '?' !in c
    ensures c == u || u[|c|] == '?'
  {
    if '?' in u then
      var i := IndexOf(u, '?');
      assert Split(u, '?')[0] == u[..i];
      Split(u, '?')[0]
    else u
  }

  lemma PrefixNoQuery(s: string, p: string)
    requires StartsWith(s, p) && '?' !in s
    ensures '?' !in p
  {
    assert forall k :: 0 <= k < |p| ==> p[k] == s[k];
  }

  lemma PrefixTrans(a: string, b: string, c: string)
    requires StartsWith(a, b) && StartsWith(b, c)
    ensures StartsWith(a, c)
  {
    assert a[..|c|] == a[..|b|][..|c|];
  }

  /** An accepted URL that keeps the prefix (and does not end in whitespace
      left behind by a dropped slash) is normalised to itself. */
  lemma NormalizeGroupUrlIdempotent(arg: string)
    requires NormalizeGroupUrl(arg).Some?
    requires StartsWith(NormalizeGroupUrl(arg).value, GroupsUrlPrefix)
    requires !IsSpace(NormalizeGroupUrl(arg).value[|NormalizeGroupUrl(arg).value| - 1])
    ensures NormalizeGroupUrl(NormalizeGroupUrl(arg).value) == NormalizeGroupUrl(arg)
  {
    var u := NormalizeGroupUrl(arg).value;
    assert u[0] == 'h';
    assert Strip(u) == u;
    RStripSelf(u, '/');
  }

  lemma RStripSelf(s: string, c: char)
    requires s == [] || s[|s| - 1] != c
    ensures RStripChar(s, c) == s
  {
  }

  /** Why `/addgroup` answered as it did. */
  datatype AddGroupResult =
    | Usage
    | InvalidUrl
    | LimitReached
    | Added(id: int, table: string)
    | AddFailed

  /** `_handle_addgroup` on the group store: a normalised groups URL is
      registered as `Group from <url>` unless five groups already exist. */
  method AddGroup(store: Storage.Store, arg: string, md5: string -> string) returns (r: AddGroupResult)
    requires store.Valid()
    modifies store
    ensures store.Valid()
    ensures arg == [] ==> r == Usage && store.groups == old(store.groups) && store.tables == old(store.tables)
    ensures arg != [] && NormalizeGroupUrl(arg).None? ==>
              r == InvalidUrl && store.groups == old(store.groups) && store.tables == old(store.tables)
    ensures arg != [] && NormalizeGroupUrl(arg).Some? && |old(store.groups)| >= MaxGroups ==>
              r == LimitReached && store.groups == old(store.groups) && store.tables == old(store.tables)
    ensures r.Added? ==>
              arg != [] && NormalizeGroupUrl(arg).Some? && |old(store.groups)| < MaxGroups &&
              Storage.FindId(store.groups, r.id).Some?
    ensures |store.groups| <= |old(store.groups)| + 1
    ensures arg != [] && NormalizeGroupUrl(arg).Some? && |old(store.groups)| < MaxGroups ==>
              var u := NormalizeGroupUrl(arg).value;
              var found := old(Storage.FindUrl(store.groups, u));
              (found.Some? ==> r == Added(found.value.id, found.value.table) && store.groups == old(store.groups)) &&
              (found.None? && !old(Storage.Clashes(store.groups, "Group from " + u, Storage.SanitizeTableName(u, md5))) ==>
                 r == Added(old(store.nextGroupId), Storage.SanitizeTableName(u, md5)) &&
                 store.groups == old(store.groups) +
                                 [Storage.GroupRow(old(store.nextGroupId), "Group from " + u, u, Storage.SanitizeTableName(u, md5))])
    ensures r.Added? && arg != [] && NormalizeGroupUrl(arg).Some? &&
            Storage.FindUrl(store.groups, NormalizeGroupUrl(arg).value).Some? ==>
              r.id == Storage.FindUrl(store.groups, NormalizeGroupUrl(arg).value).value.id
  {
    if arg == [] {
      return Usage;
    }
    var url := NormalizeGroupUrl(arg);
    if url.None? {
      return InvalidUrl;
    }
    var existing := store.ListAllGroups();
    if |existing| >= MaxGroups {
      return LimitReached;
    }
    var u := url.value;
    var g := store.GetOrCreateGroup(u, Some("Group from " + u), None, md5);
    match g
    case Some((id, table)) =>
      r := Added(id, table);
    case None =>
      r := AddFailed;
  }
}

=== FILE: wrappers.dfy ===
/** Failure-compatible wrappers shared by every module of the model. */
module Wrappers {

  /** A value that may be absent: Python's `None` versus a present value. */
  datatype Option<+T> = None | Some(value: T) {
    function GetOr(default: T): T {
      match this
      case Some(v) => v
      case None => default
    }
  }
}
